=== FILE: README.md ===
# BankingSystem core, modelled in Dafny

This project models the business core of the BankingSystem repository and
proves properties about it. That repository has a Spring Boot core bank, a
Python ML service for KYC, an Android app and a React web client. The parts
modelled here are:

- **KYC case pipeline** (`kyc_status`, `kyc_domain`, `kyc_store`,
  `kyc_case_service`, `kyc_auto_review`, `kyc_retention`, `kyc_service`,
  `kyc_upload`, `kyc_case_controller`, `ml_kyc_client`). A customer submits
  uploaded documents as a case. The auto-review worker claims a `PENDING`
  case, moves it to `AUTO_REVIEW`, asks the ML service, stores one check row
  per returned check and settles the case as `APPROVED`, `REJECTED` or
  `UNDER_REVIEW`. It then releases the claim. A staff member can decide the case
  too. The retention job purges the files of old closed cases. The store is
  a `KycStore` class holding maps (case id to case, upload id to upload,
  user and idempotency key to case id) and an append-only sequence of check
  rows. The file store is a `BlobStore` class.
- **ML helpers of the Python service** (`kyc_policy`, `ml_thresholds`,
  `ml_nic`, `ml_address`). These are the approve/reject/review rule with its
  reason list, the environment lookup of segmented thresholds, the Sri
  Lankan NIC text parser, and the address similarity score (token-set
  Jaccard index plus a house-number bonus, over `real`).
- **Credential rules** (`credentials`). The password-strength checks of the
  Android app, the web client and the backend, and the e-mail checks.
  Lemmas relate the three copies to each other.
- **Authentication and users** (`users`, `auth`, `user_profile`,
  `employees`). Registration, e-mail verification, sessions and logout,
  password change, password reset tokens, profile updates with a pending
  e-mail change, and employee resignation and queries. The user table is
  the `Directory` class.
- **Accounts** (`accounts`). Opening an account with per-type minimum
  deposits, the bounded retry for a unique ten-digit account number,
  updating an account and closing it. The tables form the `Bank` class.
- **Wallet** (`wallet`, `idempotency`, `payhere`). Saved cards with at most
  one default card per user, add-card sessions, payment intents, the
  idempotency-key replay cache, and the payment gateway's pre-approval and
  checkout callbacks.
- **Web client error handling** (`api_errors`). The axios request
  interceptor that attaches the login token, and the response interceptor
  that turns every failure into one error shape.

Java `String.length()`, Kotlin and TypeScript lengths count UTF-16 code units.
This is written out where a length limit matters. Dafny's unbounded `int`
stands for Java `int` and `long`. No modelled computation comes near their
limits.

Clocks, random ids and random account-number candidates are parameters.
Password hashing, MD5 and SHA-256 digests, the URL encoder, OCR, address
extraction and the ML service are parameters as well. Either a function is
passed in or the outcome is supplied. Each class method states its whole
new state as a function of the old one. Where the source runs in one
transaction, an error changes nothing. The specification functions carry
the lemmas.

The KYC status transition table lives in `KycStatus.java`, and
`KycStatus.java` is not part of this model. The table in `kyc_status.dfy`
is the documented lifecycle:

- PENDING may go to AUTO_REVIEW, UNDER_REVIEW or NEEDS_MORE_INFO.
- AUTO_REVIEW may go to UNDER_REVIEW, NEEDS_MORE_INFO, APPROVED or REJECTED.
- UNDER_REVIEW may go to APPROVED, REJECTED or NEEDS_MORE_INFO.
- NEEDS_MORE_INFO may go to UNDER_REVIEW or REJECTED.
- APPROVED, REJECTED and SUPERSEDED are terminal.

The retention purge deletes the files a closed old case names, even when a
newer open case of the same user reuses the same upload.
`KycRetention.SharedFileLost` exhibits this. `KycRetention.SafePurgeKeepsLiveFiles`
proves that a purge skipping files still referenced by an open case keeps
them. `KycRetention.Purge` models the code as written.

## Model

| member | source | states |
|---|---|---|
| Text.ParseUuid | backend/corebank/src/main/java/com/bankingsystem/core/features/kyc/application/impl/KycCaseServiceImpl.java:33-38 | The JDK's `UUID.fromString` as the references are parsed: text longer than 36 characters is refused, and every UUID it gives is in canonical form (lower-case hex digits in 8-4-4-4-12 groups) |
| Text.HyphenGroupsJoin | backend/corebank/src/main/java/com/bankingsystem/core/features/kyc/application/impl/KycCaseServiceImpl.java:33-38 | A text that splits gives five groups without hyphens that join back, with hyphens, into the text |
| Text.FourHyphens | backend/corebank/src/main/java/com/bankingsystem/core/features/kyc/application/impl/KycCaseServiceImpl.java:33-38 | A text with exactly four hyphens splits into the five pieces between them |
| Text.GroupsFromJoined | backend/corebank/src/main/java/com/bankingsystem/core/features/kyc/application/impl/KycCaseServiceImpl.java:33-38 | The converse of the split: hyphen-free groups that join with hyphens into the rest of the text are exactly the groups the successive hyphen searches find |
| Text.ParseGroups | backend/corebank/src/main/java/com/bankingsystem/core/features/kyc/application/impl/KycCaseServiceImpl.java:33-38 | The five groups are accepted exactly when each one passes `Long.parseLong` in radix 16, and the UUID they give is in canonical form |
| Text.ParseHexLong | backend/corebank/src/main/java/com/bankingsystem/core/features/kyc/application/impl/KycCaseServiceImpl.java:33-38 | A group parses as `Long.parseLong(g, 16)` does: exactly when, after an optional '+', it is a non-empty run of hex digits whose value fits a signed 64-bit long |
| Text.UuidText | backend/corebank/src/main/java/com/bankingsystem/core/features/kyc/application/impl/KycCaseServiceImpl.java:33-38 | Field values that fit 32, 16, 16, 16 and 48 bits print as a canonical UUID text |
| Text.HexTextOfValue | backend/corebank/src/main/java/com/bankingsystem/core/features/kyc/application/impl/KycCaseServiceImpl.java:33-38 | Hex digits printed back at their own width give their lower-case form |
| Text.ParseUuidValues | backend/corebank/src/main/java/com/bankingsystem/core/features/kyc/application/impl/KycCaseServiceImpl.java:33-38 | Five groups that each parse give the UUID whose fields are their values masked to 32, 16, 16, 16 and 48 bits |
| Text.StrictTextParses | backend/corebank/src/main/java/com/bankingsystem/core/features/kyc/application/impl/KycCaseServiceImpl.java:33-38 | Every 8-4-4-4-12 hex text is accepted, giving its lower-case form, which equals it ignoring case |
| Text.ParseUuidCanonical | backend/corebank/src/main/java/com/bankingsystem/core/features/kyc/application/impl/KycCaseServiceImpl.java:33-38 | Round trip: a canonical UUID text parses to itself |
| Text.ParseUuidIdempotent | backend/corebank/src/main/java/com/bankingsystem/core/features/kyc/application/impl/KycCaseServiceImpl.java:33-38 | Parsing an accepted UUID's canonical text again gives the same UUID |
| Text.LenientSpellings | backend/corebank/src/main/java/com/bankingsystem/core/features/kyc/application/impl/KycCaseServiceImpl.java:33-38 | The lenient spellings the JDK accepts: short groups are zero-padded (1-2-3-4-5), a leading '+' and a group wider than its field (masked) give the same UUID; four groups, an empty group and 37 characters are refused |
| KycStatuses.TerminalIffNoExit | backend/corebank/src/main/java/com/bankingsystem/core/features/kyc/application/impl/KycCaseServiceImpl.java:114 | A status has no legal successor exactly when it is terminal (APPROVED, REJECTED, SUPERSEDED), and every status is either active or terminal |
| KycStatuses.TransitionShape | backend/corebank/src/main/java/com/bankingsystem/core/features/kyc/application/impl/KycCaseServiceImpl.java:137-139 | Every legal move starts from an active status, never re-enters PENDING, never enters SUPERSEDED and never stays put |
| KycStatuses.AutomationMovesAreLegal | backend/corebank/src/main/java/com/bankingsystem/core/features/kyc/application/impl/KycAutoReviewOrchestratorImpl.java:96-146 | The moves the automated review makes (PENDING to AUTO_REVIEW, AUTO_REVIEW to APPROVED, REJECTED or UNDER_REVIEW) are all in the transition table |
| KycStatuses.DecisionReachable | backend/corebank/src/main/java/com/bankingsystem/core/features/kyc/application/impl/KycCaseServiceImpl.java:113-116 | From every active status a rejection is reachable in at most two legal moves, so no active case is stuck |
| KycDomain.NewCase | backend/corebank/src/main/java/com/bankingsystem/core/features/kyc/application/impl/KycCaseServiceImpl.java:63-68 | A new case has no id, is PENDING, not claimed, has createdAt = updatedAt = now and no decision, notes or reviewer |
| KycDomain.PrePersist | backend/corebank/src/main/java/com/bankingsystem/core/features/kyc/domain/KycCase.java:68-74 | On insert: an id and createdAt are filled only when missing, a missing status becomes PENDING, updatedAt is set to createdAt, and nothing else changes |
| KycDomain.PrePersistIdempotent | backend/corebank/src/main/java/com/bankingsystem/core/features/kyc/domain/KycCase.java:68-74 | Running the insert hook twice gives the same row as running it once |
| KycDomain.PreUpdate | backend/corebank/src/main/java/com/bankingsystem/core/features/kyc/domain/KycCase.java:76-79 | On update only updatedAt changes, to now; a well-formed row stays well-formed |
| KycRepository.ReplaceKeepsValid | backend/corebank/src/main/java/com/bankingsystem/core/features/kyc/application/impl/KycCaseServiceImpl.java:57-60 | Replacing a case by one of the same user that is active only if the old one was keeps at most one active case per user |
| KycRepository.Persisted | backend/corebank/src/main/java/com/bankingsystem/core/features/kyc/domain/KycCase.java:68-79 | The row save writes: a new entity gets the generated id and PENDING if it had no status; owner and claim flag are kept |
| KycRepository.PersistedUpdateAtNow | backend/corebank/src/main/java/com/bankingsystem/core/features/kyc/domain/KycCase.java:76-79 | Saving a stored entity whose updatedAt is already now writes it unchanged |
| KycRepository.Claim | backend/corebank/src/main/java/com/bankingsystem/core/features/kyc/application/impl/KycAutoReviewOrchestratorImpl.java:89-94 | tryMarkProcessing as compare-and-set: it answers 1 exactly when the case exists and is not claimed, and then the case is claimed |
| KycRepository.ClaimExclusive | backend/corebank/src/main/java/com/bankingsystem/core/features/kyc/application/impl/KycAutoReviewOrchestratorImpl.java:89-94 | After a successful claim, a second claim of the same case answers 0: at most one worker holds a case |
| KycRepository.ClaimFrame | backend/corebank/src/main/java/com/bankingsystem/core/features/kyc/application/impl/KycAutoReviewOrchestratorImpl.java:89-94 | A claim changes only the processing flag of the claimed case |
| KycRepository.ClaimKeepsValid | backend/corebank/src/main/java/com/bankingsystem/core/features/kyc/application/impl/KycAutoReviewOrchestratorImpl.java:89-94 | A claim keeps the one-active-case-per-user invariant |
| KycRepository.ChecksOf | backend/corebank/src/main/java/com/bankingsystem/core/features/kyc/interfaces/KycCaseController.java:110 | The rows of one case: only rows of that case, taken from the table, and all of them |
| KycRepository.ChecksOfAppend | backend/corebank/src/main/java/com/bankingsystem/core/features/kyc/application/impl/KycAutoReviewOrchestratorImpl.java:119-134 | Listing the rows of a case distributes over appending rows to the table |
| KycRepository.ChecksOfAbsent | backend/corebank/src/main/java/com/bankingsystem/core/features/kyc/application/impl/KycAutoReviewOrchestratorImpl.java:119-134 | A case with no stored rows lists none |
| KycRepository.KycStore.constructor | backend/corebank/src/main/java/com/bankingsystem/core/features/kyc/application/impl/KycCaseServiceImpl.java:31-85 | An empty store satisfies the table invariants |
| KycRepository.KycStore.TryMarkProcessing | backend/corebank/src/main/java/com/bankingsystem/core/features/kyc/application/impl/KycAutoReviewOrchestratorImpl.java:89-94 | The stored cases become Claim of the old ones and the answer is Claim's; other tables are unchanged |
| KycRepository.KycStore.Save | backend/corebank/src/main/java/com/bankingsystem/core/features/kyc/application/impl/KycCaseServiceImpl.java:84 | The cases table gains or replaces exactly the Persisted row, the invariants are kept, other tables unchanged |
| KycRepository.KycStore.RecordIdemKey | backend/corebank/src/main/java/com/bankingsystem/core/features/kyc/interfaces/KycCaseController.java:85-87 | The (user, key) entry is set to the case id and nothing else changes |
| KycRepository.KycStore.AddUpload | backend/corebank/src/main/java/com/bankingsystem/core/features/kyc/interfaces/KycUploadController.java:67-68 | The upload table gains exactly this upload and nothing else changes |
| KycRepository.KycStore.AppendCheck | backend/corebank/src/main/java/com/bankingsystem/core/features/kyc/application/impl/KycAutoReviewOrchestratorImpl.java:119-134 | The check table gains exactly this row at the end and nothing else changes |
| KycRepository.BlobStore.constructor | backend/corebank/src/main/java/com/bankingsystem/core/features/kyc/interfaces/KycUploadController.java:67-68 | The file store starts with the given files |
| KycRepository.BlobStore.Put | backend/corebank/src/main/java/com/bankingsystem/core/features/kyc/interfaces/KycUploadController.java:67-68 | The file is stored under its id and nothing else changes |
| KycRepository.BlobStore.Delete | backend/corebank/src/main/java/com/bankingsystem/core/features/kyc/application/impl/KycRetentionService.java:30-35 | The file is removed and nothing else changes |
| KycCaseService.ParseSubmission | backend/corebank/src/main/java/com/bankingsystem/core/features/kyc/application/impl/KycCaseServiceImpl.java:33-38 | The four references parse exactly when ParseUuid accepts each, giving their canonical UUIDs in order; otherwise InvalidUuid |
| KycCaseService.ShortSpellingIsSameId | backend/corebank/src/main/java/com/bankingsystem/core/features/kyc/application/impl/KycCaseServiceImpl.java:33-39 | A short spelling (1-2-3-4-5) passes the parse and names the same UUID as its canonical text, so the four-distinct check that follows sees the two as one file |
| KycCaseService.OwnedCount | backend/corebank/src/main/java/com/bankingsystem/core/features/kyc/application/impl/KycCaseServiceImpl.java:44-47 | The count of the user's uploads among the ids is at most the number of ids |
| KycCaseService.OwnedCountFull | backend/corebank/src/main/java/com/bankingsystem/core/features/kyc/application/impl/KycCaseServiceImpl.java:44-47 | The count equals the number of ids exactly when every id names an upload of the user |
| KycCaseService.RequireType | backend/corebank/src/main/java/com/bankingsystem/core/features/kyc/application/impl/KycCaseServiceImpl.java:87-93 | Passes exactly when the upload exists and its type equals the expected one ignoring case; otherwise MissingUpload or TypeMismatch for that field |
| KycCaseService.CheckSubmissionCorrect | backend/corebank/src/main/java/com/bankingsystem/core/features/kyc/application/impl/KycCaseServiceImpl.java:33-55 | The submission checks (parse, distinct, owned, types) pass exactly when the submission is acceptable; NotDistinct and NotOwned are only reported for parsed ids |
| KycCaseService.WithDocuments | backend/corebank/src/main/java/com/bankingsystem/core/features/kyc/application/impl/KycCaseServiceImpl.java:75-82 | The reused case holds the new documents with decision, notes, reviewer and decision time cleared; id, owner, status and times are kept |
| KycCaseService.IdenticalResubmissionKeepsRow | backend/corebank/src/main/java/com/bankingsystem/core/features/kyc/application/impl/KycCaseServiceImpl.java:62-85 | Resubmitting the documents an undecided PENDING case already holds leaves the stored row, updatedAt included, exactly as it was |
| KycCaseService.Submit | backend/corebank/src/main/java/com/bankingsystem/core/features/kyc/application/impl/KycCaseServiceImpl.java:31-85 | Succeeds exactly when the submission is acceptable and the user's active case, if any, is reusable; then the case is reused or a new PENDING case is created, otherwise the error and no change; a reused case keeps its updatedAt when it already held these documents and no decision (no column changes, so nothing is written), and is stamped now otherwise |
| KycCaseService.LatestIn | backend/corebank/src/main/java/com/bankingsystem/core/features/kyc/application/impl/KycCaseServiceImpl.java:97-99 | Among a user's cases there is one created no earlier than all the others |
| KycCaseService.GetMyLatest | backend/corebank/src/main/java/com/bankingsystem/core/features/kyc/application/impl/KycCaseServiceImpl.java:97-99 | Nothing exactly when the user has no case; otherwise one of the user's latest-created cases |
| KycCaseService.DecideError | backend/corebank/src/main/java/com/bankingsystem/core/features/kyc/application/impl/KycCaseServiceImpl.java:109-116 | A decision is allowed exactly when the target is APPROVED, REJECTED or NEEDS_MORE_INFO, the case exists and the table allows the move; otherwise InvalidDecision or CaseNotFound first |
| KycCaseService.Decided | backend/corebank/src/main/java/com/bankingsystem/core/features/kyc/application/impl/KycCaseServiceImpl.java:118-124 | The decided case has the target status, the reason as decision and notes, the reviewer and decision time, updatedAt now, and nothing else changed |
| KycCaseService.Decide | backend/corebank/src/main/java/com/bankingsystem/core/features/kyc/application/impl/KycCaseServiceImpl.java:109-125 | On an error nothing changes; otherwise exactly the case is replaced by Decided and the invariants hold |
| KycCaseService.MarkError | backend/corebank/src/main/java/com/bankingsystem/core/features/kyc/application/impl/KycCaseServiceImpl.java:129-139 | Marking is allowed exactly when the case exists and the status is the current one or a legal move from it |
| KycCaseService.Marked | backend/corebank/src/main/java/com/bankingsystem/core/features/kyc/application/impl/KycCaseServiceImpl.java:140-145 | The status and updatedAt are set, the note replaces the reviewer notes only when it has text, nothing else changes |
| KycCaseService.MarkStatus | backend/corebank/src/main/java/com/bankingsystem/core/features/kyc/application/impl/KycCaseServiceImpl.java:129-146 | On an error nothing changes; otherwise exactly the case is replaced by Marked and the invariants hold |
| KycCaseService.DecisionIsFinal | backend/corebank/src/main/java/com/bankingsystem/core/features/kyc/application/impl/KycCaseServiceImpl.java:109-146 | After APPROVED or REJECTED no later decision and no change to another status is allowed |
| KycCaseService.MarkReentry | backend/corebank/src/main/java/com/bankingsystem/core/features/kyc/application/impl/KycCaseServiceImpl.java:132-136 | Marking a case with the status it already has is allowed again and changes nothing more |
| KycCaseService.MarkKeepsDecision | backend/corebank/src/main/java/com/bankingsystem/core/features/kyc/application/impl/KycCaseServiceImpl.java:140-145 | A status mark never touches the decision, the reviewer or the decision time |
| KycAutoReview.ReadPayload | backend/corebank/src/main/java/com/bankingsystem/core/features/kyc/application/impl/KycAutoReviewOrchestratorImpl.java:169-179 | A document is sent exactly when its reference has text, is accepted by ParseUuid, names a stored file and the file is non-empty and at most 6 MiB |
| KycAutoReview.Request | backend/corebank/src/main/java/com/bankingsystem/core/features/kyc/application/impl/KycAutoReviewOrchestratorImpl.java:106-114 | The request carries the selfie, both sides of the document and the proof of address as read, no portrait, and the case id as metadata |
| KycAutoReview.Safe | backend/corebank/src/main/java/com/bankingsystem/core/features/kyc/application/impl/KycAutoReviewOrchestratorImpl.java:181 | The sanitised message contains no double quote, and a missing message becomes empty |
| KycAutoReview.CheckRow | backend/corebank/src/main/java/com/bankingsystem/core/features/kyc/application/impl/KycAutoReviewOrchestratorImpl.java:119-134 | Each returned check becomes a row of the case with its kind, score and passed flag, and "{}" when it has no details |
| KycAutoReview.CheckRows | backend/corebank/src/main/java/com/bankingsystem/core/features/kyc/application/impl/KycAutoReviewOrchestratorImpl.java:119-134 | One row per returned check, in order |
| KycAutoReview.ErrorRow | backend/corebank/src/main/java/com/bankingsystem/core/features/kyc/application/impl/KycAutoReviewOrchestratorImpl.java:148-158 | A failed ML call is recorded as an ERROR row with score 0 and passed false |
| KycAutoReview.ErrorRowMatchesFailedResult | backend/corebank/src/main/java/com/bankingsystem/core/features/kyc/integration/MlKycClient.java:157-164 | The orchestrator's error row carries the same details text as the client's corrected failure result |
| KycAutoReview.Staged | backend/corebank/src/main/java/com/bankingsystem/core/features/kyc/application/impl/KycAutoReviewOrchestratorImpl.java:96-104 | A PENDING case is moved to AUTO_REVIEW before scoring; any other status is kept |
| KycAutoReview.RunSpec | backend/corebank/src/main/java/com/bankingsystem/core/features/kyc/application/impl/KycAutoReviewOrchestratorImpl.java:85-167 | The specification of run: unknown id is CaseNotFound; a lost claim returns the case untouched; an ineligible case is released; otherwise it is staged, scored and released; the one-active-case invariant holds afterwards |
| KycAutoReview.AppendRows | backend/corebank/src/main/java/com/bankingsystem/core/features/kyc/application/impl/KycAutoReviewOrchestratorImpl.java:119-134 | The check table gains exactly the rows of the ML answer, in order, and nothing else changes |
| KycAutoReview.WriteVerdict | backend/corebank/src/main/java/com/bankingsystem/core/features/kyc/application/impl/KycAutoReviewOrchestratorImpl.java:136-158 | Exactly the case is replaced by its written verdict; the invariants hold |
| KycAutoReview.Stage | backend/corebank/src/main/java/com/bankingsystem/core/features/kyc/application/impl/KycAutoReviewOrchestratorImpl.java:96-98 | A PENDING case is moved to AUTO_REVIEW with the note 'Automation started', an AUTO_REVIEW case is left as it is, and no other table changes |
| KycAutoReview.Release | backend/corebank/src/main/java/com/bankingsystem/core/features/kyc/application/impl/KycAutoReviewOrchestratorImpl.java:159-164 | The reloaded case is saved with only its claim released, because the verdict already stamped it with the current time |
| KycAutoReview.Score | backend/corebank/src/main/java/com/bankingsystem/core/features/kyc/application/impl/KycAutoReviewOrchestratorImpl.java:106-164 | A claimed eligible case is staged, sent to the ML service once, its rows appended and the verdict written with the claim released |
| KycAutoReview.Run | backend/corebank/src/main/java/com/bankingsystem/core/features/kyc/application/impl/KycAutoReviewOrchestratorImpl.java:85-167 | The new cases, rows and result are exactly those RunSpec gives for the old state |
| KycAutoReview.BatchOf | backend/corebank/src/main/java/com/bankingsystem/core/features/kyc/application/impl/KycAutoReviewOrchestratorImpl.java:62-65 | A batch is a prefix of the cases found, at most 50 long, and the whole list when it is short enough |
| KycAutoReview.StepSpec | backend/corebank/src/main/java/com/bankingsystem/core/features/kyc/application/impl/KycAutoReviewOrchestratorImpl.java:68-77 | One batch step (claim, then run) keeps the one-active-case invariant |
| KycAutoReview.BatchSpec | backend/corebank/src/main/java/com/bankingsystem/core/features/kyc/application/impl/KycAutoReviewOrchestratorImpl.java:61-81 | A whole batch keeps the one-active-case invariant |
| KycAutoReview.RunBatch | backend/corebank/src/main/java/com/bankingsystem/core/features/kyc/application/impl/KycAutoReviewOrchestratorImpl.java:61-81 | The new cases and rows are exactly BatchSpec applied to the first batch of the found cases |
| KycAutoReview.Step | backend/corebank/src/main/java/com/bankingsystem/core/features/kyc/application/impl/KycAutoReviewOrchestratorImpl.java:67-79 | One candidate of the batch: the new cases and rows are StepSpec, the batch's own claim followed by run when the claim succeeds |
| KycAutoReview.ReviewSettles | backend/corebank/src/main/java/com/bankingsystem/core/features/kyc/application/impl/KycAutoReviewOrchestratorImpl.java:136-164 | A review ends in APPROVED, REJECTED or UNDER_REVIEW, a legal move from AUTO_REVIEW, with the claim released and updatedAt now |
| KycAutoReview.ApprovedIffApprove | backend/corebank/src/main/java/com/bankingsystem/core/features/kyc/application/impl/KycAutoReviewOrchestratorImpl.java:136-146 | The case is approved exactly when the ML decision is APPROVE, and then carries the reason auto_approved, the system reviewer and the decision time |
| KycAutoReview.RejectedIffReject | backend/corebank/src/main/java/com/bankingsystem/core/features/kyc/application/impl/KycAutoReviewOrchestratorImpl.java:136-146 | The case is rejected exactly when the ML decision is REJECT, and then carries the joined reasons and the system reviewer |
| KycAutoReview.MlFailureDegrades | backend/corebank/src/main/java/com/bankingsystem/core/features/kyc/application/impl/KycAutoReviewOrchestratorImpl.java:148-158 | When the ML call throws, the case goes to UNDER_REVIEW noted ml_unavailable with no decision recorded |
| KycAutoReview.UndecidedGoesToManualReview | backend/corebank/src/main/java/com/bankingsystem/core/features/kyc/application/impl/KycAutoReviewOrchestratorImpl.java:136-146 | Any other answer sends the case to UNDER_REVIEW, noted ml_response_empty when there is no decision, with no decision recorded |
| KycAutoReview.RowsAreTheReturnedChecks | backend/corebank/src/main/java/com/bankingsystem/core/features/kyc/application/impl/KycAutoReviewOrchestratorImpl.java:119-134 | The appended rows are the returned checks, one each, in order, with kind, score and passed flag |
| KycAutoReview.NewRowsOfCase | backend/corebank/src/main/java/com/bankingsystem/core/features/kyc/application/impl/KycAutoReviewOrchestratorImpl.java:119-158 | Every appended row belongs to the case being reviewed |
| KycAutoReview.RunFrame | backend/corebank/src/main/java/com/bankingsystem/core/features/kyc/application/impl/KycAutoReviewOrchestratorImpl.java:85-167 | A run succeeds exactly when the case exists, changes no other case, and only appends rows of its own case |
| KycAutoReview.RunLosesRace | backend/corebank/src/main/java/com/bankingsystem/core/features/kyc/application/impl/KycAutoReviewOrchestratorImpl.java:89-94 | When another worker claims first, the run returns the case as loaded and writes no rows |
| KycAutoReview.RunOutcome | backend/corebank/src/main/java/com/bankingsystem/core/features/kyc/application/impl/KycAutoReviewOrchestratorImpl.java:159-166 | A run on a stored case it may claim returns the saved case with the claim released and updatedAt now |
| KycAutoReview.StepFrame | backend/corebank/src/main/java/com/bankingsystem/core/features/kyc/application/impl/KycAutoReviewOrchestratorImpl.java:68-77 | A batch step changes only its own case and only appends rows of that case |
| KycAutoReview.StepReleases | backend/corebank/src/main/java/com/bankingsystem/core/features/kyc/application/impl/KycAutoReviewOrchestratorImpl.java:68-77 | A batch step leaves no case claimed that was not claimed before |
| KycAutoReview.StepSettles | backend/corebank/src/main/java/com/bankingsystem/core/features/kyc/application/impl/KycAutoReviewOrchestratorImpl.java:68-77 | A batch step on an unclaimed eligible or settled case leaves it APPROVED, REJECTED or UNDER_REVIEW |
| KycAutoReview.BatchFrame | backend/corebank/src/main/java/com/bankingsystem/core/features/kyc/application/impl/KycAutoReviewOrchestratorImpl.java:61-81 | A batch changes only cases in the batch and only appends rows of those cases |
| KycAutoReview.BatchKeepsOtherChecks | backend/corebank/src/main/java/com/bankingsystem/core/features/kyc/application/impl/KycAutoReviewOrchestratorImpl.java:61-81 | The rows of a case outside the batch are unchanged |
| KycAutoReview.BatchReleases | backend/corebank/src/main/java/com/bankingsystem/core/features/kyc/application/impl/KycAutoReviewOrchestratorImpl.java:61-81 | A batch leaves no case claimed that was not claimed before |
| KycAutoReview.BatchSettles | backend/corebank/src/main/java/com/bankingsystem/core/features/kyc/application/impl/KycAutoReviewOrchestratorImpl.java:61-81 | Every unclaimed eligible case in the batch ends APPROVED, REJECTED or UNDER_REVIEW |
| KycRetention.Named | backend/corebank/src/main/java/com/bankingsystem/core/features/kyc/application/impl/KycRetentionService.java:30-35 | A document reference names at most one file, and none exactly when it is not UUID text |
| KycRetention.DoomedAmongAdd | backend/corebank/src/main/java/com/bankingsystem/core/features/kyc/application/impl/KycRetentionService.java:27-35 | The files selected from a set of cases grow by the files of one more case exactly when that case is purgeable |
| KycRetention.DeleteRef | backend/corebank/src/main/java/com/bankingsystem/core/features/kyc/application/impl/KycRetentionService.java:30-35 | Deleting by reference removes the file ParseUuid names unless its storage delete throws; a reference it refuses, or a delete that throws, removes nothing and is ignored |
| KycRetention.PurgeCase | backend/corebank/src/main/java/com/bankingsystem/core/features/kyc/application/impl/KycRetentionService.java:30-35 | Purging a case removes exactly the files its four references name whose own delete does not throw; a throwing delete does not stop the other three |
| KycRetention.RemoveTwice | backend/corebank/src/main/java/com/bankingsystem/core/features/kyc/application/impl/KycRetentionService.java:30-35 | Removing two sets of files one after the other removes their union |
| KycRetention.Purge | backend/corebank/src/main/java/com/bankingsystem/core/features/kyc/application/impl/KycRetentionService.java:23-36 | The file store loses exactly the files of APPROVED or REJECTED cases last updated more than 30 days ago, except those whose storage delete throws |
| KycRetention.OpenOrRecentNotSelected | backend/corebank/src/main/java/com/bankingsystem/core/features/kyc/application/impl/KycRetentionService.java:25-28 | An active case, or one updated within the last 30 days, is never selected |
| KycRetention.UnselectedFilesSurvive | backend/corebank/src/main/java/com/bankingsystem/core/features/kyc/application/impl/KycRetentionService.java:23-36 | A file that no selected case names survives the purge |
| KycRetention.PurgeIdempotent | backend/corebank/src/main/java/com/bankingsystem/core/features/kyc/application/impl/KycRetentionService.java:23-36 | Purging twice at the same time removes nothing more |
| KycRetention.InUse | backend/corebank/src/main/java/com/bankingsystem/core/features/kyc/application/impl/KycRetentionService.java:27-28 | The files in use are exactly those named by a case that is not selected |
| KycRetention.SharedFileLost | backend/corebank/src/main/java/com/bankingsystem/core/features/kyc/application/impl/KycRetentionService.java:23-36 | A file named both by an old rejected case and by an open case is deleted: the purge does not look at other cases |
| KycRetention.SafePurgeKeepsLiveFiles | backend/corebank/src/main/java/com/bankingsystem/core/features/kyc/application/impl/KycRetentionService.java:23-36 | Sparing the files still in use keeps every file of every unselected case, and agrees with the purge when no file is shared |
| KycDocumentCheck.ValidateRequired | backend/corebank/src/main/java/com/bankingsystem/core/features/kyc/application/impl/KycServiceImpl.java:25-38 | True exactly when the map is present and each of doc_front, doc_back, selfie and address is present, is accepted by ParseUuid and names a stored upload |
| KycDocumentCheck.AcceptedSubmissionIsComplete | backend/corebank/src/main/java/com/bankingsystem/core/features/kyc/application/impl/KycServiceImpl.java:25-38 | Every submission the case service accepts passes the required-documents check |
| KycDocumentCheck.HandleUploadId | backend/corebank/src/main/java/com/bankingsystem/core/features/kyc/application/impl/KycServiceImpl.java:20-22 | The upload id is handed back as given |
| KycUploadValidation.HttpStatusOf | backend/corebank/src/main/java/com/bankingsystem/core/features/kyc/interfaces/KycUploadController.java:44-65 | Every upload rejection maps to a 4xx status |
| KycUploadValidation.StartOfUtcDay | backend/corebank/src/main/java/com/bankingsystem/core/features/kyc/interfaces/KycUploadController.java:60-65 | The quota window starts at the last UTC midnight at or before now |
| KycUploadValidation.CheckUpload | backend/corebank/src/main/java/com/bankingsystem/core/features/kyc/interfaces/KycUploadController.java:44-65 | An upload passes exactly when the caller is signed in, the type is allowed, the size is at most 10 MiB, the content type (ignoring case) is allowed and the caller has fewer than 20 uploads since midnight |
| KycUploadValidation.CheckOrder | backend/corebank/src/main/java/com/bankingsystem/core/features/kyc/interfaces/KycUploadController.java:44-65 | The checks fail in the source's order: authentication, type, size, content type, quota |
| KycUploadValidation.SizeAndCaseBoundaries | backend/corebank/src/main/java/com/bankingsystem/core/features/kyc/interfaces/KycUploadController.java:50-58 | Exactly 10 MiB is accepted and one byte more is refused; the content type ignores case; a missing one is refused |
| KycUploadValidation.UploadCountsTowardQuota | backend/corebank/src/main/java/com/bankingsystem/core/features/kyc/interfaces/KycUploadController.java:60-65 | A new upload counts toward the day's quota, except one made exactly at midnight, which the strict comparison misses |
| KycUploadValidation.Upload | backend/corebank/src/main/java/com/bankingsystem/core/features/kyc/interfaces/KycUploadController.java:42-69 | On a failed check the error and no change; otherwise the file is stored and the upload recorded for the caller with its type, content type and size, and the new id returned; the store invariant is kept |
| KycCaseApi.SubmitAndRun | backend/corebank/src/main/java/com/bankingsystem/core/features/kyc/interfaces/KycCaseController.java:80-83 | Succeeds exactly when the submission does, and then the case is saved with the request's documents, the run over the table submit left gives the new cases, check rows and answer, other cases are unchanged and new rows belong to this case; on failure nothing changes |
| KycCaseApi.SubmittedRun | backend/corebank/src/main/java/com/bankingsystem/core/features/kyc/interfaces/KycCaseController.java:80-83 | Running a just-stored case answers it, keeps every other case and only appends rows of that case |
| KycCaseApi.SubmitCase | backend/corebank/src/main/java/com/bankingsystem/core/features/kyc/interfaces/KycCaseController.java:52-89 | Without consent BadRequest and no change; a replayed key answers the user's latest case; otherwise submit and run: the cases and rows are the run's over the table with the saved case (the request's documents, the caller's), other cases are unchanged, and the key is recorded when it is usable |
| KycCaseApi.Me | backend/corebank/src/main/java/com/bankingsystem/core/features/kyc/interfaces/KycCaseController.java:91-97 | NotFound exactly when the user has no case; otherwise a latest-created case of the user |
| KycCaseApi.Views | backend/corebank/src/main/java/com/bankingsystem/core/features/kyc/interfaces/KycCaseController.java:110-112 | One view per row, in order, with its kind, score and passed flag |
| KycCaseApi.ListChecks | backend/corebank/src/main/java/com/bankingsystem/core/features/kyc/interfaces/KycCaseController.java:99-113 | NotFound exactly when the case is unknown, Forbidden exactly when it belongs to someone else and the caller is not an admin, otherwise the views of the case's rows |
| KycCaseApi.ListingAfterAppend | backend/corebank/src/main/java/com/bankingsystem/core/features/kyc/interfaces/KycCaseController.java:99-113 | Appending rows extends a permitted listing by the views of the new rows of that case |
| KycPolicy.Reasons | ai-service/bank-ai-service/app/core/policy.py:15-27 | At most four reasons |
| KycPolicy.Decide | ai-service/bank-ai-service/app/core/policy.py:6-37 | The reasons returned are the reasons of the checks |
| KycPolicy.ReasonsExact | ai-service/bank-ai-service/app/core/policy.py:15-27 | Each of the four reasons is listed exactly when its check did not pass, and none twice |
| KycPolicy.ApproveIffAllPassed | ai-service/bank-ai-service/app/core/policy.py:29-30 | APPROVE exactly when all four checks passed, which is exactly when there are no reasons |
| KycPolicy.RejectIff | ai-service/bank-ai-service/app/core/policy.py:32-35 | REJECT exactly when some check failed and the face-match or liveness score is present and below 0.40 |
| KycPolicy.NothingCheckedGoesToReview | ai-service/bank-ai-service/app/core/policy.py:6-37 | With no checks at all the decision is UNDER_REVIEW with all four reasons in order |
| KycPolicy.LowerFaceScoreNoBetter | ai-service/bank-ai-service/app/core/policy.py:32-35 | Lowering the face-match score never turns a rejection or a review into a better outcome |
| MlKycClient.ErrorMsg | backend/corebank/src/main/java/com/bankingsystem/core/features/kyc/integration/MlKycClient.java:93-98 | An HTTP error reads "HTTP <status> - <body>"; any other error gives the exception's message, which may be missing |
| MlKycClient.ResultOf | backend/corebank/src/main/java/com/bankingsystem/core/features/kyc/integration/MlKycClient.java:42-47 | The result carries the response body and the request-id header, both missing when there was no response entity |
| MlKycClient.AggregateFrom | backend/corebank/src/main/java/com/bankingsystem/core/features/kyc/integration/MlKycClient.java:31-48 | The call stops at the first attempt that answers or fails without being retryable; every attempt before it failed retryably |
| MlKycClient.Aggregate | backend/corebank/src/main/java/com/bankingsystem/core/features/kyc/integration/MlKycClient.java:31-48 | At most three attempts (one plus two retries), every attempt before the last a retryable failure |
| MlKycClient.AggregateOutcome | backend/corebank/src/main/java/com/bankingsystem/core/features/kyc/integration/MlKycClient.java:31-48 | An answer is returned; a non-retryable error is thrown at once; retryable errors use up the retries and end in retries exhausted |
| MlKycClient.NonRetryableNotRetried | backend/corebank/src/main/java/com/bankingsystem/core/features/kyc/integration/MlKycClient.java:85-91 | A first failure that is not retryable is thrown after one attempt |
| MlKycClient.ErrorDetails | backend/corebank/src/main/java/com/bankingsystem/core/features/kyc/integration/MlKycClient.java:157-164 | The details text is a JSON object {"error":"..."} whose value contains no double quote |
| MlKycClient.FailedResultAsWritten | backend/corebank/src/main/java/com/bankingsystem/core/features/kyc/integration/MlKycClient.java:157-164 | As written, the failure result exists exactly when the message is present; a missing message makes it throw |
| MlKycClient.FailedResult | backend/corebank/src/main/java/com/bankingsystem/core/features/kyc/integration/MlKycClient.java:157-164 | The corrected failure result: kind ERROR, score 0, passed false, details built from the message or the empty text |
| MlKycClient.SimpleFailure | backend/corebank/src/main/java/com/bankingsystem/core/features/kyc/integration/MlKycClient.java:74-83 | The error path of a single check is an ERROR result that did not pass |
| MlKycClient.NullMessageBreaksFailedResult | backend/corebank/src/main/java/com/bankingsystem/core/features/kyc/integration/MlKycClient.java:93-98 | A transport error without a message breaks the as-written builder, while the corrected one records an empty error |
| MlKycClient.FailedAgreesWhenMessagePresent | backend/corebank/src/main/java/com/bankingsystem/core/features/kyc/integration/MlKycClient.java:157-164 | With a message present the as-written and corrected builders agree |
| MlKycClient.RetryClassification | backend/corebank/src/main/java/com/bankingsystem/core/features/kyc/integration/MlKycClient.java:85-91 | An HTTP error is retried exactly for status 5xx or 429; every transport error is retried |
| SegmentedThresholds.ThresholdKeys | ai-service/bank-ai-service/app/core/config.py:50-54 | At most two keys, and none exactly when no country is given |
| SegmentedThresholds.SegmentedThresholdAsWritten | ai-service/bank-ai-service/app/core/config.py:49-62 | As written, the lookup fails with a NameError exactly when a country is given, because os is never imported |
| SegmentedThresholds.SegmentedThreshold | ai-service/bank-ai-service/app/core/config.py:49-62 | The corrected lookup returns the first key's environment value that is non-empty and parses, or the default |
| SegmentedThresholds.LookupSource | ai-service/bank-ai-service/app/core/config.py:55-62 | The value is either the default or the parsed environment value of one of the keys |
| SegmentedThresholds.Precedence | ai-service/bank-ai-service/app/core/config.py:49-62 | No country gives the default; with country and document the specific key wins over the country key, which wins over the default |
| SegmentedThresholds.AsWrittenAgreesWithoutCountry | ai-service/bank-ai-service/app/core/config.py:49-62 | Without a country the as-written and corrected lookups agree |
| NicText.FirstNewNic | ai-service/bank-ai-service/app/features/ocr/fields/nic.py:11 | The leftmost 12-digit word at or after a position, or none |
| NicText.FirstOldNic | ai-service/bank-ai-service/app/features/ocr/fields/nic.py:10 | The leftmost nine digits followed by V or X (with optional space) as a word, or none |
| NicText.NicFields | ai-service/bank-ai-service/app/features/ocr/fields/nic.py:28-33 | The number fields are either absent or both nic and nic_format |
| NicText.IndexOf | ai-service/bank-ai-service/app/features/ocr/fields/nic.py:14-15 | The first occurrence of a character, or the end |
| NicText.Lines | ai-service/bank-ai-service/app/features/ocr/fields/nic.py:14-15 | The text splits into at least one line, none containing a line feed |
| NicText.TrimEnd | ai-service/bank-ai-service/app/features/ocr/fields/nic.py:14-15 | Trailing whitespace is cut and no more |
| NicText.SeparatorEnd | ai-service/bank-ai-service/app/features/ocr/fields/nic.py:14-15 | A ':' or '-' after the label and optional spaces, when present, ends after it |
| NicText.AfterSeparator | ai-service/bank-ai-service/app/features/ocr/fields/nic.py:15 | The value start after the separator and its spaces lies past the label, at a non-space or the line end |
| NicText.AfterNameLabel | ai-service/bank-ai-service/app/features/ocr/fields/nic.py:14 | The end of a name or full-name label, when present, lies within the line |
| NicText.NameOfLine | ai-service/bank-ai-service/app/features/ocr/fields/nic.py:14 | A name has no carriage return and no surrounding whitespace |
| NicText.ValueFrom | ai-service/bank-ai-service/app/features/ocr/fields/nic.py:14 | The value after the separator has no carriage return or surrounding whitespace, and is empty exactly when only spaces, at least one of them not a carriage return, follow |
| NicText.AfterDobLabel | ai-service/bank-ai-service/app/features/ocr/fields/nic.py:15 | The end of a dob or date-of-birth label, when present, lies within the line |
| NicText.ShortNumber | ai-service/bank-ai-service/app/features/ocr/fields/nic.py:15 | A run of one or two digits, taken greedily |
| NicText.DateAt | ai-service/bank-ai-service/app/features/ocr/fields/nic.py:15 | A date is four digits, then one or two, then one or two |
| NicText.Pad2 | ai-service/bank-ai-service/app/features/ocr/fields/nic.py:39-48 | A one-digit month or day is padded with a leading zero |
| NicText.Pad2Digits | ai-service/bank-ai-service/app/features/ocr/fields/nic.py:39-48 | Padding keeps a digit string a digit string |
| NicText.IsoDate | ai-service/bank-ai-service/app/features/ocr/fields/nic.py:39-48 | The date is joined with hyphens into YYYY-MM-DD with month and day padded |
| NicText.DobOfLine | ai-service/bank-ai-service/app/features/ocr/fields/nic.py:39-48 | A date of birth read from a line is always in YYYY-MM-DD form |
| NicText.FirstLine | ai-service/bank-ai-service/app/features/ocr/fields/nic.py:35-48 | The first line that gives a value, and no earlier line gives one |
| NicText.NameField | ai-service/bank-ai-service/app/features/ocr/fields/nic.py:35-37 | The name is stripped and within one line |
| NicText.DobField | ai-service/bank-ai-service/app/features/ocr/fields/nic.py:39-48 | The date of birth is always in YYYY-MM-DD form |
| NicText.ParseNicText | ai-service/bank-ai-service/app/features/ocr/fields/nic.py:18-50 | Only the keys nic, nic_format, name and dob appear, and nic exactly when nic_format |
| NicText.ParsedFields | ai-service/bank-ai-service/app/features/ocr/fields/nic.py:18-50 | The parsed fields are those of the number, name and date parts |
| NicText.NicShape | ai-service/bank-ai-service/app/features/ocr/fields/nic.py:28-33 | A new_12 number is 12 digits; otherwise it is old_9X: nine digits and an upper-case V or X |
| NicText.NewFormatPreferred | ai-service/bank-ai-service/app/features/ocr/fields/nic.py:28-30 | Any 12-digit number makes the result new_12, taken from the leftmost one |
| NicText.OldFormatFallback | ai-service/bank-ai-service/app/features/ocr/fields/nic.py:31-33 | Without a 12-digit number, an old-style number gives old_9X from the leftmost one |
| NicText.OldNicExample | ai-service/bank-ai-service/app/features/ocr/fields/nic.py:10 | "NIC: 912345678V" holds an old-style number at position 5 |
| NicText.NameExample | ai-service/bank-ai-service/app/features/ocr/fields/nic.py:14 | "Name: John A. Doe" gives the name John A. Doe |
| NicText.NameSeparatorExample | ai-service/bank-ai-service/app/features/ocr/fields/nic.py:14 | In "Name: John A. Doe" the separator ends at position 5 |
| NicText.BlankNameExample | ai-service/bank-ai-service/app/features/ocr/fields/nic.py:14 | "Name: " and "Name:\t " give the empty name; "Name:\r" and "Name:" give none |
| NicText.DobExample | ai-service/bank-ai-service/app/features/ocr/fields/nic.py:39-48 | "DOB: 1999/1/2" gives 1999-01-02 |
| AddressMatch.AsciiOnly | ai-service/bank-ai-service/app/features/address/address_match.py:9 | Non-ASCII characters are dropped and every ASCII character kept |
| AddressMatch.Mask | ai-service/bank-ai-service/app/features/address/address_match.py:13 | Every character other than a-z, 0-9, '/', ',', '-' and whitespace becomes a space |
| AddressMatch.CountryAt | ai-service/bank-ai-service/app/features/address/address_match.py:14 | A country-name match, when present, is non-empty |
| AddressMatch.DropCountryFrom | ai-service/bank-ai-service/app/features/address/address_match.py:14 | Removing the country name only introduces spaces |
| AddressMatch.Collapse | ai-service/bank-ai-service/app/features/address/address_match.py:15 | Whitespace runs become single spaces; no other character is introduced |
| AddressMatch.Normalize | ai-service/bank-ai-service/app/features/address/address_match.py:6-16 | Normalised text has only lower-case letters, digits, '/', ',', '-' and spaces, with no leading or trailing space |
| AddressMatch.PyStripInside | ai-service/bank-ai-service/app/features/address/address_match.py:15 | Stripping introduces no character |
| AddressMatch.RunEnd | ai-service/bank-ai-service/app/features/address/address_match.py:50 | The end of a run of letters and digits |
| AddressMatch.Words | ai-service/bank-ai-service/app/features/address/address_match.py:50 | The split gives non-empty words of letters and digits only |
| AddressMatch.TokenShape | ai-service/bank-ai-service/app/features/address/address_match.py:49-54 | Every token has at least two characters and a letter; every number is a non-empty digit string |
| AddressMatch.Score | ai-service/bank-ai-service/app/features/address/address_match.py:56-66 | The score is between 0 and 1, and 0 when either token set is empty |
| AddressMatch.JaccardBounds | ai-service/bank-ai-service/app/features/address/address_match.py:60-62 | The Jaccard ratio is well defined: the union is non-empty and at least the intersection |
| AddressMatch.SubsetCard | ai-service/bank-ai-service/app/features/address/address_match.py:60-62 | A subset of equal size is the whole set |
| AddressMatch.AddressSimilarity | ai-service/bank-ai-service/app/features/address/address_match.py:56-66 | The similarity is between 0 and 1, and 0 when either address has no tokens |
| AddressMatch.SimilaritySymmetric | ai-service/bank-ai-service/app/features/address/address_match.py:56-66 | The similarity does not depend on the order of the two addresses |
| AddressMatch.ScoreWithoutBonus | ai-service/bank-ai-service/app/features/address/address_match.py:60-66 | Without a shared number the score is the Jaccard ratio, and 1 exactly when the token sets are equal |
| AddressMatch.NoBonusWithoutSharedNumber | ai-service/bank-ai-service/app/features/address/address_match.py:64-66 | Without a shared house number the similarity is the plain Jaccard ratio, 1 exactly for equal token sets |
| AddressMatch.BonusForSharedNumber | ai-service/bank-ai-service/app/features/address/address_match.py:64-66 | A shared house number adds 0.15, capped at 1 |
| AddressMatch.ScoreOfSame | ai-service/bank-ai-service/app/features/address/address_match.py:56-66 | Equal non-empty token sets score 1 |
| AddressMatch.SelfSimilarity | ai-service/bank-ai-service/app/features/address/address_match.py:56-66 | An address with tokens is fully similar to itself |
| AddressMatch.RawText | ai-service/bank-ai-service/app/features/address/address_match.py:73-80 | The raw text is empty when no image is given or the OCR adapter fails, else its raw_text field |
| AddressMatch.AddressMatchScore | ai-service/bank-ai-service/app/features/address/address_match.py:68-95 | The score is the similarity of the two extracted addresses, between 0 and 1, with the addresses and raw lengths as details |
| AddressMatch.MissingImagesScoreEmptyText | ai-service/bank-ai-service/app/features/address/address_match.py:73-75 | With neither image the addresses are extracted from empty text and both raw lengths are 0 |
| CredentialRules.Report | web-frontend/my-bank-ui/src/utils/validationUtils.ts:22-54 | One point per met criterion and one issue per failed one, in the order length, upper case, digit, special; score 4 exactly when all are met |
| CredentialRules.IssuesNameTheirCriterion | web-frontend/my-bank-ui/src/utils/validationUtils.ts:22-54 | Each issue message is listed exactly when its own criterion fails |
| CredentialRules.TsStrength | web-frontend/my-bank-ui/src/utils/validationUtils.ts:22-54 | Score plus issues is always four |
| CredentialRules.KotlinStrength | android-app/BankApp/app/src/main/java/com/bankingsystem/mobile/util/PasswordUtils.kt:23-33 | Score plus issues is always four |
| CredentialRules.KotlinAgreesOnAscii | android-app/BankApp/app/src/main/java/com/bankingsystem/mobile/util/PasswordUtils.kt:23-33 | On ASCII passwords the Android and web strength checks give the same report |
| CredentialRules.NonAsciiCapitalDisagrees | android-app/BankApp/app/src/main/java/com/bankingsystem/mobile/util/PasswordUtils.kt:27-30 | A password whose only capital is É scores 4 on Android and 3 on the web |
| CredentialRules.BackendStrength | backend/corebank/src/main/java/com/bankingsystem/core/features/auth/application/impl/AuthServiceImpl.java:151-164 | The server accepts exactly when the password has 8 UTF-16 units, a special character, a digit and an upper-case letter; otherwise the first failed rule in that order |
| CredentialRules.WebAgreesWithBackend | web-frontend/my-bank-ui/src/utils/validationUtils.ts:22-54 | The web client's full score is reached exactly when the server accepts the password |
| CredentialRules.UsernameAvailable | web-frontend/my-bank-ui/src/utils/validationUtils.ts:1-19 | A name shorter than three units is unavailable without asking; otherwise available exactly when the server answers 200 |
| CredentialRules.Find | web-frontend/my-bank-ui/src/utils/validationUtils.ts:60-63 | The first occurrence of a character, or the end |
| CredentialRules.EmailCheckMatchesRegex | web-frontend/my-bank-ui/src/utils/validationUtils.ts:60-63 | The split-based e-mail check agrees with the regular expression local@domain.tld without whitespace |
| CredentialRules.ValidEmailHasSplit | web-frontend/my-bank-ui/src/utils/validationUtils.ts:60-63 | An address the check accepts has the '@' and '.' split the regular expression needs |
| CredentialRules.SplitIsValidEmail | web-frontend/my-bank-ui/src/utils/validationUtils.ts:60-63 | An address with that split is accepted by the check |
| CredentialRules.KotlinValidEmail | android-app/BankApp/app/src/main/java/com/bankingsystem/mobile/util/PasswordUtils.kt:49 | The Android e-mail check is the shared rule with Java's whitespace |
| CredentialRules.TsValidEmail | web-frontend/my-bank-ui/src/utils/validationUtils.ts:60-63 | The web e-mail check is the shared rule with JavaScript's whitespace |
| CredentialRules.EmailRulesDiffer | backend/corebank/src/main/java/com/bankingsystem/core/features/auth/application/impl/AuthServiceImpl.java:40 | The server accepts a@b, which the clients refuse, and refuses a!@b.c, which the clients accept |
| CredentialRules.BackendWithDotIsClientValid | backend/corebank/src/main/java/com/bankingsystem/core/features/auth/application/impl/AuthServiceImpl.java:40 | A server-valid address with a dot after the '@' is accepted by both clients |
| UserDomain.ReplaceKeepsTable | backend/corebank/src/main/java/com/bankingsystem/core/features/auth/domain/User.java:16-18 | Rewriting a user's non-key columns keeps the unique username, e-mail and pending e-mail constraints |
| UserDomain.TakenIgnoringCase | backend/corebank/src/main/java/com/bankingsystem/core/repository/UserRepository.java:21 | A name taken exactly is taken ignoring case |
| UserDomain.UserNamed | backend/corebank/src/main/java/com/bankingsystem/core/repository/UserRepository.java:16 | The user with exactly this name, present exactly when the name exists |
| UserDomain.UserWithEmail | backend/corebank/src/main/java/com/bankingsystem/core/repository/UserRepository.java:18 | The user with this e-mail address, present exactly when the address exists |
| UserDomain.EmailTokenHolder | backend/corebank/src/main/java/com/bankingsystem/core/repository/UserRepository.java:25 | The user holding this change token, present exactly when someone holds it |
| UserDomain.ResetHolder | backend/corebank/src/main/java/com/bankingsystem/core/features/auth/application/impl/PasswordResetServiceImpl.java:72-73 | The user whose reset record holds this token, present exactly when one does |
| UserDomain.FindRole | backend/corebank/src/main/java/com/bankingsystem/core/features/auth/application/impl/AuthServiceImpl.java:66-67 | A stored role equal to the name ignoring case, or none when no stored role is |
| UserDomain.Directory.constructor | backend/corebank/src/main/java/com/bankingsystem/core/features/auth/application/impl/AuthServiceImpl.java:49-100 | An empty directory with the given roles satisfies the table constraints |
| AuthService.StrengthError | backend/corebank/src/main/java/com/bankingsystem/core/features/auth/application/impl/AuthServiceImpl.java:151-164 | Registration refuses a password exactly when the server's strength rule does, with its reason |
| AuthService.GivenName | backend/corebank/src/main/java/com/bankingsystem/core/features/auth/application/impl/AuthServiceImpl.java:73-83 | A first or last name is stored only when it has text |
| AuthService.RegisterCheck | backend/corebank/src/main/java/com/bankingsystem/core/features/auth/application/impl/AuthServiceImpl.java:50-67 | Registration passes exactly when the address has the accepted form, the password is strong, the name is free ignoring case, the address is unused and the CUSTOMER role exists, failing in that order |
| AuthService.NewUser | backend/corebank/src/main/java/com/bankingsystem/core/features/auth/application/impl/AuthServiceImpl.java:69-88 | The new user has the requested name and address, is inactive and unverified, and has only the given names |
| AuthService.Register | backend/corebank/src/main/java/com/bankingsystem/core/features/auth/application/impl/AuthServiceImpl.java:49-100 | On a failed check the error and no change; otherwise the user is stored with the encoded password and a verification token expiring after the configured hours |
| AuthService.VerifyCheck | backend/corebank/src/main/java/com/bankingsystem/core/features/auth/application/impl/AuthServiceImpl.java:102-108 | An unknown token is refused; a known one passes exactly when it has not expired |
| AuthService.Activated | backend/corebank/src/main/java/com/bankingsystem/core/features/auth/application/impl/AuthServiceImpl.java:110-113 | Verification activates the user and marks the e-mail verified, nothing else |
| AuthService.VerifyEmail | backend/corebank/src/main/java/com/bankingsystem/core/features/auth/application/impl/AuthServiceImpl.java:102-117 | On success the user is activated and the token deleted; on failure nothing changes |
| AuthService.VerificationSingleUse | backend/corebank/src/main/java/com/bankingsystem/core/features/auth/application/impl/AuthServiceImpl.java:115 | A used verification token is refused afterwards |
| AuthService.CreateSession | backend/corebank/src/main/java/com/bankingsystem/core/features/auth/application/impl/AuthServiceImpl.java:120-133 | An unknown user is refused; otherwise an active session expiring after two hours is stored under the token |
| AuthService.LogoutCheck | backend/corebank/src/main/java/com/bankingsystem/core/features/auth/application/impl/AuthServiceImpl.java:136-149 | Logout passes exactly when the session exists and is active; InvalidSession or AlreadyLoggedOut otherwise |
| AuthService.LoggedOut | backend/corebank/src/main/java/com/bankingsystem/core/features/auth/application/impl/AuthServiceImpl.java:143-147 | Logout deactivates the session and stamps the logout time, nothing else |
| AuthService.Logout | backend/corebank/src/main/java/com/bankingsystem/core/features/auth/application/impl/AuthServiceImpl.java:136-149 | On success exactly that session is logged out; on failure nothing changes |
| AuthService.LogoutOnce | backend/corebank/src/main/java/com/bankingsystem/core/features/auth/application/impl/AuthServiceImpl.java:136-149 | A second logout of the same session is AlreadyLoggedOut |
| AuthService.ChangePasswordCheck | backend/corebank/src/main/java/com/bankingsystem/core/features/auth/application/impl/AuthServiceImpl.java:167-183 | The change passes exactly when the current password matches, the new one differs, is strong and is confirmed, failing in that order |
| AuthService.ChangePassword | backend/corebank/src/main/java/com/bankingsystem/core/features/auth/application/impl/AuthServiceImpl.java:167-187 | On success only the user's password hash changes, to the encoded new password; on failure nothing changes |
| AuthService.ResetEmail | backend/corebank/src/main/java/com/bankingsystem/core/features/auth/application/impl/PasswordResetServiceImpl.java:37 | A missing address becomes empty, otherwise it is trimmed |
| AuthService.LinkBase | backend/corebank/src/main/java/com/bankingsystem/core/features/auth/application/impl/PasswordResetServiceImpl.java:62-63 | A missing front-end address prints as "null"; one trailing '/' is cut, otherwise the address is kept |
| AuthService.ResetLinkTrailingSlash | backend/corebank/src/main/java/com/bankingsystem/core/features/auth/application/impl/PasswordResetServiceImpl.java:62-64 | An address with or without one trailing '/' gives the same link; a doubled '/' keeps one |
| AuthService.IssuedReset | backend/corebank/src/main/java/com/bankingsystem/core/features/auth/application/impl/PasswordResetServiceImpl.java:57-59 | A reset record gets the new token, is unused and expires one hour from now |
| AuthService.InitiateReset | backend/corebank/src/main/java/com/bankingsystem/core/features/auth/application/impl/PasswordResetServiceImpl.java:36-67 | An unknown address changes nothing and sends nothing; otherwise the user's one reset record (new or reused) gets the fresh token, and the link to send is returned |
| AuthService.ResetCheck | backend/corebank/src/main/java/com/bankingsystem/core/features/auth/application/impl/PasswordResetServiceImpl.java:75-79 | A used or expired token is refused first; otherwise the new password must pass the strength rule |
| AuthService.ResetPassword | backend/corebank/src/main/java/com/bankingsystem/core/features/auth/application/impl/PasswordResetServiceImpl.java:71-89 | An unknown token or a failed check changes nothing; otherwise the user's password hash is the encoded new password and the record is marked used |
| AuthService.ResetSingleUse | backend/corebank/src/main/java/com/bankingsystem/core/features/auth/application/impl/PasswordResetServiceImpl.java:85-86 | A reset token that has been used is refused afterwards |
| AuthService.ReissueRevokesOldToken | backend/corebank/src/main/java/com/bankingsystem/core/features/auth/application/impl/PasswordResetServiceImpl.java:50-60 | Issuing a new token for a user replaces the old one: the old token no longer finds anyone and the new one finds that user |
| AuthService.IssuedResetUsableForAnHour | backend/corebank/src/main/java/com/bankingsystem/core/features/auth/application/impl/PasswordResetServiceImpl.java:48-59 | A freshly issued token is accepted for one hour, subject only to the strength rule |
| UserProfileService.Pick | backend/corebank/src/main/java/com/bankingsystem/core/service/impl/UserServiceImpl.java:78-94 | A profile column takes the request's value when it has text, the stored one otherwise |
| UserProfileService.MergeColumns | backend/corebank/src/main/java/com/bankingsystem/core/service/impl/UserServiceImpl.java:78-94 | Every profile column after an edit is the supplied value or the stored one |
| UserProfileService.MergeIdempotent | backend/corebank/src/main/java/com/bankingsystem/core/service/impl/UserServiceImpl.java:78-94 | Applying the same edit twice gives the same profile as once |
| UserProfileService.MergeNothing | backend/corebank/src/main/java/com/bankingsystem/core/service/impl/UserServiceImpl.java:78-94 | An edit that supplies nothing leaves the profile as it was |
| UserProfileService.ProfileEdited | backend/corebank/src/main/java/com/bankingsystem/core/service/impl/UserServiceImpl.java:72-94 | The username changes only when a new one with text is supplied; the profile is merged; nothing else changes |
| UserProfileService.EmailChangeCheck | backend/corebank/src/main/java/com/bankingsystem/core/service/impl/UserServiceImpl.java:108-114 | A new address is accepted exactly when it has the server's form, is nobody's address and is not pending for another user; otherwise InvalidEmailFormat, EmailInUse or DuplicateKey |
| UserProfileService.WithPendingEmail | backend/corebank/src/main/java/com/bankingsystem/core/service/impl/UserServiceImpl.java:118-120 | The pending address, its token and its issue time are set, nothing else |
| UserProfileService.UpdateProfileOutcome | backend/corebank/src/main/java/com/bankingsystem/core/service/impl/UserServiceImpl.java:69-101 | A profile update fails with UsernameTaken exactly on a name clash, fails otherwise only on the e-mail step's error, and on success stores the edited user with the e-mail change requested when one is given |
| UserProfileService.ReplaceUserKeepsTable | backend/corebank/src/main/java/com/bankingsystem/core/features/auth/domain/User.java:16-18 | Replacing a user by one with the same address and a free name keeps the table constraints |
| UserProfileService.UpdateKeepsTable | backend/corebank/src/main/java/com/bankingsystem/core/service/impl/UserServiceImpl.java:69-101 | A successful update keeps the unique columns unique |
| UserProfileService.RenameWithEmailChangeFailsAsWritten | backend/corebank/src/main/java/com/bankingsystem/core/service/impl/UserServiceImpl.java:95-97 | As written, renaming and changing the address in one request fails with user-not-found, where the corrected update succeeds |
| UserProfileService.AsWrittenAgreesWithoutRename | backend/corebank/src/main/java/com/bankingsystem/core/service/impl/UserServiceImpl.java:69-101 | Without a rename the as-written and corrected updates agree |
| UserProfileService.ConfirmCheck | backend/corebank/src/main/java/com/bankingsystem/core/service/impl/UserServiceImpl.java:132-138 | A token older than 24 hours is expired; a user without a pending address is already confirmed; a pending address now taken by another user is a duplicate |
| UserProfileService.EmailConfirmed | backend/corebank/src/main/java/com/bankingsystem/core/service/impl/UserServiceImpl.java:140-144 | The pending address becomes the address, marked verified, and the pending address and token are cleared |
| UserProfileService.ConfirmOnce | backend/corebank/src/main/java/com/bankingsystem/core/service/impl/UserServiceImpl.java:140-144 | After confirming, the token no longer finds anybody |
| UserProfileService.UpdateProfile | backend/corebank/src/main/java/com/bankingsystem/core/service/impl/UserServiceImpl.java:69-101 | The signed-in user is updated exactly as UpdateProfileResult says, or nothing changes on an error |
| UserProfileService.RequestEmailChange | backend/corebank/src/main/java/com/bankingsystem/core/service/impl/UserServiceImpl.java:104-125 | On a failed check the error and no change; otherwise only the user's pending address, token and time are set |
| UserProfileService.ConfirmEmailChange | backend/corebank/src/main/java/com/bankingsystem/core/service/impl/UserServiceImpl.java:127-148 | An unknown token, an expired one or a failed check changes nothing; otherwise the holder's address is replaced by the pending one |
| UserProfileService.Customers | backend/corebank/src/main/java/com/bankingsystem/core/service/impl/UserServiceImpl.java:156-179 | The listing holds exactly the users whose role name is CUSTOMER, taken from all users |
| UserProfileService.CustomersIdempotent | backend/corebank/src/main/java/com/bankingsystem/core/service/impl/UserServiceImpl.java:158 | Filtering the customer list again changes nothing |
| UserProfileService.CustomersAppend | backend/corebank/src/main/java/com/bankingsystem/core/service/impl/UserServiceImpl.java:158 | The customer filter distributes over concatenation, so it keeps the order of the users |
| EmployeeService.TellerGuard | backend/corebank/src/main/java/com/bankingsystem/core/features/employee/application/impl/EmployeeServiceImpl.java:46-60 | NoSuchUser exactly for an unknown user; otherwise refused exactly when the user's role is ADMIN ignoring case |
| EmployeeService.TellerGuardRefusesAdmins | backend/corebank/src/main/java/com/bankingsystem/core/features/employee/application/impl/EmployeeServiceImpl.java:54-56 | ADMIN in any of its usual spellings cannot be made a teller |
| EmployeeService.ResignCheck | backend/corebank/src/main/java/com/bankingsystem/core/features/employee/application/impl/EmployeeServiceImpl.java:64-82 | An unknown employee, an inactive one, a missing user or a missing CUSTOMER role is refused in that order; otherwise the customer role is returned |
| EmployeeService.Resigned | backend/corebank/src/main/java/com/bankingsystem/core/features/employee/application/impl/EmployeeServiceImpl.java:72-74 | The employee becomes INACTIVE with the resignation date now, keeping its role |
| EmployeeService.Demoted | backend/corebank/src/main/java/com/bankingsystem/core/features/employee/application/impl/EmployeeServiceImpl.java:78-82 | The user gets the customer role and loses the employee link, nothing else |
| EmployeeService.ResignEmployee | backend/corebank/src/main/java/com/bankingsystem/core/features/employee/application/impl/EmployeeServiceImpl.java:64-85 | On an error nothing changes; otherwise the employee is resigned and the user demoted, together |
| EmployeeService.ResignOnce | backend/corebank/src/main/java/com/bankingsystem/core/features/employee/application/impl/EmployeeServiceImpl.java:68-70 | A second resignation of the same employee is refused |
| EmployeeService.WithRole | backend/corebank/src/main/java/com/bankingsystem/core/features/employee/application/impl/EmployeeServiceImpl.java:92-99 | Exactly the employees with that role, taken from all of them |
| EmployeeService.FindEmployeesByRoleName | backend/corebank/src/main/java/com/bankingsystem/core/features/employee/application/impl/EmployeeServiceImpl.java:87-100 | No name or a blank one lists all employees; otherwise an unknown role is RoleNotFound and a known one lists its employees |
| EmployeeService.FindRoleIgnoresCase | backend/corebank/src/main/java/com/bankingsystem/core/features/employee/application/impl/EmployeeServiceImpl.java:92-94 | Role lookup does not depend on the case of the name |
| EmployeeService.RoleQueryIgnoresCase | backend/corebank/src/main/java/com/bankingsystem/core/features/employee/application/impl/EmployeeServiceImpl.java:87-100 | The employee query gives the same answer for names that differ only in case |
| AccountService.MinimumDeposit | backend/corebank/src/main/java/com/bankingsystem/core/features/accounts/application/impl/AccountServiceImpl.java:45-49 | Savings needs 1000, checking 0, fixed deposit 5000; any other type has no minimum |
| AccountService.AccountOwner | backend/corebank/src/main/java/com/bankingsystem/core/features/accounts/application/impl/AccountServiceImpl.java:75-82 | A teller opens the account for the named customer user; anyone else opens it for themselves |
| AccountService.NonTellerTargetIgnored | backend/corebank/src/main/java/com/bankingsystem/core/features/accounts/application/impl/AccountServiceImpl.java:75-82 | For a user who is not a teller, the target in the request makes no difference |
| AccountService.OpenCheck | backend/corebank/src/main/java/com/bankingsystem/core/features/accounts/application/impl/AccountServiceImpl.java:71-95 | The checks in order: unknown user, teller without a target, unknown customer, unknown branch, missing or negative deposit, missing type, deposit under the type's minimum; on success every field of the opening comes from the request and the minimum is met |
| AccountService.MinimumsEnforced | backend/corebank/src/main/java/com/bankingsystem/core/features/accounts/application/impl/AccountServiceImpl.java:87-95 | A savings deposit under 1000 and a fixed deposit under 5000 are refused with that minimum; any non-negative checking deposit opens |
| AccountService.FirstFree | backend/corebank/src/main/java/com/bankingsystem/core/features/accounts/application/impl/AccountServiceImpl.java:190-196 | The first candidate number not in use, with every earlier candidate in use; none when all are in use |
| AccountService.NewAccount | backend/corebank/src/main/java/com/bankingsystem/core/features/accounts/application/impl/AccountServiceImpl.java:97-107 | The new account is ACTIVE, holds the deposit as its balance, and has the checked customer, branch, type and number |
| AccountService.OpeningTransactions | backend/corebank/src/main/java/com/bankingsystem/core/features/accounts/application/impl/AccountServiceImpl.java:109-118 | One DEPOSIT transaction of the whole balance is recorded exactly when the deposit is positive |
| AccountService.Edited | backend/corebank/src/main/java/com/bankingsystem/core/features/accounts/application/impl/AccountServiceImpl.java:128-137 | Type and branch are replaced only when the request names them; nothing else changes except the update time |
| AccountService.Bank.constructor | backend/corebank/src/main/java/com/bankingsystem/core/features/accounts/application/impl/AccountServiceImpl.java:35-39 | The tables start empty, so account numbers are unique |
| AccountService.Bank.GenerateAccountNumber | backend/corebank/src/main/java/com/bankingsystem/core/features/accounts/application/impl/AccountServiceImpl.java:190-202 | At most MAX_RETRIES candidates are tried; the result is the first free one, or none when all ten are in use |
| AccountService.Bank.OpenAccount | backend/corebank/src/main/java/com/bankingsystem/core/features/accounts/application/impl/AccountServiceImpl.java:70-121 | A failed check or exhausted numbers change nothing; otherwise exactly one account with a fresh unique ten-digit number is added, with its opening transaction; account numbers stay unique |
| AccountService.Bank.UpdateAccount | backend/corebank/src/main/java/com/bankingsystem/core/features/accounts/application/impl/AccountServiceImpl.java:124-139 | An unknown account or unknown branch is refused and nothing is saved; otherwise only that account is replaced by its edited form |
| AccountService.Bank.CloseAccount | backend/corebank/src/main/java/com/bankingsystem/core/features/accounts/application/impl/AccountServiceImpl.java:142-148 | An unknown account is refused; otherwise that account becomes CLOSED with its balance kept and nothing else changes |
| Idempotency.Recorded | backend/corebank/src/main/java/com/bankingsystem/core/features/wallet/application/IdempotencyService.java:38-41 | The stored record gets the new digest and response; its creation time is kept once set and otherwise becomes now |
| Idempotency.IdempotencyStore.constructor | backend/corebank/src/main/java/com/bankingsystem/core/features/wallet/application/IdempotencyService.java:21 | The key table starts empty |
| Idempotency.IdempotencyStore.Complete | backend/corebank/src/main/java/com/bankingsystem/core/features/wallet/application/IdempotencyService.java:36-42 | The table after saving equals AfterComplete of the old table |
| Idempotency.AfterComplete | backend/corebank/src/main/java/com/bankingsystem/core/features/wallet/application/IdempotencyService.java:36-42 | Only the record under the key changes; it holds the digest and the response |
| Idempotency.Decide | backend/corebank/src/main/java/com/bankingsystem/core/features/wallet/application/IdempotencyService.java:25-35 | A missing or blank key bypasses the cache; a replay happens exactly when the stored digest equals the request's and a response is stored, and returns that response; every other keyed call misses |
| Idempotency.CompletedKeyReplays | backend/corebank/src/main/java/com/bankingsystem/core/features/wallet/application/IdempotencyService.java:25-44 | Round trip: once a miss is completed, the same key and request replay the stored response |
| Idempotency.DifferentRequestOverwrites | backend/corebank/src/main/java/com/bankingsystem/core/features/wallet/application/IdempotencyService.java:29-42 | The same key with another request misses, and completing it replaces the stored response while keeping the creation time |
| Idempotency.CreatedAtKept | backend/corebank/src/main/java/com/bankingsystem/core/features/wallet/application/IdempotencyService.java:41 | A key's creation time never changes once set |
| WalletService.WithDefault | backend/corebank/src/main/java/com/bankingsystem/core/features/wallet/application/impl/WalletServiceImpl.java:59-65 | Each of the user's cards is the default exactly when it is the target; other users' cards and the set of cards are unchanged |
| WalletService.DefaultIsExclusive | backend/corebank/src/main/java/com/bankingsystem/core/features/wallet/application/impl/WalletServiceImpl.java:59-65 | After makeDefault each user still has at most one default card, and the user has one exactly when the target is one of the user's cards |
| WalletService.Wallet.constructor | backend/corebank/src/main/java/com/bankingsystem/core/features/wallet/application/impl/WalletServiceImpl.java:29-34 | The wallet tables start empty |
| WalletService.Wallet.StartAddCardSession | backend/corebank/src/main/java/com/bankingsystem/core/features/wallet/application/impl/WalletServiceImpl.java:44-55 | A new unconsumed session of the caller is stored under the fresh id, and the returned address is the pre-approval page for that id; nothing else changes |
| WalletService.Wallet.MakeDefault | backend/corebank/src/main/java/com/bankingsystem/core/features/wallet/application/impl/WalletServiceImpl.java:59-65 | An id ParseUuid refuses is refused with nothing changed; otherwise the cards become WithDefault of the old cards and the one-default invariant is kept |
| WalletService.Wallet.DeleteCard | backend/corebank/src/main/java/com/bankingsystem/core/features/wallet/application/impl/WalletServiceImpl.java:69-73 | An id ParseUuid refuses is refused; the card is removed only when it belongs to the caller, and nothing else changes |
| WalletService.Wallet.CreateIntent | backend/corebank/src/main/java/com/bankingsystem/core/features/wallet/application/impl/WalletServiceImpl.java:106-122 | Exactly one intent, the one NewIntent builds, is stored under its id; cards and sessions are unchanged |
| WalletService.NewIntent | backend/corebank/src/main/java/com/bankingsystem/core/features/wallet/application/impl/WalletServiceImpl.java:106-122 | The intent is PROCESSING, belongs to the caller, carries the requested amount, currency and description, and returns to the checkout page for its own id |
| WalletService.PaymentDescription | backend/corebank/src/main/java/com/bankingsystem/core/features/wallet/application/impl/WalletServiceImpl.java:77-97 | Each payment kind has its own description: QR Payment, Mobile Reload, Bill Payment |
| WalletService.CreatePayment | backend/corebank/src/main/java/com/bankingsystem/core/features/wallet/application/impl/WalletServiceImpl.java:77-97 | Through the replay cache: without a usable key one intent is created and nothing is cached; a replay returns the stored intent and creates none; a miss creates one intent and caches it under the key |
| WalletService.ReplayIgnoresCaller | backend/corebank/src/main/java/com/bankingsystem/core/features/wallet/application/IdempotencyService.java:25-35 | The cache does not look at the caller: a completed key and body replay the first user's intent to anyone who sends them |
| PayHereCallbacks.Field | backend/corebank/src/main/java/com/bankingsystem/core/features/wallet/interfaces/PayHereCardController.java:92-94 | A form field is present exactly when the form has it, with its value |
| PayHereCallbacks.FieldOr | backend/corebank/src/main/java/com/bankingsystem/core/features/wallet/interfaces/PayHereCardController.java:90-95 | A form field with its default when absent |
| PayHereCallbacks.FirstNonEmpty | backend/corebank/src/main/java/com/bankingsystem/core/features/wallet/interfaces/PayHereCardController.java:180-184 | The result is empty exactly when every argument is absent or blank; otherwise it is one of the arguments and has text |
| PayHereCallbacks.FirstNonEmptyPicksFirst | backend/corebank/src/main/java/com/bankingsystem/core/features/wallet/interfaces/PayHereCardController.java:180-184 | The argument returned is the first present, non-blank one |
| PayHereCallbacks.EscapeChar | backend/corebank/src/main/java/com/bankingsystem/core/features/wallet/interfaces/PayHereCardController.java:173-176 | Reference escaping of one character: no markup character survives, and any other character is kept |
| PayHereCallbacks.EscapeText | backend/corebank/src/main/java/com/bankingsystem/core/features/wallet/interfaces/PayHereCardController.java:173-176 | Reference escaping of a string: the result has no markup character, and text without markup characters is unchanged |
| PayHereCallbacks.CardEscape | backend/corebank/src/main/java/com/bankingsystem/core/features/wallet/interfaces/PayHereCardController.java:173-176 | The card page's escaping: null gives the empty string |
| PayHereCallbacks.ReplaceCharAppend | backend/corebank/src/main/java/com/bankingsystem/core/features/wallet/interfaces/PayHereCardController.java:174-175 | One replace step distributes over concatenation |
| PayHereCallbacks.ReplaceCharAbsent | backend/corebank/src/main/java/com/bankingsystem/core/features/wallet/interfaces/PayHereCardController.java:174-175 | Replacing a character the text does not hold changes nothing |
| PayHereCallbacks.ReplaceCharSingle | backend/corebank/src/main/java/com/bankingsystem/core/features/wallet/interfaces/PayHereCardController.java:174-175 | One replace step on one character gives the replacement or the character |
| PayHereCallbacks.ChainStep | backend/corebank/src/main/java/com/bankingsystem/core/features/wallet/interfaces/PayHereCardController.java:174-175 | A replace step leaves an already-escaped entity alone |
| PayHereCallbacks.FirstThreeSteps | backend/corebank/src/main/java/com/bankingsystem/core/features/wallet/interfaces/PayHereCardController.java:174 | The ampersand, less-than and greater-than steps on one character |
| PayHereCallbacks.CardLastSteps | backend/corebank/src/main/java/com/bankingsystem/core/features/wallet/interfaces/PayHereCardController.java:174-175 | The card page's chain on one character equals the reference escape |
| PayHereCallbacks.GatewayLastSteps | backend/corebank/src/main/java/com/bankingsystem/core/features/wallet/interfaces/PayHereGatewayController.java:103-105 | The gateway page's chain, with the quote steps swapped, equals the reference escape on one character |
| PayHereCallbacks.CardEscapeChar | backend/corebank/src/main/java/com/bankingsystem/core/features/wallet/interfaces/PayHereCardController.java:173-176 | The card escape of one character is the reference escape |
| PayHereCallbacks.GatewayEscapeChar | backend/corebank/src/main/java/com/bankingsystem/core/features/wallet/interfaces/PayHereGatewayController.java:103-105 | The gateway escape of one character is the reference escape |
| PayHereCallbacks.CardEscapeAppend | backend/corebank/src/main/java/com/bankingsystem/core/features/wallet/interfaces/PayHereCardController.java:173-176 | The card escape distributes over concatenation |
| PayHereCallbacks.GatewayEscapeAppend | backend/corebank/src/main/java/com/bankingsystem/core/features/wallet/interfaces/PayHereGatewayController.java:103-105 | The gateway escape distributes over concatenation |
| PayHereCallbacks.CardEscapeIsReference | backend/corebank/src/main/java/com/bankingsystem/core/features/wallet/interfaces/PayHereCardController.java:173-176 | The card escape equals the character-by-character reference escape; the ampersand goes first, so no entity is escaped twice |
| PayHereCallbacks.GatewayEscapeIsReference | backend/corebank/src/main/java/com/bankingsystem/core/features/wallet/interfaces/PayHereGatewayController.java:103-105 | The gateway escape equals the same reference escape |
| PayHereCallbacks.EscapesAgree | backend/corebank/src/main/java/com/bankingsystem/core/features/wallet/interfaces/PayHereGatewayController.java:103-105 | The two controllers escape every string the same way, although they apply the quote steps in opposite order |
| PayHereCallbacks.Last4 | backend/corebank/src/main/java/com/bankingsystem/core/features/wallet/interfaces/PayHereCardController.java:110-115 | The result is the last four digits of the masked number when it has at least four digits, and empty otherwise; it holds only digits |
| PayHereCallbacks.DigitsOfAppend | backend/corebank/src/main/java/com/bankingsystem/core/features/wallet/interfaces/PayHereCardController.java:113 | Keeping the digits distributes over concatenation |
| PayHereCallbacks.DigitsOfDigits | backend/corebank/src/main/java/com/bankingsystem/core/features/wallet/interfaces/PayHereCardController.java:113 | A string of digits keeps all of them |
| PayHereCallbacks.Last4OfMaskedNumber | backend/corebank/src/main/java/com/bankingsystem/core/features/wallet/interfaces/PayHereCardController.java:110-115 | Any mask followed by four digits gives those four digits |
| PayHereCallbacks.ParseExpiry | backend/corebank/src/main/java/com/bankingsystem/core/features/wallet/interfaces/PayHereCardController.java:117-125 | Month and year are set exactly when the expiry has the two-digit month, slash, two-to-four-digit year shape; a two-digit year becomes 20yy |
| PayHereCallbacks.Power10 | backend/corebank/src/main/java/com/bankingsystem/core/features/wallet/interfaces/PayHereCardController.java:118-123 | Powers of ten are positive |
| PayHereCallbacks.DecimalValueBound | backend/corebank/src/main/java/com/bankingsystem/core/features/wallet/interfaces/PayHereCardController.java:121-122 | A digit string of length n is below ten to the n |
| PayHereCallbacks.TwoDigits | backend/corebank/src/main/java/com/bankingsystem/core/features/wallet/interfaces/PayHereCardController.java:118 | Two digits whose value is the number |
| PayHereCallbacks.ShortExpiryRoundTrip | backend/corebank/src/main/java/com/bankingsystem/core/features/wallet/interfaces/PayHereCardController.java:117-125 | Round trip: MM/YY of a month and a year 2000-2099 parses back to them |
| PayHereCallbacks.LongExpiryRoundTrip | backend/corebank/src/main/java/com/bankingsystem/core/features/wallet/interfaces/PayHereCardController.java:117-125 | Round trip: MM/YYYY of a month and a four-digit year parses back to them |
| PayHereCallbacks.Consumed | backend/corebank/src/main/java/com/bankingsystem/core/features/wallet/interfaces/PayHereCardController.java:142-143 | Only the named session changes, and it becomes consumed |
| PayHereCallbacks.SavedCard | backend/corebank/src/main/java/com/bankingsystem/core/features/wallet/interfaces/PayHereCardController.java:108-139 | The new card belongs to the session's user, has the method as brand (CARD by default), the last four digits and the parsed expiry, and is the default exactly when the user has no default card; its customer token is the first of customer_token, recurring_token and token that has text |
| PayHereCallbacks.CardNotify | backend/corebank/src/main/java/com/bankingsystem/core/features/wallet/interfaces/PayHereCardController.java:84-145 | Bad signature changes nothing; a failure status consumes the session and adds no card; OK happens exactly for a success on an open session, adding one card and consuming the session; in every other case no card is added |
| PayHereCallbacks.AddingCardKeepsOneDefault | backend/corebank/src/main/java/com/bankingsystem/core/features/wallet/interfaces/PayHereCardController.java:127-141 | A card that is default only when the user had none keeps at most one default card per user |
| PayHereCallbacks.CardNotifyKeepsOneDefault | backend/corebank/src/main/java/com/bankingsystem/core/features/wallet/interfaces/PayHereCardController.java:84-145 | Every notification keeps at most one default card per user |
| PayHereCallbacks.SessionSingleUse | backend/corebank/src/main/java/com/bankingsystem/core/features/wallet/interfaces/PayHereCardController.java:103-144 | A notification replayed after success answers already and adds no second card |
| PayHereCallbacks.NotifyPreapprove | backend/corebank/src/main/java/com/bankingsystem/core/features/wallet/interfaces/PayHereCardController.java:84-145 | The reply and the new card and session tables are those of CardNotify; intents are unchanged |
| PayHereCallbacks.PreapproveFields | backend/corebank/src/main/java/com/bankingsystem/core/features/wallet/interfaces/PayHereCardController.java:43-70 | Fifteen fields, with the session as order id and a fixed 10.00 LKR amount |
| PayHereCallbacks.HiddenInput | backend/corebank/src/main/java/com/bankingsystem/core/features/wallet/interfaces/PayHereCardController.java:75-76 | One hidden input whose value is the reference escape of the field value |
| PayHereCallbacks.PreapprovePage | backend/corebank/src/main/java/com/bankingsystem/core/features/wallet/interfaces/PayHereCardController.java:79-81 | The form page is never the session-expired page |
| PayHereCallbacks.RenderInputs | backend/corebank/src/main/java/com/bankingsystem/core/features/wallet/interfaces/PayHereCardController.java:72-78 | The loop writes the hidden inputs of all fields in order |
| PayHereCallbacks.Preapprove | backend/corebank/src/main/java/com/bankingsystem/core/features/wallet/interfaces/PayHereCardController.java:32-82 | The session-expired page is served exactly when the session is missing or consumed; otherwise the form page with all fields |
| PayHereCallbacks.CardReturnStatus | backend/corebank/src/main/java/com/bankingsystem/core/features/wallet/interfaces/PayHereCardController.java:153 | The status sent back is the gateway status, else the status code, else 2; it is never blank |
| PayHereCallbacks.GatewayStatus | backend/corebank/src/main/java/com/bankingsystem/core/features/wallet/interfaces/PayHereGatewayController.java:78-84 | Code 2 is SUCCESS, 0 PROCESSING, -1 CANCELED, and every other code FAILED, each exactly |
| PayHereCallbacks.GatewayNotify | backend/corebank/src/main/java/com/bankingsystem/core/features/wallet/interfaces/PayHereGatewayController.java:70-89 | Bad signature answers invalid, an unknown order answers ok, and neither changes anything; a known order gets the mapped status and the message as description, and no other intent changes; a missing order id or status code fails and changes nothing |
| PayHereCallbacks.GatewayNotifyIdempotent | backend/corebank/src/main/java/com/bankingsystem/core/features/wallet/interfaces/PayHereGatewayController.java:70-89 | A notification delivered twice has the same effect as once |
| PayHereCallbacks.NotifyPayment | backend/corebank/src/main/java/com/bankingsystem/core/features/wallet/interfaces/PayHereGatewayController.java:70-89 | The reply and the new intents are those of GatewayNotify; cards and sessions are unchanged |
| ApiErrors.Prop | web-frontend/my-bank-ui/src/api/axios.ts:52-57 | A property of a non-object is undefined |
| ApiErrors.TextProp | web-frontend/my-bank-ui/src/api/axios.ts:55-57 | A property counts exactly when it is a non-empty string |
| ApiErrors.MessageOf | web-frontend/my-bank-ui/src/api/axios.ts:54-59 | The first non-empty of message, detail, title and the client message, else Request failed; never empty |
| ApiErrors.CodeOf | web-frontend/my-bank-ui/src/api/axios.ts:61 | The body's non-empty code, else ERR_GENERIC |
| ApiErrors.FromErrorsKeys | web-frontend/my-bank-ui/src/api/axios.ts:65-72 | A field has a message exactly when some well-formed errors item names it |
| ApiErrors.FromErrorsLastWins | web-frontend/my-bank-ui/src/api/axios.ts:67-71 | The message kept for a field is that of the last well-formed item naming it |
| ApiErrors.FromViolations | web-frontend/my-bank-ui/src/api/axios.ts:74-79 | Exactly the string-valued entries of violations when it is an object |
| ApiErrors.FieldErrors | web-frontend/my-bank-ui/src/api/axios.ts:63-79 | Violations override errors for the same field; every key comes from one of the two |
| ApiErrors.Normalized | web-frontend/my-bank-ui/src/api/axios.ts:38-89 | A non-HTTP failure is the network error with status 0; otherwise status, message and code come from the response, and violations is absent exactly when no field message was collected |
| ApiErrors.NoResponse | web-frontend/my-bank-ui/src/api/axios.ts:51-61 | Without a response the error carries the client message, ERR_GENERIC, status 0 and no violations |
| ApiErrors.Normalize | web-frontend/my-bank-ui/src/api/axios.ts:38-89 | The interceptor's two loops produce exactly Normalized |
| ApiErrors.CollectErrors | web-frontend/my-bank-ui/src/api/axios.ts:65-72 | The first loop collects exactly FromErrors of the items: a later well-formed item for a field overrides an earlier one |
| ApiErrors.OverlayViolations | web-frontend/my-bank-ui/src/api/axios.ts:74-79 | The second loop leaves the collected messages overridden by every string-valued entry of violations and nothing else |
| ApiErrors.RequestConfig.constructor | web-frontend/my-bank-ui/src/api/axios.ts:29 | A request starts with the given headers |
| ApiErrors.WithToken | web-frontend/my-bank-ui/src/api/axios.ts:29-35 | A non-empty stored token sets a Bearer Authorization header and keeps every other header; without one the headers are unchanged |
| ApiErrors.AttachToken | web-frontend/my-bank-ui/src/api/axios.ts:29-35 | The request's headers become WithToken of the old headers |

## Left out

- Signature checks (MD5 of the gateway notification, the request hash of the pre-approval form), the SHA-256 request digest of the idempotency cache, JSON serialisation of cached responses, password hashing and matching, and the URL encoder are parameters or supplied values.
- Sending e-mail, JWT issuing and parsing, file streaming, and the HTTP and Reactor plumbing of the ML client (timeouts and back-off delays) are not modelled. `MlKycClient.Aggregate` keeps only the retry bound and the retry classification.
- Money amounts (`double` and `BigDecimal`) are `real`. Decimal rounding and formatting are not modelled.
- The `PaymentStatus` enum is not part of this model. Its values are those the wallet code uses. The features `Account` domain file is not part of this model either; its fields are those `AccountServiceImpl` reads and writes.
- The order of `findByUserIdOrderByCreatedAtDesc` is not modelled. Cards are a map, so the order in which `makeDefault` visits them does not matter to its result. `listCards` and `getPaymentIntent` are plain reads and are not modelled.
- `changeAccountStatus` in `AccountServiceImpl.java` is not modelled. DTO mappings (`mapToDTO`, `CardDto.from`, `PaymentIntentDto.from`) are not modelled.
- A missing branch id in `openAccount` is reported as `BranchNotFound`. The source passes null to the repository, which throws.
- The gateway's checkout, return and cancel pages and the card cancel page only build HTML. The card return page is modelled only through the status it passes back (`CardReturnStatus`) and the app link (`CardReturnLink`).
- In the axios normaliser, property names that JavaScript objects treat specially (such as `__proto__`) are treated as ordinary keys.
- The NIC parser's regular expressions are read line by line. A label's trailing `\s*` is not allowed to cross a line break; Python's would be.
- Address extraction from OCR output and the OCR itself are parameters of `AddressMatch.AddressMatchScore`. The adapter's values are taken as the text `str(...)` makes of them, so a `raw_text` of `None` is the string "None", as at `address_match.py` line 78.
- Character classes are ASCII, except in the Android password check, where Kotlin's `isUpperCase` and `isDigit` are parameters that agree with ASCII on ASCII characters. Unicode case folding, Java's Unicode-aware `equalsIgnoreCase` and Python's `unicodedata` normalisation are not modelled. `CredentialRules.NonAsciiCapitalDisagrees` shows the Android and web checks disagreeing on a non-ASCII capital.
- The `findAll` order of `getAllUsers` is not modelled. Its `CUSTOMER` filter compares role names exactly, as the source does.
- The "existing active case" filter in `KycCaseController.java` lines 61-70 can never match, so the controller always delegates to the service. The model does not write the dead branch.
- WalletService.ReplayIgnoresCaller: the cache key is global, not per user; the model keeps this and states it as a lemma rather than a restriction.
- KycDocumentCheck.HandleUploadId: the source only returns its argument, so the model states no more than that.
- Text.ParseUuid: the JDK's `java.util.UUID` is not part of this model. The function follows `UUID.fromString`: at most 36 characters, exactly four hyphens, each group read by `Long.parseLong(group, 16)` and masked to 32, 16, 16, 16 and 48 bits. `Character.digit` also accepts non-ASCII digits and letters (full-width forms, for instance); the model accepts ASCII hex digits only.
- NicText.NameOfLine: a name line whose value is only blanks ("Name: ") gives the empty name, as Python's `strip` does, so the name is not promised non-empty; NicText.NameField inherits this.
- KycAutoReview.RunBatch: exceptions other than the ML call's failure (database errors thrown by `run`) are not modelled, so the catch branch at `KycAutoReviewOrchestratorImpl.java` lines 70-76 that marks a case UNDER_REVIEW with "Auto-review failed: " never fires in the model.
- MlKycClient.AggregateRequest follows the six-argument call at `KycAutoReviewOrchestratorImpl.java` lines 111-114, which passes the address proof as a fifth image. `KycAggregateRequest` in `MlKycClient.java` declares only the five-argument constructor (line 115), so the source as given does not compile there; the model keeps the field `addressProofImage` the caller intends to send.
- The storage service's `delete` is not part of this model. Which deletes throw is the parameter `failing` of `KycRetention.Purge`, `PurgeCase` and `DeleteRef`.
- KycAutoReview.RunSpec makes the same assumption on `run`'s own path (`KycAutoReviewOrchestratorImpl.java` lines 86-102). When `run` loads a case that is not yet claimed and may not be scored (for instance a NEEDS_MORE_INFO case that `submit` reused), the model releases it with `processing` false and `updatedAt` now. Under Spring Data's default, the entity loaded before the bulk claim still holds `processing` false after `setProcessing(true)` then `setProcessing(false)`. It is therefore clean, so `save` writes nothing and `@PreUpdate` does not fire: the row stays claimed with its old `updatedAt`. The scored path is not affected, because its status change makes the entity dirty and the whole row, with `processing` false, is written.
- KycAutoReview.Run, KycAutoReview.RunOutcome, KycAutoReview.StepReleases and KycAutoReview.StepSettles inherit the assumption of the two lines above.
- KycCaseApi.SubmitAndRun and KycCaseApi.SubmitCase inherit the `KycAutoReview.RunSpec` assumption for a reused NEEDS_MORE_INFO case.
- KycAutoReview.StepSpec assumes that the bulk `tryMarkProcessing` update clears the persistence context, so that `run`'s `findById` (`KycAutoReviewOrchestratorImpl.java` line 86) sees the batch's own claim and skips its second claim. `KycCaseRepository` is not part of this model. Under Spring Data's default (no `clearAutomatically`), the reload would return the stale managed entity with `processing` false; the second claim would answer 0, and the case would stay claimed and PENDING. `KycAutoReview.Step`, `BatchSpec`, `RunBatch`, `BatchSettles` and `BatchReleases` inherit this assumption.
- Concurrent workers are not modelled. The claim is a sequential compare-and-set, and `KycRepository.ClaimExclusive` states its at-most-one-holder property per step.

## Findings

| source | as written | input that shows it | evidently intended | confidence | as-written member | corrected member |
|---|---|---|---|---|---|---|
| backend/corebank/src/main/java/com/bankingsystem/core/service/impl/UserServiceImpl.java:95-97 | With a new e-mail address, `updateProfile` calls `requestEmailChange`, which looks the signed-in user up again by the old login name after the pending rename has been flushed | a request that changes both the username (to a free one) and the e-mail address (to a free, different one) | the profile update succeeds and the new address becomes pending | not executed | UserProfileService.RenameWithEmailChangeFailsAsWritten | UserProfileService.UpdateProfile |
| backend/corebank/src/main/java/com/bankingsystem/core/features/kyc/integration/MlKycClient.java:157-164 | `Result.failed` calls `replace` on the message, and `errorMsg` returns the exception's message, which can be null | a transport failure without a message, such as a read timeout | a failed result with an empty error text | not executed | MlKycClient.NullMessageBreaksFailedResult | MlKycClient.FailedResult |
| backend/corebank/src/main/java/com/bankingsystem/core/features/kyc/application/impl/KycRetentionService.java:26-35 | `purge` deletes the four files of every selected case without looking at other cases, so a file that an open case also names is deleted | a REJECTED case last updated more than 30 days ago and a PENDING case of the same user that names the same upload | files still named by a case that is not selected are kept | not executed | KycRetention.SharedFileLost | KycRetention.SafePurgeKeepsLiveFiles |
| ai-service/bank-ai-service/app/core/config.py:49-62 | `segmented_threshold` calls `os.getenv`, but the module never imports `os`, so a NameError is raised | any call with a non-empty country | the most specific environment key with a number wins, else the default | not executed | SegmentedThresholds.SegmentedThresholdAsWritten | SegmentedThresholds.SegmentedThreshold |

=== FILE: accounts.dfy ===
/** Bank accounts: opening an account (for oneself, or by a teller for a
    customer) with its minimum initial deposit and its opening deposit
    transaction, drawing a fresh ten-digit account number with a bounded
    number of attempts, editing an account's type and branch, and closing
    it. Amounts are exact decimals; the random digits are supplied as the
    candidate numbers the generator would draw. */
module AccountService {
  import opened Wrappers
  import opened Text

  type Instant = int
  type Uuid = string

  datatype AccountType = SAVINGS | CHECKING | FIXED_DEPOSIT | OtherType(name: string)

  datatype AccountStatus = ACTIVE | CLOSED | FROZEN

  datatype TransactionType = DEPOSIT | WITHDRAWAL | TRANSFER_IN | TRANSFER_OUT

  datatype Account = Account(
    accountNumber: string,
    accountType: AccountType,
    status: AccountStatus,
    balance: real,
    customerId: Uuid,
    branchId: Uuid,
    createdAt: Instant,
    updatedAt: Instant)

  datatype Transaction = Transaction(
    accountId: Uuid,
    kind: TransactionType,
    amount: real,
    balanceAfter: real,
    description: string,
    createdAt: Instant)

  /** The request body shared by opening and editing an account; every
      field may be null. */
  datatype AccountRequest = AccountRequest(
    accountType: Option<AccountType>,
    branchId: Option<Uuid>,
    initialDeposit: Option<real>)

  /** The failures, with the business codes of the source where it has one. */
  datatype AccountError =
    | UserNotFound
      /** ERR_CUSTOMER_REQUIRED */
    | CustomerRequired
    | CustomerNotFound
    | BranchNotFound
      /** ERR_DEPOSIT_INVALID */
    | DepositInvalid
      /** The minimum-deposit table is looked up with a null type, which throws. */
    | NullAccountType
      /** ERR_MIN_DEPOSIT */
    | MinDeposit(accountType: AccountType, minimum: real)
    | AccountNumbersExhausted
    | AccountNotFound

  const ACCOUNT_NUMBER_LENGTH: nat := 10
  const MAX_RETRIES: nat := 10
  const TELLER_ROLE: string := "TELLER"
  const OPENING_DEPOSIT: string := "Opening deposit"

  /** The minimum initial deposit of each account type, where it has one. */
  function MinimumDeposit(t: AccountType): (m: Option<real>)
    ensures t == SAVINGS ==> m == Some(1000.0)
    ensures t == CHECKING ==> m == Some(0.0)
    ensures t == FIXED_DEPOSIT ==> m == Some(5000.0)
    ensures t.OtherType? ==> m.None?
  {
    match t
    case SAVINGS => Some(1000.0)
    case CHECKING => Some(0.0)
    case FIXED_DEPOSIT => Some(5000.0)
    case OtherType(_) => None
  }

  predicate IsTeller(roleName: string) { EqualsIgnoreCase(roleName, TELLER_ROLE) }

  /** The user the account is opened for: a teller names the customer's user,
      anybody else opens for themselves. `current` is the signed-in user's
      id and role name. */
  function AccountOwner(current: (Uuid, string), target: Option<Uuid>): (r: Option<Uuid>)
    ensures IsTeller(current.1) ==> r == target
    ensures !IsTeller(current.1) ==> r == Some(current.0)
  {
    if IsTeller(current.1) then target else Some(current.0)
  }

  /** Whoever is not a teller gets their own account, whatever target the
      request carries. */
  lemma NonTellerTargetIgnored(current: (Uuid, string), t1: Option<Uuid>, t2: Option<Uuid>)
    requires !IsTeller(current.1)
    ensures AccountOwner(current, t1) == AccountOwner(current, t2) == Some(current.0)
  {
  }

  /** What an opening request settles before a number is drawn: the
      customer, the branch, the type and the deposit. */
  datatype Opening = Opening(customerId: Uuid, branchId: Uuid, accountType: AccountType, deposit: real)

  /** The checks of `openAccount`, in order: the signed-in user exists, a
      teller names a target, the owner is a customer, the branch exists, the
      deposit is present and not negative, the type is present, and the
      deposit reaches the type's minimum. */
  function OpenCheck(current: Option<(Uuid, string)>, target: Option<Uuid>, customers: map<Uuid, Uuid>,
                     branches: set<Uuid>, req: AccountRequest): (r: Result<Opening, AccountError>)
    ensures current.None? ==> r == Err(UserNotFound)
    ensures current.Some? && IsTeller(current.value.1) && target.None? ==> r == Err(CustomerRequired)
    ensures r.Ok? ==>
      current.Some? && AccountOwner(current.value, target).Some?
      && AccountOwner(current.value, target).value in customers
      && r.value.customerId == customers[AccountOwner(current.value, target).value]
      && req.branchId == Some(r.value.branchId) && r.value.branchId in branches
      && req.initialDeposit == Some(r.value.deposit) && r.value.deposit >= 0.0
      && req.accountType == Some(r.value.accountType)
      && (MinimumDeposit(r.value.accountType).Some? ==> r.value.deposit >= MinimumDeposit(r.value.accountType).value)
    ensures r == Err(DepositInvalid) ==> req.initialDeposit.None? || req.initialDeposit.value < 0.0
    ensures r.Err? && r.error.MinDeposit? ==>
      req.accountType == Some(r.error.accountType) && MinimumDeposit(r.error.accountType) == Some(r.error.minimum)
      && req.initialDeposit.Some? && 0.0 <= req.initialDeposit.value < r.error.minimum
  {
    match current
    case None => Err(UserNotFound)
    case Some(cur) =>
      match AccountOwner(cur, target)
      case None => Err(CustomerRequired)
      case Some(owner) =>
        if owner !in customers then Err(CustomerNotFound)
        else if req.branchId.None? || req.branchId.value !in branches then Err(BranchNotFound)
        else if req.initialDeposit.None? || req.initialDeposit.value < 0.0 then Err(DepositInvalid)
        else if req.accountType.None? then Err(NullAccountType)
        else
          var t := req.accountType.value;
          var d := req.initialDeposit.value;
          match MinimumDeposit(t)
          case Some(m) => if d < m then Err(MinDeposit(t, m)) else Ok(Opening(customers[owner], req.branchId.value, t, d))
          case None => Ok(Opening(customers[owner], req.branchId.value, t, d))
  }

  /** Each type's minimum is enforced: a savings deposit under 1000 and a
      fixed deposit under 5000 are refused, and any non-negative amount
      opens a checking account. */
  lemma MinimumsEnforced(cur: (Uuid, string), target: Option<Uuid>, customers: map<Uuid, Uuid>,
                         branches: set<Uuid>, branch: Uuid, d: real)
    requires AccountOwner(cur, target).Some? && AccountOwner(cur, target).value in customers && branch in branches
    requires 0.0 <= d
    ensures d < 1000.0 ==>
      OpenCheck(Some(cur), target, customers, branches, AccountRequest(Some(SAVINGS), Some(branch), Some(d))) == Err(MinDeposit(SAVINGS, 1000.0))
    ensures d < 5000.0 ==>
      OpenCheck(Some(cur), target, customers, branches, AccountRequest(Some(FIXED_DEPOSIT), Some(branch), Some(d))) == Err(MinDeposit(FIXED_DEPOSIT, 5000.0))
    ensures OpenCheck(Some(cur), target, customers, branches, AccountRequest(Some(CHECKING), Some(branch), Some(d))).Ok?
  {
  }

  /** A candidate the generator may return: ten decimal digits. */
  predicate IsAccountNumber(s: string) { |s| == ACCOUNT_NUMBER_LENGTH && AllDigits(s) }

  predicate NumberInUse(accounts: map<Uuid, Account>, n: string) {
    exists a :: a in accounts && accounts[a].accountNumber == n
  }

  predicate UniqueNumbers(accounts: map<Uuid, Account>) {
    forall a, b :: a in accounts && b in accounts && accounts[a].accountNumber == accounts[b].accountNumber ==> a == b
  }

  /** The position, from `i` on, of the first candidate not in use. */
  function FirstFree(accounts: map<Uuid, Account>, candidates: seq<string>, i: nat): (r: Option<nat>)
    requires i <= |candidates|
    ensures r.Some? ==> i <= r.value < |candidates| && !NumberInUse(accounts, candidates[r.value])
    ensures r.Some? ==> forall j :: i <= j < r.value ==> NumberInUse(accounts, candidates[j])
    ensures r.None? ==> forall j :: i <= j < |candidates| ==> NumberInUse(accounts, candidates[j])
    decreases |candidates| - i
  {
    if i == |candidates| then None
    else if !NumberInUse(accounts, candidates[i]) then Some(i)
    else FirstFree(accounts, candidates, i + 1)
  }

  /** The opening deposit transaction, recorded only for a positive deposit. */
  function OpeningTransactions(accountId: Uuid, a: Account, now: Instant): (r: seq<Transaction>)
    ensures |r| == (if a.balance > 0.0 then 1 else 0)
    ensures |r| == 1 ==>
      r[0].accountId == accountId && r[0].kind == DEPOSIT && r[0].amount == a.balance
      && r[0].balanceAfter == a.balance
  {
    if a.balance > 0.0 then [Transaction(accountId, DEPOSIT, a.balance, a.balance, OPENING_DEPOSIT, now)] else []
  }

  /** The account `openAccount` saves: active, holding the deposit. */
  function NewAccount(o: Opening, number: string, now: Instant): (a: Account)
    ensures a.status == ACTIVE && a.balance == o.deposit && a.accountNumber == number
    ensures a.customerId == o.customerId && a.branchId == o.branchId && a.accountType == o.accountType
  {
    Account(number, o.accountType, ACTIVE, o.deposit, o.customerId, o.branchId, now, now)
  }

  /** The edited account: the type and the branch are replaced only when the
      request names them; the update time is now. */
  function Edited(a: Account, t: Option<AccountType>, branch: Option<Uuid>, now: Instant): (b: Account)
    ensures b.accountType == (if t.Some? then t.value else a.accountType)
    ensures b.branchId == (if branch.Some? then branch.value else a.branchId)
    ensures b.(accountType := a.accountType, branchId := a.branchId, updatedAt := a.updatedAt) == a
    ensures b.updatedAt == now
  {
    a.(accountType := if t.Some? then t.value else a.accountType,
       branchId := if branch.Some? then branch.value else a.branchId,
       updatedAt := now)
  }

  /** The account and transaction tables. */
  class Bank {
    var accounts: map<Uuid, Account>
    var transactions: seq<Transaction>

    ghost predicate Valid()
      reads this
    {
      UniqueNumbers(accounts)
    }

    constructor()
      ensures Valid() && accounts == map[] && transactions == []
    {
      accounts := map[];
      transactions := [];
    }

    /** `generateUniqueAccountNumber`: tries the drawn candidates in turn and
        returns the first not in use, giving up after `MAX_RETRIES`. */
    method GenerateAccountNumber(candidates: seq<string>) returns (r: Option<nat>)
      requires |candidates| == MAX_RETRIES
      ensures r == FirstFree(accounts, candidates, 0)
      ensures r.Some? ==> r.value < MAX_RETRIES && !NumberInUse(accounts, candidates[r.value])
      ensures r.None? ==> forall j :: 0 <= j < MAX_RETRIES ==> NumberInUse(accounts, candidates[j])
    {
      for attempts := 0 to MAX_RETRIES
        invariant forall j :: 0 <= j < attempts ==> NumberInUse(accounts, candidates[j])
        invariant FirstFree(accounts, candidates, 0) == FirstFree(accounts, candidates, attempts)
      {
        var inUse := exists a :: a in accounts && accounts[a].accountNumber == candidates[attempts];
        if !inUse {
          return Some(attempts);
        }
      }
      return None;
    }

    /** `openAccount`. `newId` is the id the saved account receives. */
    method OpenAccount(current: Option<(Uuid, string)>, target: Option<Uuid>, customers: map<Uuid, Uuid>,
                       branches: set<Uuid>, req: AccountRequest, candidates: seq<string>, newId: Uuid, now: Instant)
      returns (r: Result<Account, AccountError>)
      requires Valid() && newId !in accounts && |candidates| == MAX_RETRIES
      requires forall i :: 0 <= i < |candidates| ==> IsAccountNumber(candidates[i])
      modifies this
      ensures Valid()
      ensures match OpenCheck(current, target, customers, branches, req)
        case Err(e) => r == Err(e) && accounts == old(accounts) && transactions == old(transactions)
        case Ok(o) =>
          match FirstFree(old(accounts), candidates, 0)
          case None => r == Err(AccountNumbersExhausted) && accounts == old(accounts) && transactions == old(transactions)
          case Some(i) =>
            r == Ok(NewAccount(o, candidates[i], now)) && IsAccountNumber(r.value.accountNumber)
            && accounts == old(accounts)[newId := r.value]
            && transactions == old(transactions) + OpeningTransactions(newId, r.value, now)
    {
      var check := OpenCheck(current, target, customers, branches, req);
      if check.Err? {
        return Err(check.error);
      }
      var pick := GenerateAccountNumber(candidates);
      if pick.None? {
        return Err(AccountNumbersExhausted);
      }
      var account := NewAccount(check.value, candidates[pick.value], now);
      accounts := accounts[newId := account];
      if account.balance > 0.0 {
        transactions := transactions + [Transaction(newId, DEPOSIT, account.balance, account.balance, OPENING_DEPOSIT, now)];
      }
      r := Ok(account);
    }

    /** `updateAccount`: a named branch must exist; nothing is saved when it
        does not. */
    method UpdateAccount(accountId: Uuid, req: AccountRequest, branches: set<Uuid>, now: Instant)
      returns (r: Result<Account, AccountError>)
      requires Valid()
      modifies this
      ensures Valid()
      ensures transactions == old(transactions)
      ensures accountId !in old(accounts) ==> r == Err(AccountNotFound) && accounts == old(accounts)
      ensures accountId in old(accounts) && req.branchId.Some? && req.branchId.value !in branches ==>
        r == Err(BranchNotFound) && accounts == old(accounts)
      ensures accountId in old(accounts) && (req.branchId.None? || req.branchId.value in branches) ==>
        r == Ok(Edited(old(accounts)[accountId], req.accountType, req.branchId, now))
        && accounts == old(accounts)[accountId := r.value]
    {
      if accountId !in accounts {
        return Err(AccountNotFound);
      }
      if req.branchId.Some? && req.branchId.value !in branches {
        return Err(BranchNotFound);
      }
      var edited := Edited(accounts[accountId], req.accountType, req.branchId, now);
      accounts := accounts[accountId := edited];
      r := Ok(edited);
    }

    /** `closeAccount`: the account's status becomes CLOSED; its balance and
        everything else stay. */
    method CloseAccount(accountId: Uuid, now: Instant) returns (r: Result<(), AccountError>)
      requires Valid()
      modifies this
      ensures Valid()
      ensures transactions == old(transactions)
      ensures accountId !in old(accounts) ==> r == Err(AccountNotFound) && accounts == old(accounts)
      ensures accountId in old(accounts) ==>
        r == Ok(()) && accounts == old(accounts)[accountId := old(accounts)[accountId].(status := CLOSED, updatedAt := now)]
    {
      if accountId !in accounts {
        return Err(AccountNotFound);
      }
      accounts := accounts[accountId := accounts[accountId].(status := CLOSED, updatedAt := now)];
      r := Ok(());
    }
  }
}

=== FILE: api_errors.dfy ===
/** The web client's HTTP layer:
    - a request interceptor that attaches the stored login token;
    - a response interceptor that turns every failed request into one error
      shape, with a message, a code, an HTTP status and optional per-field
      messages. */
module ApiErrors {
  import opened Wrappers

  /** A JSON value as the client sees it, with `JUndefined` for a missing
      property. */
  datatype Json =
    | JUndefined
    | JNull
    | JBool(b: bool)
    | JNum(n: real)
    | JStr(s: string)
    | JArr(items: seq<Json>)
    | JObj(props: map<string, Json>)

  /** A failed request. `NotAxios` covers every error that is not an HTTP
      client error, such as a network or CORS failure. An HTTP client error
      has a message and, when the server answered, the response. */
  datatype Failure =
    | NotAxios
    | HttpFailure(message: string, response: Option<HttpResponse>)

  datatype HttpResponse = HttpResponse(status: int, data: Json)

  /** The error shape the pages rely on. */
  datatype NormalizedError = NormalizedError(
    message: string,
    code: string,
    status: int,
    violations: Option<map<string, string>>)

  const NETWORK_ERROR := NormalizedError("Network error", "ERR_NETWORK", 0, None)

  /** `isRecord`: a non-null object that is not an array. */
  predicate IsRecord(v: Json) { v.JObj? }

  /** `v?.name`: the property of an object, undefined otherwise. */
  function Prop(v: Json, name: string): (r: Json)
    ensures !IsRecord(v) ==> r == JUndefined
  {
    if v.JObj? && name in v.props then v.props[name] else JUndefined
  }

  /** `typeof v?.name === "string" && v.name`, read as a choice: a
      non-empty string property, or nothing. */
  function TextProp(v: Json, name: string): (r: Option<string>)
    ensures r.Some? <==> Prop(v, name).JStr? && Prop(v, name).s != ""
    ensures r.Some? ==> r.value == Prop(v, name).s
  {
    var p := Prop(v, name);
    if p.JStr? && p.s != "" then Some(p.s) else None
  }

  /** `isFieldErrorItem`: an object whose `field` and `message` are both
      strings. */
  predicate IsFieldErrorItem(v: Json) {
    IsRecord(v) && Prop(v, "field").JStr? && Prop(v, "message").JStr?
  }

  /** The message: the first non-empty one among the body's `message`,
      `detail` and `title` and the client's own message, else
      "Request failed". It is never empty. */
  function MessageOf(data: Json, clientMessage: string): (r: string)
    ensures r != ""
    ensures TextProp(data, "message").Some? ==> r == TextProp(data, "message").value
    ensures TextProp(data, "message").None? && TextProp(data, "detail").Some? ==> r == TextProp(data, "detail").value
    ensures TextProp(data, "message").None? && TextProp(data, "detail").None? && TextProp(data, "title").Some?
            ==> r == TextProp(data, "title").value
    ensures TextProp(data, "message").None? && TextProp(data, "detail").None? && TextProp(data, "title").None?
            ==> r == if clientMessage != "" then clientMessage else "Request failed"
  {
    match TextProp(data, "message")
    case Some(m) => m
    case None =>
      match TextProp(data, "detail")
      case Some(d) => d
      case None =>
        match TextProp(data, "title")
        case Some(t) => t
        case None => if clientMessage != "" then clientMessage else "Request failed"
  }

  /** The code: the body's `code` when it is a non-empty string, else
      "ERR_GENERIC". */
  function CodeOf(data: Json): (r: string)
    ensures r != ""
    ensures TextProp(data, "code").Some? ==> r == TextProp(data, "code").value
    ensures TextProp(data, "code").None? ==> r == "ERR_GENERIC"
  {
    match TextProp(data, "code")
    case Some(c) => c
    case None => "ERR_GENERIC"
  }

  /** The field messages collected from the `errors` items, in order. A
      later item for the same field overrides an earlier one. Malformed
      items are skipped. */
  function FromErrors(items: seq<Json>): map<string, string> {
    if items == [] then map[]
    else
      var last := items[|items| - 1];
      var m := FromErrors(items[..|items| - 1]);
      if IsFieldErrorItem(last) then m[Prop(last, "field").s := Prop(last, "message").s] else m
  }

  /** A field has a message exactly when some well-formed item names it. */
  lemma {:induction false} FromErrorsKeys(items: seq<Json>, field: string)
    ensures field in FromErrors(items) <==>
      exists i :: 0 <= i < |items| && IsFieldErrorItem(items[i]) && Prop(items[i], "field").s == field
  {
    if items != [] {
      var init := items[..|items| - 1];
      FromErrorsKeys(init, field);
      if field in FromErrors(items) && field in FromErrors(init) {
        var i :| 0 <= i < |init| && IsFieldErrorItem(init[i]) && Prop(init[i], "field").s == field;
        assert items[i] == init[i];
      }
      if exists i :: 0 <= i < |items| && IsFieldErrorItem(items[i]) && Prop(items[i], "field").s == field {
        var i :| 0 <= i < |items| && IsFieldErrorItem(items[i]) && Prop(items[i], "field").s == field;
        if i < |init| {
          assert init[i] == items[i];
        }
      }
    }
  }

  /** The message kept for a field is the one of the last well-formed item
      naming it. */
  lemma {:induction false} FromErrorsLastWins(items: seq<Json>, i: int)
    requires 0 <= i < |items| && IsFieldErrorItem(items[i])
    requires forall j :: i < j < |items| && IsFieldErrorItem(items[j]) ==> Prop(items[j], "field").s != Prop(items[i], "field").s
    ensures Prop(items[i], "field").s in FromErrors(items)
    ensures FromErrors(items)[Prop(items[i], "field").s] == Prop(items[i], "message").s
  {
    var init := items[..|items| - 1];
    if i < |items| - 1 {
      assert forall j :: i < j < |init| ==> init[j] == items[j];
      FromErrorsLastWins(init, i);
    }
  }

  /** The string-valued entries of `violations`, when it is an object. */
  function FromViolations(v: Json): (r: map<string, string>)
    ensures forall k :: k in r <==> IsRecord(v) && k in v.props && v.props[k].JStr?
    ensures forall k :: k in r ==> r[k] == v.props[k].s
  {
    if IsRecord(v) then map k | k in v.props && v.props[k].JStr? :: v.props[k].s else map[]
  }

  /** All field messages of a response body: those from `errors`, then
      those from `violations`, which override the same field. */
  function FieldErrors(data: Json): (r: map<string, string>)
    ensures forall k :: k in FromViolations(Prop(data, "violations")) ==>
      k in r && r[k] == FromViolations(Prop(data, "violations"))[k]
    ensures Prop(data, "errors").JArr? ==>
      forall k :: k in FromErrors(Prop(data, "errors").items) && k !in FromViolations(Prop(data, "violations")) ==>
        k in r && r[k] == FromErrors(Prop(data, "errors").items)[k]
    ensures forall k :: k in r ==>
      k in FromViolations(Prop(data, "violations"))
      || (Prop(data, "errors").JArr? && k in FromErrors(Prop(data, "errors").items))
  {
    var errors := Prop(data, "errors");
    (if errors.JArr? then FromErrors(errors.items) else map[]) + FromViolations(Prop(data, "violations"))
  }

  /** The normalised error of a failed request. A non-HTTP error is a
      network error with status 0. Otherwise the status is the response's,
      or 0 without one, and `violations` is left out exactly when no field
      message was collected. */
  function Normalized(e: Failure): (r: NormalizedError)
    ensures e.NotAxios? ==> r == NETWORK_ERROR
    ensures e.HttpFailure? ==> r.status == (if e.response.Some? then e.response.value.status else 0)
    ensures e.HttpFailure? ==>
      var data := if e.response.Some? then e.response.value.data else JUndefined;
      r.message == MessageOf(data, e.message) && r.code == CodeOf(data)
      && (r.violations.None? <==> FieldErrors(data) == map[])
      && (r.violations.Some? ==> r.violations.value == FieldErrors(data))
    ensures r.message != "" && r.code != ""
  {
    match e
    case NotAxios => NETWORK_ERROR
    case HttpFailure(message, response) =>
      var data := if response.Some? then response.value.data else JUndefined;
      var fields := FieldErrors(data);
      NormalizedError(MessageOf(data, message), CodeOf(data),
                      if response.Some? then response.value.status else 0,
                      if fields == map[] then None else Some(fields))
  }

  /** Without a response there is nothing to read: the client's message
      (or "Request failed"), the generic code, status 0 and no field
      messages. */
  lemma NoResponse(message: string)
    ensures Normalized(HttpFailure(message, None))
            == NormalizedError(if message != "" then message else "Request failed", "ERR_GENERIC", 0, None)
  {
    assert FieldErrors(JUndefined) == map[];
  }

  /** The response interceptor. */
  method Normalize(e: Failure) returns (r: NormalizedError)
    ensures r == Normalized(e)
  {
    if e.NotAxios? {
      return NETWORK_ERROR;
    }
    var status := if e.response.Some? then e.response.value.status else 0;
    var data := if e.response.Some? then e.response.value.data else JUndefined;
    var message := MessageOf(data, e.message);
    var code := CodeOf(data);
    var fieldErrors: map<string, string> := map[];
    var maybeErrors := Prop(data, "errors");
    if maybeErrors.JArr? {
      fieldErrors := CollectErrors(maybeErrors.items);
    }
    var maybeViolations := Prop(data, "violations");
    if IsRecord(maybeViolations) {
      fieldErrors := OverlayViolations(fieldErrors, maybeViolations);
    } else {
      assert fieldErrors + FromViolations(maybeViolations) == fieldErrors;
    }
    assert fieldErrors == FieldErrors(data);
    r := NormalizedError(message, code, status, if fieldErrors == map[] then None else Some(fieldErrors));
  }

  /** The first loop: the well-formed `errors` items, in order. */
  method CollectErrors(items: seq<Json>) returns (fieldErrors: map<string, string>)
    ensures fieldErrors == FromErrors(items)
  {
    fieldErrors := map[];
    for i := 0 to |items|
      invariant fieldErrors == FromErrors(items[..i])
    {
      assert items[..i + 1][..i] == items[..i];
      if IsFieldErrorItem(items[i]) {
        fieldErrors := fieldErrors[Prop(items[i], "field").s := Prop(items[i], "message").s];
      }
    }
    assert items[..|items|] == items;
  }

  /** The second loop: each string-valued entry of `violations` is written
      over what the first loop collected. */
  method OverlayViolations(base: map<string, string>, violations: Json) returns (fieldErrors: map<string, string>)
    requires IsRecord(violations)
    ensures fieldErrors == base + FromViolations(violations)
  {
    fieldErrors := base;
    var props := violations.props;
    var todo := props.Keys;
    while todo != {}
      invariant todo <= props.Keys
      invariant forall k :: k in fieldErrors <==> k in base || (k in props && k !in todo && props[k].JStr?)
      invariant forall k :: k in fieldErrors ==>
        fieldErrors[k] == if k in props && k !in todo && props[k].JStr? then props[k].s else base[k]
      decreases todo
    {
      var k :| k in todo;
      if props[k].JStr? {
        fieldErrors := fieldErrors[k := props[k].s];
      }
      todo := todo - {k};
    }
  }

  // ---------------------------------------------------------------------
  // The request interceptor
  // ---------------------------------------------------------------------

  /** The headers of an outgoing request, which may be missing. */
  class RequestConfig {
    var headers: Option<map<string, string>>

    constructor(headers: Option<map<string, string>>)
      ensures this.headers == headers
    {
      this.headers := headers;
    }
  }

  /** The headers after the interceptor. A stored, non-empty token is sent
      as a Bearer authorisation, creating the headers if needed. Without
      one the headers are left as they were. Other headers are kept. */
  function WithToken(headers: Option<map<string, string>>, token: Option<string>): (r: Option<map<string, string>>)
    ensures token.Some? && token.value != "" ==>
      r.Some? && "Authorization" in r.value && r.value["Authorization"] == "Bearer " + token.value
      && forall h :: h != "Authorization" && headers.Some? && h in headers.value ==> h in r.value && r.value[h] == headers.value[h]
    ensures token.None? || token.value == "" ==> r == headers
  {
    match token
    case Some(t) =>
      if t != "" then Some(headers.GetOr(map[])["Authorization" := "Bearer " + t]) else headers
    case None => headers
  }

  /** The request interceptor. `token` is what the browser storage holds
      under "token". */
  method AttachToken(config: RequestConfig, token: Option<string>)
    modifies config
    ensures config.headers == WithToken(old(config.headers), token)
  {
    if token.Some? && token.value != "" {
      var h := if config.headers.Some? then config.headers.value else map[];
      config.headers := Some(h["Authorization" := "Bearer " + token.value]);
    }
  }
}

=== FILE: auth.dfy ===
/** Registration, e-mail verification, login sessions, logout, password
    change and password reset. Each service method checks its request in a
    fixed order, fails with the first failed check and changes nothing
    then; otherwise it updates the directory as stated. The password
    encoder and matcher are parameters (hashing is not modelled), as are
    the clock and the freshly drawn token texts. */
module AuthService {
  import opened Wrappers
  import opened Text
  import opened CredentialRules
  import opened UserDomain

  /** The exceptions the services throw, one per message. */
  datatype AuthError =
    | InvalidEmailFormat
    | WeakPassword(reason: PasswordError)
    | UsernameTaken
    | EmailInUse
    | DefaultRoleMissing
    | InvalidVerificationToken
    | VerificationTokenExpired
    | UserNotFound
    | AlreadyLoggedOut
    | InvalidSession
    | WrongCurrentPassword
    | SameAsCurrent
    | ConfirmationMismatch
    | InvalidResetToken
    | ResetTokenExpiredOrUsed

  const DEFAULT_ROLE: string := "CUSTOMER"

  /** A session expires two hours after login. */
  const SESSION_LIFETIME: int := 2 * SECONDS_PER_HOUR

  /** A reset token expires one hour after it is issued. */
  const RESET_LIFETIME: int := SECONDS_PER_HOUR

  /** `validatePasswordStrength` as a failure value. */
  function StrengthError(p: string): (r: Option<AuthError>)
    ensures r.None? <==> BackendStrength(p).None?
    ensures r.Some? ==> r.value == WeakPassword(BackendStrength(p).value)
  {
    match BackendStrength(p)
    case None => None
    case Some(e) => Some(WeakPassword(e))
  }

  // ---------------------------------------------------------------------
  // Registration and e-mail verification
  // ---------------------------------------------------------------------

  datatype RegisterRequest = RegisterRequest(
    username: string,
    email: string,
    password: string,
    firstName: Option<string>,
    lastName: Option<string>)

  /** The name columns keep a supplied name only when it has text. */
  function GivenName(name: Option<string>): (r: Option<string>)
    ensures r.Some? <==> name.Some? && HasText(name.value)
    ensures r.Some? ==> r == name
  {
    if name.Some? && HasText(name.value) then name else None
  }

  /** The checks of `register`, in order: e-mail format, password strength,
      user name (ignoring case), e-mail in use, default role present. On
      success, the role the new user receives. */
  function RegisterCheck(users: map<Uuid, User>, roles: seq<string>, req: RegisterRequest): (r: Result<string, AuthError>)
    ensures r.Ok? <==>
      BackendValidEmail(req.email) && BackendStrength(req.password).None?
      && !UsernameExistsIgnoreCase(users, req.username) && !EmailExists(users, req.email)
      && FindRole(roles, DEFAULT_ROLE).Some?
    ensures r.Ok? ==> r.value in roles && EqualsIgnoreCase(r.value, DEFAULT_ROLE)
    ensures !BackendValidEmail(req.email) ==> r == Err(InvalidEmailFormat)
    ensures BackendValidEmail(req.email) && BackendStrength(req.password).Some? ==>
      r == Err(WeakPassword(BackendStrength(req.password).value))
    ensures r == Err(UsernameTaken) <==>
      BackendValidEmail(req.email) && BackendStrength(req.password).None? && UsernameExistsIgnoreCase(users, req.username)
    ensures r == Err(EmailInUse) ==> !UsernameExistsIgnoreCase(users, req.username) && EmailExists(users, req.email)
  {
    if !BackendValidEmail(req.email) then Err(InvalidEmailFormat)
    else if BackendStrength(req.password).Some? then Err(WeakPassword(BackendStrength(req.password).value))
    else if UsernameExistsIgnoreCase(users, req.username) then Err(UsernameTaken)
    else if EmailExists(users, req.email) then Err(EmailInUse)
    else match FindRole(roles, DEFAULT_ROLE)
      case None => Err(DefaultRoleMissing)
      case Some(role) => Ok(role)
  }

  /** The user row `register` saves: inactive, unverified, holding the
      encoded password, the default role and the names that have text. */
  function NewUser(id: Uuid, req: RegisterRequest, role: string, hash: string, now: Instant): (u: User)
    ensures u.userId == id && u.username == req.username && u.email == req.email
    ensures !u.isActive && !u.emailVerified && !u.hasEmployee
    ensures u.profile == EmptyProfile.(firstName := GivenName(req.firstName), lastName := GivenName(req.lastName))
    ensures u.newEmail.None? && u.emailToken.None? && u.emailTokenCreatedAt.None?
  {
    User(id, req.username, req.email, hash, role, false, false,
         EmptyProfile.(firstName := GivenName(req.firstName), lastName := GivenName(req.lastName)),
         None, None, None, false, now)
  }

  /** `register`. `newId` and `token` are the generated user id and
      verification token; the token expires `expirationHours` after now. */
  method Register(dir: Directory, req: RegisterRequest, encode: string -> string, newId: Uuid, token: string,
                  expirationHours: int, now: Instant) returns (r: Result<Uuid, AuthError>)
    requires dir.Valid()
    requires newId !in dir.users && token !in dir.verifications
    modifies dir
    ensures dir.Valid()
    ensures dir.roles == old(dir.roles) && dir.sessions == old(dir.sessions)
    ensures dir.resets == old(dir.resets) && dir.employees == old(dir.employees)
    ensures var check := RegisterCheck(old(dir.users), old(dir.roles), req);
      if check.Err? then
        r == Err(check.error) && dir.users == old(dir.users) && dir.verifications == old(dir.verifications)
      else
        r == Ok(newId)
        && dir.users == old(dir.users)[newId := NewUser(newId, req, check.value, encode(req.password), now)]
        && dir.verifications == old(dir.verifications)[token := VerificationToken(newId, now + expirationHours * SECONDS_PER_HOUR)]
  {
    var check := RegisterCheck(dir.users, dir.roles, req);
    if check.Err? {
      return Err(check.error);
    }
    var u := NewUser(newId, req, check.value, encode(req.password), now);
    if UsernameExists(dir.users, req.username) {
      TakenIgnoringCase(dir.users, req.username);
    }
    assert UserTable(dir.users[newId := u]);
    dir.users := dir.users[newId := u];
    dir.verifications := dir.verifications[token := VerificationToken(newId, now + expirationHours * SECONDS_PER_HOUR)];
    r := Ok(newId);
  }

  /** The checks of `verifyEmail`: the token must exist and must not have
      expired. On success, the user it verifies. */
  function VerifyCheck(verifications: map<string, VerificationToken>, token: string, now: Instant): (r: Result<Uuid, AuthError>)
    ensures token !in verifications ==> r == Err(InvalidVerificationToken)
    ensures token in verifications ==>
      (r.Ok? <==> !(verifications[token].expiry < now))
    ensures r.Ok? ==> token in verifications && r.value == verifications[token].userId
    ensures r.Err? ==> r.error == InvalidVerificationToken || r.error == VerificationTokenExpired
  {
    if token !in verifications then Err(InvalidVerificationToken)
    else if verifications[token].expiry < now then Err(VerificationTokenExpired)
    else Ok(verifications[token].userId)
  }

  /** A verified user is active with a verified e-mail address. */
  function Activated(u: User): (v: User)
    ensures v.isActive && v.emailVerified
    ensures v.(isActive := u.isActive, emailVerified := u.emailVerified) == u
  {
    u.(isActive := true, emailVerified := true)
  }

  /** `verifyEmail`: activates the token's user and deletes the token, so a
      token verifies at most once. */
  method VerifyEmail(dir: Directory, token: string, now: Instant) returns (r: Result<bool, AuthError>)
    requires dir.Valid()
    modifies dir
    ensures dir.Valid()
    ensures dir.roles == old(dir.roles) && dir.sessions == old(dir.sessions)
    ensures dir.resets == old(dir.resets) && dir.employees == old(dir.employees)
    ensures var check := VerifyCheck(old(dir.verifications), token, now);
      if check.Err? then
        r == Err(check.error) && dir.users == old(dir.users) && dir.verifications == old(dir.verifications)
      else
        r == Ok(true) && check.value in old(dir.users)
        && dir.users == old(dir.users)[check.value := Activated(old(dir.users)[check.value])]
        && dir.verifications == old(dir.verifications) - {token}
  {
    var check := VerifyCheck(dir.verifications, token, now);
    if check.Err? {
      return Err(check.error);
    }
    var uid := check.value;
    ReplaceKeepsTable(dir.users, uid, Activated(dir.users[uid]));
    dir.users := dir.users[uid := Activated(dir.users[uid])];
    dir.verifications := dir.verifications - {token};
    r := Ok(true);
  }

  /** Once a token has verified its user, the same token is unknown. */
  lemma VerificationSingleUse(verifications: map<string, VerificationToken>, token: string, now: Instant, later: Instant)
    requires VerifyCheck(verifications, token, now).Ok?
    ensures VerifyCheck(verifications - {token}, token, later) == Err(InvalidVerificationToken)
  {
  }

  // ---------------------------------------------------------------------
  // Sessions
  // ---------------------------------------------------------------------

  /** `createSession`: a session for the user with exactly this name, active,
      logged in now and expiring two hours later. The token is the one the
      login issued. */
  method CreateSession(dir: Directory, token: string, username: string, ipAddress: string, now: Instant)
    returns (r: Result<(), AuthError>)
    requires dir.Valid()
    modifies dir
    ensures dir.Valid()
    ensures dir.users == old(dir.users) && dir.roles == old(dir.roles) && dir.verifications == old(dir.verifications)
    ensures dir.resets == old(dir.resets) && dir.employees == old(dir.employees)
    ensures match UserNamed(old(dir.users), username)
      case None => r == Err(UserNotFound) && dir.sessions == old(dir.sessions)
      case Some(uid) =>
        r == Ok(()) && dir.sessions == old(dir.sessions)[token := Session(uid, now, now + SESSION_LIFETIME, true, ipAddress, None)]
  {
    if !UsernameExists(dir.users, username) {
      return Err(UserNotFound);
    }
    var uid :| uid in dir.users && dir.users[uid].username == username;
    assert UserNamed(dir.users, username) == Some(uid);
    dir.sessions := dir.sessions[token := Session(uid, now, now + SESSION_LIFETIME, true, ipAddress, None)];
    r := Ok(());
  }

  /** The checks of `logout`: the session must exist and still be active. */
  function LogoutCheck(sessions: map<string, Session>, token: string): (r: Option<AuthError>)
    ensures r.None? <==> token in sessions && sessions[token].isActive
    ensures token !in sessions ==> r == Some(InvalidSession)
    ensures token in sessions && !sessions[token].isActive ==> r == Some(AlreadyLoggedOut)
  {
    if token !in sessions then Some(InvalidSession)
    else if !sessions[token].isActive then Some(AlreadyLoggedOut)
    else None
  }

  /** A logged-out session is inactive with its logout time; nothing else
      about it changes. */
  function LoggedOut(s: Session, now: Instant): (t: Session)
    ensures !t.isActive && t.logoutTime == Some(now)
    ensures t.(isActive := s.isActive, logoutTime := s.logoutTime) == s
  {
    s.(isActive := false, logoutTime := Some(now))
  }

  /** `logout`. */
  method Logout(dir: Directory, token: string, now: Instant) returns (r: Result<(), AuthError>)
    requires dir.Valid()
    modifies dir
    ensures dir.Valid()
    ensures dir.users == old(dir.users) && dir.roles == old(dir.roles) && dir.verifications == old(dir.verifications)
    ensures dir.resets == old(dir.resets) && dir.employees == old(dir.employees)
    ensures match LogoutCheck(old(dir.sessions), token)
      case Some(e) => r == Err(e) && dir.sessions == old(dir.sessions)
      case None => r == Ok(()) && dir.sessions == old(dir.sessions)[token := LoggedOut(old(dir.sessions)[token], now)]
  {
    var check := LogoutCheck(dir.sessions, token);
    if check.Some? {
      return Err(check.value);
    }
    dir.sessions := dir.sessions[token := LoggedOut(dir.sessions[token], now)];
    r := Ok(());
  }

  /** A session can be logged out once: the second logout fails. */
  lemma LogoutOnce(sessions: map<string, Session>, token: string, now: Instant)
    requires LogoutCheck(sessions, token).None?
    ensures LogoutCheck(sessions[token := LoggedOut(sessions[token], now)], token) == Some(AlreadyLoggedOut)
  {
  }

  // ---------------------------------------------------------------------
  // Password change
  // ---------------------------------------------------------------------

  datatype ChangePasswordRequest = ChangePasswordRequest(currentPassword: string, newPassword: string, confirmNewPassword: string)

  /** The checks of `changePassword`, in order: the current password matches
      the stored hash, the new one differs from it, is strong, and equals its
      confirmation. `matches` is the encoder's check of a raw password
      against a hash. */
  function ChangePasswordCheck(hash: string, req: ChangePasswordRequest, matches: (string, string) -> bool): (r: Option<AuthError>)
    ensures r.None? <==>
      matches(req.currentPassword, hash) && req.newPassword != req.currentPassword
      && BackendStrength(req.newPassword).None? && req.newPassword == req.confirmNewPassword
    ensures !matches(req.currentPassword, hash) ==> r == Some(WrongCurrentPassword)
    ensures matches(req.currentPassword, hash) && req.newPassword == req.currentPassword ==> r == Some(SameAsCurrent)
    ensures r.Some? && r.value.WeakPassword? ==>
      matches(req.currentPassword, hash) && req.newPassword != req.currentPassword
    ensures r == Some(ConfirmationMismatch) ==>
      matches(req.currentPassword, hash) && req.newPassword != req.currentPassword && BackendStrength(req.newPassword).None?
  {
    if !matches(req.currentPassword, hash) then Some(WrongCurrentPassword)
    else if req.newPassword == req.currentPassword then Some(SameAsCurrent)
    else if StrengthError(req.newPassword).Some? then StrengthError(req.newPassword)
    else if req.newPassword != req.confirmNewPassword then Some(ConfirmationMismatch)
    else None
  }

  /** `changePassword` for the user with exactly this name. */
  method ChangePassword(dir: Directory, username: string, req: ChangePasswordRequest,
                        matches: (string, string) -> bool, encode: string -> string)
    returns (r: Result<(), AuthError>)
    requires dir.Valid()
    modifies dir
    ensures dir.Valid()
    ensures dir.roles == old(dir.roles) && dir.sessions == old(dir.sessions) && dir.verifications == old(dir.verifications)
    ensures dir.resets == old(dir.resets) && dir.employees == old(dir.employees)
    ensures match UserNamed(old(dir.users), username)
      case None => r == Err(UserNotFound) && dir.users == old(dir.users)
      case Some(uid) =>
        match ChangePasswordCheck(old(dir.users)[uid].passwordHash, req, matches)
        case Some(e) => r == Err(e) && dir.users == old(dir.users)
        case None =>
          r == Ok(()) && dir.users == old(dir.users)[uid := old(dir.users)[uid].(passwordHash := encode(req.newPassword))]
  {
    if !UsernameExists(dir.users, username) {
      return Err(UserNotFound);
    }
    var uid :| uid in dir.users && dir.users[uid].username == username;
    assert UserNamed(dir.users, username) == Some(uid);
    var check := ChangePasswordCheck(dir.users[uid].passwordHash, req, matches);
    if check.Some? {
      return Err(check.value);
    }
    var u := dir.users[uid].(passwordHash := encode(req.newPassword));
    ReplaceKeepsTable(dir.users, uid, u);
    dir.users := dir.users[uid := u];
    r := Ok(());
  }

  // ---------------------------------------------------------------------
  // Password reset
  // ---------------------------------------------------------------------

  /** The address a reset is requested for: trimmed, a null one as "". */
  function ResetEmail(email: Option<string>): (e: string)
    ensures email.None? ==> e == ""
    ensures email.Some? ==> e == JavaTrim(email.value)
  {
    match email
    case None => ""
    case Some(s) => JavaTrim(s)
  }

  /** The start of the reset link: the front-end address without one
      trailing "/"; an unset address is concatenated as "null". */
  function LinkBase(frontend: Option<string>): (b: string)
    ensures frontend.None? ==> b == "null"
    ensures frontend.Some? && EndsWith(frontend.value, "/") ==> b + "/" == frontend.value
    ensures frontend.Some? && !EndsWith(frontend.value, "/") ==> b == frontend.value
  {
    match frontend
    case None => "null"
    case Some(f) =>
      if EndsWith(f, "/") then
        assert f == f[..|f| - 1] + "/";
        f[..|f| - 1]
      else f
  }

  const RESET_PATH: string := "/reset-password?token="

  function ResetLink(frontend: Option<string>, token: string): string {
    LinkBase(frontend) + RESET_PATH + token
  }

  /** Exactly one trailing "/" is removed: an address with or without it
      gives the same link, and a doubled one keeps a single "/". */
  lemma ResetLinkTrailingSlash(f: string, token: string)
    ensures ResetLink(Some(f + "/"), token) == f + RESET_PATH + token
    ensures !EndsWith(f, "/") ==> ResetLink(Some(f), token) == f + RESET_PATH + token
    ensures ResetLink(Some(f + "//"), token) == f + "/" + RESET_PATH + token
  {
    assert EndsWith(f + "/", "/");
    assert LinkBase(Some(f + "/")) + "/" == f + "/";
    assert EndsWith(f + "//", "/");
    assert LinkBase(Some(f + "//")) + "/" == f + "//";
    assert LinkBase(Some(f + "//")) == f + "/";
  }

  /** A user's reset record after a reset is requested: the fresh token,
      unused, expiring an hour from now. */
  function IssuedReset(token: string, now: Instant): (t: ResetToken)
    ensures t.token == token && !t.used && t.expiry == now + RESET_LIFETIME
  {
    ResetToken(token, now + RESET_LIFETIME, false)
  }

  /** `initiateReset`: for a known address, the user's reset record (the one
      it has, or a new one) is overwritten with a fresh token; the answer is
      the user the link is mailed to and the link. An unknown address
      changes nothing. */
  method InitiateReset(dir: Directory, email: Option<string>, token: string, now: Instant, frontend: Option<string>)
    returns (sent: Option<(Uuid, string)>)
    requires dir.Valid()
    requires forall u :: u in dir.resets ==> dir.resets[u].token != token
    modifies dir
    ensures dir.Valid()
    ensures dir.users == old(dir.users) && dir.roles == old(dir.roles) && dir.sessions == old(dir.sessions)
    ensures dir.verifications == old(dir.verifications) && dir.employees == old(dir.employees)
    ensures match UserWithEmail(old(dir.users), ResetEmail(email))
      case None => sent.None? && dir.resets == old(dir.resets)
      case Some(uid) =>
        sent == Some((uid, ResetLink(frontend, token)))
        && dir.resets == old(dir.resets)[uid := IssuedReset(token, now)]
  {
    var e := ResetEmail(email);
    if !EmailExists(dir.users, e) {
      return None;
    }
    var uid :| uid in dir.users && dir.users[uid].email == e;
    assert UserWithEmail(dir.users, e) == Some(uid);
    dir.resets := dir.resets[uid := IssuedReset(token, now)];
    sent := Some((uid, ResetLink(frontend, token)));
  }

  /** The checks of `resetPassword` on the record the token names: it must be
      unused and unexpired, and only then is the new password's strength
      checked. */
  function ResetCheck(rec: ResetToken, newPassword: string, now: Instant): (r: Option<AuthError>)
    ensures rec.used || rec.expiry < now ==> r == Some(ResetTokenExpiredOrUsed)
    ensures r.None? <==> !rec.used && !(rec.expiry < now) && BackendStrength(newPassword).None?
    ensures !rec.used && !(rec.expiry < now) ==> r == StrengthError(newPassword)
  {
    if rec.used || rec.expiry < now then Some(ResetTokenExpiredOrUsed)
    else StrengthError(newPassword)
  }

  /** `resetPassword`: sets the new password's hash on the record's user and
      marks the record used. */
  method ResetPassword(dir: Directory, token: string, newPassword: string, encode: string -> string, now: Instant)
    returns (r: Result<(), AuthError>)
    requires dir.Valid()
    modifies dir
    ensures dir.Valid()
    ensures dir.roles == old(dir.roles) && dir.sessions == old(dir.sessions)
    ensures dir.verifications == old(dir.verifications) && dir.employees == old(dir.employees)
    ensures match ResetHolder(old(dir.resets), token)
      case None => r == Err(InvalidResetToken) && dir.users == old(dir.users) && dir.resets == old(dir.resets)
      case Some(uid) =>
        match ResetCheck(old(dir.resets)[uid], newPassword, now)
        case Some(e) => r == Err(e) && dir.users == old(dir.users) && dir.resets == old(dir.resets)
        case None =>
          r == Ok(()) && uid in old(dir.users)
          && dir.users == old(dir.users)[uid := old(dir.users)[uid].(passwordHash := encode(newPassword))]
          && dir.resets == old(dir.resets)[uid := old(dir.resets)[uid].(used := true)]
  {
    if !exists u :: u in dir.resets && dir.resets[u].token == token {
      return Err(InvalidResetToken);
    }
    var uid :| uid in dir.resets && dir.resets[uid].token == token;
    assert ResetHolder(dir.resets, token) == Some(uid);
    var check := ResetCheck(dir.resets[uid], newPassword, now);
    if check.Some? {
      return Err(check.value);
    }
    dir.ApplyReset(uid, encode(newPassword));
    r := Ok(());
  }

  /** A reset token works once: after a successful reset its record is used,
      so any later reset with it fails before the password is looked at. */
  lemma ResetSingleUse(rec: ResetToken, pw: string, now: Instant, pw2: string, later: Instant)
    requires ResetCheck(rec, pw, now).None?
    ensures ResetCheck(rec.(used := true), pw2, later) == Some(ResetTokenExpiredOrUsed)
  {
  }

  /** Issuing a reset replaces the user's previous token: the old token no
      longer names any record. */
  lemma ReissueRevokesOldToken(resets: map<Uuid, ResetToken>, uid: Uuid, token: string, now: Instant)
    requires UniqueResetTokens(resets) && uid in resets
    requires forall u :: u in resets ==> resets[u].token != token
    ensures UniqueResetTokens(resets[uid := IssuedReset(token, now)])
    ensures ResetHolder(resets[uid := IssuedReset(token, now)], resets[uid].token).None?
    ensures ResetHolder(resets[uid := IssuedReset(token, now)], token) == Some(uid)
  {
    var m := resets[uid := IssuedReset(token, now)];
    assert forall u :: u in m ==> m[u].token != resets[uid].token;
    assert m[uid].token == token;
  }

  /** The fresh record passes the token checks for an hour. */
  lemma IssuedResetUsableForAnHour(token: string, now: Instant, at: Instant, pw: string)
    requires now <= at <= now + RESET_LIFETIME
    ensures ResetCheck(IssuedReset(token, now), pw, at) == StrengthError(pw)
  {
  }
}

=== FILE: credentials.dfy ===
/** The credential rules the three clients of the bank share: password
    strength as the Android app (Kotlin), the web front end (TypeScript) and
    the backend (Java) each check it, password confirmation, and the e-mail
    shapes each accepts. */
module CredentialRules {
  import opened Wrappers
  import opened Text

  // ---------------------------------------------------------------------
  // Password strength
  // ---------------------------------------------------------------------

  const MIN_PASSWORD_LENGTH: nat := 8

  /** The special characters all three checks look for. */
  const SPECIALS: string := "!@#$%^&*(),.?\":{}|<>"

  const ISSUE_LENGTH: string := "Password must be at least 8 characters long"
  const ISSUE_UPPER: string := "Must include at least one uppercase letter"
  const ISSUE_NUMBER: string := "Must include at least one number"
  const ISSUE_SPECIAL: string := "Must include at least one special character"

  /** The result of a client-side strength check. */
  datatype Strength = Strength(score: nat, issues: seq<string>)

  predicate HasSpecial(p: string) { exists i :: 0 <= i < |p| && p[i] in SPECIALS }
  predicate HasAsciiUpper(p: string) { exists i :: 0 <= i < |p| && IsAsciiUpper(p[i]) }
  predicate HasAsciiDigit(p: string) { exists i :: 0 <= i < |p| && IsAsciiDigit(p[i]) }

  /** The report of the four criteria, each `true` when met: one point per
      met criterion, one issue per failed one, in the order length,
      upper-case letter, digit, special character. */
  function Report(longEnough: bool, upper: bool, digit: bool, special: bool): (r: Strength)
    ensures r.score <= 4 && r.score + |r.issues| == 4
    ensures r.score == 4 <==> longEnough && upper && digit && special
    ensures r.issues == (if longEnough then [] else [ISSUE_LENGTH]) + (if upper then [] else [ISSUE_UPPER])
                        + (if digit then [] else [ISSUE_NUMBER]) + (if special then [] else [ISSUE_SPECIAL])
  {
    var score := (if longEnough then 1 else 0) + (if upper then 1 else 0)
                 + (if digit then 1 else 0) + (if special then 1 else 0);
    Strength(score, (if longEnough then [] else [ISSUE_LENGTH]) + (if upper then [] else [ISSUE_UPPER])
                    + (if digit then [] else [ISSUE_NUMBER]) + (if special then [] else [ISSUE_SPECIAL]))
  }

  /** The four messages differ, so an issue names its criterion. */
  lemma IssuesNameTheirCriterion(longEnough: bool, upper: bool, digit: bool, special: bool)
    ensures ISSUE_LENGTH in Report(longEnough, upper, digit, special).issues <==> !longEnough
    ensures ISSUE_UPPER in Report(longEnough, upper, digit, special).issues <==> !upper
    ensures ISSUE_NUMBER in Report(longEnough, upper, digit, special).issues <==> !digit
    ensures ISSUE_SPECIAL in Report(longEnough, upper, digit, special).issues <==> !special
  {
    assert ISSUE_LENGTH != ISSUE_UPPER && ISSUE_LENGTH != ISSUE_NUMBER && ISSUE_LENGTH != ISSUE_SPECIAL;
    assert ISSUE_UPPER[26] == 'u' && ISSUE_NUMBER[26] == 'n' && ISSUE_SPECIAL[26] == 's';
  }

  /** `checkPasswordStrength` of the web front end: length in UTF-16 units,
      and the ASCII classes `[A-Z]` and `[0-9]`. */
  function TsStrength(p: string): (r: Strength)
    ensures r.score <= 4 && r.score + |r.issues| == 4
  {
    Report(Utf16Length(p) >= MIN_PASSWORD_LENGTH, HasAsciiUpper(p), HasAsciiDigit(p), HasSpecial(p))
  }

  /** Kotlin's `Char.isUpperCase` and `Char.isDigit` follow the Unicode
      tables, which are inputs here: a classification counts as Unicode-like
      when it agrees with the ASCII classes on ASCII characters. */
  predicate AsciiFaithful(isUpper: char -> bool, isDigit: char -> bool) {
    forall c :: IsAscii(c) ==> (isUpper(c) <==> IsAsciiUpper(c)) && (isDigit(c) <==> IsAsciiDigit(c))
  }

  predicate AnyChar(p: string, f: char -> bool) { exists i :: 0 <= i < |p| && f(p[i]) }

  /** `checkPasswordStrength` of the Android app. */
  function KotlinStrength(p: string, isUpper: char -> bool, isDigit: char -> bool): (r: Strength)
    ensures r.score <= 4 && r.score + |r.issues| == 4
  {
    Report(Utf16Length(p) >= MIN_PASSWORD_LENGTH, AnyChar(p, isUpper), AnyChar(p, isDigit), HasSpecial(p))
  }

  /** On a password of ASCII characters the Android and web checks agree. */
  lemma KotlinAgreesOnAscii(p: string, isUpper: char -> bool, isDigit: char -> bool)
    requires AsciiFaithful(isUpper, isDigit) && AllAscii(p)
    ensures KotlinStrength(p, isUpper, isDigit) == TsStrength(p)
  {
    assert AnyChar(p, isUpper) == HasAsciiUpper(p) by {
      if AnyChar(p, isUpper) {
        var i :| 0 <= i < |p| && isUpper(p[i]);
        assert IsAscii(p[i]);
      }
    }
    assert AnyChar(p, isDigit) == HasAsciiDigit(p) by {
      if AnyChar(p, isDigit) {
        var i :| 0 <= i < |p| && isDigit(p[i]);
        assert IsAscii(p[i]);
      }
    }
  }

  /** With a non-ASCII capital the two clients disagree: Unicode calls 'É'
      upper case, `[A-Z]` does not. */
  lemma NonAsciiCapitalDisagrees(isUpper: char -> bool, isDigit: char -> bool)
    requires AsciiFaithful(isUpper, isDigit) && isUpper('É')
    ensures KotlinStrength("Ébcdefg1!", isUpper, isDigit).score == 4
    ensures TsStrength("Ébcdefg1!").score == 3
  {
    var p := "Ébcdefg1!";
    CapitalSampleClasses();
    assert IsAscii(p[7]) && IsAsciiDigit(p[7]);
    assert AnyChar(p, isUpper) && AnyChar(p, isDigit) by {
      assert isUpper(p[0]) && isDigit(p[7]);
    }
  }

  /** The classes of the sample password: long enough, with a digit and a
      special character, and no character in `[A-Z]`. */
  lemma CapitalSampleClasses()
    ensures var p := "Ébcdefg1!";
            Utf16Length(p) >= MIN_PASSWORD_LENGTH && HasSpecial(p) && HasAsciiDigit(p) && !HasAsciiUpper(p)
  {
    var p := "Ébcdefg1!";
    assert AllAscii(p[1..]);
    assert IsAsciiDigit(p[7]) && p[8] in SPECIALS;
    assert !HasAsciiUpper(p) by {
      forall i | 0 <= i < |p| ensures !IsAsciiUpper(p[i]) { }
    }
  }

  /** How the backend's `validatePasswordStrength` rejects a password. */
  datatype PasswordError = TooShort | NoSpecial | NoNumber | NoUppercase

  /** `validatePasswordStrength`: the first failed check, in the order
      length, special character, number, upper-case letter. */
  function BackendStrength(p: string): (r: Option<PasswordError>)
    ensures r.None? <==>
      Utf16Length(p) >= MIN_PASSWORD_LENGTH && HasSpecial(p) && HasAsciiDigit(p) && HasAsciiUpper(p)
    ensures r == Some(NoSpecial) ==> Utf16Length(p) >= MIN_PASSWORD_LENGTH
    ensures r == Some(NoNumber) ==> Utf16Length(p) >= MIN_PASSWORD_LENGTH && HasSpecial(p)
    ensures r == Some(NoUppercase) ==> Utf16Length(p) >= MIN_PASSWORD_LENGTH && HasSpecial(p) && HasAsciiDigit(p)
  {
    if Utf16Length(p) < MIN_PASSWORD_LENGTH then Some(TooShort)
    else if !HasSpecial(p) then Some(NoSpecial)
    else if !HasAsciiDigit(p) then Some(NoNumber)
    else if !HasAsciiUpper(p) then Some(NoUppercase)
    else None
  }

  /** The message the backend throws. */
  function PasswordErrorMessage(e: PasswordError): string {
    match e
    case TooShort => "Password must be at least 8 characters long"
    case NoSpecial => "Password must contain at least one special character"
    case NoNumber => "Password must contain at least one number"
    case NoUppercase => "Password must contain at least one uppercase letter"
  }

  /** The web client shows full strength exactly for the passwords the
      backend accepts. */
  lemma WebAgreesWithBackend(p: string)
    ensures TsStrength(p).score == 4 <==> BackendStrength(p).None?
  {
  }

  // ---------------------------------------------------------------------
  // Confirmation, user names, e-mail
  // ---------------------------------------------------------------------

  /** `doPasswordsMatch`, in both clients: exact equality. */
  predicate PasswordsMatch(password: string, confirm: string) { password == confirm }

  /** `checkUsernameAvailability`: a name that is empty or shorter than three
      UTF-16 units is unavailable without asking the server; otherwise the
      answer is the server's status (`None` when the request fails), and
      only 200 means available. */
  function UsernameAvailable(username: string, status: Option<int>): (r: bool)
    ensures Utf16Length(username) < 3 ==> !r
    ensures r <==> Utf16Length(username) >= 3 && status == Some(200)
  {
    if username == [] || Utf16Length(username) < 3 then false
    else status == Some(200)
  }

  /** `[^\s@]+` for the given `\s` class. */
  predicate EmailPart(s: string, isSpace: char -> bool) {
    s != [] && forall i :: 0 <= i < |s| ==> s[i] != '@' && !isSpace(s[i])
  }

  /** `^[^\s@]+@[^\s@]+\.[^\s@]+$` matches `s`: some split into a local
      part, a domain and a suffix. */
  predicate EmailRegexMatches(s: string, isSpace: char -> bool) {
    exists at, dot :: 0 < at < dot < |s| - 1 && s[at] == '@' && s[dot] == '.'
      && EmailPart(s[..at], isSpace) && EmailPart(s[at + 1..dot], isSpace) && EmailPart(s[dot + 1..], isSpace)
  }

  /** The index of the first `c` in `s`, or `|s|`. */
  function Find(s: string, c: char): (k: nat)
    ensures k <= |s| && (k < |s| ==> s[k] == c) && forall i :: 0 <= i < k ==> s[i] != c
  {
    if s == [] || s[0] == c then 0 else Find(s[1..], c) + 1
  }

  /** The check written without search: no whitespace, exactly one '@'
      with text before it, and a '.' after it that is neither right after
      the '@' nor last. */
  function ValidEmailWith(s: string, isSpace: char -> bool): (r: bool)
  {
    var at := Find(s, '@');
    (forall i :: 0 <= i < |s| ==> !isSpace(s[i]))
    && 0 < at < |s|
    && (forall i :: at < i < |s| ==> s[i] != '@')
    && exists dot :: at + 1 < dot < |s| - 1 && s[dot] == '.'
  }

  /** The two formulations agree on every string. */
  lemma EmailCheckMatchesRegex(s: string, isSpace: char -> bool)
    requires !isSpace('@') && !isSpace('.')
    ensures ValidEmailWith(s, isSpace) <==> EmailRegexMatches(s, isSpace)
  {
    if ValidEmailWith(s, isSpace) {
      ValidEmailHasSplit(s, isSpace);
    }
    if EmailRegexMatches(s, isSpace) {
      var a, dot :| 0 < a < dot < |s| - 1 && s[a] == '@' && s[dot] == '.'
        && EmailPart(s[..a], isSpace) && EmailPart(s[a + 1..dot], isSpace) && EmailPart(s[dot + 1..], isSpace);
      SplitIsValidEmail(s, isSpace, a, dot);
    }
  }

  lemma ValidEmailHasSplit(s: string, isSpace: char -> bool)
    requires ValidEmailWith(s, isSpace)
    ensures EmailRegexMatches(s, isSpace)
  {
    var at := Find(s, '@');
    var dot :| at + 1 < dot < |s| - 1 && s[dot] == '.';
    assert EmailPart(s[..at], isSpace);
    assert EmailPart(s[at + 1..dot], isSpace);
    assert EmailPart(s[dot + 1..], isSpace);
  }

  lemma SplitIsValidEmail(s: string, isSpace: char -> bool, a: nat, dot: nat)
    requires !isSpace('@') && !isSpace('.')
    requires 0 < a < dot < |s| - 1 && s[a] == '@' && s[dot] == '.'
    requires EmailPart(s[..a], isSpace) && EmailPart(s[a + 1..dot], isSpace) && EmailPart(s[dot + 1..], isSpace)
    ensures ValidEmailWith(s, isSpace)
  {
    forall i | 0 <= i < |s| ensures !isSpace(s[i]) && (i != a ==> s[i] != '@') {
      if i < a {
        assert s[..a][i] == s[i];
      } else if a < i < dot {
        assert s[a + 1..dot][i - a - 1] == s[i];
      } else if dot < i {
        assert s[dot + 1..][i - dot - 1] == s[i];
      }
    }
    assert Find(s, '@') == a;
  }

  /** `isValidEmail` of the Android app: Java's `\s` class. */
  function KotlinValidEmail(s: string): bool { ValidEmailWith(s, IsJavaRegexSpace) }

  /** `isValidEmail` of the web front end: ECMAScript's `\s` class. */
  function TsValidEmail(s: string): bool { ValidEmailWith(s, IsJsRegexSpace) }

  predicate IsBackendLocalChar(c: char) {
    IsAsciiLetter(c) || IsAsciiDigit(c) || c == '+' || c == '_' || c == '.' || c == '-'
  }

  predicate IsBackendDomainChar(c: char) {
    IsAsciiLetter(c) || IsAsciiDigit(c) || c == '.' || c == '-'
  }

  /** The backend's `^[A-Za-z0-9+_.-]+@[A-Za-z0-9.-]+$`. */
  predicate BackendValidEmail(s: string) {
    var at := Find(s, '@');
    0 < at < |s| - 1
    && (forall i :: 0 <= i < at ==> IsBackendLocalChar(s[i]))
    && (forall i :: at < i < |s| ==> IsBackendDomainChar(s[i]))
  }

  /** The clients and the backend disagree on the shape of an address: the
      backend takes a domain without a dot, the clients take characters
      outside its classes. */
  lemma EmailRulesDiffer()
    ensures BackendValidEmail("a@b") && !KotlinValidEmail("a@b") && !TsValidEmail("a@b")
    ensures KotlinValidEmail("a!@b.c") && TsValidEmail("a!@b.c") && !BackendValidEmail("a!@b.c")
  {
    DotlessDomainIsBackendOnly();
    BangIsClientOnly(IsJavaRegexSpace);
    BangIsClientOnly(IsJsRegexSpace);
  }

  /** "a@b": the backend's pattern, but no dot after the '@'. */
  lemma DotlessDomainIsBackendOnly()
    ensures BackendValidEmail("a@b") && !KotlinValidEmail("a@b") && !TsValidEmail("a@b")
  {
    assert Find("a@b", '@') == 1;
  }

  /** "a!@b.c": '!' is outside the backend's local-part class, and neither
      `\s` class holds any of its characters. */
  lemma BangIsClientOnly(isSpace: char -> bool)
    requires isSpace == IsJavaRegexSpace || isSpace == IsJsRegexSpace
    ensures ValidEmailWith("a!@b.c", isSpace) && !BackendValidEmail("a!@b.c")
  {
    var s := "a!@b.c";
    assert Find(s, '@') == 2;
    assert s[4] == '.';
    assert !IsBackendLocalChar(s[1]);
    forall i | 0 <= i < |s| ensures !isSpace(s[i]) {
      assert s[i] in "a!@b.c";
    }
  }

  /** Whatever the backend accepts that has a dot after the '@' (not right
      after it, not last) the clients accept too. */
  lemma BackendWithDotIsClientValid(s: string, dot: nat)
    requires BackendValidEmail(s)
    requires Find(s, '@') + 1 < dot < |s| - 1 && s[dot] == '.'
    ensures KotlinValidEmail(s) && TsValidEmail(s)
  {
    BackendCharsAreNotSpace(s, IsJavaRegexSpace, dot);
    BackendCharsAreNotSpace(s, IsJsRegexSpace, dot);
  }

  /** A backend-valid address has no character that the `\s` class holds,
      when that class holds none of the backend's characters. */
  lemma BackendCharsAreNotSpace(s: string, isSpace: char -> bool, dot: nat)
    requires BackendValidEmail(s)
    requires Find(s, '@') + 1 < dot < |s| - 1 && s[dot] == '.'
    requires isSpace == IsJavaRegexSpace || isSpace == IsJsRegexSpace
    ensures ValidEmailWith(s, isSpace)
  {
    var at := Find(s, '@');
    forall i | 0 <= i < |s| ensures !isSpace(s[i]) {
      var c := s[i];
      if i < at {
        assert IsBackendLocalChar(c);
      } else if at < i {
        assert IsBackendDomainChar(c);
      }
      assert IsAsciiLetter(c) || IsAsciiDigit(c) || c == '+' || c == '_' || c == '.' || c == '-' || c == '@';
    }
  }
}

=== FILE: employees.dfy ===
/** Employee administration: the guard in front of making a user a teller,
    an employee's resignation (the employee becomes inactive and the user
    goes back to the customer role, all or nothing), and the employee list
    by role. */
module EmployeeService {
  import opened Wrappers
  import opened Text
  import opened UserDomain

  datatype EmployeeError =
    | NoSuchUser
    | AdminCannotBeTeller
    | EmployeeNotFound
    | AlreadyResigned
    | UserNotFound
    | RoleNotFound

  const ADMIN_ROLE: string := "ADMIN"
  const CUSTOMER_ROLE: string := "CUSTOMER"

  /** The guard of `createOrUpdateTeller`, run before the role update is
      delegated: the user must exist (`findById(..).get()` throws
      otherwise) and must not be an administrator, whatever the case of the
      stored role name. */
  function TellerGuard(users: map<Uuid, User>, userId: Uuid): (r: Option<EmployeeError>)
    ensures userId !in users <==> r == Some(NoSuchUser)
    ensures userId in users ==> (r.None? <==> !EqualsIgnoreCase(users[userId].roleName, ADMIN_ROLE))
    ensures r.Some? ==> r.value == NoSuchUser || r.value == AdminCannotBeTeller
  {
    if userId !in users then Some(NoSuchUser)
    else if EqualsIgnoreCase(users[userId].roleName, ADMIN_ROLE) then Some(AdminCannotBeTeller)
    else None
  }

  /** Every spelling of the administrator role is refused. */
  lemma TellerGuardRefusesAdmins(users: map<Uuid, User>, userId: Uuid)
    requires userId in users && users[userId].roleName in {"ADMIN", "admin", "Admin"}
    ensures TellerGuard(users, userId) == Some(AdminCannotBeTeller)
  {
    var n := users[userId].roleName;
    assert EqualsIgnoreCase(n, ADMIN_ROLE) by {
      assert |n| == 5;
      assert forall i :: 0 <= i < 5 ==> UpperChar(n[i]) == ADMIN_ROLE[i];
    }
  }

  /** The checks of `resignEmployee`, in order: the user has an employee
      record, it is still active, the user exists, and the customer role
      exists. On success, the role the user receives. */
  function ResignCheck(employees: map<Uuid, Employee>, users: map<Uuid, User>, roles: seq<string>, userId: Uuid)
    : (r: Result<string, EmployeeError>)
    ensures userId !in employees ==> r == Err(EmployeeNotFound)
    ensures userId in employees && employees[userId].status == INACTIVE ==> r == Err(AlreadyResigned)
    ensures r.Ok? <==>
      userId in employees && employees[userId].status.ACTIVE? && userId in users
      && FindRole(roles, CUSTOMER_ROLE).Some?
    ensures r.Ok? ==> r.value in roles && EqualsIgnoreCase(r.value, CUSTOMER_ROLE)
  {
    if userId !in employees then Err(EmployeeNotFound)
    else if employees[userId].status == INACTIVE then Err(AlreadyResigned)
    else if userId !in users then Err(UserNotFound)
    else match FindRole(roles, CUSTOMER_ROLE)
      case None => Err(RoleNotFound)
      case Some(role) => Ok(role)
  }

  /** A resigned employee: inactive since `now`; nothing else changes. */
  function Resigned(e: Employee, now: Instant): (f: Employee)
    ensures f.status == INACTIVE && f.resignationDate == Some(now) && f.roleName == e.roleName
  {
    e.(status := INACTIVE, resignationDate := Some(now))
  }

  /** A former employee: back to the customer role and no longer linked to
      an employee record; nothing else changes. */
  function Demoted(u: User, customerRole: string): (v: User)
    ensures v.roleName == customerRole && !v.hasEmployee
    ensures v.(roleName := u.roleName, hasEmployee := u.hasEmployee) == u
  {
    u.(roleName := customerRole, hasEmployee := false)
  }

  /** `resignEmployee`. It runs in one transaction: when the user or the
      customer role is missing, the status change already made is rolled
      back, so a failure changes nothing. */
  method ResignEmployee(dir: Directory, userId: Uuid, now: Instant) returns (r: Result<(), EmployeeError>)
    requires dir.Valid()
    modifies dir
    ensures dir.Valid()
    ensures dir.roles == old(dir.roles) && dir.sessions == old(dir.sessions)
    ensures dir.verifications == old(dir.verifications) && dir.resets == old(dir.resets)
    ensures match ResignCheck(old(dir.employees), old(dir.users), old(dir.roles), userId)
      case Err(e) => r == Err(e) && dir.employees == old(dir.employees) && dir.users == old(dir.users)
      case Ok(role) =>
        r == Ok(())
        && dir.employees == old(dir.employees)[userId := Resigned(old(dir.employees)[userId], now)]
        && dir.users == old(dir.users)[userId := Demoted(old(dir.users)[userId], role)]
  {
    var check := ResignCheck(dir.employees, dir.users, dir.roles, userId);
    if check.Err? {
      return Err(check.error);
    }
    ReplaceKeepsTable(dir.users, userId, Demoted(dir.users[userId], check.value));
    dir.employees := dir.employees[userId := Resigned(dir.employees[userId], now)];
    dir.users := dir.users[userId := Demoted(dir.users[userId], check.value)];
    r := Ok(());
  }

  /** An employee resigns once: after a resignation the same request fails. */
  lemma ResignOnce(employees: map<Uuid, Employee>, users: map<Uuid, User>, roles: seq<string>, userId: Uuid, now: Instant)
    requires ResignCheck(employees, users, roles, userId).Ok?
    ensures var role := ResignCheck(employees, users, roles, userId).value;
      ResignCheck(employees[userId := Resigned(employees[userId], now)],
                  users[userId := Demoted(users[userId], role)], roles, userId) == Err(AlreadyResigned)
  {
  }

  /** The rows `findByRole` returns: the employees holding the role, in
      stored order. */
  function WithRole(all: seq<Employee>, role: string): (r: seq<Employee>)
    ensures |r| <= |all|
    ensures forall i :: 0 <= i < |r| ==> r[i].roleName == role && r[i] in all
    ensures forall e :: e in all && e.roleName == role ==> e in r
  {
    if all == [] then []
    else (if all[0].roleName == role then [all[0]] else []) + WithRole(all[1..], role)
  }

  /** `findEmployeesByRoleName` over the stored employees `all`: no name, or a
      blank one, lists everybody; otherwise the role is looked up by the
      upper-cased name, and a missing role is an error. */
  function FindEmployeesByRoleName(all: seq<Employee>, roles: seq<string>, roleName: Option<string>)
    : (r: Result<seq<Employee>, EmployeeError>)
    ensures roleName.None? || IsBlank(roleName.value) ==> r == Ok(all)
    ensures roleName.Some? && HasText(roleName.value) ==>
      match FindRole(roles, ToUpper(roleName.value))
      case None => r == Err(RoleNotFound)
      case Some(role) =>
        r.Ok? && (forall i :: 0 <= i < |r.value| ==> r.value[i].roleName == role && r.value[i] in all)
        && (forall e :: e in all && e.roleName == role ==> e in r.value)
    ensures r.Err? ==> r.error == RoleNotFound
  {
    if roleName.None? || IsBlank(roleName.value) then Ok(all)
    else match FindRole(roles, ToUpper(roleName.value))
      case None => Err(RoleNotFound)
      case Some(role) => Ok(WithRole(all, role))
  }

  /** Two names equal ignoring case find the same role. */
  lemma {:induction false} FindRoleIgnoresCase(roles: seq<string>, a: string, b: string)
    requires EqualsIgnoreCase(a, b)
    ensures FindRole(roles, a) == FindRole(roles, b)
  {
    if roles != [] {
      EqualsIgnoreCaseSwap(roles[0], a, b);
      FindRoleIgnoresCase(roles[1..], a, b);
    }
  }

  lemma EqualsIgnoreCaseSwap(x: string, a: string, b: string)
    requires EqualsIgnoreCase(a, b)
    ensures EqualsIgnoreCase(x, a) <==> EqualsIgnoreCase(x, b)
  {
  }

  lemma ToUpperIgnoresCase(s: string)
    ensures EqualsIgnoreCase(ToUpper(s), s)
  {
  }

  /** The query ignores the case of the requested name: any spelling of a
      role's name lists the same employees. */
  lemma RoleQueryIgnoresCase(all: seq<Employee>, roles: seq<string>, a: string, b: string)
    requires EqualsIgnoreCase(a, b) && HasText(a) && HasText(b)
    ensures FindEmployeesByRoleName(all, roles, Some(a)) == FindEmployeesByRoleName(all, roles, Some(b))
  {
    ToUpperIgnoresCase(a);
    ToUpperIgnoresCase(b);
    assert EqualsIgnoreCase(ToUpper(a), ToUpper(b));
    FindRoleIgnoresCase(roles, ToUpper(a), ToUpper(b));
  }
}

=== FILE: idempotency.dfy ===
/** The replay cache in front of the wallet's payment calls. A client may send
    an idempotency key with a request. When the key is already stored with the
    same request digest and a response, that response is returned again and
    the payment is not created a second time. Otherwise the payment is
    created and its response stored under the key.

    The source runs the payment as a callback in the middle of one
    transactional call. Here the call is split at that point. `Decide` is
    what happens before the callback; `AfterComplete` is what happens after it.
    `WalletService.CreatePayment` runs the callback in between, at most once. */
module Idempotency {
  import opened Wrappers
  import opened Text

  type Instant = int

  /** A stored key: the digest of the request and the response, both
      nullable columns, and the time the key was first stored. */
  datatype IdemRecord<T> = IdemRecord(requestHash: Option<string>, response: Option<T>, createdAt: Option<Instant>)

  /** What the call does before the callback:
      - Bypass: no usable key, so run the callback and store nothing.
      - Replay: return the stored response and do not run the callback.
      - Miss: run the callback, then store the result under the key. */
  datatype Decision<T> = Bypass | Replay(response: T) | Miss(key: string)

  /** A usable key: present and not blank. */
  predicate UsableKey(key: Option<string>) {
    key.Some? && HasText(key.value)
  }

  /** The record written after a miss. The digest and the response are
      overwritten. The creation time is kept if the record already had one,
      and otherwise set to `now`. */
  function Recorded<T>(prior: Option<IdemRecord<T>>, hash: string, response: T, now: Instant): (r: IdemRecord<T>)
    ensures r.requestHash == Some(hash) && r.response == Some(response)
    ensures prior.Some? && prior.value.createdAt.Some? ==> r.createdAt == prior.value.createdAt
    ensures prior.None? || prior.value.createdAt.None? ==> r.createdAt == Some(now)
  {
    match prior
    case None => IdemRecord(Some(hash), Some(response), Some(now))
    case Some(rec) => rec.(requestHash := Some(hash), response := Some(response),
                           createdAt := if rec.createdAt.Some? then rec.createdAt else Some(now))
  }

  /** The key table. */
  class IdempotencyStore<T> {
    var records: map<string, IdemRecord<T>>

    constructor()
      ensures records == map[]
    {
      records := map[];
    }

    /** Saves the record `AfterComplete` describes. */
    method Complete(key: string, hash: string, response: T, now: Instant)
      modifies this
      ensures records == AfterComplete(old(records), key, hash, response, now)
    {
      var prior := if key in records then Some(records[key]) else None;
      records := records[key := Recorded(prior, hash, response, now)];
    }
  }

  /** The second half of `withIdempotency`, after a miss: the record for
      the key, new or reused, gets the digest and the response. */
  function AfterComplete<T>(records: map<string, IdemRecord<T>>, key: string, hash: string, response: T, now: Instant)
    : (r: map<string, IdemRecord<T>>)
    ensures r.Keys == records.Keys + {key}
    ensures forall k :: k in records && k != key ==> r[k] == records[k]
    ensures r[key].requestHash == Some(hash) && r[key].response == Some(response)
  {
    records[key := Recorded(if key in records then Some(records[key]) else None, hash, response, now)]
  }

  /** The first half of `withIdempotency`. `hash` is the digest of the
      request. A replay needs the stored digest to equal it and a stored
      response; in every other case with a usable key the call misses. */
  function Decide<T>(records: map<string, IdemRecord<T>>, key: Option<string>, hash: string): (d: Decision<T>)
    ensures !UsableKey(key) <==> d.Bypass?
    ensures d.Replay? <==>
      UsableKey(key) && key.value in records && records[key.value].requestHash == Some(hash)
      && records[key.value].response.Some?
    ensures d.Replay? ==> Some(d.response) == records[key.value].response
    ensures d.Miss? ==> d.key == key.value
  {
    if !UsableKey(key) then Bypass
    else if key.value in records && records[key.value].requestHash == Some(hash)
            && records[key.value].response.Some? then
      Replay(records[key.value].response.value)
    else Miss(key.value)
  }

  /** Round trip: after a miss is completed, the same key and request
      replay the stored response. */
  lemma CompletedKeyReplays<T>(records: map<string, IdemRecord<T>>, key: string, hash: string, response: T, now: Instant)
    requires HasText(key)
    ensures Decide(AfterComplete(records, key, hash, response, now), Some(key), hash) == Replay(response)
  {
  }

  /** The same key with a different request misses. Completing that miss
      replaces the stored response, so the first response is no longer
      replayed. */
  lemma DifferentRequestOverwrites<T>(records: map<string, IdemRecord<T>>, key: string, hash: string, other: string,
                                      first: T, second: T, now: Instant, later: Instant)
    requires HasText(key) && hash != other
    ensures Decide(AfterComplete(records, key, hash, first, now), Some(key), other) == Miss(key)
    ensures var again := AfterComplete(AfterComplete(records, key, hash, first, now), key, other, second, later);
      Decide(again, Some(key), other) == Replay(second)
      && again[key].createdAt == AfterComplete(records, key, hash, first, now)[key].createdAt
  {
  }

  /** A key's creation time never moves once it is set. */
  lemma CreatedAtKept<T>(records: map<string, IdemRecord<T>>, key: string, hash: string, response: T, now: Instant)
    requires key in records && records[key].createdAt.Some?
    ensures AfterComplete(records, key, hash, response, now)[key].createdAt == records[key].createdAt
  {
  }
}

=== FILE: kyc_auto_review.dfy ===
/** The automated review of KYC cases: claim a case, move it from PENDING to
    AUTO_REVIEW, send its four files to the ML service, store the returned
    checks, turn the ML decision into a status, degrade to UNDER_REVIEW on
    any failure, and release the claim. A batch runs this over the first
    fifty candidates. The ML service is the function `ml`; another worker's
    claim landing first is the flag `rivalClaimsFirst`. */
module KycAutoReview {
  import opened Wrappers
  import opened Text
  import opened KycStatuses
  import opened KycDomain
  import opened KycRepository
  import opened KycCaseService
  import opened MlKycClient

  /** The reviewer recorded on automated decisions: the all-zero UUID. */
  const SYSTEM_REVIEWER: Uuid := "00000000-0000-0000-0000-000000000000"

  /** Files above 6 MiB are not sent to the ML service. */
  const MAX_PAYLOAD_BYTES: nat := 6 * 1024 * 1024

  /** `PageRequest.of(0, 50)`: the size of one batch. */
  const BATCH_SIZE: nat := 50

  /** The file store: the content of every readable file, by UUID. A UUID
      that is not a key makes `read` throw. */
  type Files = map<Uuid, seq<bv8>>

  // ---------------------------------------------------------------------
  // Pure helpers
  // ---------------------------------------------------------------------

  /** `readB64`: the file named by `idText`, or `None` for a blank or
      malformed id, a file that cannot be read, an empty file or one larger
      than 6 MiB. It never fails. (The Base64 encoding is not modelled.) */
  function ReadPayload(files: Files, idText: string): (r: Option<seq<bv8>>)
    ensures r.Some? <==> (!IsBlank(idText) && ParseUuid(idText).Some? && ParseUuid(idText).value in files
                          && 0 < |files[ParseUuid(idText).value]| <= MAX_PAYLOAD_BYTES)
    ensures r.Some? ==> r.value == files[ParseUuid(idText).value]
  {
    if IsBlank(idText) then None
    else match ParseUuid(idText)
      case None => None
      case Some(id) =>
        if id !in files then None
        else if |files[id]| == 0 then None
        else if |files[id]| > MAX_PAYLOAD_BYTES then None
        else Some(files[id])
  }

  /** The aggregate request of a case: selfie, front, back and address proof
      in their fields, no portrait crop, and the case id as metadata. */
  function Request(c: KycCase, files: Files): (req: AggregateRequest)
    requires c.id.Some?
    ensures req.docPortraitImage.None? && req.meta == map["caseId" := c.id.value]
    ensures req.selfie == ReadPayload(files, c.selfieId) && req.docFrontImage == ReadPayload(files, c.docFrontId)
    ensures req.docBackImage == ReadPayload(files, c.docBackId)
    ensures req.addressProofImage == ReadPayload(files, c.addressId)
  {
    AggregateRequest(ReadPayload(files, c.selfieId), None, ReadPayload(files, c.docFrontId),
                     ReadPayload(files, c.docBackId), ReadPayload(files, c.addressId),
                     map["caseId" := c.id.value])
  }

  /** `safe`: a null message becomes empty text, and double quotes become
      apostrophes. */
  function Safe(message: Option<string>): (r: string)
    ensures '"' !in r
    ensures message.None? ==> r == ""
  {
    match message
    case None => ""
    case Some(m) => ReplaceChar(m, '"', "'")
  }

  /** The stored row of one returned check; absent details are stored as an
      empty JSON object. */
  function CheckRow(caseId: string, ch: Check, now: Instant): (k: KycCheck)
    ensures k.caseId == caseId && k.kind == ch.kind && k.score == ch.score && k.passed == ch.passed
    ensures k.detailsJson == ch.details.GetOr("{}")
  {
    KycCheck(caseId, ch.kind, ch.score, ch.passed, ch.details.GetOr("{}"), now)
  }

  /** The rows of all returned checks, in order. */
  function CheckRows(caseId: string, chs: seq<Check>, now: Instant): (rows: seq<KycCheck>)
    ensures |rows| == |chs|
    ensures forall i :: 0 <= i < |chs| ==> rows[i] == CheckRow(caseId, chs[i], now)
  {
    if chs == [] then []
    else CheckRows(caseId, chs[..|chs| - 1], now) + [CheckRow(caseId, chs[|chs| - 1], now)]
  }

  /** The row stored when scoring fails. */
  function ErrorRow(caseId: string, message: Option<string>, now: Instant): (k: KycCheck)
    ensures k.caseId == caseId && k.kind == "ERROR" && k.score == Some(0.0) && k.passed == Some(false)
  {
    KycCheck(caseId, "ERROR", Some(0.0), Some(false), "{\"error\":\"" + Safe(message) + "\"}", now)
  }

  /** The orchestrator's error row carries the same details object as the
      ML client's failed result for the same message. */
  lemma ErrorRowMatchesFailedResult(caseId: string, message: Option<string>, now: Instant)
    ensures ErrorRow(caseId, message, now).detailsJson == FailedResult(message).detailsJson
  {
  }

  /** The status write an ML outcome leads to. */
  datatype Verdict = DecideTo(target: KycStatus, reason: string) | MarkTo(status: KycStatus, note: string)

  /** The reasons as the service joins them: separated by ";", none when absent. */
  function JoinedReasons(body: AggregateResponse): string {
    Join(";", body.reasons.GetOr([]))
  }

  /** APPROVE approves with reason "auto_approved", REJECT rejects with the
      joined reasons, any other decision goes to manual review with the
      joined reasons as note; no body or no decision goes to manual review
      as "ml_response_empty", and a failed call as "ml_unavailable". */
  function VerdictOf(call: MlCall): Verdict {
    match call
    case Threw(_) => MarkTo(UNDER_REVIEW, "ml_unavailable")
    case Returned(res) =>
      if res.body.Some? && res.body.value.decision.Some? then
        var d := res.body.value.decision.value;
        if d == "APPROVE" then DecideTo(APPROVED, "auto_approved")
        else if d == "REJECT" then DecideTo(REJECTED, JoinedReasons(res.body.value))
        else MarkTo(UNDER_REVIEW, JoinedReasons(res.body.value))
      else MarkTo(UNDER_REVIEW, "ml_response_empty")
  }

  /** The check rows a call adds: one per returned check, or the single
      error row when the call failed. */
  function NewRows(caseId: string, call: MlCall, now: Instant): seq<KycCheck> {
    match call
    case Threw(m) => [ErrorRow(caseId, m, now)]
    case Returned(res) =>
      if res.body.Some? && res.body.value.checks.Some? then CheckRows(caseId, res.body.value.checks.value, now)
      else []
  }

  /** The case after the verdict is written, still claimed. */
  function Written(c: KycCase, call: MlCall, now: Instant): KycCase {
    match VerdictOf(call)
    case DecideTo(t, reason) => Decided(c, t, Some(reason), SYSTEM_REVIEWER, now)
    case MarkTo(s, note) => Marked(c, s, Some(note), now)
  }

  /** The case after the verdict is written and the claim released. */
  function Reviewed(c: KycCase, call: MlCall, now: Instant): KycCase {
    Written(c, call, now).(processing := false)
  }

  /** Statuses a run may start scoring from. */
  predicate Eligible(s: KycStatus) { s == PENDING || s == AUTO_REVIEW }

  /** A PENDING case is moved to AUTO_REVIEW, noted "Automation started",
      before it is scored. */
  function Staged(c: KycCase, now: Instant): (r: KycCase)
    requires c.status.Some?
    ensures r.status == Some(if c.status.value == PENDING then AUTO_REVIEW else c.status.value)
  {
    if c.status.value == PENDING then Marked(c, AUTO_REVIEW, Some("Automation started"), now) else c
  }

  /** Statuses an automated review ends in. */
  predicate Settled(c: KycCase) {
    c.status == Some(APPROVED) || c.status == Some(REJECTED) || c.status == Some(UNDER_REVIEW)
  }

  // ---------------------------------------------------------------------
  // One run
  // ---------------------------------------------------------------------

  datatype RunState = RunState(result: Result<KycCase, KycError>, cases: map<string, KycCase>, checks: seq<KycCheck>)

  /** What `run(caseId)` does to the cases and the check rows, and returns. */
  function RunSpec(cases: map<string, KycCase>, checks: seq<KycCheck>, files: Files, caseId: string,
                   rivalClaimsFirst: bool, ml: AggregateRequest -> MlCall, now: Instant): (s: RunState)
    requires ValidCases(cases)
    ensures ValidCases(s.cases)
  {
    if caseId !in cases then RunState(Err(CaseNotFound), cases, checks)
    else
      var c := cases[caseId];
      if !c.processing && rivalClaimsFirst then
        ClaimKeepsValid(cases, caseId);
        RunState(Ok(c), Claim(cases, caseId).1, checks)
      else if !Eligible(c.status.value) then
        var released := c.(processing := false, updatedAt := Some(now));
        ReleaseKeepsValid(cases, caseId, now);
        RunState(Ok(released), cases[caseId := released], checks)
      else
        var claimed := c.(processing := true);
        var call := ml(Request(claimed, files));
        var final := Reviewed(Staged(claimed, now), call, now);
        ScoreKeepsValid(cases, caseId, call, now);
        RunState(Ok(final), cases[caseId := final], checks + NewRows(caseId, call, now))
  }

  /** Releasing a case's claim keeps the table valid. */
  lemma ReleaseKeepsValid(cases: map<string, KycCase>, caseId: string, now: Instant)
    requires ValidCases(cases) && caseId in cases
    ensures ValidCases(cases[caseId := cases[caseId].(processing := false, updatedAt := Some(now))])
  {
    ReplaceKeepsValid(cases, caseId, cases[caseId].(processing := false, updatedAt := Some(now)));
  }

  /** Writing a scored verdict over an eligible case keeps the table valid:
      the verdict is never an active status. */
  lemma ScoreKeepsValid(cases: map<string, KycCase>, caseId: string, call: MlCall, now: Instant)
    requires ValidCases(cases) && caseId in cases && Eligible(cases[caseId].status.value)
    ensures ValidCases(cases[caseId := Reviewed(Staged(cases[caseId].(processing := true), now), call, now)])
  {
    var claimed := cases[caseId].(processing := true);
    var final := Reviewed(Staged(claimed, now), call, now);
    WrittenIsStamped(Staged(claimed, now), call, now);
    ReplaceKeepsValid(cases, caseId, final);
  }

  /** The check rows of the call, stored in order. */
  method AppendRows(store: KycStore, caseId: string, call: MlCall, now: Instant)
    modifies store
    ensures store.checks == old(store.checks) + NewRows(caseId, call, now)
    ensures store.cases == old(store.cases)
    ensures store.uploads == old(store.uploads) && store.idemKeys == old(store.idemKeys)
  {
    match call {
      case Threw(message) =>
        store.AppendCheck(ErrorRow(caseId, message, now));
      case Returned(res) =>
        if res.body.Some? && res.body.value.checks.Some? {
          var chs := res.body.value.checks.value;
          for i := 0 to |chs|
            invariant store.checks == old(store.checks) + CheckRows(caseId, chs[..i], now)
            invariant store.cases == old(store.cases)
            invariant store.uploads == old(store.uploads) && store.idemKeys == old(store.idemKeys)
          {
            store.AppendCheck(CheckRow(caseId, chs[i], now));
            assert chs[..i + 1][..i] == chs[..i];
          }
          assert chs[..|chs|] == chs;
        }
    }
  }

  /** The status write of the verdict on a case in AUTO_REVIEW: a decision
      through `decide`, anything else through `markStatus`. */
  method WriteVerdict(store: KycStore, caseId: string, call: MlCall, now: Instant)
    requires store.Valid() && caseId in store.cases && store.cases[caseId].status == Some(AUTO_REVIEW)
    modifies store
    ensures store.Valid()
    ensures store.cases == old(store.cases)[caseId := Written(old(store.cases)[caseId], call, now)]
    ensures store.checks == old(store.checks)
    ensures store.uploads == old(store.uploads) && store.idemKeys == old(store.idemKeys)
  {
    match call {
      case Threw(_) =>
        var marked := MarkStatus(store, caseId, UNDER_REVIEW, Some("ml_unavailable"), now);
      case Returned(res) =>
        if res.body.Some? && res.body.value.decision.Some? {
          var d := res.body.value.decision.value;
          var reasons := Join(";", res.body.value.reasons.GetOr([]));
          if d == "APPROVE" {
            var decided := Decide(store, caseId, APPROVED, Some("auto_approved"), SYSTEM_REVIEWER, now);
          } else if d == "REJECT" {
            var decided := Decide(store, caseId, REJECTED, Some(reasons), SYSTEM_REVIEWER, now);
          } else {
            var marked := MarkStatus(store, caseId, UNDER_REVIEW, Some(reasons), now);
          }
        } else {
          var marked := MarkStatus(store, caseId, UNDER_REVIEW, Some("ml_response_empty"), now);
        }
    }
  }

  /** The first step of scoring: a PENDING case is marked AUTO_REVIEW. */
  method Stage(store: KycStore, caseId: string, now: Instant)
    requires store.Valid() && caseId in store.cases && Eligible(store.cases[caseId].status.value)
    modifies store
    ensures store.Valid()
    ensures store.cases == old(store.cases)[caseId := Staged(old(store.cases)[caseId], now)]
    ensures store.checks == old(store.checks)
    ensures store.uploads == old(store.uploads) && store.idemKeys == old(store.idemKeys)
  {
    var c := store.cases[caseId];
    if c.status.value == PENDING {
      var marked := MarkStatus(store, caseId, AUTO_REVIEW, Some("Automation started"), now);
    }
  }

  /** The `finally` step of scoring: the reloaded case, stamped now by the
      verdict, is saved with the claim released. */
  method Release(store: KycStore, caseId: string, now: Instant) returns (released: KycCase)
    requires store.Valid() && caseId in store.cases && store.cases[caseId].updatedAt == Some(now)
    modifies store
    ensures store.Valid()
    ensures released == old(store.cases)[caseId].(processing := false)
    ensures store.cases == old(store.cases)[caseId := released]
    ensures store.checks == old(store.checks)
    ensures store.uploads == old(store.uploads) && store.idemKeys == old(store.idemKeys)
  {
    var k := store.cases[caseId];
    PersistedUpdateAtNow(store.cases, k.(processing := false), "", now);
    released := store.Save(k.(processing := false), "", now);
  }

  /** The scoring part of `run` on a claimed case in PENDING or
      AUTO_REVIEW: stage it, score it, store the rows, write the verdict,
      and release the claim. */
  method Score(store: KycStore, files: Files, caseId: string, ml: AggregateRequest -> MlCall, now: Instant)
    returns (r: Result<KycCase, KycError>)
    requires store.Valid() && caseId in store.cases
    requires store.cases[caseId].processing && Eligible(store.cases[caseId].status.value)
    modifies store
    ensures store.Valid()
    ensures store.uploads == old(store.uploads) && store.idemKeys == old(store.idemKeys)
    ensures var c := old(store.cases)[caseId];
            var call := ml(Request(c, files));
            r == Ok(Reviewed(Staged(c, now), call, now))
            && store.cases == old(store.cases)[caseId := r.value]
            && store.checks == old(store.checks) + NewRows(caseId, call, now)
  {
    var c := store.cases[caseId];
    Stage(store, caseId, now);
    var call := ml(Request(c, files));
    AppendRows(store, caseId, call, now);
    WriteVerdict(store, caseId, call, now);
    WrittenIsStamped(Staged(c, now), call, now);
    var released := Release(store, caseId, now);
    r := Ok(released);
  }

  /** Writing a verdict stamps the case with `now` and keeps its id. */
  lemma WrittenIsStamped(c: KycCase, call: MlCall, now: Instant)
    ensures Written(c, call, now).updatedAt == Some(now) && Written(c, call, now).id == c.id
  {
  }

  /** `run`. */
  method Run(store: KycStore, files: Files, caseId: string, rivalClaimsFirst: bool,
             ml: AggregateRequest -> MlCall, now: Instant) returns (r: Result<KycCase, KycError>)
    requires store.Valid()
    modifies store
    ensures store.Valid()
    ensures store.uploads == old(store.uploads) && store.idemKeys == old(store.idemKeys)
    ensures RunState(r, store.cases, store.checks)
            == RunSpec(old(store.cases), old(store.checks), files, caseId, rivalClaimsFirst, ml, now)
  {
    if caseId !in store.cases {
      return Err(CaseNotFound);
    }
    var c := store.cases[caseId];
    if !c.processing {
      if rivalClaimsFirst {
        var rivalAnswer := store.TryMarkProcessing(caseId);
      }
      var n := store.TryMarkProcessing(caseId);
      if n != 1 {
        RunSpecLost(old(store.cases), old(store.checks), files, caseId, rivalClaimsFirst, ml, now);
        return Ok(c);
      }
      c := c.(processing := true);
    }
    assert store.cases == old(store.cases)[caseId := c] && store.checks == old(store.checks);
    var status := c.status.value;
    if status != PENDING && status != AUTO_REVIEW {
      var released := store.Save(c.(processing := false), "", now);
      RunSpecReleased(old(store.cases), old(store.checks), files, caseId, rivalClaimsFirst, ml, now);
      return Ok(released);
    }
    r := Score(store, files, caseId, ml, now);
    RunSpecScored(old(store.cases), old(store.checks), files, caseId, rivalClaimsFirst, ml, now);
    UpdateTwice(old(store.cases), caseId, c, r.value);
  }

  /** A second write to the same key hides the first. */
  lemma UpdateTwice(m: map<string, KycCase>, k: string, first: KycCase, second: KycCase)
    ensures m[k := first][k := second] == m[k := second]
  {
  }

  /** `RunSpec` when the rival's claim wins. */
  lemma RunSpecLost(cases: map<string, KycCase>, checks: seq<KycCheck>, files: Files, caseId: string,
                    rival: bool, ml: AggregateRequest -> MlCall, now: Instant)
    requires ValidCases(cases) && caseId in cases && !cases[caseId].processing && rival
    ensures RunSpec(cases, checks, files, caseId, rival, ml, now)
            == RunState(Ok(cases[caseId]), Claim(Claim(cases, caseId).1, caseId).1, checks)
  {
  }

  /** `RunSpec` on a case that may not be scored: the claim is released. */
  lemma RunSpecReleased(cases: map<string, KycCase>, checks: seq<KycCheck>, files: Files, caseId: string,
                        rival: bool, ml: AggregateRequest -> MlCall, now: Instant)
    requires ValidCases(cases) && caseId in cases && (cases[caseId].processing || !rival)
    requires !Eligible(cases[caseId].status.value)
    ensures var c := cases[caseId].(processing := true);
            var released := Persisted(cases[caseId := c], c.(processing := false), "", now);
            RunSpec(cases, checks, files, caseId, rival, ml, now)
            == RunState(Ok(released), cases[caseId := c][caseId := released], checks)
  {
  }

  /** `RunSpec` on a case that is scored. */
  lemma RunSpecScored(cases: map<string, KycCase>, checks: seq<KycCheck>, files: Files, caseId: string,
                      rival: bool, ml: AggregateRequest -> MlCall, now: Instant)
    requires ValidCases(cases) && caseId in cases && (cases[caseId].processing || !rival)
    requires Eligible(cases[caseId].status.value)
    ensures var c := cases[caseId].(processing := true);
            var call := ml(Request(c, files));
            var final := Reviewed(Staged(c, now), call, now);
            RunSpec(cases, checks, files, caseId, rival, ml, now)
            == RunState(Ok(final), cases[caseId := final], checks + NewRows(caseId, call, now))
  {
  }

  // ---------------------------------------------------------------------
  // The batch
  // ---------------------------------------------------------------------

  /** The first page of the candidate query. */
  function BatchOf(found: seq<string>): (batch: seq<string>)
    ensures |batch| <= BATCH_SIZE && batch <= found
    ensures |found| <= BATCH_SIZE ==> batch == found
  {
    if |found| <= BATCH_SIZE then found else found[..BATCH_SIZE]
  }

  /** One candidate of the batch: the batch's own claim, then `run` on the
      claimed case. A candidate whose claim fails is skipped. */
  function StepSpec(cases: map<string, KycCase>, checks: seq<KycCheck>, files: Files, id: string,
                    ml: AggregateRequest -> MlCall, now: Instant): (r: (map<string, KycCase>, seq<KycCheck>))
    requires ValidCases(cases)
    ensures ValidCases(r.0)
  {
    var cl := Claim(cases, id);
    if cl.0 == 1 then
      ClaimKeepsValid(cases, id);
      var s := RunSpec(cl.1, checks, files, id, false, ml, now);
      (s.cases, s.checks)
    else (cases, checks)
  }

  /** The candidates taken one after the other, in order. */
  function BatchSpec(cases: map<string, KycCase>, checks: seq<KycCheck>, files: Files, ids: seq<string>,
                     ml: AggregateRequest -> MlCall, now: Instant): (r: (map<string, KycCase>, seq<KycCheck>))
    requires ValidCases(cases)
    ensures ValidCases(r.0)
    decreases |ids|
  {
    if ids == [] then (cases, checks)
    else
      var p := BatchSpec(cases, checks, files, ids[..|ids| - 1], ml, now);
      StepSpec(p.0, p.1, files, ids[|ids| - 1], ml, now)
  }

  /** `runBatch`; `found` is what the candidate query returns for PENDING. */
  method RunBatch(store: KycStore, files: Files, found: seq<string>, ml: AggregateRequest -> MlCall, now: Instant)
    requires store.Valid()
    modifies store
    ensures store.Valid()
    ensures store.uploads == old(store.uploads) && store.idemKeys == old(store.idemKeys)
    ensures (store.cases, store.checks) == BatchSpec(old(store.cases), old(store.checks), files, BatchOf(found), ml, now)
  {
    var batch := BatchOf(found);
    for i := 0 to |batch|
      invariant store.Valid()
      invariant store.uploads == old(store.uploads) && store.idemKeys == old(store.idemKeys)
      invariant (store.cases, store.checks) == BatchSpec(old(store.cases), old(store.checks), files, batch[..i], ml, now)
    {
      assert batch[..i + 1] == batch[..i] + [batch[i]];
      BatchSpecSnoc(old(store.cases), old(store.checks), files, batch[..i], batch[i], ml, now);
      Step(store, files, batch[i], ml, now);
    }
    assert batch[..|batch|] == batch;
  }

  /** A batch with one more candidate is one more step. */
  lemma BatchSpecSnoc(cases: map<string, KycCase>, checks: seq<KycCheck>, files: Files, ids: seq<string>, id: string,
                      ml: AggregateRequest -> MlCall, now: Instant)
    requires ValidCases(cases)
    ensures var p := BatchSpec(cases, checks, files, ids, ml, now);
            BatchSpec(cases, checks, files, ids + [id], ml, now) == StepSpec(p.0, p.1, files, id, ml, now)
  {
    assert (ids + [id])[..|ids|] == ids;
  }

  /** One candidate of `runBatch`: the claim, then `run` when it succeeds. */
  method Step(store: KycStore, files: Files, id: string, ml: AggregateRequest -> MlCall, now: Instant)
    requires store.Valid()
    modifies store
    ensures store.Valid()
    ensures store.uploads == old(store.uploads) && store.idemKeys == old(store.idemKeys)
    ensures (store.cases, store.checks) == StepSpec(old(store.cases), old(store.checks), files, id, ml, now)
  {
    var n := store.TryMarkProcessing(id);
    if n == 1 {
      // `run` cannot fail on a case that was just claimed (RunOutcome),
      // so the status mark of the source's catch block is never reached.
      var r := Run(store, files, id, false, ml, now);
    }
  }

  // ---------------------------------------------------------------------
  // Properties of a review
  // ---------------------------------------------------------------------

  /** The decision the service returned, if it returned one. */
  function DecisionOf(call: MlCall): Option<string> {
    if call.Returned? && call.result.body.Some? then call.result.body.value.decision else None
  }

  /** A review ends in APPROVED, REJECTED or UNDER_REVIEW, reached from
      AUTO_REVIEW by a legal transition, with the claim released and the
      case stamped now. */
  lemma ReviewSettles(c: KycCase, call: MlCall, now: Instant)
    ensures Settled(Reviewed(c, call, now))
    ensures CanTransitionTo(AUTO_REVIEW, Reviewed(c, call, now).status.value)
    ensures !Reviewed(c, call, now).processing && Reviewed(c, call, now).updatedAt == Some(now)
  {
  }

  /** The case is approved exactly when the service answered APPROVE, and
      then by the system reviewer with reason "auto_approved". */
  lemma ApprovedIffApprove(c: KycCase, call: MlCall, now: Instant)
    ensures Reviewed(c, call, now).status == Some(APPROVED) <==> DecisionOf(call) == Some("APPROVE")
    ensures DecisionOf(call) == Some("APPROVE") ==>
              Reviewed(c, call, now).decisionReason == Some("auto_approved")
              && Reviewed(c, call, now).reviewedBy == Some(SYSTEM_REVIEWER)
              && Reviewed(c, call, now).decidedAt == Some(now)
  {
    match call
    case Threw(_) =>
    case Returned(res) =>
      if res.body.Some? && res.body.value.decision.Some? {
        var d := res.body.value.decision.value;
        if d == "APPROVE" {
        } else if d == "REJECT" {
        } else {
          assert VerdictOf(call) == MarkTo(UNDER_REVIEW, JoinedReasons(res.body.value));
        }
      }
  }

  /** The case is rejected exactly when the service answered REJECT, and the
      reason is the service's reasons joined by ";". */
  lemma RejectedIffReject(c: KycCase, call: MlCall, now: Instant)
    ensures Reviewed(c, call, now).status == Some(REJECTED) <==> DecisionOf(call) == Some("REJECT")
    ensures DecisionOf(call) == Some("REJECT") ==>
              Reviewed(c, call, now).decisionReason == Some(JoinedReasons(call.result.body.value))
              && Reviewed(c, call, now).reviewedBy == Some(SYSTEM_REVIEWER)
  {
    match call
    case Threw(_) =>
    case Returned(res) =>
      if res.body.Some? && res.body.value.decision.Some? {
        var d := res.body.value.decision.value;
        if d == "APPROVE" {
        } else if d == "REJECT" {
        } else {
          assert VerdictOf(call) == MarkTo(UNDER_REVIEW, JoinedReasons(res.body.value));
        }
      }
  }

  /** A failed call never decides: the case goes to manual review noted
      "ml_unavailable", its decision fields stay as they were, and exactly
      one ERROR row with score 0 and passed false is stored. */
  lemma MlFailureDegrades(caseId: string, c: KycCase, call: MlCall, now: Instant)
    requires call.Threw?
    ensures Reviewed(c, call, now).status == Some(UNDER_REVIEW)
    ensures Reviewed(c, call, now).reviewerNotes == Some("ml_unavailable")
    ensures Reviewed(c, call, now).decisionReason == c.decisionReason
    ensures Reviewed(c, call, now).reviewedBy == c.reviewedBy && Reviewed(c, call, now).decidedAt == c.decidedAt
    ensures NewRows(caseId, call, now) == [ErrorRow(caseId, call.message, now)]
    ensures NewRows(caseId, call, now)[0].kind == "ERROR" && NewRows(caseId, call, now)[0].passed == Some(false)
  {
    assert !IsJavaWhitespace("ml_unavailable"[0]);
  }

  /** An answer without a body or without a decision goes to manual review
      noted "ml_response_empty"; an unknown decision goes to manual review
      too. Neither touches the decision fields. */
  lemma UndecidedGoesToManualReview(c: KycCase, call: MlCall, now: Instant)
    requires call.Returned?
    requires DecisionOf(call) != Some("APPROVE") && DecisionOf(call) != Some("REJECT")
    ensures Reviewed(c, call, now).status == Some(UNDER_REVIEW)
    ensures DecisionOf(call).None? ==> Reviewed(c, call, now).reviewerNotes == Some("ml_response_empty")
    ensures Reviewed(c, call, now).decisionReason == c.decisionReason
    ensures Reviewed(c, call, now).reviewedBy == c.reviewedBy
  {
    assert !IsJavaWhitespace("ml_response_empty"[0]);
  }

  /** Every returned check is stored, failing ones included, in order, as a
      row of the reviewed case. */
  lemma RowsAreTheReturnedChecks(caseId: string, call: MlCall, now: Instant)
    requires call.Returned? && call.result.body.Some? && call.result.body.value.checks.Some?
    ensures var chs := call.result.body.value.checks.value;
            |NewRows(caseId, call, now)| == |chs|
            && forall i :: 0 <= i < |chs| ==>
                 NewRows(caseId, call, now)[i].caseId == caseId
                 && NewRows(caseId, call, now)[i].kind == chs[i].kind
                 && NewRows(caseId, call, now)[i].passed == chs[i].passed
                 && NewRows(caseId, call, now)[i].score == chs[i].score
  {
  }

  /** Every row a call adds belongs to its case. */
  lemma NewRowsOfCase(caseId: string, call: MlCall, now: Instant)
    ensures forall i :: 0 <= i < |NewRows(caseId, call, now)| ==> NewRows(caseId, call, now)[i].caseId == caseId
  {
  }

  // ---------------------------------------------------------------------
  // Properties of one run
  // ---------------------------------------------------------------------

  /** `run` fails only for an unknown case; it touches no other case, and
      the rows it adds belong to its case. */
  lemma RunFrame(cases: map<string, KycCase>, checks: seq<KycCheck>, files: Files, caseId: string,
                 rival: bool, ml: AggregateRequest -> MlCall, now: Instant)
    requires ValidCases(cases)
    ensures var s := RunSpec(cases, checks, files, caseId, rival, ml, now);
            (s.result.Ok? <==> caseId in cases)
            && s.cases.Keys == cases.Keys
            && (forall k :: k in cases && k != caseId ==> s.cases[k] == cases[k])
            && checks <= s.checks
            && (forall i :: |checks| <= i < |s.checks| ==> s.checks[i].caseId == caseId)
  {
    if caseId in cases {
      var c := cases[caseId];
      var s := RunSpec(cases, checks, files, caseId, rival, ml, now);
      if !c.processing && rival {
        assert s.cases == cases[caseId := c.(processing := true)];
      } else if !Eligible(c.status.value) {
        RunSpecReleased(cases, checks, files, caseId, rival, ml, now);
      } else {
        RunSpecScored(cases, checks, files, caseId, rival, ml, now);
        NewRowsOfCase(caseId, ml(Request(c.(processing := true), files)), now);
      }
      OneKeyWritten(cases, s.cases, caseId);
    }
  }

  /** A table that differs from another at most in one present key has the
      same keys and the same rows elsewhere. */
  lemma OneKeyWritten(before: map<string, KycCase>, after: map<string, KycCase>, k: string)
    requires k in before && k in after && after == before[k := after[k]]
    ensures after.Keys == before.Keys
    ensures forall j :: j in before && j != k ==> after[j] == before[j]
  {
  }

  /** A run that loses the race for the claim returns the case as it loaded
      it and stores nothing; the rival holds the claim. */
  lemma RunLosesRace(cases: map<string, KycCase>, checks: seq<KycCheck>, files: Files, caseId: string,
                     ml: AggregateRequest -> MlCall, now: Instant)
    requires ValidCases(cases) && caseId in cases && !cases[caseId].processing
    ensures var s := RunSpec(cases, checks, files, caseId, true, ml, now);
            s.result == Ok(cases[caseId]) && s.checks == checks
            && s.cases[caseId] == cases[caseId].(processing := true)
  {
  }

  /** Any other run on a stored case releases the claim and returns the row
      as it saved it. A case that is not PENDING or AUTO_REVIEW keeps its
      status and gets no rows; one that is ends settled, through legal
      transitions. */
  lemma RunOutcome(cases: map<string, KycCase>, checks: seq<KycCheck>, files: Files, caseId: string,
                   rival: bool, ml: AggregateRequest -> MlCall, now: Instant)
    requires ValidCases(cases) && caseId in cases
    requires cases[caseId].processing || !rival
    ensures var s := RunSpec(cases, checks, files, caseId, rival, ml, now);
            s.result == Ok(s.cases[caseId]) && !s.cases[caseId].processing
            && s.cases[caseId].updatedAt == Some(now)
            && (!Eligible(cases[caseId].status.value) ==>
                  s.cases[caseId].status == cases[caseId].status && s.checks == checks)
            && (Eligible(cases[caseId].status.value) ==>
                  Settled(s.cases[caseId]) && CanTransitionTo(AUTO_REVIEW, s.cases[caseId].status.value))
  {
    var c := cases[caseId];
    if Eligible(c.status.value) {
      var claimed := c.(processing := true);
      ReviewSettles(Staged(claimed, now), ml(Request(claimed, files)), now);
    }
  }

  // ---------------------------------------------------------------------
  // Properties of a batch
  // ---------------------------------------------------------------------

  /** One candidate's step touches only that candidate and its rows. */
  lemma StepFrame(cases: map<string, KycCase>, checks: seq<KycCheck>, files: Files, id: string,
                  ml: AggregateRequest -> MlCall, now: Instant)
    requires ValidCases(cases)
    ensures var r := StepSpec(cases, checks, files, id, ml, now);
            r.0.Keys == cases.Keys
            && (forall k :: k in cases && k != id ==> r.0[k] == cases[k])
            && checks <= r.1
            && (forall i :: |checks| <= i < |r.1| ==> r.1[i].caseId == id)
  {
    var cl := Claim(cases, id);
    if cl.0 == 1 {
      ClaimKeepsValid(cases, id);
      RunFrame(cl.1, checks, files, id, false, ml, now);
    }
  }

  /** A step never leaves a claim behind: a case it finds unclaimed it
      leaves unclaimed. */
  lemma StepReleases(cases: map<string, KycCase>, checks: seq<KycCheck>, files: Files, id: string,
                     ml: AggregateRequest -> MlCall, now: Instant)
    requires ValidCases(cases)
    ensures forall k :: k in cases && !cases[k].processing ==>
              k in StepSpec(cases, checks, files, id, ml, now).0
              && !StepSpec(cases, checks, files, id, ml, now).0[k].processing
  {
    StepFrame(cases, checks, files, id, ml, now);
    var cl := Claim(cases, id);
    if cl.0 == 1 {
      ClaimKeepsValid(cases, id);
      RunOutcome(cl.1, checks, files, id, false, ml, now);
    }
  }

  /** A step settles an unclaimed PENDING or AUTO_REVIEW candidate, and a
      settled candidate stays settled. */
  lemma StepSettles(cases: map<string, KycCase>, checks: seq<KycCheck>, files: Files, id: string,
                    ml: AggregateRequest -> MlCall, now: Instant)
    requires ValidCases(cases) && id in cases
    requires (!cases[id].processing && Eligible(cases[id].status.value)) || Settled(cases[id])
    ensures id in StepSpec(cases, checks, files, id, ml, now).0
    ensures Settled(StepSpec(cases, checks, files, id, ml, now).0[id])
  {
    var cl := Claim(cases, id);
    if cl.0 == 1 {
      ClaimKeepsValid(cases, id);
      RunOutcome(cl.1, checks, files, id, false, ml, now);
    }
  }

  /** A settled case stays settled through a step. */
  lemma StepKeepsSettled(cases: map<string, KycCase>, checks: seq<KycCheck>, files: Files, id: string,
                         ml: AggregateRequest -> MlCall, now: Instant)
    requires ValidCases(cases)
    ensures forall k :: k in cases && Settled(cases[k]) ==>
              k in StepSpec(cases, checks, files, id, ml, now).0
              && Settled(StepSpec(cases, checks, files, id, ml, now).0[k])
  {
    StepFrame(cases, checks, files, id, ml, now);
    if id in cases && Settled(cases[id]) {
      StepSettles(cases, checks, files, id, ml, now);
    }
  }

  /** A batch touches only its candidates, and the rows it adds belong to
      them. */
  lemma {:induction false} BatchFrame(cases: map<string, KycCase>, checks: seq<KycCheck>, files: Files,
                                      ids: seq<string>, ml: AggregateRequest -> MlCall, now: Instant)
    requires ValidCases(cases)
    ensures var r := BatchSpec(cases, checks, files, ids, ml, now);
            r.0.Keys == cases.Keys
            && (forall k :: k in cases && k !in ids ==> r.0[k] == cases[k])
            && checks <= r.1
            && (forall i :: |checks| <= i < |r.1| ==> r.1[i].caseId in ids)
    decreases |ids|
  {
    if ids != [] {
      var p := ids[..|ids| - 1];
      BatchFrame(cases, checks, files, p, ml, now);
      var mid := BatchSpec(cases, checks, files, p, ml, now);
      StepFrame(mid.0, mid.1, files, ids[|ids| - 1], ml, now);
      assert forall k :: k in p ==> k in ids;
      assert ids == p + [ids[|ids| - 1]];
    }
  }

  /** The check rows of a case outside the batch are not touched. */
  lemma BatchKeepsOtherChecks(cases: map<string, KycCase>, checks: seq<KycCheck>, files: Files,
                              ids: seq<string>, ml: AggregateRequest -> MlCall, now: Instant, k: string)
    requires ValidCases(cases) && k !in ids
    ensures ChecksOf(BatchSpec(cases, checks, files, ids, ml, now).1, k) == ChecksOf(checks, k)
  {
    BatchFrame(cases, checks, files, ids, ml, now);
    var after := BatchSpec(cases, checks, files, ids, ml, now).1;
    var extra := after[|checks|..];
    assert after == checks + extra;
    ChecksOfAppend(checks, extra, k);
    ChecksOfAbsent(extra, k);
  }

  /** A batch leaves no claim behind. */
  lemma {:induction false} BatchReleases(cases: map<string, KycCase>, checks: seq<KycCheck>, files: Files,
                                         ids: seq<string>, ml: AggregateRequest -> MlCall, now: Instant)
    requires ValidCases(cases)
    ensures forall k :: k in cases && !cases[k].processing ==>
              k in BatchSpec(cases, checks, files, ids, ml, now).0
              && !BatchSpec(cases, checks, files, ids, ml, now).0[k].processing
    decreases |ids|
  {
    if ids != [] {
      var p := ids[..|ids| - 1];
      BatchReleases(cases, checks, files, p, ml, now);
      var mid := BatchSpec(cases, checks, files, p, ml, now);
      StepReleases(mid.0, mid.1, files, ids[|ids| - 1], ml, now);
    }
  }

  /** Every candidate of the batch that was unclaimed and PENDING or
      AUTO_REVIEW ends APPROVED, REJECTED or UNDER_REVIEW, whatever the ML
      service answers and however often it appears in the batch. */
  lemma {:induction false} BatchSettles(cases: map<string, KycCase>, checks: seq<KycCheck>, files: Files,
                                        ids: seq<string>, ml: AggregateRequest -> MlCall, now: Instant)
    requires ValidCases(cases)
    ensures forall k :: k in ids && k in cases && !cases[k].processing && Eligible(cases[k].status.value) ==>
              k in BatchSpec(cases, checks, files, ids, ml, now).0
              && Settled(BatchSpec(cases, checks, files, ids, ml, now).0[k])
    decreases |ids|
  {
    if ids != [] {
      var p := ids[..|ids| - 1];
      var x := ids[|ids| - 1];
      BatchSettles(cases, checks, files, p, ml, now);
      BatchFrame(cases, checks, files, p, ml, now);
      var mid := BatchSpec(cases, checks, files, p, ml, now);
      StepFrame(mid.0, mid.1, files, x, ml, now);
      assert BatchSpec(cases, checks, files, ids, ml, now) == StepSpec(mid.0, mid.1, files, x, ml, now);
      StepKeepsSettled(mid.0, mid.1, files, x, ml, now);
      if x in cases && !cases[x].processing && Eligible(cases[x].status.value) && x !in p {
        StepSettles(mid.0, mid.1, files, x, ml, now);
      }
      assert forall k :: k in ids ==> k in p || k == x;
    }
  }
}

=== FILE: kyc_case_controller.dfy ===
/** The KYC case endpoints: submitting (behind the consent gate and an
    optional idempotency key, followed by an automated run whose failure is
    swallowed), reading one's latest case, and listing a case's checks to
    its owner or an administrator. */
module KycCaseApi {
  import opened Wrappers
  import opened Text
  import opened KycStatuses
  import opened KycDomain
  import opened KycRepository
  import opened KycCaseService
  import opened MlKycClient
  import opened KycAutoReview

  datatype SubmitRequest = SubmitRequest(consent: bool, docFrontId: string, docBackId: string,
                                         selfieId: string, addressId: string)

  datatype SubmitResponse = SubmitResponse(status: KycStatus, caseId: string)

  /** 400, 404 and 403 raised by the controller itself, and the errors of
      the case service passed through. */
  datatype ApiError = BadRequest | NotFound | Forbidden | Rejected(error: KycError)

  /** A key header that is present and not blank. */
  predicate UsableKey(idemKey: Option<string>) {
    idemKey.Some? && !IsBlank(idemKey.value)
  }

  /** The submission was already made under this user's key. */
  predicate Replayed(idemKeys: map<(Uuid, string), string>, userId: Uuid, idemKey: Option<string>) {
    UsableKey(idemKey) && (userId, idemKey.value) in idemKeys
  }

  /** The submitted case as the service saves it: the request's documents,
      the caller's, active, and with the decision fields cleared. */
  predicate SavedSubmission(saved: KycCase, req: SubmitRequest, userId: Uuid) {
    saved.id.Some? && saved.userId == userId && IsActiveCase(saved)
    && saved.docFrontId == req.docFrontId && saved.docBackId == req.docBackId
    && saved.selfieId == req.selfieId && saved.addressId == req.addressId
    && saved.decisionReason.None? && saved.reviewerNotes.None?
    && saved.reviewedBy.None? && saved.decidedAt.None?
  }

  /** The service's submit followed by the automated run of the saved
      case. A failure of the run is swallowed; on a stored case the run does
      not fail (RunOutcome), so the case it returns is the one answered.
      `saved` is the case as submit stored it; the store that results is the
      run's over the table that submit left. */
  method SubmitAndRun(store: KycStore, files: Files, req: SubmitRequest, userId: Uuid,
                      generatedId: string, ml: AggregateRequest -> MlCall, now: Instant)
    returns (r: Result<KycCase, KycError>, ghost saved: KycCase)
    requires store.Valid() && generatedId !in store.cases
    modifies store
    ensures store.Valid()
    ensures store.uploads == old(store.uploads) && store.idemKeys == old(store.idemKeys)
    ensures r.Ok? <==> AcceptableSubmission(old(store.uploads), userId, req.docFrontId, req.docBackId,
                                            req.selfieId, req.addressId)
                       && SubmissionUnblocked(old(store.cases), userId)
    ensures r.Err? ==> store.cases == old(store.cases) && store.checks == old(store.checks)
    ensures r.Ok? ==> r.value.id.Some? && r.value.id.value in store.cases && store.cases[r.value.id.value] == r.value
                      && r.value.userId == userId && !r.value.processing
    ensures r.Ok? ==> SavedSubmission(saved, req, userId) && saved.id == r.value.id
                      && ValidCases(old(store.cases)[saved.id.value := saved])
    ensures r.Ok? && !HasActiveCase(old(store.cases), userId) ==>
              saved.id == Some(generatedId) && saved.status == Some(PENDING) && !saved.processing
    ensures r.Ok? ==> RunState(r, store.cases, store.checks)
                      == RunSpec(old(store.cases)[saved.id.value := saved], old(store.checks), files,
                                 saved.id.value, false, ml, now)
    ensures r.Ok? ==> store.cases.Keys == old(store.cases).Keys + {r.value.id.value}
                      && (forall k :: k in old(store.cases) && k != r.value.id.value ==>
                                      store.cases[k] == old(store.cases)[k])
                      && old(store.checks) <= store.checks
                      && (forall i :: |old(store.checks)| <= i < |store.checks| ==>
                                      store.checks[i].caseId == r.value.id.value)
  {
    saved := NewCase(userId, req.docFrontId, req.docBackId, req.selfieId, req.addressId, now);
    var submitted := Submit(store, userId, req.docFrontId, req.docBackId, req.selfieId, req.addressId,
                            generatedId, now);
    r := submitted;
    if r.Err? {
      return;
    }
    saved := submitted.value;
    var id := submitted.value.id.value;
    assert store.cases == old(store.cases)[id := saved] && store.checks == old(store.checks);
    var ran := Run(store, files, id, false, ml, now);
    SubmittedRun(old(store.cases), old(store.checks), saved, files, ml, now);
    r := ran;
  }

  /** Running the case just stored under `saved`'s id answers it, leaves
      every other case as it was and only appends check rows of that case. */
  lemma SubmittedRun(cases: map<string, KycCase>, checks: seq<KycCheck>, saved: KycCase, files: Files,
                     ml: AggregateRequest -> MlCall, now: Instant)
    requires saved.id.Some? && ValidCases(cases[saved.id.value := saved])
    ensures var id := saved.id.value;
            var s := RunSpec(cases[id := saved], checks, files, id, false, ml, now);
            s.result.Ok? && s.result.value == s.cases[id] && s.result.value.id == saved.id
            && s.result.value.userId == saved.userId && !s.result.value.processing
            && s.cases.Keys == cases.Keys + {id}
            && (forall k :: k in cases && k != id ==> s.cases[k] == cases[k])
            && checks <= s.checks
            && (forall i :: |checks| <= i < |s.checks| ==> s.checks[i].caseId == id)
  {
    var id := saved.id.value;
    RunOfStoredCase(cases[id := saved], checks, files, id, ml, now);
    RunFrame(cases[id := saved], checks, files, id, false, ml, now);
  }

  /** The run of a stored case answers the case as it saved it: same id,
      same user, claim released. */
  lemma RunOfStoredCase(cases: map<string, KycCase>, checks: seq<KycCheck>, files: Files, id: string,
                        ml: AggregateRequest -> MlCall, now: Instant)
    requires ValidCases(cases) && id in cases
    ensures var s := RunSpec(cases, checks, files, id, false, ml, now);
            s.result.Ok? && id in s.cases && s.result.value == s.cases[id]
            && s.result.value.id == Some(id) && s.result.value.userId == cases[id].userId
            && !s.result.value.processing
  {
    RunOutcome(cases, checks, files, id, false, ml, now);
    RunFrame(cases, checks, files, id, false, ml, now);
  }

  /** `submit`. The check that would return an existing active case early
      accepts no status, so that branch is never taken and is left out. */
  method SubmitCase(store: KycStore, files: Files, req: SubmitRequest, idemKey: Option<string>, userId: Uuid,
                    generatedId: string, ml: AggregateRequest -> MlCall, now: Instant)
    returns (r: Result<SubmitResponse, ApiError>, ghost saved: KycCase)
    requires store.Valid() && generatedId !in store.cases
    modifies store
    ensures store.Valid()
    ensures store.uploads == old(store.uploads)
    ensures !req.consent ==>
              r == Err(BadRequest) && store.cases == old(store.cases) && store.checks == old(store.checks)
              && store.idemKeys == old(store.idemKeys)
    ensures req.consent && Replayed(old(store.idemKeys), userId, idemKey) ==>
              store.cases == old(store.cases) && store.checks == old(store.checks) && store.idemKeys == old(store.idemKeys)
              && (r.Err? <==> forall k :: k in store.cases ==> store.cases[k].userId != userId)
              && (r.Err? ==> r.error == NotFound)
              && (r.Ok? ==> exists k :: IsLatestOf(store.cases, k, userId)
                                      && r.value == SubmitResponse(store.cases[k].status.value, k))
    ensures req.consent && !Replayed(old(store.idemKeys), userId, idemKey) ==>
              (r.Ok? <==> AcceptableSubmission(old(store.uploads), userId, req.docFrontId, req.docBackId,
                                               req.selfieId, req.addressId)
                          && SubmissionUnblocked(old(store.cases), userId))
              && (r.Err? ==> r.error.Rejected? && store.cases == old(store.cases) && store.idemKeys == old(store.idemKeys))
              && (r.Ok? ==> r.value.caseId in store.cases && store.cases[r.value.caseId].userId == userId
                            && r.value.status == store.cases[r.value.caseId].status.value
                            && !store.cases[r.value.caseId].processing)
              && (r.Ok? && UsableKey(idemKey) ==>
                    store.idemKeys == old(store.idemKeys)[(userId, idemKey.value) := r.value.caseId])
              && (!UsableKey(idemKey) ==> store.idemKeys == old(store.idemKeys))
    ensures req.consent && !Replayed(old(store.idemKeys), userId, idemKey) && r.Ok? ==>
              SavedSubmission(saved, req, userId) && saved.id == Some(r.value.caseId)
              && ValidCases(old(store.cases)[r.value.caseId := saved])
              && var s := RunSpec(old(store.cases)[r.value.caseId := saved], old(store.checks), files,
                                  r.value.caseId, false, ml, now);
                 store.cases == s.cases && store.checks == s.checks
                 && s.result == Ok(store.cases[r.value.caseId])
    ensures req.consent && !Replayed(old(store.idemKeys), userId, idemKey) && r.Ok? ==>
              store.cases.Keys == old(store.cases).Keys + {r.value.caseId}
              && (forall k :: k in old(store.cases) && k != r.value.caseId ==> store.cases[k] == old(store.cases)[k])
              && old(store.checks) <= store.checks
  {
    saved := NewCase(userId, req.docFrontId, req.docBackId, req.selfieId, req.addressId, now);
    if !req.consent {
      r := Err(BadRequest);
      return;
    }
    if UsableKey(idemKey) && (userId, idemKey.value) in store.idemKeys {
      var latest := GetMyLatest(store, userId);
      if latest.None? {
        r := Err(NotFound);
        return;
      }
      r := Ok(SubmitResponse(latest.value.status.value, latest.value.id.value));
      return;
    }
    var ran;
    ran, saved := SubmitAndRun(store, files, req, userId, generatedId, ml, now);
    if ran.Err? {
      r := Err(Rejected(ran.error));
      return;
    }
    var id := ran.value.id.value;
    if UsableKey(idemKey) {
      store.RecordIdemKey(userId, idemKey.value, id);
    }
    r := Ok(SubmitResponse(ran.value.status.value, id));
  }

  /** `me`: the caller's latest case, or 404. */
  method Me(store: KycStore, userId: Uuid) returns (r: Result<KycCase, ApiError>)
    requires store.Valid()
    ensures r.Err? <==> forall k :: k in store.cases ==> store.cases[k].userId != userId
    ensures r.Err? ==> r.error == NotFound
    ensures r.Ok? ==> exists k :: IsLatestOf(store.cases, k, userId) && store.cases[k] == r.value
  {
    var latest := GetMyLatest(store, userId);
    if latest.None? {
      return Err(NotFound);
    }
    r := Ok(latest.value);
  }

  /** What a caller sees of one check. */
  datatype CheckView = CheckView(kind: string, score: Option<real>, passed: Option<bool>)

  function Views(rows: seq<KycCheck>): (vs: seq<CheckView>)
    ensures |vs| == |rows|
    ensures forall i :: 0 <= i < |rows| ==>
              vs[i].kind == rows[i].kind && vs[i].score == rows[i].score && vs[i].passed == rows[i].passed
  {
    if rows == [] then [] else [CheckView(rows[0].kind, rows[0].score, rows[0].passed)] + Views(rows[1..])
  }

  /** `checks`: 404 for an unknown case, 403 unless the caller owns it or
      holds ROLE_ADMIN, otherwise the case's rows in stored order. */
  function ListChecks(cases: map<string, KycCase>, checks: seq<KycCheck>, caseId: string, userId: Uuid,
                      authorities: seq<string>): (r: Result<seq<CheckView>, ApiError>)
    ensures r == Err(NotFound) <==> caseId !in cases
    ensures r == Err(Forbidden) <==> (caseId in cases && cases[caseId].userId != userId && "ROLE_ADMIN" !in authorities)
    ensures r.Ok? ==> r.value == Views(ChecksOf(checks, caseId))
  {
    if caseId !in cases then Err(NotFound)
    else if cases[caseId].userId != userId && "ROLE_ADMIN" !in authorities then Err(Forbidden)
    else Ok(Views(ChecksOf(checks, caseId)))
  }

  /** A listing is not disturbed by rows stored for other cases, and shows
      every row stored for its own case, after the earlier ones. */
  lemma {:induction false} ListingAfterAppend(cases: map<string, KycCase>, checks: seq<KycCheck>, extra: seq<KycCheck>,
                                              caseId: string, userId: Uuid, authorities: seq<string>)
    requires ListChecks(cases, checks, caseId, userId, authorities).Ok?
    ensures ListChecks(cases, checks + extra, caseId, userId, authorities)
            == Ok(Views(ChecksOf(checks, caseId) + ChecksOf(extra, caseId)))
    ensures (forall i :: 0 <= i < |extra| ==> extra[i].caseId != caseId) ==>
              ListChecks(cases, checks + extra, caseId, userId, authorities) == ListChecks(cases, checks, caseId, userId, authorities)
  {
    ChecksOfAppend(checks, extra, caseId);
    if forall i :: 0 <= i < |extra| ==> extra[i].caseId != caseId {
      ChecksOfAbsent(extra, caseId);
      assert ChecksOf(checks, caseId) + [] == ChecksOf(checks, caseId);
    }
  }
}

=== FILE: kyc_case_service.dfy ===
/** The KYC case service: submission of four uploads as a case, the latest
    case of a user, and the two guarded status writes (a reviewer's decision
    and a plain status mark). Every status change goes through the
    transition table. */
module KycCaseService {
  import opened Wrappers
  import opened Text
  import opened KycStatuses
  import opened KycDomain
  import opened KycRepository

  // ---------------------------------------------------------------------
  // Submission checks (pure)
  // ---------------------------------------------------------------------

  /** The four submitted references parsed in slot order; the first one that
      is not a UUID fails the submission. */
  function ParseSubmission(front: string, back: string, selfie: string, address: string)
    : (r: Result<seq<Uuid>, KycError>)
    ensures r.Ok? <==> ParseUuid(front).Some? && ParseUuid(back).Some? && ParseUuid(selfie).Some? && ParseUuid(address).Some?
    ensures r.Ok? ==>
              (|r.value| == 4 && r.value[0] == ParseUuid(front).value
               && r.value[1] == ParseUuid(back).value && r.value[2] == ParseUuid(selfie).value
               && r.value[3] == ParseUuid(address).value)
    ensures r.Err? ==> r.error.InvalidUuid?
  {
    if ParseUuid(front).None? then Err(InvalidUuid("docFrontId"))
    else if ParseUuid(back).None? then Err(InvalidUuid("docBackId"))
    else if ParseUuid(selfie).None? then Err(InvalidUuid("selfieId"))
    else if ParseUuid(address).None? then Err(InvalidUuid("addressId"))
    else Ok([ParseUuid(front).value, ParseUuid(back).value, ParseUuid(selfie).value, ParseUuid(address).value])
  }

  /** A short spelling and the canonical text of the same UUID pass the
      parse and give the same id, so the distinctness check that follows
      counts them as one file. */
  lemma ShortSpellingIsSameId(front: string, back: string, selfie: string, address: string)
    requires front == "1-2-3-4-5" && back == "00000001-0002-0003-0004-000000000005"
    requires ParseUuid(selfie).Some? && ParseUuid(address).Some?
    ensures ParseSubmission(front, back, selfie, address).Ok?
    ensures var ids := ParseSubmission(front, back, selfie, address).value; ids[0] == ids[1] && !Distinct(ids)
  {
    LenientSpellings();
    ParseUuidIdempotent(front);
  }

  /** The parsed ids form a set as large as the list: no two are equal. */
  predicate Distinct(ids: seq<Uuid>) {
    forall i, j :: 0 <= i < j < |ids| ==> ids[i] != ids[j]
  }

  predicate OwnedBy(uploads: map<Uuid, KycUpload>, id: Uuid, userId: Uuid) {
    id in uploads && uploads[id].uploadedBy == userId
  }

  /** `countByIdInAndUploadedBy`: how many of the ids name an upload of the user. */
  function OwnedCount(uploads: map<Uuid, KycUpload>, ids: seq<Uuid>, userId: Uuid): (n: nat)
    ensures n <= |ids|
  {
    if ids == [] then 0
    else (if OwnedBy(uploads, ids[0], userId) then 1 else 0) + OwnedCount(uploads, ids[1..], userId)
  }

  /** The count reaches the number of ids exactly when every id is owned. */
  lemma {:induction false} OwnedCountFull(uploads: map<Uuid, KycUpload>, ids: seq<Uuid>, userId: Uuid)
    ensures OwnedCount(uploads, ids, userId) == |ids| <==> forall i :: 0 <= i < |ids| ==> OwnedBy(uploads, ids[i], userId)
  {
    if ids != [] {
      OwnedCountFull(uploads, ids[1..], userId);
      assert forall i :: 1 <= i < |ids| ==> ids[i] == ids[1..][i - 1];
      if OwnedCount(uploads, ids, userId) == |ids| {
        assert OwnedBy(uploads, ids[0], userId);
      }
    }
  }

  /** `requireType`: the upload must exist and its type must equal the
      slot's type, ignoring case. */
  function RequireType(uploads: map<Uuid, KycUpload>, id: Uuid, expectedType: string, field: string)
    : (r: Option<KycError>)
    ensures r.None? <==> id in uploads && EqualsIgnoreCase(expectedType, uploads[id].kind)
    ensures r.Some? ==> r.value == MissingUpload(field) || r.value == TypeMismatch(field)
  {
    if id !in uploads then Some(MissingUpload(field))
    else if !EqualsIgnoreCase(expectedType, uploads[id].kind) then Some(TypeMismatch(field))
    else None
  }

  /** One slot is acceptable when its id names an upload of the user whose
      type is the slot's type. */
  predicate SlotAccepted(uploads: map<Uuid, KycUpload>, userId: Uuid, id: Uuid, slotType: string) {
    OwnedBy(uploads, id, userId) && EqualsIgnoreCase(slotType, uploads[id].kind)
  }

  /** What an acceptable submission is, stated slot by slot: four UUIDs, no
      two equal, each naming an upload of the submitting user whose type is
      the slot's type. */
  predicate AcceptableSubmission(uploads: map<Uuid, KycUpload>, userId: Uuid,
                                 front: string, back: string, selfie: string, address: string)
  {
    ParseUuid(front).Some? && ParseUuid(back).Some? && ParseUuid(selfie).Some? && ParseUuid(address).Some?
    && var f, b, s, a := ParseUuid(front).value, ParseUuid(back).value, ParseUuid(selfie).value, ParseUuid(address).value;
    f != b && f != s && f != a && b != s && b != a && s != a
    && SlotAccepted(uploads, userId, f, "DOC_FRONT") && SlotAccepted(uploads, userId, b, "DOC_BACK")
    && SlotAccepted(uploads, userId, s, "SELFIE") && SlotAccepted(uploads, userId, a, "ADDRESS_PROOF")
  }

  /** The service's checks in their order: parsing, distinctness, ownership,
      then the type of each slot. `None` means the submission passes. */
  function CheckSubmission(uploads: map<Uuid, KycUpload>, userId: Uuid,
                           front: string, back: string, selfie: string, address: string)
    : (r: Option<KycError>)
  {
    var parsed := ParseSubmission(front, back, selfie, address);
    if parsed.Err? then Some(parsed.error) else CheckIds(uploads, userId, parsed.value)
  }

  /** The checks after parsing, on the ids in slot order. */
  function CheckIds(uploads: map<Uuid, KycUpload>, userId: Uuid, ids: seq<Uuid>): (r: Option<KycError>)
    requires |ids| == 4
  {
    if !Distinct(ids) then Some(NotDistinct)
    else if OwnedCount(uploads, ids, userId) != |ids| then Some(NotOwned)
    else
      var e1 := RequireType(uploads, ids[0], "DOC_FRONT", "docFrontId");
      var e2 := RequireType(uploads, ids[1], "DOC_BACK", "docBackId");
      var e3 := RequireType(uploads, ids[2], "SELFIE", "selfieId");
      var e4 := RequireType(uploads, ids[3], "ADDRESS_PROOF", "addressId");
      if e1.Some? then e1 else if e2.Some? then e2 else if e3.Some? then e3 else e4
  }

  /** The checks after parsing pass exactly when the four ids are pairwise
      different and each slot is accepted. */
  lemma CheckIdsCorrect(uploads: map<Uuid, KycUpload>, userId: Uuid, ids: seq<Uuid>)
    requires |ids| == 4
    ensures CheckIds(uploads, userId, ids).None? <==>
              ids[0] != ids[1] && ids[0] != ids[2] && ids[0] != ids[3]
              && ids[1] != ids[2] && ids[1] != ids[3] && ids[2] != ids[3]
              && SlotAccepted(uploads, userId, ids[0], "DOC_FRONT") && SlotAccepted(uploads, userId, ids[1], "DOC_BACK")
              && SlotAccepted(uploads, userId, ids[2], "SELFIE") && SlotAccepted(uploads, userId, ids[3], "ADDRESS_PROOF")
  {
    OwnedCountFull(uploads, ids, userId);
    assert Distinct(ids) <==> ids[0] != ids[1] && ids[0] != ids[2] && ids[0] != ids[3]
                              && ids[1] != ids[2] && ids[1] != ids[3] && ids[2] != ids[3];
    assert (forall i :: 0 <= i < |ids| ==> OwnedBy(uploads, ids[i], userId))
           <==> OwnedBy(uploads, ids[0], userId) && OwnedBy(uploads, ids[1], userId)
                && OwnedBy(uploads, ids[2], userId) && OwnedBy(uploads, ids[3], userId);
  }

  /** The ordered checks accept exactly the acceptable submissions, and a
      refusal for duplicates or ownership comes only after every reference
      has parsed. */
  lemma CheckSubmissionCorrect(uploads: map<Uuid, KycUpload>, userId: Uuid,
                               front: string, back: string, selfie: string, address: string)
    ensures CheckSubmission(uploads, userId, front, back, selfie, address).None?
            <==> AcceptableSubmission(uploads, userId, front, back, selfie, address)
    ensures var r := CheckSubmission(uploads, userId, front, back, selfie, address);
            r == Some(NotDistinct) || r == Some(NotOwned) ==> ParseSubmission(front, back, selfie, address).Ok?
  {
    var parsed := ParseSubmission(front, back, selfie, address);
    if parsed.Ok? {
      CheckIdsCorrect(uploads, userId, parsed.value);
    }
  }

  // ---------------------------------------------------------------------
  // Reuse or create
  // ---------------------------------------------------------------------

  /** An active case in one of these statuses is taken over by a new
      submission; one in any other active status blocks it. */
  predicate Reusable(s: KycStatus) { s == PENDING || s == NEEDS_MORE_INFO }

  predicate ActiveCaseOf(cases: map<string, KycCase>, k: string, userId: Uuid) {
    k in cases && cases[k].userId == userId && IsActiveCase(cases[k])
  }

  predicate HasActiveCase(cases: map<string, KycCase>, userId: Uuid) {
    exists k :: k in cases && ActiveCaseOf(cases, k, userId)
  }

  predicate SubmissionUnblocked(cases: map<string, KycCase>, userId: Uuid) {
    forall k :: k in cases && ActiveCaseOf(cases, k, userId) ==> Reusable(cases[k].status.value)
  }

  /** The case with the submitted documents in place and the previous
      decision, notes and reviewer cleared. */
  function WithDocuments(c: KycCase, front: string, back: string, selfie: string, address: string): (r: KycCase)
    ensures r.docFrontId == front && r.docBackId == back && r.selfieId == selfie && r.addressId == address
    ensures r.decisionReason.None? && r.reviewerNotes.None? && r.reviewedBy.None? && r.decidedAt.None?
    ensures r.id == c.id && r.userId == c.userId && r.status == c.status && r.processing == c.processing
    ensures r.createdAt == c.createdAt && r.updatedAt == c.updatedAt
  {
    c.(docFrontId := front, docBackId := back, selfieId := selfie, addressId := address,
       decisionReason := None, reviewerNotes := None, reviewedBy := None, decidedAt := None)
  }

  /** The case already holds these four documents and no decision, so
      reusing it for them changes no column and the save writes nothing. */
  predicate SameSubmission(c: KycCase, front: string, back: string, selfie: string, address: string) {
    c.docFrontId == front && c.docBackId == back && c.selfieId == selfie && c.addressId == address
    && c.decisionReason.None? && c.reviewerNotes.None? && c.reviewedBy.None? && c.decidedAt.None?
  }

  /** `submit`. `generatedId` is the id the persistence hook draws for a new
      case; `now` is the clock. */
  method Submit(store: KycStore, userId: Uuid, front: string, back: string, selfie: string, address: string,
                generatedId: string, now: Instant) returns (r: Result<KycCase, KycError>)
    requires store.Valid()
    requires generatedId !in store.cases
    modifies store
    ensures store.Valid()
    ensures store.uploads == old(store.uploads) && store.checks == old(store.checks)
    ensures store.idemKeys == old(store.idemKeys)
    ensures r.Ok? <==> AcceptableSubmission(old(store.uploads), userId, front, back, selfie, address)
                       && SubmissionUnblocked(old(store.cases), userId)
    ensures CheckSubmission(old(store.uploads), userId, front, back, selfie, address).Some? ==>
              r == Err(CheckSubmission(old(store.uploads), userId, front, back, selfie, address).value)
    ensures r.Err? ==> store.cases == old(store.cases)
    ensures r.Ok? ==> r.value.id.Some? && store.cases == old(store.cases)[r.value.id.value := r.value]
    ensures r.Ok? ==> r.value.userId == userId && IsActiveCase(r.value)
    ensures r.Ok? ==> r.value.docFrontId == front && r.value.docBackId == back
                      && r.value.selfieId == selfie && r.value.addressId == address
    ensures r.Ok? ==> r.value.decisionReason.None? && r.value.reviewerNotes.None?
                      && r.value.reviewedBy.None? && r.value.decidedAt.None?
    ensures r.Ok? && !HasActiveCase(old(store.cases), userId) ==>
              r.value.id == Some(generatedId) && r.value.status == Some(PENDING) && !r.value.processing
              && r.value.createdAt == Some(now) && r.value.updatedAt == r.value.createdAt
    ensures forall k :: ActiveCaseOf(old(store.cases), k, userId) && r.Ok? ==>
              r.value.id == Some(k) && r.value.status == old(store.cases)[k].status
              && r.value.createdAt == old(store.cases)[k].createdAt
              && r.value.processing == old(store.cases)[k].processing
              && r.value.updatedAt == (if SameSubmission(old(store.cases)[k], front, back, selfie, address)
                                       then old(store.cases)[k].updatedAt else Some(now))
  {
    var err := CheckSubmission(store.uploads, userId, front, back, selfie, address);
    CheckSubmissionCorrect(store.uploads, userId, front, back, selfie, address);
    if err.Some? {
      return Err(err.value);
    }
    if k :| k in store.cases && store.cases[k].userId == userId && IsActiveCase(store.cases[k]) {
      var existing := store.cases[k];
      assert ActiveCaseOf(store.cases, k, userId);
      assert forall j :: ActiveCaseOf(store.cases, j, userId) ==> j == k;
      if existing.status.value == PENDING || existing.status.value == NEEDS_MORE_INFO {
        var c := WithDocuments(existing, front, back, selfie, address);
        SavedExisting(store.cases, k, front, back, selfie, address, generatedId, now);
        var saved := store.Save(c, generatedId, now);
        r := Ok(saved);
      } else {
        r := Err(ActiveCaseExists(existing.status.value));
      }
    } else {
      assert !HasActiveCase(store.cases, userId);
      SavedNew(store.cases, userId, front, back, selfie, address, generatedId, now);
      var saved := store.Save(NewCase(userId, front, back, selfie, address, now), generatedId, now);
      r := Ok(saved);
    }
  }

  /** The row `submit` saves for a first submission. */
  lemma SavedNew(cases: map<string, KycCase>, userId: Uuid, front: string, back: string, selfie: string,
                 address: string, generatedId: string, now: Instant)
    requires generatedId !in cases
    ensures var s := Persisted(cases, NewCase(userId, front, back, selfie, address, now), generatedId, now);
            s.id == Some(generatedId) && s.userId == userId && IsActiveCase(s)
            && s.docFrontId == front && s.docBackId == back && s.selfieId == selfie && s.addressId == address
            && s.decisionReason.None? && s.reviewerNotes.None? && s.reviewedBy.None? && s.decidedAt.None?
            && s.status == Some(PENDING) && !s.processing && s.createdAt == Some(now) && s.updatedAt == s.createdAt
  {
  }

  /** The row `submit` saves when it reuses the user's active case. */
  lemma SavedExisting(cases: map<string, KycCase>, k: string, front: string, back: string, selfie: string,
                      address: string, generatedId: string, now: Instant)
    requires Keyed(cases) && k in cases && IsActiveCase(cases[k])
    ensures var s := Persisted(cases, WithDocuments(cases[k], front, back, selfie, address), generatedId, now);
            s.id == Some(k) && s.userId == cases[k].userId && IsActiveCase(s)
            && s.docFrontId == front && s.docBackId == back && s.selfieId == selfie && s.addressId == address
            && s.decisionReason.None? && s.reviewerNotes.None? && s.reviewedBy.None? && s.decidedAt.None?
            && s.status == cases[k].status && s.createdAt == cases[k].createdAt && s.processing == cases[k].processing
            && s.updatedAt == (if SameSubmission(cases[k], front, back, selfie, address) then cases[k].updatedAt else Some(now))
  {
    var c := WithDocuments(cases[k], front, back, selfie, address);
    if !SameSubmission(cases[k], front, back, selfie, address) {
      assert c != cases[k];
    }
  }

  /** A resubmission of the documents a pending case already holds, with
      no decision recorded, leaves the stored row exactly as it was: no
      column changes, so no update is written and `updatedAt` is kept. */
  lemma IdenticalResubmissionKeepsRow(cases: map<string, KycCase>, k: string, generatedId: string, now: Instant)
    requires Keyed(cases) && k in cases && cases[k].status == Some(PENDING)
    requires cases[k].decisionReason.None? && cases[k].reviewerNotes.None?
    requires cases[k].reviewedBy.None? && cases[k].decidedAt.None?
    ensures var c := cases[k];
            Persisted(cases, WithDocuments(c, c.docFrontId, c.docBackId, c.selfieId, c.addressId), generatedId, now) == c
  {
  }

  // ---------------------------------------------------------------------
  // Latest case
  // ---------------------------------------------------------------------

  predicate IsLatestOf(cases: map<string, KycCase>, k: string, userId: Uuid)
    requires Keyed(cases)
  {
    k in cases && cases[k].userId == userId
    && forall j :: j in cases && cases[j].userId == userId ==> cases[j].createdAt.value <= cases[k].createdAt.value
  }

  /** Among finitely many cases of a user, one was created last. */
  lemma {:induction false} LatestIn(cases: map<string, KycCase>, userId: Uuid, keys: set<string>, x: string)
    returns (k: string)
    requires Keyed(cases) && keys <= cases.Keys
    requires x in keys && cases[x].userId == userId
    ensures k in keys && cases[k].userId == userId
    ensures forall j :: j in keys && cases[j].userId == userId ==> cases[j].createdAt.value <= cases[k].createdAt.value
    decreases |keys|
  {
    var rest := keys - {x};
    if y :| y in rest && cases[y].userId == userId {
      var m := LatestIn(cases, userId, rest, y);
      k := if cases[x].createdAt.value <= cases[m].createdAt.value then m else x;
    } else {
      k := x;
    }
  }

  /** `getMyLatest`: the user's most recently created case, if there is one. */
  method GetMyLatest(store: KycStore, userId: Uuid) returns (r: Option<KycCase>)
    requires store.Valid()
    ensures r.None? <==> forall k :: k in store.cases ==> store.cases[k].userId != userId
    ensures r.Some? ==> exists k :: IsLatestOf(store.cases, k, userId) && store.cases[k] == r.value
  {
    if x :| x in store.cases && store.cases[x].userId == userId {
      ghost var k := LatestIn(store.cases, userId, store.cases.Keys, x);
      assert IsLatestOf(store.cases, k, userId);
      var latest :| latest in store.cases && IsLatestOf(store.cases, latest, userId);
      r := Some(store.cases[latest]);
    } else {
      r := None;
    }
  }

  // ---------------------------------------------------------------------
  // Guarded status writes
  // ---------------------------------------------------------------------

  /** Why `decide` refuses, checked in the source's order: a target that is
      not a decision, an unknown case, a move the table does not allow. */
  function DecideError(cases: map<string, KycCase>, caseId: string, target: KycStatus): (r: Option<KycError>)
    requires Keyed(cases)
    ensures r.None? <==> IsDecision(target) && caseId in cases && CanTransitionTo(cases[caseId].status.value, target)
    ensures !IsDecision(target) ==> r == Some(InvalidDecision)
    ensures IsDecision(target) && caseId !in cases ==> r == Some(CaseNotFound)
  {
    if !IsDecision(target) then Some(InvalidDecision)
    else if caseId !in cases then Some(CaseNotFound)
    else if !CanTransitionTo(cases[caseId].status.value, target) then
      Some(IllegalTransition(cases[caseId].status.value, target))
    else None
  }

  /** The case after a decision: the status, the reason (as both decision
      reason and reviewer notes), the reviewer and the decision time. */
  function Decided(c: KycCase, target: KycStatus, reason: Option<string>, reviewerId: Uuid, now: Instant)
    : (r: KycCase)
    ensures r.status == Some(target) && r.decisionReason == reason && r.reviewerNotes == reason
    ensures r.reviewedBy == Some(reviewerId) && r.decidedAt == Some(now) && r.updatedAt == Some(now)
    ensures r.(status := c.status, decisionReason := c.decisionReason, reviewerNotes := c.reviewerNotes,
               reviewedBy := c.reviewedBy, decidedAt := c.decidedAt, updatedAt := c.updatedAt) == c
  {
    c.(status := Some(target), decisionReason := reason, reviewerNotes := reason,
       reviewedBy := Some(reviewerId), decidedAt := Some(now), updatedAt := Some(now))
  }

  /** `decide`. */
  method Decide(store: KycStore, caseId: string, target: KycStatus, reason: Option<string>,
                reviewerId: Uuid, now: Instant) returns (r: Result<KycCase, KycError>)
    requires store.Valid()
    modifies store
    ensures store.Valid()
    ensures store.uploads == old(store.uploads) && store.checks == old(store.checks)
    ensures store.idemKeys == old(store.idemKeys)
    ensures DecideError(old(store.cases), caseId, target).Some? ==>
              r == Err(DecideError(old(store.cases), caseId, target).value) && store.cases == old(store.cases)
    ensures DecideError(old(store.cases), caseId, target).None? ==>
              r == Ok(Decided(old(store.cases)[caseId], target, reason, reviewerId, now))
              && store.cases == old(store.cases)[caseId := r.value]
  {
    var e := DecideError(store.cases, caseId, target);
    if e.Some? {
      return Err(e.value);
    }
    var c := Decided(store.cases[caseId], target, reason, reviewerId, now);
    TransitionShape(store.cases[caseId].status.value, target);
    PersistedUpdateAtNow(store.cases, c, "", now);
    var saved := store.Save(c, "", now);
    r := Ok(saved);
  }

  /** Why `markStatus` refuses: an unknown case, or a change of status the
      table does not allow. Re-marking the current status is always allowed. */
  function MarkError(cases: map<string, KycCase>, caseId: string, status: KycStatus): (r: Option<KycError>)
    requires Keyed(cases)
    ensures r.None? <==>
              (caseId in cases
               && (cases[caseId].status.value == status || CanTransitionTo(cases[caseId].status.value, status)))
    ensures caseId !in cases ==> r == Some(CaseNotFound)
  {
    if caseId !in cases then Some(CaseNotFound)
    else if cases[caseId].status.value == status then None
    else if !CanTransitionTo(cases[caseId].status.value, status) then
      Some(IllegalTransition(cases[caseId].status.value, status))
    else None
  }

  /** The case after `markStatus`: the status and `updatedAt` are set, and
      the notes are replaced only by a note with text. */
  function Marked(c: KycCase, status: KycStatus, note: Option<string>, now: Instant): (r: KycCase)
    ensures r.status == Some(status) && r.updatedAt == Some(now)
    ensures note.Some? && HasText(note.value) ==> r.reviewerNotes == note
    ensures !(note.Some? && HasText(note.value)) ==> r.reviewerNotes == c.reviewerNotes
    ensures r.(status := c.status, updatedAt := c.updatedAt, reviewerNotes := c.reviewerNotes) == c
  {
    c.(status := Some(status), updatedAt := Some(now),
       reviewerNotes := if note.Some? && HasText(note.value) then note else c.reviewerNotes)
  }

  /** `markStatus`. */
  method MarkStatus(store: KycStore, caseId: string, status: KycStatus, note: Option<string>, now: Instant)
    returns (r: Result<KycCase, KycError>)
    requires store.Valid()
    modifies store
    ensures store.Valid()
    ensures store.uploads == old(store.uploads) && store.checks == old(store.checks)
    ensures store.idemKeys == old(store.idemKeys)
    ensures MarkError(old(store.cases), caseId, status).Some? ==>
              r == Err(MarkError(old(store.cases), caseId, status).value) && store.cases == old(store.cases)
    ensures MarkError(old(store.cases), caseId, status).None? ==>
              r == Ok(Marked(old(store.cases)[caseId], status, note, now))
              && store.cases == old(store.cases)[caseId := r.value]
  {
    var e := MarkError(store.cases, caseId, status);
    if e.Some? {
      return Err(e.value);
    }
    var c := Marked(store.cases[caseId], status, note, now);
    if store.cases[caseId].status.value != status {
      TransitionShape(store.cases[caseId].status.value, status);
    }
    PersistedUpdateAtNow(store.cases, c, "", now);
    var saved := store.Save(c, "", now);
    r := Ok(saved);
  }

  // ---------------------------------------------------------------------
  // Properties across calls
  // ---------------------------------------------------------------------

  /** A final decision is final: once a case is APPROVED or REJECTED, no
      further decision and no mark to another status is accepted. */
  lemma DecisionIsFinal(cases: map<string, KycCase>, caseId: string, target: KycStatus, reason: Option<string>,
                        reviewerId: Uuid, now: Instant, next: KycStatus, nextTarget: KycStatus)
    requires ValidCases(cases) && DecideError(cases, caseId, target).None?
    requires target == APPROVED || target == REJECTED
    requires next != target
    ensures Keyed(cases[caseId := Decided(cases[caseId], target, reason, reviewerId, now)])
    ensures DecideError(cases[caseId := Decided(cases[caseId], target, reason, reviewerId, now)], caseId, nextTarget).Some?
    ensures MarkError(cases[caseId := Decided(cases[caseId], target, reason, reviewerId, now)], caseId, next).Some?
  {
  }

  /** Re-marking the status a case already has is accepted, and doing it
      twice at the same instant gives the same case as doing it once. */
  lemma MarkReentry(cases: map<string, KycCase>, caseId: string, status: KycStatus, note: Option<string>, now: Instant)
    requires ValidCases(cases) && MarkError(cases, caseId, status).None?
    ensures Keyed(cases[caseId := Marked(cases[caseId], status, note, now)])
    ensures MarkError(cases[caseId := Marked(cases[caseId], status, note, now)], caseId, status).None?
    ensures Marked(Marked(cases[caseId], status, note, now), status, note, now) == Marked(cases[caseId], status, note, now)
  {
  }

  /** A status mark never touches the decision fields. */
  lemma MarkKeepsDecision(c: KycCase, status: KycStatus, note: Option<string>, now: Instant)
    ensures Marked(c, status, note, now).decisionReason == c.decisionReason
    ensures Marked(c, status, note, now).reviewedBy == c.reviewedBy
    ensures Marked(c, status, note, now).decidedAt == c.decidedAt
  {
  }
}

=== FILE: kyc_domain.dfy ===
/** The records of the KYC pipeline: the case with its persistence hooks, the
    uploaded files and the stored check rows. */
module KycDomain {
  import opened Wrappers
  import opened Text
  import opened KycStatuses

  /** A point in time, in whole seconds since the epoch (UTC). */
  type Instant = int

  /** A UUID in its canonical text form: lower-case hex digits in groups of
      8-4-4-4-12 separated by hyphens. */
  type Uuid = string

  const SECONDS_PER_DAY: int := 86400

  // ---------------------------------------------------------------------
  // The case record
  // ---------------------------------------------------------------------

  /** A KYC case. Fields the entity leaves null until a hook or a setter
      fills them are `Option`s. The four document references are kept as
      the text the user submitted. The optimistic-lock version column is not
      part of this model. */
  datatype KycCase = KycCase(
    id: Option<string>,
    userId: Uuid,
    docFrontId: string,
    docBackId: string,
    selfieId: string,
    addressId: string,
    status: Option<KycStatus>,
    createdAt: Option<Instant>,
    updatedAt: Option<Instant>,
    decisionReason: Option<string>,
    reviewedBy: Option<Uuid>,
    decidedAt: Option<Instant>,
    reviewerNotes: Option<string>,
    processing: bool)

  /** A row as the database holds it: the non-null columns are filled. */
  predicate WellFormed(c: KycCase) {
    c.id.Some? && c.status.Some? && c.createdAt.Some? && c.updatedAt.Some?
  }

  predicate IsActiveCase(c: KycCase) {
    c.status.Some? && IsActive(c.status.value)
  }

  /** A fresh entity for `userId` holding the submitted documents: the state
      the service builds before the first save. `processing` starts false. */
  function NewCase(userId: Uuid, front: string, back: string, selfie: string, address: string,
                   now: Instant): (c: KycCase)
    ensures c.id.None? && !c.processing
    ensures c.status == Some(PENDING) && c.createdAt == Some(now) && c.updatedAt == c.createdAt
    ensures c.decisionReason.None? && c.reviewerNotes.None? && c.reviewedBy.None? && c.decidedAt.None?
  {
    KycCase(None, userId, front, back, selfie, address, Some(PENDING), Some(now), Some(now),
            None, None, None, None, false)
  }

  /** The `@PrePersist` hook: fills the id, the creation time and the status
      only where they are absent, then sets `updatedAt` to `createdAt`. */
  function PrePersist(c: KycCase, generatedId: string, now: Instant): (r: KycCase)
    ensures WellFormed(r)
    ensures c.id.Some? ==> r.id == c.id
    ensures c.id.None? ==> r.id == Some(generatedId)
    ensures c.createdAt.Some? ==> r.createdAt == c.createdAt
    ensures c.createdAt.None? ==> r.createdAt == Some(now)
    ensures c.status.Some? ==> r.status == c.status
    ensures c.status.None? ==> r.status == Some(PENDING)
    ensures r.updatedAt == r.createdAt
    ensures r.(id := c.id, createdAt := c.createdAt, status := c.status, updatedAt := c.updatedAt) == c
  {
    var id := if c.id.None? then Some(generatedId) else c.id;
    var createdAt := if c.createdAt.None? then Some(now) else c.createdAt;
    var status := if c.status.None? then Some(PENDING) else c.status;
    c.(id := id, createdAt := createdAt, status := status, updatedAt := createdAt)
  }

  /** Running the hook a second time changes nothing, whatever id and clock
      it is offered. */
  lemma PrePersistIdempotent(c: KycCase, g1: string, g2: string, t1: Instant, t2: Instant)
    ensures PrePersist(PrePersist(c, g1, t1), g2, t2) == PrePersist(c, g1, t1)
  {
  }

  /** The `@PreUpdate` hook: `updatedAt` becomes now and nothing else moves. */
  function PreUpdate(c: KycCase, now: Instant): (r: KycCase)
    ensures r.updatedAt == Some(now)
    ensures r.(updatedAt := c.updatedAt) == c
    ensures WellFormed(c) ==> WellFormed(r)
  {
    c.(updatedAt := Some(now))
  }

  // ---------------------------------------------------------------------
  // Uploads, check rows
  // ---------------------------------------------------------------------

  /** An uploaded file's metadata. The stored and original file names, the
      checksum and the storage path are not part of this model. */
  datatype KycUpload = KycUpload(
    id: Uuid,
    kind: string,
    contentType: string,
    sizeBytes: nat,
    uploadedBy: Uuid,
    createdAt: Instant)

  /** One stored check result of a case. `score` and `passed` are nullable
      columns; `detailsJson` is the serialized details object. */
  datatype KycCheck = KycCheck(
    caseId: string,
    kind: string,
    score: Option<real>,
    passed: Option<bool>,
    detailsJson: string,
    createdAt: Instant)

  /** Errors the KYC services raise, one per exception the source throws. */
  datatype KycError =
    | InvalidUuid(field: string)
    | NotDistinct
    | NotOwned
    | MissingUpload(field: string)
    | TypeMismatch(field: string)
    | ActiveCaseExists(status: KycStatus)
    | InvalidDecision
    | CaseNotFound
    | IllegalTransition(from: KycStatus, to: KycStatus)
}

=== FILE: kyc_policy.dfy ===
/** The ML service's decision policy: the reasons a set of check results
    gives, and the rule that turns them into APPROVE, REJECT or
    UNDER_REVIEW. */
module KycPolicy {
  import opened Wrappers

  datatype Decision = APPROVE | UNDER_REVIEW | REJECT

  /** One check result as the policy reads it. A `passed` that is null or
      absent is `None`; a missing check reads as an empty record. */
  datatype CheckOutcome = CheckOutcome(score: Option<real>, passed: Option<bool>)

  type Checks = map<string, CheckOutcome>

  /** A face-match or liveness score below this rejects outright. */
  const LOW_SCORE: real := 0.40

  /** `checks.get(kind, {}).get("passed")` is truthy. */
  predicate Passed(checks: Checks, kind: string) {
    kind in checks && checks[kind].passed == Some(true)
  }

  /** `checks.get(kind, {}).get("score")`. */
  function Score(checks: Checks, kind: string): Option<real> {
    if kind in checks then checks[kind].score else None
  }

  /** One reason for each of the four checks that did not pass, in a fixed
      order. */
  function Reasons(checks: Checks): (r: seq<string>)
    ensures |r| <= 4
  {
    (if Passed(checks, "DOC_CLASS") then [] else ["document_type_unconfirmed"])
    + (if Passed(checks, "OCR_ID") then [] else ["ocr_quality_insufficient"])
    + (if Passed(checks, "FACE_MATCH") then [] else ["face_match_below_threshold"])
    + (if Passed(checks, "LIVENESS") then [] else ["liveness_check_failed"])
  }

  /** `decide`. */
  function Decide(checks: Checks): (r: (Decision, seq<string>))
    ensures r.1 == Reasons(checks)
  {
    var reasons := Reasons(checks);
    if reasons == [] then (APPROVE, reasons)
    else
      var fm := Score(checks, "FACE_MATCH");
      var lv := Score(checks, "LIVENESS");
      if (fm.Some? && fm.value < LOW_SCORE) || (lv.Some? && lv.value < LOW_SCORE) then (REJECT, reasons)
      else (UNDER_REVIEW, reasons)
  }

  predicate AllPassed(checks: Checks) {
    Passed(checks, "DOC_CLASS") && Passed(checks, "OCR_ID") && Passed(checks, "FACE_MATCH") && Passed(checks, "LIVENESS")
  }

  /** A reason is listed exactly when its check did not pass, at most
      once. */
  lemma ReasonsExact(checks: Checks)
    ensures "document_type_unconfirmed" in Reasons(checks) <==> !Passed(checks, "DOC_CLASS")
    ensures "ocr_quality_insufficient" in Reasons(checks) <==> !Passed(checks, "OCR_ID")
    ensures "face_match_below_threshold" in Reasons(checks) <==> !Passed(checks, "FACE_MATCH")
    ensures "liveness_check_failed" in Reasons(checks) <==> !Passed(checks, "LIVENESS")
    ensures forall i, j :: 0 <= i < j < |Reasons(checks)| ==> Reasons(checks)[i] != Reasons(checks)[j]
  {
    ReasonListExact(Passed(checks, "DOC_CLASS"), Passed(checks, "OCR_ID"), Passed(checks, "FACE_MATCH"),
                    Passed(checks, "LIVENESS"), Reasons(checks));
  }

  /** The reason list built from four outcomes, whatever they are: the four
      reasons have different lengths, so none is listed twice. */
  lemma ReasonListExact(doc: bool, ocr: bool, face: bool, live: bool, r: seq<string>)
    requires r == (if doc then [] else ["document_type_unconfirmed"]) + (if ocr then [] else ["ocr_quality_insufficient"])
                  + (if face then [] else ["face_match_below_threshold"]) + (if live then [] else ["liveness_check_failed"])
    ensures "document_type_unconfirmed" in r <==> !doc
    ensures "ocr_quality_insufficient" in r <==> !ocr
    ensures "face_match_below_threshold" in r <==> !face
    ensures "liveness_check_failed" in r <==> !live
    ensures forall i, j :: 0 <= i < j < |r| ==> r[i] != r[j]
  {
    assert forall i :: 0 <= i < |r| ==> |r[i]| in {25, 24, 26, 21};
    forall i, j | 0 <= i < j < |r| ensures |r[i]| != |r[j]| { }
  }

  /** APPROVE exactly when all four checks passed, which is exactly when
      there is no reason; scores are then not looked at. */
  lemma ApproveIffAllPassed(checks: Checks)
    ensures Decide(checks).0 == APPROVE <==> AllPassed(checks)
    ensures Decide(checks).0 == APPROVE <==> Decide(checks).1 == []
  {
  }

  /** REJECT exactly when some check failed and the face-match or liveness
      score is present and below 0.40; every other failure is left to a
      person. */
  lemma RejectIff(checks: Checks)
    ensures Decide(checks).0 == REJECT <==>
              !AllPassed(checks)
              && ((Score(checks, "FACE_MATCH").Some? && Score(checks, "FACE_MATCH").value < LOW_SCORE)
                  || (Score(checks, "LIVENESS").Some? && Score(checks, "LIVENESS").value < LOW_SCORE))
  {
    ApproveIffAllPassed(checks);
  }

  /** A check that is missing counts as failed: an empty result set gives
      all four reasons and goes to manual review. */
  lemma NothingCheckedGoesToReview()
    ensures Decide(map[]) == (UNDER_REVIEW, ["document_type_unconfirmed", "ocr_quality_insufficient",
                                             "face_match_below_threshold", "liveness_check_failed"])
  {
    var none: Checks := map[];
    assert !Passed(none, "DOC_CLASS") && !Passed(none, "OCR_ID") && !Passed(none, "FACE_MATCH") && !Passed(none, "LIVENESS");
    assert Score(none, "FACE_MATCH").None? && Score(none, "LIVENESS").None?;
    var r := ["document_type_unconfirmed", "ocr_quality_insufficient", "face_match_below_threshold", "liveness_check_failed"];
    assert Reasons(none) == [r[0]] + [r[1]] + [r[2]] + [r[3]] == r;
  }

  /** Lowering the face-match score never improves the decision. */
  lemma LowerFaceScoreNoBetter(checks: Checks, s: real)
    requires "FACE_MATCH" in checks && checks["FACE_MATCH"].score.Some? && s <= checks["FACE_MATCH"].score.value
    ensures Decide(checks).0 == REJECT ==>
              Decide(checks["FACE_MATCH" := checks["FACE_MATCH"].(score := Some(s))]).0 == REJECT
    ensures Decide(checks).0 != APPROVE ==>
              Decide(checks["FACE_MATCH" := checks["FACE_MATCH"].(score := Some(s))]).0 != APPROVE
  {
    var lowered := checks["FACE_MATCH" := checks["FACE_MATCH"].(score := Some(s))];
    assert forall k :: Passed(lowered, k) == Passed(checks, k);
  }
}

=== FILE: kyc_retention.dfy ===
/** The nightly retention job: the files of cases that were approved or
    rejected more than thirty days ago are deleted. Case records are kept. */
module KycRetention {
  import opened Wrappers
  import opened Text
  import opened KycStatuses
  import opened KycDomain
  import opened KycRepository

  const RETENTION_DAYS: int := 30

  /** A case whose files the job deletes: decided (APPROVED or REJECTED) and
      last updated strictly before the cut-off thirty days before `now`. */
  predicate Purgeable(c: KycCase, now: Instant) {
    (c.status == Some(APPROVED) || c.status == Some(REJECTED))
    && c.updatedAt.Some? && c.updatedAt.value < now - RETENTION_DAYS * SECONDS_PER_DAY
  }

  /** The file a document reference names, if it parses as a UUID. */
  function Named(ref: string): (r: set<Uuid>)
    ensures |r| <= 1
    ensures r == {} <==> ParseUuid(ref).None?
  {
    match ParseUuid(ref)
    case None => {}
    case Some(u) => {u}
  }

  /** The files a case refers to. */
  function FilesOf(c: KycCase): set<Uuid> {
    Named(c.docFrontId) + Named(c.docBackId) + Named(c.selfieId) + Named(c.addressId)
  }

  /** The files the purge deletes for the cases filed under `keys`. */
  function DoomedAmong(cases: map<string, KycCase>, keys: set<string>, now: Instant): set<Uuid> {
    set k, u | k in keys && k in cases && Purgeable(cases[k], now) && u in FilesOf(cases[k]) :: u
  }

  lemma DoomedAmongAdd(cases: map<string, KycCase>, keys: set<string>, k: string, now: Instant)
    requires k in cases
    ensures DoomedAmong(cases, keys + {k}, now)
            == DoomedAmong(cases, keys, now) + (if Purgeable(cases[k], now) then FilesOf(cases[k]) else {})
  {
    DoomedAmongAddWithin(cases, keys, k, now);
    DoomedAmongAddCovers(cases, keys, k, now);
  }

  lemma DoomedAmongAddWithin(cases: map<string, KycCase>, keys: set<string>, k: string, now: Instant)
    requires k in cases
    ensures DoomedAmong(cases, keys + {k}, now)
            <= DoomedAmong(cases, keys, now) + (if Purgeable(cases[k], now) then FilesOf(cases[k]) else {})
  {
    forall u | u in DoomedAmong(cases, keys + {k}, now)
      ensures u in DoomedAmong(cases, keys, now) + (if Purgeable(cases[k], now) then FilesOf(cases[k]) else {})
    {
      var j :| j in keys + {k} && j in cases && Purgeable(cases[j], now) && u in FilesOf(cases[j]);
      if j != k {
        InDoomedAmongOther(cases, keys, k, now, j, u);
      }
    }
  }

  lemma InDoomedAmongOther(cases: map<string, KycCase>, keys: set<string>, k: string, now: Instant, j: string, u: Uuid)
    requires j in keys + {k} && j != k && j in cases && Purgeable(cases[j], now) && u in FilesOf(cases[j])
    ensures u in DoomedAmong(cases, keys, now)
  {
    assert j in keys;
    InDoomedAmong(cases, keys, now, j, u);
  }

  lemma DoomedAmongAddCovers(cases: map<string, KycCase>, keys: set<string>, k: string, now: Instant)
    requires k in cases
    ensures DoomedAmong(cases, keys, now) + (if Purgeable(cases[k], now) then FilesOf(cases[k]) else {})
            <= DoomedAmong(cases, keys + {k}, now)
  {
    forall u | u in DoomedAmong(cases, keys, now) + (if Purgeable(cases[k], now) then FilesOf(cases[k]) else {})
      ensures u in DoomedAmong(cases, keys + {k}, now)
    {
      if u in DoomedAmong(cases, keys, now) {
        var j :| j in keys && j in cases && Purgeable(cases[j], now) && u in FilesOf(cases[j]);
        InDoomedAmong(cases, keys + {k}, now, j, u);
      } else {
        InDoomedAmong(cases, keys + {k}, now, k, u);
      }
    }
  }

  lemma InDoomedAmong(cases: map<string, KycCase>, keys: set<string>, now: Instant, j: string, u: Uuid)
    requires j in keys && j in cases && Purgeable(cases[j], now) && u in FilesOf(cases[j])
    ensures u in DoomedAmong(cases, keys, now)
  {
  }

  /** The files the purge deletes. */
  function Doomed(cases: map<string, KycCase>, now: Instant): set<Uuid> {
    DoomedAmong(cases, cases.Keys, now)
  }

  /** One guarded delete: a reference that is not a UUID, or a file whose
      storage delete throws (one of `failing`), is skipped by the
      surrounding catch and the purge goes on. */
  method DeleteRef(files: BlobStore, ref: string, failing: set<Uuid>)
    modifies files
    ensures files.blobs == old(files.blobs) - (Named(ref) - failing)
  {
    var id := ParseUuid(ref);
    if id.Some? && id.value !in failing {
      files.Delete(id.value);
    }
  }

  /** The four guarded deletes of one selected case: each file is removed
      unless its own delete throws, whatever happens to the other three. */
  method PurgeCase(files: BlobStore, c: KycCase, failing: set<Uuid>)
    modifies files
    ensures files.blobs == old(files.blobs) - (FilesOf(c) - failing)
  {
    ghost var before := files.blobs;
    var front, back, selfie := Named(c.docFrontId), Named(c.docBackId), Named(c.selfieId);
    DeleteRef(files, c.docFrontId, failing);
    DeleteRef(files, c.docBackId, failing);
    RemoveTwiceExcept(before, front, back, failing);
    DeleteRef(files, c.selfieId, failing);
    RemoveTwiceExcept(before, front + back, selfie, failing);
    DeleteRef(files, c.addressId, failing);
    RemoveTwiceExcept(before, front + back + selfie, Named(c.addressId), failing);
  }

  lemma RemoveTwice(m: map<Uuid, seq<bv8>>, a: set<Uuid>, b: set<Uuid>)
    ensures (m - a) - b == m - (a + b)
  {
  }

  /** Two removals that each spare the failing files remove the union,
      sparing the same files. */
  lemma RemoveTwiceExcept(m: map<Uuid, seq<bv8>>, a: set<Uuid>, b: set<Uuid>, f: set<Uuid>)
    ensures (m - (a - f)) - (b - f) == m - ((a + b) - f)
  {
    assert (a - f) + (b - f) == (a + b) - f;
    RemoveTwice(m, a - f, b - f);
  }

  /** `purge`: every selected case gets all four of its deletes attempted,
      each independently of the others, so exactly the selected files
      whose storage delete does not throw are gone. The case store is only
      read; a
      valid store gives every case its `updatedAt`, which the selection
      dereferences. */
  method Purge(store: KycStore, files: BlobStore, now: Instant, failing: set<Uuid>)
    requires store.Valid()
    modifies files
    ensures files.blobs == old(files.blobs) - (Doomed(store.cases, now) - failing)
  {
    var cases := store.cases;
    var todo := cases.Keys;
    ghost var done: set<string> := {};
    while todo != {}
      invariant todo <= cases.Keys && done == cases.Keys - todo
      invariant files.blobs == old(files.blobs) - (DoomedAmong(cases, done, now) - failing)
      decreases |todo|
    {
      var k :| k in todo;
      DoomedAmongAdd(cases, done, k, now);
      if Purgeable(cases[k], now) {
        PurgeCase(files, cases[k], failing);
        RemoveTwiceExcept(old(files.blobs), DoomedAmong(cases, done, now), FilesOf(cases[k]), failing);
      } else {
        assert DoomedAmong(cases, done + {k}, now) == DoomedAmong(cases, done, now);
      }
      todo := todo - {k};
      done := done + {k};
    }
  }

  /** A case that is still open, or was decided within the last thirty
      days, is never selected. */
  lemma OpenOrRecentNotSelected(c: KycCase, now: Instant)
    requires IsActiveCase(c) || (c.updatedAt.Some? && c.updatedAt.value >= now - RETENTION_DAYS * SECONDS_PER_DAY)
    ensures !Purgeable(c, now)
  {
  }

  /** A file that no selected case refers to survives the purge. */
  lemma UnselectedFilesSurvive(cases: map<string, KycCase>, blobs: map<Uuid, seq<bv8>>, now: Instant, u: Uuid)
    requires u in blobs
    requires forall k :: k in cases && u in FilesOf(cases[k]) ==> !Purgeable(cases[k], now)
    ensures u in blobs - Doomed(cases, now)
  {
  }

  /** Running the purge a second time deletes nothing more. */
  lemma PurgeIdempotent(cases: map<string, KycCase>, blobs: map<Uuid, seq<bv8>>, now: Instant)
    ensures (blobs - Doomed(cases, now)) - Doomed(cases, now) == blobs - Doomed(cases, now)
  {
  }

  /** The files still referenced by a case the purge does not select. */
  function InUse(cases: map<string, KycCase>, now: Instant): (d: set<Uuid>)
    ensures forall u :: u in d <==> exists k :: k in cases && !Purgeable(cases[k], now) && u in FilesOf(cases[k])
  {
    set k, u | k in cases && !Purgeable(cases[k], now) && u in FilesOf(cases[k]) :: u
  }

  /** The purge as written deletes every file of a selected case, even one
      that a newer open case of the same user still refers to: submitting
      does not forbid re-using the uploads of a rejected case. */
  lemma SharedFileLost(u: string) returns (cases: map<string, KycCase>, now: Instant)
    requires ParseUuid(u).Some?
    ensures ValidCases(cases) && "open" in cases && IsActiveCase(cases["open"])
    ensures ParseUuid(u).value in FilesOf(cases["open"]) && ParseUuid(u).value in Doomed(cases, now)
  {
    now := 31 * SECONDS_PER_DAY;
    var older := KycCase(Some("old"), u, u, u, u, u, Some(REJECTED), Some(0), Some(0), None, None, None, None, false);
    var open := KycCase(Some("open"), u, u, u, u, u, Some(PENDING), Some(now), Some(now), None, None, None, None, false);
    cases := map["old" := older, "open" := open];
    OldAndOpenValid(older, open);
    var v := ParseUuid(u).value;
    assert Named(u) == {v};
    assert FilesOf(older) == {v} && FilesOf(open) == {v};
    assert Purgeable(cases["old"], now);
    InDoomedAmong(cases, cases.Keys, now, "old", v);
  }

  /** A decided case and an open one, each filed under its id, form a
      valid table. */
  lemma OldAndOpenValid(older: KycCase, open: KycCase)
    requires older.id == Some("old") && open.id == Some("open") && WellFormed(older) && WellFormed(open)
    requires !IsActiveCase(older)
    ensures ValidCases(map["old" := older, "open" := open])
  {
  }

  /** The purge that spares files still in use. */
  function SafeDoomed(cases: map<string, KycCase>, now: Instant): set<Uuid> {
    Doomed(cases, now) - InUse(cases, now)
  }

  /** With the correction, no case that is not selected loses a file, and
      where no file is shared the two purges agree. */
  lemma SafePurgeKeepsLiveFiles(cases: map<string, KycCase>, blobs: map<Uuid, seq<bv8>>, now: Instant)
    ensures forall k, u :: k in cases && !Purgeable(cases[k], now) && u in FilesOf(cases[k]) && u in blobs ==>
              u in blobs - SafeDoomed(cases, now)
    ensures Doomed(cases, now) !! InUse(cases, now) ==> SafeDoomed(cases, now) == Doomed(cases, now)
  {
  }
}

=== FILE: kyc_service.dfy ===
/** The older KYC service: a check that a map of document references names
    four stored uploads, and the pass-through of an upload id. */
module KycDocumentCheck {
  import opened Wrappers
  import opened Text
  import opened KycDomain
  import opened KycRepository
  import opened KycCaseService

  /** The keys `validateRequired` looks up, in the order it looks them up. */
  const REQUIRED_KEYS: seq<string> := ["doc_front", "doc_back", "selfie", "address"]

  /** `ref` is the text of a UUID under which an upload is stored. */
  predicate NamesUpload(uploads: map<Uuid, KycUpload>, ref: string) {
    ParseUuid(ref).Some? && ParseUuid(ref).value in uploads
  }

  /** The map is present and each required key names a stored upload. */
  predicate AllRequiredPresent(ids: Option<map<string, string>>, uploads: map<Uuid, KycUpload>) {
    ids.Some? && RequiredNamedBelow(ids.value, uploads, |REQUIRED_KEYS|)
  }

  /** Each of the first `n` required keys is in the map and names a stored
      upload. */
  predicate RequiredNamedBelow(m: map<string, string>, uploads: map<Uuid, KycUpload>, n: nat)
    requires n <= |REQUIRED_KEYS|
  {
    forall i :: 0 <= i < n ==> REQUIRED_KEYS[i] in m && NamesUpload(uploads, m[REQUIRED_KEYS[i]])
  }

  lemma RequiredNamedStep(m: map<string, string>, uploads: map<Uuid, KycUpload>, n: nat)
    requires n < |REQUIRED_KEYS| && RequiredNamedBelow(m, uploads, n)
    requires REQUIRED_KEYS[n] in m && NamesUpload(uploads, m[REQUIRED_KEYS[n]])
    ensures RequiredNamedBelow(m, uploads, n + 1)
  {
  }

  /** `validateRequired`: false for a missing map, a missing key, a value
      that is not a UUID, or one naming no upload; true otherwise. */
  method ValidateRequired(store: KycStore, ids: Option<map<string, string>>) returns (ok: bool)
    ensures ok <==> AllRequiredPresent(ids, store.uploads)
  {
    if ids.None? {
      return false;
    }
    var m := ids.value;
    for i := 0 to |REQUIRED_KEYS|
      invariant RequiredNamedBelow(m, store.uploads, i)
    {
      var k := REQUIRED_KEYS[i];
      if k !in m {
        return false;
      }
      var id := ParseUuid(m[k]);
      if id.None? || id.value !in store.uploads {
        return false;
      }
      RequiredNamedStep(m, store.uploads, i);
    }
    return true;
  }

  /** The references of a submission the case service accepts pass this
      check too. */
  lemma AcceptedSubmissionIsComplete(uploads: map<Uuid, KycUpload>, userId: Uuid,
                                     front: string, back: string, selfie: string, address: string)
    requires AcceptableSubmission(uploads, userId, front, back, selfie, address)
    ensures AllRequiredPresent(Some(SubmissionMap(front, back, selfie, address)), uploads)
  {
    var m := SubmissionMap(front, back, selfie, address);
    assert NamesUpload(uploads, front) && NamesUpload(uploads, back)
           && NamesUpload(uploads, selfie) && NamesUpload(uploads, address);
    RequiredNamedStep(m, uploads, 0);
    RequiredNamedStep(m, uploads, 1);
    RequiredNamedStep(m, uploads, 2);
    RequiredNamedStep(m, uploads, 3);
  }

  /** The map of a submission's references under the required keys. */
  function SubmissionMap(front: string, back: string, selfie: string, address: string): (m: map<string, string>)
    ensures m.Keys == {"doc_front", "doc_back", "selfie", "address"}
    ensures m[REQUIRED_KEYS[0]] == front && m[REQUIRED_KEYS[1]] == back
    ensures m[REQUIRED_KEYS[2]] == selfie && m[REQUIRED_KEYS[3]] == address
  {
    map["doc_front" := front, "doc_back" := back, "selfie" := selfie, "address" := address]
  }

  /** `handleUploadId`: the id is returned as it was given. */
  function HandleUploadId(id: string): (r: string)
    ensures r == id
  {
    id
  }
}

=== FILE: kyc_status.dfy ===
/** The lifecycle of a KYC case: its statuses and the one table of legal
    status changes that every guarded status write consults. */
module KycStatuses {

  datatype KycStatus =
    | PENDING
    | AUTO_REVIEW
    | UNDER_REVIEW
    | NEEDS_MORE_INFO
    | APPROVED
    | REJECTED
    | SUPERSEDED

  /** The transition table, `KycStatus.canTransitionTo` written out as one
      constant: for each status, the statuses a case may move to from it. */
  function Targets(from: KycStatus): set<KycStatus> {
    match from
    case PENDING => {AUTO_REVIEW, UNDER_REVIEW, NEEDS_MORE_INFO}
    case AUTO_REVIEW => {UNDER_REVIEW, NEEDS_MORE_INFO, APPROVED, REJECTED}
    case UNDER_REVIEW => {APPROVED, REJECTED, NEEDS_MORE_INFO}
    case NEEDS_MORE_INFO => {UNDER_REVIEW, REJECTED}
    case APPROVED => {}
    case REJECTED => {}
    case SUPERSEDED => {}
  }

  predicate CanTransitionTo(from: KycStatus, to: KycStatus) {
    to in Targets(from)
  }

  /** A case still in the pipeline: the user may have at most one of these. */
  predicate IsActive(s: KycStatus) {
    s == PENDING || s == AUTO_REVIEW || s == UNDER_REVIEW || s == NEEDS_MORE_INFO
  }

  predicate IsTerminal(s: KycStatus) {
    s == APPROVED || s == REJECTED || s == SUPERSEDED
  }

  /** The statuses a reviewer may decide on. */
  predicate IsDecision(s: KycStatus) {
    s == APPROVED || s == REJECTED || s == NEEDS_MORE_INFO
  }

  /** A status is terminal exactly when the table lets nothing out of it, and
      every status is either active or terminal. */
  lemma TerminalIffNoExit(s: KycStatus)
    ensures IsTerminal(s) <==> Targets(s) == {}
    ensures IsActive(s) != IsTerminal(s)
  {
    if !IsTerminal(s) {
      match s
      case PENDING => assert AUTO_REVIEW in Targets(s);
      case AUTO_REVIEW => assert UNDER_REVIEW in Targets(s);
      case UNDER_REVIEW => assert APPROVED in Targets(s);
      case NEEDS_MORE_INFO => assert REJECTED in Targets(s);
    }
  }

  /** Only active cases move, a move never re-enters PENDING, never enters
      SUPERSEDED, and never stays where it is. */
  lemma TransitionShape(from: KycStatus, to: KycStatus)
    requires CanTransitionTo(from, to)
    ensures IsActive(from)
    ensures to != PENDING && to != SUPERSEDED
    ensures to != from
  {
  }

  /** The moves the automated review makes are in the table. */
  lemma AutomationMovesAreLegal()
    ensures CanTransitionTo(PENDING, AUTO_REVIEW)
    ensures CanTransitionTo(AUTO_REVIEW, APPROVED)
    ensures CanTransitionTo(AUTO_REVIEW, REJECTED)
    ensures CanTransitionTo(AUTO_REVIEW, UNDER_REVIEW)
  {
  }

  /** From every active status a final decision is at most two moves away,
      so no active case is stuck. */
  lemma DecisionReachable(s: KycStatus)
    requires IsActive(s)
    ensures CanTransitionTo(s, REJECTED)
      || (CanTransitionTo(s, UNDER_REVIEW) && CanTransitionTo(UNDER_REVIEW, REJECTED))
  {
  }
}

=== FILE: kyc_store.dfy ===
/** The KYC tables as one mutable store, and the repository operations the
    services use on it: save (which runs the persistence hooks) and the
    compare-and-set claim on a case's `processing` flag. */
module KycRepository {
  import opened Wrappers
  import opened KycStatuses
  import opened KycDomain

  /** Every stored case is filed under its own id and has its non-null
      columns filled. */
  predicate Keyed(cases: map<string, KycCase>) {
    forall k :: k in cases ==> cases[k].id == Some(k) && WellFormed(cases[k])
  }

  /** A user has at most one case in an active status. */
  predicate OneActivePerUser(cases: map<string, KycCase>) {
    forall a, b ::
      (a in cases && b in cases && IsActiveCase(cases[a]) && IsActiveCase(cases[b])
       && cases[a].userId == cases[b].userId) ==> a == b
  }

  predicate ValidCases(cases: map<string, KycCase>) {
    Keyed(cases) && OneActivePerUser(cases)
  }

  /** Replacing a case by one of the same user that is active only if the old
      one was active keeps at most one active case per user. */
  lemma ReplaceKeepsValid(cases: map<string, KycCase>, k: string, c: KycCase)
    requires ValidCases(cases) && k in cases
    requires c.id == Some(k) && WellFormed(c) && c.userId == cases[k].userId
    requires IsActiveCase(c) ==> IsActiveCase(cases[k])
    ensures ValidCases(cases[k := c])
  {
    var m := cases[k := c];
    forall a, b | a in m && b in m && IsActiveCase(m[a]) && IsActiveCase(m[b]) && m[a].userId == m[b].userId
      ensures a == b
    {
      assert IsActiveCase(cases[a]) && IsActiveCase(cases[b]);
      assert cases[a].userId == cases[b].userId;
    }
  }

  /** The row `save` writes for the entity `c`: an entity whose id is not
      stored yet is inserted through `@PrePersist`; a stored one is updated
      through `@PreUpdate`, which fires only when some field differs from
      the stored row. */
  function Persisted(cases: map<string, KycCase>, c: KycCase, generatedId: string, now: Instant): (r: KycCase)
    ensures c.id.Some? ==> r.id == c.id
    ensures c.id.None? ==> r.id == Some(generatedId)
    ensures WellFormed(c) ==> WellFormed(r)
    ensures r.status == c.status || (c.status.None? && r.status == Some(PENDING))
    ensures r.userId == c.userId && r.processing == c.processing
  {
    if c.id.Some? && c.id.value in cases then
      (if cases[c.id.value] == c then c else PreUpdate(c, now))
    else PrePersist(c, generatedId, now)
  }

  /** Saving an entity whose `updatedAt` is already `now` writes it as it is. */
  lemma PersistedUpdateAtNow(cases: map<string, KycCase>, c: KycCase, generatedId: string, now: Instant)
    requires c.id.Some? && c.id.value in cases && c.updatedAt == Some(now)
    ensures Persisted(cases, c, generatedId, now) == c
  {
  }

  /** `tryMarkProcessing` as a compare-and-set: it sets `processing` on the
      case and answers 1 exactly when the case exists and was not already
      being processed; otherwise it answers 0 and changes nothing. The flag
      is written directly, so no persistence hook runs. */
  function Claim(cases: map<string, KycCase>, id: string): (r: (int, map<string, KycCase>))
    ensures r.0 == 0 || r.0 == 1
    ensures r.0 == 1 <==> id in cases && !cases[id].processing
    ensures r.0 == 1 ==> id in r.1 && r.1[id].processing
  {
    if id in cases && !cases[id].processing then (1, cases[id := cases[id].(processing := true)])
    else (0, cases)
  }

  /** At most one holder: once a claim has succeeded, the next claim on the
      same case fails until the flag is released. */
  lemma ClaimExclusive(cases: map<string, KycCase>, id: string)
    requires Claim(cases, id).0 == 1
    ensures Claim(Claim(cases, id).1, id).0 == 0
  {
  }

  /** A claim touches only the `processing` flag of the claimed case. */
  lemma ClaimFrame(cases: map<string, KycCase>, id: string)
    ensures Claim(cases, id).1.Keys == cases.Keys
    ensures forall k :: k in cases && k != id ==> Claim(cases, id).1[k] == cases[k]
    ensures id in cases ==> Claim(cases, id).1[id].(processing := cases[id].processing) == cases[id]
  {
  }

  lemma ClaimKeepsValid(cases: map<string, KycCase>, id: string)
    requires ValidCases(cases)
    ensures ValidCases(Claim(cases, id).1)
  {
    if id in cases && !cases[id].processing {
      ReplaceKeepsValid(cases, id, cases[id].(processing := true));
    }
  }

  /** The check rows of one case, in the order they were stored. */
  function ChecksOf(checks: seq<KycCheck>, caseId: string): (r: seq<KycCheck>)
    ensures |r| <= |checks|
    ensures forall i :: 0 <= i < |r| ==> r[i].caseId == caseId && r[i] in checks
    ensures forall x :: x in checks && x.caseId == caseId ==> x in r
  {
    if checks == [] then []
    else (if checks[0].caseId == caseId then [checks[0]] else []) + ChecksOf(checks[1..], caseId)
  }

  /** Appending rows of one case leaves every other case's rows as they were. */
  lemma {:induction false} ChecksOfAppend(checks: seq<KycCheck>, extra: seq<KycCheck>, caseId: string)
    ensures ChecksOf(checks + extra, caseId) == ChecksOf(checks, caseId) + ChecksOf(extra, caseId)
  {
    if checks == [] {
      assert checks + extra == extra;
    } else {
      assert (checks + extra)[1..] == checks[1..] + extra;
      ChecksOfAppend(checks[1..], extra, caseId);
    }
  }

  /** A case none of whose rows were stored has no rows. */
  lemma {:induction false} ChecksOfAbsent(checks: seq<KycCheck>, caseId: string)
    requires forall i :: 0 <= i < |checks| ==> checks[i].caseId != caseId
    ensures ChecksOf(checks, caseId) == []
  {
    if checks != [] {
      ChecksOfAbsent(checks[1..], caseId);
    }
  }

  /** The four KYC tables. The idempotency-key table maps (user, key) to the
      case the key was recorded for. */
  class KycStore {
    var cases: map<string, KycCase>
    var uploads: map<Uuid, KycUpload>
    var checks: seq<KycCheck>
    var idemKeys: map<(Uuid, string), string>

    ghost predicate Valid()
      reads this
    {
      ValidCases(cases)
    }

    constructor()
      ensures Valid()
      ensures cases == map[] && uploads == map[] && checks == [] && idemKeys == map[]
    {
      cases := map[];
      uploads := map[];
      checks := [];
      idemKeys := map[];
    }

    /** `tryMarkProcessing(id)`. */
    method TryMarkProcessing(id: string) returns (n: int)
      requires Valid()
      modifies this
      ensures Valid()
      ensures (n, cases) == Claim(old(cases), id)
      ensures uploads == old(uploads) && checks == old(checks) && idemKeys == old(idemKeys)
    {
      ClaimKeepsValid(cases, id);
      if id in cases && !cases[id].processing {
        cases := cases[id := cases[id].(processing := true)];
        n := 1;
      } else {
        n := 0;
      }
    }

    /** `save` of a case entity that is, or replaces, the row under its id. */
    method Save(c: KycCase, generatedId: string, now: Instant) returns (saved: KycCase)
      requires Valid()
      requires c.id.None? ==> generatedId !in cases
      requires c.status.Some?
      requires c.id.Some? ==> WellFormed(c) && c.id.value in cases && c.userId == cases[c.id.value].userId
      requires c.id.Some? && IsActiveCase(c) ==> IsActiveCase(cases[c.id.value])
      requires c.id.None? && IsActiveCase(c) ==>
        forall k :: k in cases && cases[k].userId == c.userId ==> !IsActiveCase(cases[k])
      modifies this
      ensures Valid()
      ensures saved == Persisted(old(cases), c, generatedId, now)
      ensures cases == old(cases)[saved.id.value := saved]
      ensures uploads == old(uploads) && checks == old(checks) && idemKeys == old(idemKeys)
    {
      saved := Persisted(cases, c, generatedId, now);
      if c.id.Some? {
        ReplaceKeepsValid(cases, c.id.value, saved);
      } else {
        var m := cases[generatedId := saved];
        assert Keyed(m);
        forall a, b | a in m && b in m && IsActiveCase(m[a]) && IsActiveCase(m[b]) && m[a].userId == m[b].userId
          ensures a == b
        {
          assert m[generatedId] == saved && saved.status == c.status && saved.userId == c.userId;
        }
      }
      cases := cases[saved.id.value := saved];
    }

    /** Records the case an idempotency key of a user was used for. */
    method RecordIdemKey(userId: Uuid, key: string, caseId: string)
      modifies this
      ensures idemKeys == old(idemKeys)[(userId, key) := caseId]
      ensures cases == old(cases) && uploads == old(uploads) && checks == old(checks)
    {
      idemKeys := idemKeys[(userId, key) := caseId];
    }

    /** Records the metadata of a stored upload. */
    method AddUpload(u: KycUpload)
      modifies this
      ensures uploads == old(uploads)[u.id := u]
      ensures cases == old(cases) && checks == old(checks) && idemKeys == old(idemKeys)
    {
      uploads := uploads[u.id := u];
    }

    /** Appends one check row. */
    method AppendCheck(k: KycCheck)
      modifies this
      ensures checks == old(checks) + [k]
      ensures cases == old(cases) && uploads == old(uploads) && idemKeys == old(idemKeys)
    {
      checks := checks + [k];
    }
  }

  /** The file store behind uploads: the content of every stored file, by
      upload id. */
  class BlobStore {
    var blobs: map<Uuid, seq<bv8>>

    constructor(initial: map<Uuid, seq<bv8>>)
      ensures blobs == initial
    {
      blobs := initial;
    }

    /** Writes the content of a new upload. */
    method Put(id: Uuid, content: seq<bv8>)
      modifies this
      ensures blobs == old(blobs)[id := content]
    {
      blobs := blobs[id := content];
    }

    /** `delete`: removes a file; removing a missing one changes nothing. */
    method Delete(id: Uuid)
      modifies this
      ensures blobs == old(blobs) - {id}
    {
      blobs := blobs - {id};
    }
  }
}

=== FILE: kyc_upload.dfy ===
/** The KYC upload endpoint's validation chain: authentication, document
    type, size, content type and the daily quota, each with its own HTTP
    status, checked in that order before the file is stored. */
module KycUploadValidation {
  import opened Wrappers
  import opened Text
  import opened KycDomain
  import opened KycRepository

  const ALLOWED_TYPES: set<string> := {"DOC_FRONT", "DOC_BACK", "SELFIE", "ADDRESS_PROOF"}

  /** 10 MiB; a file of exactly this size is accepted. */
  const MAX_UPLOAD_BYTES: nat := 10 * 1024 * 1024

  const ALLOWED_CONTENT_TYPES: set<string> := {"image/jpeg", "image/png", "image/webp"}

  /** Uploads per user per UTC day. */
  const DAILY_UPLOAD_LIMIT: nat := 20

  datatype UploadError = Unauthorized | InvalidType | PayloadTooLarge | UnsupportedMediaType | TooManyRequests

  function HttpStatusOf(e: UploadError): (code: int)
    ensures 400 <= code < 500
  {
    match e
    case Unauthorized => 401
    case InvalidType => 400
    case PayloadTooLarge => 413
    case UnsupportedMediaType => 415
    case TooManyRequests => 429
  }

  /** Midnight UTC of the day `now` falls in. */
  function StartOfUtcDay(now: Instant): (t: Instant)
    ensures t <= now < t + SECONDS_PER_DAY && t % SECONDS_PER_DAY == 0
  {
    now - now % SECONDS_PER_DAY
  }

  /** The uploads of `who` created strictly after `since`. */
  function UploadsAfter(uploads: map<Uuid, KycUpload>, who: Uuid, since: Instant): set<Uuid> {
    set id | id in uploads && uploads[id].uploadedBy == who && uploads[id].createdAt > since
  }

  /** The content type as compared: lower-cased, a missing one read as "". */
  function NormalizedContentType(contentType: Option<string>): string {
    ToLower(contentType.GetOr(""))
  }

  /** Which check an upload fails first, or the caller's id when it passes
      them all. `auth` is the authenticated user, if any. */
  function CheckUpload(auth: Option<Uuid>, kind: string, size: nat, contentType: Option<string>,
                       uploads: map<Uuid, KycUpload>, now: Instant): (r: Result<Uuid, UploadError>)
    ensures r.Ok? <==> (auth.Some? && kind in ALLOWED_TYPES && size <= MAX_UPLOAD_BYTES
                        && NormalizedContentType(contentType) in ALLOWED_CONTENT_TYPES
                        && |UploadsAfter(uploads, auth.value, StartOfUtcDay(now))| < DAILY_UPLOAD_LIMIT)
    ensures r.Ok? ==> r.value == auth.value
  {
    if auth.None? then Err(Unauthorized)
    else if kind !in ALLOWED_TYPES then Err(InvalidType)
    else if size > MAX_UPLOAD_BYTES then Err(PayloadTooLarge)
    else if NormalizedContentType(contentType) !in ALLOWED_CONTENT_TYPES then Err(UnsupportedMediaType)
    else if |UploadsAfter(uploads, auth.value, StartOfUtcDay(now))| >= DAILY_UPLOAD_LIMIT then Err(TooManyRequests)
    else Ok(auth.value)
  }

  /** The checks run in order: a missing authentication is reported before
      anything else, a bad type before the size, the size before the
      content type, and the content type before the quota. */
  lemma CheckOrder(auth: Option<Uuid>, kind: string, size: nat, contentType: Option<string>,
                   uploads: map<Uuid, KycUpload>, now: Instant)
    ensures auth.None? ==> CheckUpload(auth, kind, size, contentType, uploads, now) == Err(Unauthorized)
    ensures auth.Some? && kind !in ALLOWED_TYPES ==>
              CheckUpload(auth, kind, size, contentType, uploads, now) == Err(InvalidType)
    ensures auth.Some? && kind in ALLOWED_TYPES && size > MAX_UPLOAD_BYTES ==>
              CheckUpload(auth, kind, size, contentType, uploads, now) == Err(PayloadTooLarge)
    ensures auth.Some? && kind in ALLOWED_TYPES && size <= MAX_UPLOAD_BYTES
            && NormalizedContentType(contentType) !in ALLOWED_CONTENT_TYPES ==>
              CheckUpload(auth, kind, size, contentType, uploads, now) == Err(UnsupportedMediaType)
  {
  }

  /** The limit is inclusive: exactly 10 MiB passes the size check, one
      byte more does not; and the content type is compared without regard
      to letter case. */
  lemma SizeAndCaseBoundaries(who: Uuid, now: Instant)
    ensures CheckUpload(Some(who), "SELFIE", MAX_UPLOAD_BYTES, Some("IMAGE/PNG"), map[], now) == Ok(who)
    ensures CheckUpload(Some(who), "SELFIE", MAX_UPLOAD_BYTES + 1, Some("image/png"), map[], now) == Err(PayloadTooLarge)
    ensures CheckUpload(Some(who), "SELFIE", 1, None, map[], now) == Err(UnsupportedMediaType)
  {
    assert UploadsAfter(map[], who, StartOfUtcDay(now)) == {};
    UpperCasePngIsPng();
    assert NormalizedContentType(None) == "";
  }

  /** "IMAGE/PNG" compares as "image/png". */
  lemma UpperCasePngIsPng()
    ensures NormalizedContentType(Some("IMAGE/PNG")) == "image/png"
  {
    var s, t := "IMAGE/PNG", "image/png";
    assert LowerChar('I') == 'i' && LowerChar('M') == 'm' && LowerChar('A') == 'a' && LowerChar('G') == 'g';
    assert LowerChar('E') == 'e' && LowerChar('/') == '/' && LowerChar('P') == 'p' && LowerChar('N') == 'n';
    assert ToLower(s) == t;
  }

  /** Storing an upload at `now` counts toward the same day's quota, except
      at the very instant of midnight, which the strict comparison leaves
      out. */
  lemma UploadCountsTowardQuota(uploads: map<Uuid, KycUpload>, u: KycUpload, now: Instant)
    requires u.id !in uploads && u.createdAt == now
    ensures |UploadsAfter(uploads[u.id := u], u.uploadedBy, StartOfUtcDay(now))|
            == |UploadsAfter(uploads, u.uploadedBy, StartOfUtcDay(now))| + (if now % SECONDS_PER_DAY == 0 then 0 else 1)
  {
    var before := UploadsAfter(uploads, u.uploadedBy, StartOfUtcDay(now));
    var after := UploadsAfter(uploads[u.id := u], u.uploadedBy, StartOfUtcDay(now));
    if now % SECONDS_PER_DAY == 0 {
      assert after == before;
    } else {
      assert after == before + {u.id};
    }
  }

  /** `upload`: the checks, then the file and its metadata are stored under
      a new id, with the validated type and the caller as uploader. */
  method Upload(store: KycStore, files: BlobStore, auth: Option<Uuid>, kind: string, content: seq<bv8>,
                contentType: Option<string>, newId: Uuid, now: Instant) returns (r: Result<Uuid, UploadError>)
    requires store.Valid()
    requires newId !in store.uploads
    modifies store, files
    ensures store.Valid()
    ensures CheckUpload(auth, kind, |content|, contentType, old(store.uploads), now).Err? ==>
              r == Err(CheckUpload(auth, kind, |content|, contentType, old(store.uploads), now).error)
              && store.uploads == old(store.uploads) && files.blobs == old(files.blobs)
    ensures CheckUpload(auth, kind, |content|, contentType, old(store.uploads), now).Ok? ==>
              r == Ok(newId)
              && store.uploads == old(store.uploads)[newId := KycUpload(newId, kind, contentType.GetOr(""), |content|, auth.value, now)]
              && files.blobs == old(files.blobs)[newId := content]
    ensures store.cases == old(store.cases) && store.checks == old(store.checks) && store.idemKeys == old(store.idemKeys)
  {
    var checked := CheckUpload(auth, kind, |content|, contentType, store.uploads, now);
    if checked.Err? {
      return Err(checked.error);
    }
    files.Put(newId, content);
    store.AddUpload(KycUpload(newId, kind, contentType.GetOr(""), |content|, checked.value, now));
    r := Ok(newId);
  }
}

=== FILE: ml_address.dfy ===
/** The ML service's address check: the address texts read from the back of
    the identity card and from the utility bill are normalised, cut into
    word tokens and house numbers, and compared by the Jaccard index of
    their token sets with a small bonus for a shared house number. */
module AddressMatch {
  import opened Wrappers
  import opened Text

  // ---------------------------------------------------------------------
  // _normalize
  // ---------------------------------------------------------------------

  /** `encode("ascii", "ignore")`: every non-ASCII character is dropped. */
  function AsciiOnly(s: string): (r: string)
    ensures AllAscii(r) && |r| <= |s|
    ensures forall i :: 0 <= i < |r| ==> r[i] in s
    ensures forall c :: c in s && IsAscii(c) ==> c in r
  {
    if s == [] then []
    else
      var rest := AsciiOnly(s[1..]);
      if IsAscii(s[0]) then [s[0]] + rest else rest
  }

  /** The characters `[a-z0-9/,\-\s]` that survive the masking step. */
  predicate IsKept(c: char) {
    IsAsciiLower(c) || IsAsciiDigit(c) || c == '/' || c == ',' || c == '-' || IsPySpace(c)
  }

  /** Every other character becomes a space. */
  function Mask(s: string): (r: string)
    ensures |r| == |s|
    ensures forall i :: 0 <= i < |s| ==> r[i] == (if IsKept(s[i]) then s[i] else ' ')
  {
    if s == [] then [] else [if IsKept(s[0]) then s[0] else ' '] + Mask(s[1..])
  }

  /** `w` occurs at `i`. */
  predicate At(s: string, i: int, w: string) {
    0 <= i && i + |w| <= |s| && s[i..i + |w|] == w
  }

  /** The end of a match of `\b(sri\s*lanka|lk)\b` starting at `i`. */
  function CountryAt(s: string, i: nat): (e: Option<nat>)
    requires i <= |s|
    ensures e.Some? ==> i < e.value <= |s|
  {
    if !WordBoundary(s, i) then None
    else if At(s, i, "sri") then
      var k := SkipSpace(s, i + 3);
      if At(s, k, "lanka") && WordBoundary(s, k + 5) then Some(k + 5) else None
    else if At(s, i, "lk") && WordBoundary(s, i + 2) then Some(i + 2)
    else None
  }

  /** `re.sub` of the country pattern by a space, from position `i` on:
      matches are found left to right and do not overlap. */
  function DropCountryFrom(s: string, i: nat): (r: string)
    requires i <= |s|
    ensures forall j :: 0 <= j < |r| ==> r[j] == ' ' || r[j] in s[i..]
    decreases |s| - i
  {
    if i == |s| then []
    else
      match CountryAt(s, i)
      case Some(e) =>
        var rest := DropCountryFrom(s, e);
        assert forall j :: 0 <= j < |rest| ==> rest[j] == ' ' || rest[j] in s[i..] by {
          assert forall c :: c in s[e..] ==> c in s[i..];
        }
        " " + rest
      case None =>
        var rest := DropCountryFrom(s, i + 1);
        assert forall j :: 0 <= j < |rest| ==> rest[j] == ' ' || rest[j] in s[i..] by {
          assert forall c :: c in s[i + 1..] ==> c in s[i..];
        }
        [s[i]] + rest
  }

  /** `re.sub(r"\s+", " ", s)`: every run of whitespace becomes one space. */
  function Collapse(s: string): (r: string)
    ensures forall j :: 0 <= j < |r| ==> r[j] == ' ' || (r[j] in s && !IsPySpace(r[j]))
    decreases |s|
  {
    if s == [] then []
    else if IsPySpace(s[0]) then
      var k := SkipSpace(s, 0);
      var rest := Collapse(s[k..]);
      assert forall c :: c in s[k..] ==> c in s;
      " " + rest
    else
      var rest := Collapse(s[1..]);
      assert forall c :: c in s[1..] ==> c in s;
      [s[0]] + rest
  }

  /** The characters of a normalised address. */
  predicate IsNormalChar(c: char) {
    IsAsciiLower(c) || IsAsciiDigit(c) || c == '/' || c == ',' || c == '-' || c == ' '
  }

  /** `_normalize`: ASCII only, lower case, other characters and the country
      name turned into spaces, whitespace collapsed and stripped. */
  function Normalize(s: string): (r: string)
    ensures forall j :: 0 <= j < |r| ==> IsNormalChar(r[j])
    ensures r != [] ==> r[0] != ' ' && r[|r| - 1] != ' '
  {
    var collapsed := Collapse(DropCountryFrom(Mask(ToLower(AsciiOnly(s))), 0));
    NormalizedChars(ToLower(AsciiOnly(s)));
    StrippedChars(collapsed);
    PyStrip(collapsed)
  }

  /** Stripping keeps the characters of a normalised address. */
  lemma StrippedChars(t: string)
    requires forall c :: c in t ==> IsNormalChar(c)
    ensures forall j :: 0 <= j < |PyStrip(t)| ==> IsNormalChar(PyStrip(t)[j])
  {
    PyStripInside(t);
    var r := PyStrip(t);
    forall j | 0 <= j < |r| ensures IsNormalChar(r[j]) {
      assert r[j] in r;
    }
  }

  /** Masking keeps only the characters of the pattern; dropping the
      country adds only spaces; collapsing turns whitespace into single
      spaces. What is left are the characters of a normalised address. */
  lemma NormalizedChars(x: string)
    ensures forall c :: c in Collapse(DropCountryFrom(Mask(x), 0)) ==> IsNormalChar(c)
  {
    var m := Mask(x);
    forall c | c in m ensures IsKept(c) {
      var j :| 0 <= j < |m| && m[j] == c;
    }
    var d := DropCountryFrom(m, 0);
    assert m[0..] == m;
    forall c | c in d ensures IsKept(c) {
      var j :| 0 <= j < |d| && d[j] == c;
    }
    var t := Collapse(d);
    forall c | c in t ensures IsNormalChar(c) {
      var j :| 0 <= j < |t| && t[j] == c;
    }
  }

  /** What `strip` keeps is part of its input. */
  lemma {:induction false} PyStripInside(s: string)
    ensures forall c :: c in PyStrip(s) ==> c in s
    decreases |s|
  {
    if s != [] && IsPySpace(s[0]) {
      PyStripInside(s[1..]);
    } else if s != [] && IsPySpace(s[|s| - 1]) {
      PyStripInside(s[..|s| - 1]);
    }
  }

  // ---------------------------------------------------------------------
  // _token_set, _num_set
  // ---------------------------------------------------------------------

  /** `[a-z0-9]`, the characters tokens are made of. */
  predicate IsTokenChar(c: char) { IsAsciiLower(c) || IsAsciiDigit(c) }

  /** The end of the run of token characters starting at `i`. */
  function RunEnd(s: string, i: nat): (k: nat)
    requires i <= |s|
    ensures i <= k <= |s| && (k == |s| || !IsTokenChar(s[k]))
    ensures forall j :: i <= j < k ==> IsTokenChar(s[j])
    decreases |s| - i
  {
    if i < |s| && IsTokenChar(s[i]) then RunEnd(s, i + 1) else i
  }

  /** The non-empty pieces of `re.split(r"[^a-z0-9]+", s)`: the maximal
      runs of token characters, in order. */
  function Words(s: string): (ws: seq<string>)
    ensures forall i :: 0 <= i < |ws| ==> ws[i] != []
    ensures forall i, j :: 0 <= i < |ws| && 0 <= j < |ws[i]| ==> IsTokenChar(ws[i][j])
    decreases |s|
  {
    if s == [] then []
    else if !IsTokenChar(s[0]) then Words(s[1..])
    else
      var k := RunEnd(s, 0);
      [s[..k]] + Words(s[k..])
  }

  /** `_token_set`: the words of the normalised text that have at least two
      characters and are not all digits. */
  function TokenSet(s: string): (ts: set<string>)
  {
    set w | w in Words(Normalize(s)) && |w| >= 2 && !AllDigits(w)
  }

  /** `_num_set`: `\b\d+\b` on the normalised text, where the word
      characters are exactly the token characters, so a number is a word
      made only of digits. */
  function NumSet(s: string): (ns: set<string>)
  {
    set w | w in Words(Normalize(s)) && AllDigits(w)
  }

  /** Every token has at least two letters or digits, and at least one of
      them is a letter; every number is a non-empty run of digits. */
  lemma TokenShape(s: string)
    ensures forall t :: t in TokenSet(s) ==>
              |t| >= 2 && (forall j :: 0 <= j < |t| ==> IsTokenChar(t[j]))
              && exists j :: 0 <= j < |t| && IsAsciiLower(t[j])
    ensures forall n :: n in NumSet(s) ==> n != [] && AllDigits(n)
  {
    forall t | t in TokenSet(s)
      ensures exists j :: 0 <= j < |t| && IsAsciiLower(t[j])
    {
      var i :| 0 <= i < |Words(Normalize(s))| && Words(Normalize(s))[i] == t;
      var j :| 0 <= j < |t| && !IsAsciiDigit(t[j]);
      assert IsTokenChar(t[j]);
    }
  }

  // ---------------------------------------------------------------------
  // address_similarity
  // ---------------------------------------------------------------------

  /** The house-number bonus. */
  const NUMBER_BONUS: real := 0.15

  function Min(a: real, b: real): real { if a <= b then a else b }

  /** The score of two token sets and two number sets. */
  function Score(a: set<string>, b: set<string>, na: set<string>, nb: set<string>): (r: real)
    ensures 0.0 <= r <= 1.0
    ensures a == {} || b == {} ==> r == 0.0
  {
    if a == {} || b == {} then 0.0
    else
      JaccardBounds(a, b);
      var j := |a * b| as real / |a + b| as real;
      var bonus := if na != {} && nb != {} && na * nb != {} then NUMBER_BONUS else 0.0;
      Min(1.0, j + bonus)
  }

  /** The size of the intersection is at most that of the union, which is
      positive when the sets are not empty. */
  lemma JaccardBounds(a: set<string>, b: set<string>)
    requires a != {}
    ensures 0 <= |a * b| <= |a + b| && |a + b| > 0
  {
    var x :| x in a;
    assert x in a + b;
    SubsetCard(a * b, a + b);
  }

  lemma SubsetCard(x: set<string>, y: set<string>)
    requires x <= y
    ensures |x| <= |y|
    ensures |x| == |y| ==> x == y
  {
    assert y == x + (y - x);
    assert x * (y - x) == {};
    assert |y| == |x| + |y - x|;
    if |x| == |y| {
      assert y - x == {};
    }
  }

  /** `address_similarity`. */
  function AddressSimilarity(a: string, b: string): (r: real)
    ensures 0.0 <= r <= 1.0
    ensures TokenSet(a) == {} || TokenSet(b) == {} ==> r == 0.0
  {
    Score(TokenSet(a), TokenSet(b), NumSet(a), NumSet(b))
  }

  /** Comparing b with a gives the same score as comparing a with b. */
  lemma SimilaritySymmetric(a: string, b: string)
    ensures AddressSimilarity(a, b) == AddressSimilarity(b, a)
  {
    ScoreSymmetric(TokenSet(a), TokenSet(b), NumSet(a), NumSet(b));
  }

  lemma ScoreSymmetric(a: set<string>, b: set<string>, na: set<string>, nb: set<string>)
    ensures Score(a, b, na, nb) == Score(b, a, nb, na)
  {
    assert a * b == b * a && a + b == b + a && na * nb == nb * na;
  }

  /** Without a shared number the score is the Jaccard index, which is 1
      only for equal sets. */
  lemma ScoreWithoutBonus(a: set<string>, b: set<string>, na: set<string>, nb: set<string>)
    requires a != {} && b != {} && na * nb == {}
    ensures Score(a, b, na, nb) == |a * b| as real / |a + b| as real
    ensures Score(a, b, na, nb) == 1.0 <==> a == b
  {
    JaccardBounds(a, b);
    SubsetCard(a * b, a + b);
    if a == b {
      assert a * b == a + b;
    }
  }

  /** Without a shared house number, the score is exactly the Jaccard index
      of the token sets; it is 1 only for equal token sets. */
  lemma NoBonusWithoutSharedNumber(a: string, b: string)
    requires TokenSet(a) != {} && TokenSet(b) != {}
    requires NumSet(a) * NumSet(b) == {}
    ensures AddressSimilarity(a, b) == |TokenSet(a) * TokenSet(b)| as real / |TokenSet(a) + TokenSet(b)| as real
    ensures AddressSimilarity(a, b) == 1.0 <==> TokenSet(a) == TokenSet(b)
  {
    ScoreWithoutBonus(TokenSet(a), TokenSet(b), NumSet(a), NumSet(b));
  }

  /** A shared house number raises the Jaccard index by 0.15, up to 1. */
  lemma BonusForSharedNumber(a: string, b: string)
    requires TokenSet(a) != {} && TokenSet(b) != {}
    requires NumSet(a) * NumSet(b) != {}
    ensures AddressSimilarity(a, b)
            == Min(1.0, |TokenSet(a) * TokenSet(b)| as real / |TokenSet(a) + TokenSet(b)| as real + NUMBER_BONUS)
  {
    assert NumSet(a) != {} && NumSet(b) != {};
  }

  lemma ScoreOfSame(a: set<string>, na: set<string>)
    requires a != {}
    ensures Score(a, a, na, na) == 1.0
  {
    assert a * a == a && a + a == a;
    assert |a| > 0;
  }

  /** An address with at least one token matches itself fully. */
  lemma SelfSimilarity(a: string)
    requires TokenSet(a) != {}
    ensures AddressSimilarity(a, a) == 1.0
  {
    ScoreOfSame(TokenSet(a), NumSet(a));
  }

  // ---------------------------------------------------------------------
  // address_match_score
  // ---------------------------------------------------------------------

  /** The OCR adapter's `extract(front, back)`: the fields it read, or
      `None` where it raised. Values are the text `str(...)` makes of
      them, so a `raw_text` of `None` arrives as "None". */
  type Ocr = (Option<seq<bv8>>, Option<seq<bv8>>) -> Option<map<string, string>>

  /** An image is given when it is present and not empty (Python truth). */
  predicate Given(img: Option<seq<bv8>>) { img.Some? && img.value != [] }

  /** `_raw`: the raw OCR text of the images, or "" when none is given or
      the adapter fails. */
  function RawText(ocr: Ocr, front: Option<seq<bv8>>, back: Option<seq<bv8>>): (r: string)
    ensures !Given(front) && !Given(back) ==> r == ""
    ensures (Given(front) || Given(back)) && ocr(front, back).None? ==> r == ""
    ensures (Given(front) || Given(back)) && ocr(front, back).Some? ==>
              r == (if "raw_text" in ocr(front, back).value then ocr(front, back).value["raw_text"] else "")
  {
    if !(Given(front) || Given(back)) then ""
    else
      match ocr(front, back)
      case None => ""
      case Some(fields) => if "raw_text" in fields then fields["raw_text"] else ""
  }

  /** The details returned beside the score. */
  datatype MatchDetails = MatchDetails(idAddress: string, billAddress: string, idRawLen: nat, billRawLen: nat)

  /** `address_match_score`: the card back is read as the back image and the
      bill as the front image; the address is cut out of each raw text by
      `extract` (the text and "id" or "bill"), and the two are compared. */
  function AddressMatchScore(ocr: Ocr, extract: (string, string) -> string,
                             idBack: Option<seq<bv8>>, bill: Option<seq<bv8>>): (r: (real, MatchDetails))
    ensures 0.0 <= r.0 <= 1.0
    ensures r.0 == AddressSimilarity(r.1.idAddress, r.1.billAddress)
    ensures r.1.idAddress == extract(RawText(ocr, None, idBack), "id")
    ensures r.1.billAddress == extract(RawText(ocr, bill, None), "bill")
    ensures r.1.idRawLen == |RawText(ocr, None, idBack)| && r.1.billRawLen == |RawText(ocr, bill, None)|
  {
    var rawId := RawText(ocr, None, idBack);
    var rawBill := RawText(ocr, bill, None);
    var idAddr := extract(rawId, "id");
    var billAddr := extract(rawBill, "bill");
    (AddressSimilarity(idAddr, billAddr), MatchDetails(idAddr, billAddr, |rawId|, |rawBill|))
  }

  /** Missing images never raise: both raw texts are empty and the
      addresses are what `extract` makes of empty text. */
  lemma MissingImagesScoreEmptyText(ocr: Ocr, extract: (string, string) -> string)
    ensures AddressMatchScore(ocr, extract, None, None).1
            == MatchDetails(extract("", "id"), extract("", "bill"), 0, 0)
  {
  }
}

=== FILE: ml_kyc_client.dfy ===
/** The backend's client for the ML service: the aggregate request and
    response shapes, which failures are retried, how a failure is turned into
    a message, and the failed result of the single-check endpoints. The HTTP
    exchange itself is an input: the answers the service would give to
    successive attempts. */
module MlKycClient {
  import opened Wrappers
  import opened Text

  /** A failure of one exchange. `HttpError` is an error status answered by
      the service (`WebClientResponseException`), carrying the response body
      and the exception's own message; `TransportError` is any other failure
      (connection, read timeout, decoding), whose message may be null. */
  datatype MlError =
    | HttpError(status: int, body: string, text: string)
    | TransportError(message: Option<string>)

  /** `isRetryable`: error statuses 5xx and 429, and every non-HTTP failure. */
  predicate IsRetryable(e: MlError) {
    match e
    case HttpError(status, _, _) => status >= 500 || status == 429
    case TransportError(_) => true
  }

  /** `errorMsg`: "HTTP <status> - <body>" for an error status, otherwise the
      exception's message, which may be null. */
  function ErrorMsg(e: MlError): (m: Option<string>)
    ensures e.HttpError? ==> m.Some? && StartsWith(m.value, "HTTP ") && EndsWith(m.value, " - " + e.body)
    ensures e.TransportError? ==> m == e.message
  {
    match e
    case HttpError(status, body, _) =>
      var s := "HTTP " + IntToString(status) + " - " + body;
      assert s[..5] == "HTTP ";
      assert s[|s| - |" - " + body|..] == " - " + body;
      Some(s)
    case TransportError(msg) => msg
  }

  /** The exception's own message (`getMessage()`). */
  function ExceptionMessage(e: MlError): Option<string> {
    match e
    case HttpError(_, _, message) => Some(message)
    case TransportError(message) => message
  }

  // ---------------------------------------------------------------------
  // The aggregate exchange
  // ---------------------------------------------------------------------

  /** The aggregate request. Images travel as Base64 text in the source; here
      they are the bytes themselves, absent when the file could not be read. */
  datatype AggregateRequest = AggregateRequest(
    selfie: Option<seq<bv8>>,
    docPortraitImage: Option<seq<bv8>>,
    docFrontImage: Option<seq<bv8>>,
    docBackImage: Option<seq<bv8>>,
    addressProofImage: Option<seq<bv8>>,
    meta: map<string, string>)

  /** One check of the response. `details` is the details object already
      serialized as JSON, absent when the service sent null. */
  datatype Check = Check(kind: string, score: Option<real>, passed: Option<bool>, details: Option<string>)

  datatype AggregateResponse = AggregateResponse(
    decision: Option<string>,
    reasons: Option<seq<string>>,
    checks: Option<seq<Check>>)

  datatype AggregateResult = AggregateResult(body: Option<AggregateResponse>, requestId: Option<string>)

  /** The response entity of one successful exchange: the body and the
      X-Request-ID header, each possibly absent. */
  datatype Entity = Entity(body: Option<AggregateResponse>, requestIdHeader: Option<string>)

  /** What one attempt produced: a response entity (possibly none), or a failure. */
  datatype Attempt = Responded(entity: Option<Entity>) | Failed(error: MlError)

  /** How a call of `aggregate` ends: with a result, or with the exception it
      throws, of which only the message is kept. */
  datatype MlCall = Returned(result: AggregateResult) | Threw(message: Option<string>)

  /** `Retry.max(2)`: at most two retries after the first attempt. */
  const MAX_RETRIES: nat := 2

  /** The exception Reactor raises once the retries are used up. */
  const RETRIES_EXHAUSTED: string := "Retries exhausted: 2/2"

  /** The result built from the entity: body and request id, both absent
      when there is no entity. */
  function ResultOf(ent: Option<Entity>): (r: AggregateResult)
    ensures ent.None? ==> r.body.None? && r.requestId.None?
    ensures ent.Some? ==> r.body == ent.value.body && r.requestId == ent.value.requestIdHeader
  {
    match ent
    case None => AggregateResult(None, None)
    case Some(e) => AggregateResult(e.body, e.requestIdHeader)
  }

  /** `aggregate` from the point where `retries` retries have been made.
      `answers` holds what the service answers to this attempt and to each
      remaining one. The second component is the number of attempts made. */
  function AggregateFrom(answers: seq<Attempt>, retries: nat): (r: (MlCall, nat))
    requires retries <= MAX_RETRIES && |answers| == MAX_RETRIES - retries + 1
    ensures 1 <= r.1 <= |answers|
    ensures forall i :: 0 <= i < r.1 - 1 ==> answers[i].Failed? && IsRetryable(answers[i].error)
    decreases |answers|
  {
    match answers[0]
    case Responded(ent) => (Returned(ResultOf(ent)), 1)
    case Failed(e) =>
      if !IsRetryable(e) then (Threw(ExceptionMessage(e)), 1)
      else if retries == MAX_RETRIES then (Threw(Some(RETRIES_EXHAUSTED)), 1)
      else
        var rest := AggregateFrom(answers[1..], retries + 1);
        (rest.0, rest.1 + 1)
  }

  /** `aggregate`: `answers` are the service's answers to the first attempt
      and to each possible retry. */
  function Aggregate(answers: seq<Attempt>): (r: (MlCall, nat))
    requires |answers| == MAX_RETRIES + 1
    ensures 1 <= r.1 <= MAX_RETRIES + 1
    ensures forall i :: 0 <= i < r.1 - 1 ==> answers[i].Failed? && IsRetryable(answers[i].error)
  {
    AggregateFrom(answers, 0)
  }

  /** The attempt that ends the call decides it: a response is returned as it
      came, a failure that is not retryable is thrown as it is, and three
      retryable failures end the call with the exhaustion error. */
  lemma {:induction false} AggregateOutcome(answers: seq<Attempt>, retries: nat)
    requires retries <= MAX_RETRIES && |answers| == MAX_RETRIES - retries + 1
    ensures var (call, n) := AggregateFrom(answers, retries);
      match answers[n - 1]
      case Responded(ent) => call == Returned(ResultOf(ent))
      case Failed(e) =>
        if IsRetryable(e) then n == |answers| && call == Threw(Some(RETRIES_EXHAUSTED))
        else call == Threw(ExceptionMessage(e))
    decreases |answers|
  {
    match answers[0]
    case Responded(_) =>
    case Failed(e) =>
      if IsRetryable(e) && retries < MAX_RETRIES {
        AggregateOutcome(answers[1..], retries + 1);
      }
  }

  /** A failure that is not retryable is never retried. */
  lemma NonRetryableNotRetried(answers: seq<Attempt>)
    requires |answers| == MAX_RETRIES + 1
    requires answers[0].Failed? && !IsRetryable(answers[0].error)
    ensures Aggregate(answers) == (Threw(ExceptionMessage(answers[0].error)), 1)
  {
  }

  // ---------------------------------------------------------------------
  // The failed single-check result
  // ---------------------------------------------------------------------

  /** The result of a single-check endpoint. */
  datatype SimpleResult = SimpleResult(kind: string, score: Option<real>, passed: Option<bool>, detailsJson: string)

  /** The error details object: the message between `{"error":"` and `"}`,
      with every double quote turned into an apostrophe. */
  function ErrorDetails(message: string): (j: string)
    ensures |j| >= 12 && StartsWith(j, "{\"error\":\"") && EndsWith(j, "\"}")
    ensures '"' !in j[10..|j| - 2]
  {
    var inner := ReplaceChar(message, '"', "'");
    var j := "{\"error\":\"" + inner + "\"}";
    assert j[..10] == "{\"error\":\"";
    assert j[|j| - 2..] == "\"}";
    assert j[10..|j| - 2] == inner;
    j
  }

  /** `Result.failed` as written: a null message makes `replace` throw, which
      is modelled as `None`. */
  function FailedResultAsWritten(message: Option<string>): (r: Option<SimpleResult>)
    ensures r.None? <==> message.None?
  {
    match message
    case None => None
    case Some(m) => Some(SimpleResult("ERROR", Some(0.0), Some(false), ErrorDetails(m)))
  }

  /** `Result.failed` with a null message read as empty text, as the
      orchestrator's `safe` does: it always yields the failed result. */
  function FailedResult(message: Option<string>): (r: SimpleResult)
    ensures r.kind == "ERROR" && r.score == Some(0.0) && r.passed == Some(false)
    ensures r.detailsJson == ErrorDetails(message.GetOr(""))
  {
    SimpleResult("ERROR", Some(0.0), Some(false), ErrorDetails(message.GetOr("")))
  }

  /** The error path of the single-check endpoints as written: a failure
      becomes `Result.failed(errorMsg(ex))`. */
  function SimpleFailureAsWritten(e: MlError): Option<SimpleResult> {
    FailedResultAsWritten(ErrorMsg(e))
  }

  /** The error path with the corrected builder. */
  function SimpleFailure(e: MlError): (r: SimpleResult)
    ensures r.kind == "ERROR" && r.passed == Some(false)
  {
    FailedResult(ErrorMsg(e))
  }

  /** A transport failure without a message (a read timeout, for one) makes
      the written error path throw instead of returning a failed result;
      the corrected one returns it, and agrees with the written one whenever
      there is a message. */
  lemma NullMessageBreaksFailedResult()
    ensures SimpleFailureAsWritten(TransportError(None)).None?
    ensures SimpleFailure(TransportError(None)).detailsJson == "{\"error\":\"\"}"
  {
    assert ReplaceChar("", '"', "'") == "";
  }

  lemma FailedAgreesWhenMessagePresent(e: MlError)
    requires ErrorMsg(e).Some?
    ensures SimpleFailureAsWritten(e) == Some(SimpleFailure(e))
  {
  }

  /** An error status is retryable exactly when it is a server error or a
      rate limit, and every failure without a status is retryable. */
  lemma RetryClassification(status: int, body: string, message: string, m: Option<string>)
    ensures IsRetryable(HttpError(status, body, message)) <==> status >= 500 || status == 429
    ensures IsRetryable(TransportError(m))
  {
  }
}

=== FILE: ml_nic.dfy ===
/** The ML service's reader for Sri Lankan national identity card text:
    the NIC number in its new (12 digits) or old (9 digits and a letter)
    form, the holder's name and the date of birth. */
module NicText {
  import opened Wrappers
  import opened Text

  // ---------------------------------------------------------------------
  // Characters and positions
  // ---------------------------------------------------------------------

  predicate DigitsAt(s: string, i: int, n: nat) {
    0 <= i && i + n <= |s| && forall j :: i <= j < i + n ==> IsAsciiDigit(s[j])
  }

  // ---------------------------------------------------------------------
  // The NIC number
  // ---------------------------------------------------------------------

  /** `\b(\d{12})\b` matches at `i`. */
  predicate NewNicAt(s: string, i: int) {
    DigitsAt(s, i, 12) && WordBoundary(s, i) && WordBoundary(s, i + 12)
  }

  /** `\b(\d{9})\s*([VvXx])\b` matches at `i`; the letter then sits where the
      whitespace after the digits ends. */
  predicate OldNicAt(s: string, i: int) {
    DigitsAt(s, i, 9) && WordBoundary(s, i)
    && var k := SkipSpace(s, i + 9);
    k < |s| && s[k] in "VvXx" && WordBoundary(s, k + 1)
  }

  /** The leftmost new-style match at or after `i`. */
  function FirstNewNic(s: string, i: nat): (r: Option<nat>)
    ensures r.Some? ==> i <= r.value && NewNicAt(s, r.value)
    ensures r.Some? ==> forall j :: i <= j < r.value ==> !NewNicAt(s, j)
    ensures r.None? ==> forall j :: i <= j ==> !NewNicAt(s, j)
    decreases |s| - i
  {
    if i + 12 > |s| then None
    else if NewNicAt(s, i) then Some(i)
    else FirstNewNic(s, i + 1)
  }

  /** The leftmost old-style match at or after `i`. */
  function FirstOldNic(s: string, i: nat): (r: Option<nat>)
    ensures r.Some? ==> i <= r.value && OldNicAt(s, r.value)
    ensures r.Some? ==> forall j :: i <= j < r.value ==> !OldNicAt(s, j)
    ensures r.None? ==> forall j :: i <= j ==> !OldNicAt(s, j)
    decreases |s| - i
  {
    if i + 9 > |s| then None
    else if OldNicAt(s, i) then Some(i)
    else FirstOldNic(s, i + 1)
  }

  /** The number fields: the leftmost new-style number if there is one,
      otherwise the leftmost old-style one with its letter upper-cased. */
  function NicFields(text: string): (out: map<string, string>)
    ensures out.Keys == {} || out.Keys == {"nic", "nic_format"}
  {
    match FirstNewNic(text, 0)
    case Some(i) => map["nic" := text[i..i + 12], "nic_format" := "new_12"]
    case None =>
      match FirstOldNic(text, 0)
      case Some(i) => map["nic" := text[i..i + 9] + [UpperChar(text[SkipSpace(text, i + 9)])], "nic_format" := "old_9X"]
      case None => map[]
  }

  // ---------------------------------------------------------------------
  // Labelled lines
  // ---------------------------------------------------------------------

  /** The index of the first `c` in `s`, or `|s|`. */
  function IndexOf(s: string, c: char): (k: int)
    ensures 0 <= k <= |s| && c !in s[..k] && (k < |s| ==> s[k] == c)
  {
    if s == [] then 0
    else if s[0] == c then 0
    else
      var k := IndexOf(s[1..], c);
      assert s[1..][..k] == s[1..k + 1];
      k + 1
  }

  /** The lines of a text, split at line feeds (where `^` matches in
      multi-line mode). */
  function Lines(s: string): (ls: seq<string>)
    ensures |ls| >= 1
    ensures forall i :: 0 <= i < |ls| ==> '\n' !in ls[i]
    decreases |s|
  {
    var k := IndexOf(s, '\n');
    if k == |s| then [s] else [s[..k]] + Lines(s[k + 1..])
  }

  /** `w` appears at `i`, ignoring ASCII letter case. */
  predicate WordAt(l: string, i: int, w: string) {
    0 <= i && i + |w| <= |l| && EqualsIgnoreCase(l[i..i + |w|], w)
  }

  /** The end of the trimmed text starting at `g`: trailing whitespace is
      cut. */
  function TrimEnd(l: string, g: int): (e: int)
    requires 0 <= g <= |l|
    ensures g <= e <= |l| && (e > g ==> !IsPySpace(l[e - 1]))
    ensures forall m :: e <= m < |l| ==> IsPySpace(l[m])
    decreases |l| - g
  {
    if |l| == g then g
    else if IsPySpace(l[|l| - 1]) then TrimEnd(l[..|l| - 1], g)
    else |l|
  }

  /** The position right after `\s*[:\-]`. */
  function SeparatorEnd(l: string, b: int): (a: Option<int>)
    requires 0 <= b <= |l|
    ensures a.Some? ==> b < a.value <= |l| && (l[a.value - 1] == ':' || l[a.value - 1] == '-')
    ensures a.Some? ==> forall m :: b <= m < a.value - 1 ==> IsPySpace(l[m])
  {
    var c := SkipSpace(l, b);
    if c < |l| && (l[c] == ':' || l[c] == '-') then Some(c + 1) else None
  }

  /** The position after `\s*[:\-]\s*`, where a date starts. */
  function AfterSeparator(l: string, b: int): (g: Option<int>)
    requires 0 <= b <= |l|
    ensures g.Some? ==> b < g.value <= |l| && (g.value == |l| || !IsPySpace(l[g.value]))
  {
    match SeparatorEnd(l, b)
    case None => None
    case Some(a) => Some(SkipSpace(l, a))
  }

  /** The position after the name label `name` or `full\s*name`. */
  function AfterNameLabel(l: string): (b: Option<int>)
    ensures b.Some? ==> 0 <= b.value <= |l|
  {
    var a := SkipSpace(l, 0);
    if WordAt(l, a, "name") then Some(a + 4)
    else if WordAt(l, a, "full") && WordAt(l, SkipSpace(l, a + 4), "name") then Some(SkipSpace(l, a + 4) + 4)
    else None
  }

  /** The name a line gives: what follows the label and separator,
      stripped. */
  function NameOfLine(l: string): (r: Option<string>)
    ensures r.Some? && r.value != [] ==> !IsPySpace(r.value[0]) && !IsPySpace(r.value[|r.value| - 1])
    ensures r.Some? ==> '\r' !in r.value
  {
    match AfterNameLabel(l)
    case None => None
    case Some(b) =>
      match SeparatorEnd(l, b)
      case None => None
      case Some(a) => ValueFrom(l, a)
  }

  /** What `\s*([^\r\n]+?)\s*$` captures from `a` to the end of the line,
      stripped. The leading `\s*` takes all the whitespace it can, so the
      group runs from the first non-space character to the last, and fails
      when a '\r' lies between them. When only whitespace is left, the group
      takes one whitespace character other than '\r', which strips to the
      empty name; when nothing but '\r' is left, there is no match. */
  function ValueFrom(l: string, a: int): (r: Option<string>)
    requires 0 <= a <= |l|
    ensures r.Some? && r.value != [] ==> !IsPySpace(r.value[0]) && !IsPySpace(r.value[|r.value| - 1])
    ensures r.Some? ==> '\r' !in r.value
    ensures r == Some([]) <==>
              (forall k :: a <= k < |l| ==> IsPySpace(l[k])) && exists k :: a <= k < |l| && l[k] != '\r'
  {
    var g := SkipSpace(l, a);
    var e := TrimEnd(l, g);
    if g < e then
      if '\r' !in l[g..e] then
        assert l[g..e][0] == l[g] && l[g..e][e - g - 1] == l[e - 1];
        Some(l[g..e])
      else None
    else if exists k :: a <= k < |l| && l[k] != '\r' then Some([])
    else None
  }

  /** The position after the birth-date label `dob` or `date\s*of\s*birth`. */
  function AfterDobLabel(l: string): (b: Option<int>)
    ensures b.Some? ==> 0 <= b.value <= |l|
  {
    var a := SkipSpace(l, 0);
    if WordAt(l, a, "dob") then Some(a + 3)
    else if WordAt(l, a, "date") then
      var o := SkipSpace(l, a + 4);
      if WordAt(l, o, "of") then
        var t := SkipSpace(l, o + 2);
        if WordAt(l, t, "birth") then Some(t + 5) else None
      else None
    else None
  }

  predicate IsDateSeparator(c: char) { c == '-' || c == '/' || c == '.' }

  /** The length of a run of one or two digits at `i` (`[0-9]{1,2}`, taken
      greedily), or 0. */
  function ShortNumber(l: string, i: int): (n: nat)
    requires 0 <= i <= |l|
    ensures n <= 2 && DigitsAt(l, i, n)
    ensures n > 0 ==> i + n == |l| || !IsAsciiDigit(l[i + n])
  {
    if DigitsAt(l, i, 2) && (i + 2 == |l| || !IsAsciiDigit(l[i + 2])) then 2
    else if DigitsAt(l, i, 1) && (i + 1 == |l| || !IsAsciiDigit(l[i + 1])) then 1
    else 0
  }

  /** `[0-9]{4}[-/.][0-9]{1,2}[-/.][0-9]{1,2}\s*$` at `g`: year, month and
      day as written. */
  function DateAt(l: string, g: int): (r: Option<(string, string, string)>)
    requires 0 <= g <= |l|
    ensures r.Some? ==> |r.value.0| == 4 && 1 <= |r.value.1| <= 2 && 1 <= |r.value.2| <= 2
    ensures r.Some? ==> AllDigits(r.value.0) && AllDigits(r.value.1) && AllDigits(r.value.2)
  {
    if !(DigitsAt(l, g, 4) && g + 4 < |l| && IsDateSeparator(l[g + 4])) then None
    else
      var m := ShortNumber(l, g + 5);
      if m == 0 || g + 5 + m >= |l| || !IsDateSeparator(l[g + 5 + m]) then None
      else
        var ds := g + 6 + m;
        var d := ShortNumber(l, ds);
        if d == 0 || SkipSpace(l, ds + d) != |l| then None
        else Some((l[g..g + 4], l[g + 5..g + 5 + m], l[ds..ds + d]))
  }

  /** `zfill(2)` of a one- or two-digit number. */
  function Pad2(x: string): (r: string)
    requires 1 <= |x| <= 2
    ensures |r| == 2 && r[2 - |x|..] == x
    ensures r[..2 - |x|] == if |x| == 1 then "0" else ""
  {
    if |x| == 1 then ['0', x[0]] else x
  }

  lemma Pad2Digits(x: string)
    requires 1 <= |x| <= 2 && AllDigits(x)
    ensures AllDigits(Pad2(x))
  {
    var r := Pad2(x);
    if |x| == 1 { assert r[1] == x[0]; } else { assert r == x; }
  }

  /** The shape of a normalised date: YYYY-MM-DD. */
  predicate IsIsoDate(d: string) {
    |d| == 10 && d[4] == '-' && d[7] == '-'
    && forall i :: 0 <= i < 10 && i != 4 && i != 7 ==> IsAsciiDigit(d[i])
  }

  /** The date joined with hyphens, month and day padded to two digits. */
  function IsoDate(y: string, m: string, d: string): (r: string)
    requires |y| == 4 && 1 <= |m| <= 2 && 1 <= |d| <= 2
    requires AllDigits(y) && AllDigits(m) && AllDigits(d)
    ensures IsIsoDate(r)
    ensures r[..4] == y && r[5..7] == Pad2(m) && r[8..] == Pad2(d)
  {
    Pad2Digits(m);
    Pad2Digits(d);
    JoinedDate(y, Pad2(m), Pad2(d));
    y + ['-'] + Pad2(m) + ['-'] + Pad2(d)
  }

  /** Four digits, two digits and two digits joined by hyphens. */
  lemma JoinedDate(y: string, pm: string, pd: string)
    requires |y| == 4 && |pm| == 2 && |pd| == 2
    requires AllDigits(y) && AllDigits(pm) && AllDigits(pd)
    ensures var r := y + ['-'] + pm + ['-'] + pd;
      IsIsoDate(r) && r[..4] == y && r[5..7] == pm && r[8..] == pd
  {
    var r := y + ['-'] + pm + ['-'] + pd;
    assert forall i :: 0 <= i < 4 ==> r[i] == y[i];
    assert forall i :: 5 <= i < 7 ==> r[i] == pm[i - 5];
    assert forall i :: 8 <= i < 10 ==> r[i] == pd[i - 8];
  }

  /** The normalised date a line gives. */
  function DobOfLine(l: string): (r: Option<string>)
    ensures r.Some? ==> IsIsoDate(r.value)
  {
    var b := AfterDobLabel(l);
    if b.None? then None
    else
      var g := AfterSeparator(l, b.value);
      if g.None? then None
      else
        var date := DateAt(l, g.value);
        if date.None? then None
        else Some(IsoDate(date.value.0, date.value.1, date.value.2))
  }

  /** The index of the first line for which `f` gives a value. */
  function FirstLine(ls: seq<string>, f: string -> Option<string>): (r: Option<nat>)
    ensures r.Some? ==> r.value < |ls| && f(ls[r.value]).Some?
    ensures r.Some? ==> forall j :: 0 <= j < r.value ==> f(ls[j]).None?
    ensures r.None? ==> forall j :: 0 <= j < |ls| ==> f(ls[j]).None?
  {
    if ls == [] then None
    else if f(ls[0]).Some? then Some(0)
    else
      var r := FirstLine(ls[1..], f);
      assert forall j :: 1 <= j < |ls| ==> ls[1..][j - 1] == ls[j];
      if r.None? then None else Some(r.value + 1)
  }

  /** The name from the first line that carries one. */
  function NameField(text: string): (r: Option<string>)
    ensures r.Some? && r.value != [] ==> !IsPySpace(r.value[0]) && !IsPySpace(r.value[|r.value| - 1])
    ensures r.Some? ==> '\r' !in r.value && '\n' !in r.value
  {
    var ls := Lines(text);
    match FirstLine(ls, NameOfLine)
    case None => None
    case Some(k) => NameOfLine(ls[k])
  }

  /** The normalised date of birth from the first line that carries one. */
  function DobField(text: string): (r: Option<string>)
    ensures r.Some? ==> IsIsoDate(r.value)
  {
    var ls := Lines(text);
    match FirstLine(ls, DobOfLine)
    case None => None
    case Some(k) => DobOfLine(ls[k])
  }

  // ---------------------------------------------------------------------
  // parse_nic_text
  // ---------------------------------------------------------------------

  /** The NIC fields of a text: a 12-digit number wherever it appears is
      preferred to an old-style one; the name and the date of birth come
      from the first line that carries them. */
  function ParseNicText(text: string): (out: map<string, string>)
    ensures out.Keys <= {"nic", "nic_format", "name", "dob"}
    ensures "nic" in out <==> "nic_format" in out
  {
    WithFieldsKeys(NicFields(text), NameField(text), DobField(text));
    WithFields(NicFields(text), NameField(text), DobField(text))
  }

  /** The number fields with the name and the date of birth added when
      they were found. */
  function WithFields(nic: map<string, string>, name: Option<string>, dob: Option<string>): map<string, string> {
    var withName := if name.Some? then nic["name" := name.value] else nic;
    if dob.Some? then withName["dob" := dob.value] else withName
  }

  lemma WithFieldsKeys(nic: map<string, string>, name: Option<string>, dob: Option<string>)
    requires nic.Keys == {} || nic.Keys == {"nic", "nic_format"}
    ensures var out := WithFields(nic, name, dob);
      out.Keys <= {"nic", "nic_format", "name", "dob"} && ("nic" in out <==> "nic_format" in out)
      && (forall k :: k in nic ==> k in out && out[k] == nic[k])
      && ("nic" in out <==> "nic" in nic)
      && ("name" in out <==> name.Some?) && (name.Some? ==> out["name"] == name.value)
      && ("dob" in out <==> dob.Some?) && (dob.Some? ==> out["dob"] == dob.value)
  {
  }

  /** Each field comes from its own reader, and a field that is not found
      is simply absent. */
  lemma ParsedFields(text: string)
    ensures forall k :: k in NicFields(text) ==> k in ParseNicText(text) && ParseNicText(text)[k] == NicFields(text)[k]
    ensures "nic" in ParseNicText(text) <==> "nic" in NicFields(text)
    ensures "name" in ParseNicText(text) <==> NameField(text).Some?
    ensures "name" in ParseNicText(text) ==> ParseNicText(text)["name"] == NameField(text).value
    ensures "dob" in ParseNicText(text) <==> DobField(text).Some?
    ensures "dob" in ParseNicText(text) ==> ParseNicText(text)["dob"] == DobField(text).value
  {
    WithFieldsKeys(NicFields(text), NameField(text), DobField(text));
  }

  /** The number has the shape its format says: twelve digits for
      "new_12", nine digits and an upper-case V or X for "old_9X". */
  lemma NicShape(text: string)
    ensures "nic" in NicFields(text) && NicFields(text)["nic_format"] == "new_12" ==>
              |NicFields(text)["nic"]| == 12 && forall i :: 0 <= i < 12 ==> IsAsciiDigit(NicFields(text)["nic"][i])
    ensures "nic" in NicFields(text) && NicFields(text)["nic_format"] != "new_12" ==>
              NicFields(text)["nic_format"] == "old_9X"
              && |NicFields(text)["nic"]| == 10 && (forall i :: 0 <= i < 9 ==> IsAsciiDigit(NicFields(text)["nic"][i]))
              && (NicFields(text)["nic"][9] == 'V' || NicFields(text)["nic"][9] == 'X')
  {
    match FirstNewNic(text, 0)
    case Some(i) =>
      var n := text[i..i + 12];
      assert forall j :: 0 <= j < 12 ==> n[j] == text[i + j];
    case None =>
      match FirstOldNic(text, 0)
      case Some(i) =>
        var k := SkipSpace(text, i + 9);
        var n := text[i..i + 9] + [UpperChar(text[k])];
        assert forall j :: 0 <= j < 9 ==> n[j] == text[i + j];
        assert text[k] in "VvXx";
      case None =>
  }

  /** A new-style number anywhere in the text wins over an old-style one,
      and the number taken is the leftmost of its kind. */
  lemma NewFormatPreferred(text: string, i: nat)
    requires NewNicAt(text, i)
    ensures "nic" in NicFields(text) && NicFields(text)["nic_format"] == "new_12"
    ensures exists j :: 0 <= j <= i && NewNicAt(text, j) && NicFields(text)["nic"] == text[j..j + 12]
              && forall m :: 0 <= m < j ==> !NewNicAt(text, m)
  {
    var j := FirstNewNic(text, 0).value;
    assert NewNicAt(text, j) && NicFields(text)["nic"] == text[j..j + 12];
  }

  /** Without a new-style number, the leftmost old-style one is taken. */
  lemma OldFormatFallback(text: string, i: nat)
    requires OldNicAt(text, i)
    requires forall j :: 0 <= j ==> !NewNicAt(text, j)
    ensures "nic" in NicFields(text) && NicFields(text)["nic_format"] == "old_9X"
    ensures exists j :: 0 <= j <= i && OldNicAt(text, j) && NicFields(text)["nic"][..9] == text[j..j + 9]
              && forall m :: 0 <= m < j ==> !OldNicAt(text, m)
  {
    assert FirstNewNic(text, 0).None?;
    var j := FirstOldNic(text, 0).value;
    assert NicFields(text)["nic"][..9] == text[j..j + 9];
  }

  /** The lines of an identity-card text block are read as expected: the
      old-style number with its letter, the labelled name, and the date
      with its month and day padded. */
  lemma OldNicExample()
    ensures OldNicAt("NIC: 912345678V", 5)
  {
    var n := "NIC: 912345678V";
    assert SkipSpace(n, 14) == 14;
  }

  lemma NameExample()
    ensures NameOfLine("Name: John A. Doe") == Some("John A. Doe")
  {
    var l := "Name: John A. Doe";
    NameLabelExample();
    NameSeparatorExample();
    assert SkipSpace(l, 5) == 6;
    assert TrimEnd(l, 6) == 17;
    assert l[6..17] == "John A. Doe";
  }

  lemma NameLabelExample()
    ensures AfterNameLabel("Name: John A. Doe") == Some(4)
  {
    var l := "Name: John A. Doe";
    assert SkipSpace(l, 0) == 0;
    assert l[0..4] == "Name";
    assert UpperChar('n') == 'N' && UpperChar('a') == 'A' && UpperChar('m') == 'M' && UpperChar('e') == 'E';
    assert EqualsIgnoreCase(l[0..4], "name");
  }

  lemma NameSeparatorExample()
    ensures SeparatorEnd("Name: John A. Doe", 4) == Some(5)
  {
    var l := "Name: John A. Doe";
    assert SkipSpace(l, 4) == 4;
  }

  /** A label followed only by whitespace gives the empty name, unless that
      whitespace is nothing but carriage returns; a bare label gives none. */
  lemma BlankNameExample()
    ensures ValueFrom("Name: ", 5) == Some("")
    ensures ValueFrom("Name:\t ", 5) == Some("")
    ensures ValueFrom("Name:\r", 5).None? && ValueFrom("Name:", 5).None?
  {
    assert IsPySpace("Name: "[5]) && "Name: "[5] != '\r';
    assert IsPySpace("Name:\t "[5]) && IsPySpace("Name:\t "[6]) && "Name:\t "[5] != '\r';
    assert IsPySpace("Name:\r"[5]);
  }

  lemma DobExample()
    ensures DobOfLine("DOB: 1999/1/2") == Some("1999-01-02")
  {
    DobLabelExample();
    DobDateExample();
    IsoDateExample();
  }

  lemma DobLabelExample()
    ensures AfterDobLabel("DOB: 1999/1/2") == Some(3)
    ensures AfterSeparator("DOB: 1999/1/2", 3) == Some(5)
  {
    var d := "DOB: 1999/1/2";
    assert SkipSpace(d, 0) == 0;
    assert d[0..3] == "DOB";
    assert UpperChar('d') == 'D' && UpperChar('o') == 'O' && UpperChar('b') == 'B';
    assert EqualsIgnoreCase(d[0..3], "dob");
    assert SkipSpace(d, 3) == 3;
    assert SkipSpace(d, 4) == 5;
  }

  lemma DobDateExample()
    ensures DateAt("DOB: 1999/1/2", 5) == Some(("1999", "1", "2"))
  {
    var d := "DOB: 1999/1/2";
    assert DigitsAt(d, 5, 4);
    assert ShortNumber(d, 10) == 1;
    assert ShortNumber(d, 12) == 1;
    assert SkipSpace(d, 13) == 13;
    assert d[5..9] == "1999" && d[10..11] == "1" && d[12..13] == "2";
  }

  lemma IsoDateExample()
    ensures IsoDate("1999", "1", "2") == "1999-01-02"
  {
    var iso := IsoDate("1999", "1", "2");
    assert iso[..4] == "1999" && iso[5..7] == "01" && iso[8..] == "02";
  }
}

=== FILE: ml_thresholds.dfy ===
/** The ML service's per-country, per-document threshold overrides:
    environment keys are tried from the most to the least specific, and the
    first one holding a number wins over the default. */
module SegmentedThresholds {
  import opened Wrappers
  import opened Text

  /** A Python value that may be None, tested for truthiness. */
  predicate Truthy(s: Option<string>) { s.Some? && s.value != "" }

  /** The keys tried, in order: `<prefix>__<country>__<doc>` when both are
      given, then `<prefix>__<country>` when the country is given. */
  function ThresholdKeys(prefix: string, country: Option<string>, doc: Option<string>): (keys: seq<string>)
    ensures |keys| <= 2
    ensures keys == [] <==> !Truthy(country)
  {
    (if Truthy(country) && Truthy(doc) then [prefix + "__" + country.value + "__" + doc.value] else [])
    + (if Truthy(country) then [prefix + "__" + country.value] else [])
  }

  /** The value of the first key, upper-cased, whose variable is set to a
      non-empty text that `parse` reads as a number; `default` if none. */
  function Lookup(keys: seq<string>, env: map<string, string>, parse: string -> Option<real>, default: real): real {
    if keys == [] then default
    else
      var k := ToUpper(keys[0]);
      if k in env && env[k] != "" && parse(env[k]).Some? then parse(env[k]).value
      else Lookup(keys[1..], env, parse, default)
  }

  datatype LookupError = NameError(name: string)

  /** `segmented_threshold` as written: the module never imports `os`, so
      the first `os.getenv` raises NameError. That happens whenever a
      country is given; without one no key is tried and the default comes
      back. */
  function SegmentedThresholdAsWritten(prefix: string, country: Option<string>, doc: Option<string>,
                                       default: real): (r: Result<real, LookupError>)
    ensures r.Err? <==> Truthy(country)
  {
    if ThresholdKeys(prefix, country, doc) == [] then Ok(default) else Err(NameError("os"))
  }

  /** `segmented_threshold` with `os` imported; `env` holds the process
      environment and `parse` is Python's `float`, `None` where it raises. */
  method SegmentedThreshold(prefix: string, country: Option<string>, doc: Option<string>, default: real,
                            env: map<string, string>, parse: string -> Option<real>) returns (t: real)
    ensures t == Lookup(ThresholdKeys(prefix, country, doc), env, parse, default)
  {
    var keys := ThresholdKeys(prefix, country, doc);
    for i := 0 to |keys|
      invariant Lookup(keys[i..], env, parse, default) == Lookup(keys, env, parse, default)
    {
      var v := ToUpper(keys[i]);
      if v in env && env[v] != "" {
        var x := parse(env[v]);
        if x.Some? {
          return x.value;
        }
      }
      assert keys[i..][1..] == keys[i + 1..];
    }
    return default;
  }

  /** The result is the default or the number held by one of the keys. */
  lemma {:induction false} LookupSource(keys: seq<string>, env: map<string, string>, parse: string -> Option<real>,
                                        default: real) returns (i: int)
    ensures i == -1 ==> Lookup(keys, env, parse, default) == default
    ensures 0 <= i < |keys| ==> ToUpper(keys[i]) in env && parse(env[ToUpper(keys[i])]) == Some(Lookup(keys, env, parse, default))
    ensures -1 <= i < |keys|
  {
    if keys == [] {
      i := -1;
    } else {
      var k := ToUpper(keys[0]);
      if k in env && env[k] != "" && parse(env[k]).Some? {
        i := 0;
      } else {
        var j := LookupSource(keys[1..], env, parse, default);
        i := if j == -1 then -1 else j + 1;
      }
    }
  }

  /** The country-and-document key wins over the country key; the country
      key is used when the more specific one is unset, empty or not a
      number; without a country the default is used. */
  lemma Precedence(prefix: string, country: Option<string>, doc: Option<string>, default: real,
                   env: map<string, string>, parse: string -> Option<real>)
    ensures !Truthy(country) ==> Lookup(ThresholdKeys(prefix, country, doc), env, parse, default) == default
    ensures Truthy(country) && Truthy(doc) ==>
              var specific := ToUpper(prefix + "__" + country.value + "__" + doc.value);
              var general := ToUpper(prefix + "__" + country.value);
              Lookup(ThresholdKeys(prefix, country, doc), env, parse, default)
              == if specific in env && env[specific] != "" && parse(env[specific]).Some? then parse(env[specific]).value
                 else if general in env && env[general] != "" && parse(env[general]).Some? then parse(env[general]).value
                 else default
  {
    var keys := ThresholdKeys(prefix, country, doc);
    if Truthy(country) && Truthy(doc) {
      var specific := prefix + "__" + country.value + "__" + doc.value;
      var general := prefix + "__" + country.value;
      assert keys == [specific, general];
      assert keys[1..] == [general] && keys[1..][1..] == [];
      assert Lookup(keys[1..][1..], env, parse, default) == default;
      assert Lookup(keys[1..], env, parse, default)
             == if ToUpper(general) in env && env[ToUpper(general)] != "" && parse(env[ToUpper(general)]).Some?
                then parse(env[ToUpper(general)]).value else default;
    }
  }

  /** Without a country the written function works and agrees with the
      corrected one. */
  lemma AsWrittenAgreesWithoutCountry(prefix: string, country: Option<string>, doc: Option<string>, default: real,
                                      env: map<string, string>, parse: string -> Option<real>)
    requires !Truthy(country)
    ensures SegmentedThresholdAsWritten(prefix, country, doc, default)
            == Ok(Lookup(ThresholdKeys(prefix, country, doc), env, parse, default))
  {
  }
}

=== FILE: payhere.dfy ===
/** The payment gateway's callbacks into the wallet.
    - Card pre-approval: a page posts the add-card session to the gateway.
      The gateway's notification then saves the tokenised card and consumes
      the session.
    - Checkout: the notification moves a payment intent to its final status.
    The gateway signs each notification. Checking that signature is an MD5
    computation with the merchant secret; here it is a boolean the caller
    supplies. */
module PayHereCallbacks {
  import opened Wrappers
  import opened Text
  import opened WalletService

  /** A url-encoded form, one value per field. */
  type Form = map<string, string>

  /** `form.get(name)`: null when the field is absent. */
  function Field(form: Form, name: string): (r: Option<string>)
    ensures r.Some? <==> name in form
    ensures r.Some? ==> r.value == form[name]
  {
    if name in form then Some(form[name]) else None
  }

  /** `form.getOrDefault(name, dflt)`. */
  function FieldOr(form: Form, name: string, dflt: string): (r: string)
    ensures name in form ==> r == form[name]
    ensures name !in form ==> r == dflt
  {
    if name in form then form[name] else dflt
  }

  // ---------------------------------------------------------------------
  // firstNonEmpty
  // ---------------------------------------------------------------------

  /** `firstNonEmpty`: the first argument that is present and not blank, or
      "" when there is none. */
  function FirstNonEmpty(v: seq<Option<string>>): (r: string)
    ensures r != [] ==> HasText(r) && Some(r) in v
    ensures r == [] <==> forall i :: 0 <= i < |v| ==> v[i].None? || IsBlank(v[i].value)
  {
    if v == [] then ""
    else if v[0].Some? && HasText(v[0].value) then v[0].value
    else FirstNonEmpty(v[1..])
  }

  /** The argument returned is the first one with text: every argument
      before it is absent or blank. */
  lemma {:induction false} FirstNonEmptyPicksFirst(v: seq<Option<string>>, i: int)
    requires 0 <= i < |v| && v[i].Some? && HasText(v[i].value)
    requires forall j :: 0 <= j < i ==> v[j].None? || IsBlank(v[j].value)
    ensures FirstNonEmpty(v) == v[i].value
  {
    if i > 0 {
      FirstNonEmptyPicksFirst(v[1..], i - 1);
    }
  }

  // ---------------------------------------------------------------------
  // HTML escaping
  // ---------------------------------------------------------------------

  /** The entity for each of the five characters HTML treats specially. */
  function EscapeChar(c: char): (r: string)
    ensures '<' !in r && '>' !in r && '"' !in r && '\'' !in r
    ensures c != '&' && c != '<' && c != '>' && c != '"' && c != '\'' ==> r == [c]
  {
    if c == '&' then "&amp;"
    else if c == '<' then "&lt;"
    else if c == '>' then "&gt;"
    else if c == '"' then "&quot;"
    else if c == '\'' then "&#39;"
    else [c]
  }

  /** The reference escaping: every character replaced by `EscapeChar`.
      The result has no raw `<`, `>`, `"` or `'`, and text without special
      characters is left as it is. */
  function EscapeText(s: string): (r: string)
    ensures '<' !in r && '>' !in r && '"' !in r && '\'' !in r
    ensures (forall i :: 0 <= i < |s| ==> s[i] != '&' && s[i] != '<' && s[i] != '>' && s[i] != '"' && s[i] != '\'')
            ==> r == s
  {
    if s == [] then [] else EscapeChar(s[0]) + EscapeText(s[1..])
  }

  /** The card controller's `escape`. Null becomes "". Then `&` is
      replaced first, followed by `<`, `>`, `"` and `'`. */
  function CardEscape(s: Option<string>): (r: string)
    ensures s.None? ==> r == ""
  {
    match s
    case None => ""
    case Some(t) =>
      ReplaceChar(ReplaceChar(ReplaceChar(ReplaceChar(ReplaceChar(t, '&', "&amp;"), '<', "&lt;"), '>', "&gt;"),
                  '"', "&quot;"), '\'', "&#39;")
  }

  /** The checkout controller's `escape`: the same replacements, with `'`
      replaced before `"`. It has no null case. */
  function GatewayEscape(s: string): string {
    ReplaceChar(ReplaceChar(ReplaceChar(ReplaceChar(ReplaceChar(s, '&', "&amp;"), '<', "&lt;"), '>', "&gt;"),
                '\'', "&#39;"), '"', "&quot;")
  }

  lemma {:induction false} ReplaceCharAppend(a: string, b: string, c: char, r: string)
    ensures ReplaceChar(a + b, c, r) == ReplaceChar(a, c, r) + ReplaceChar(b, c, r)
  {
    if a != [] {
      var head := if a[0] == c then r else [a[0]];
      assert (a + b)[0] == a[0] && (a + b)[1..] == a[1..] + b;
      ReplaceCharAppend(a[1..], b, c, r);
      calc {
        ReplaceChar(a + b, c, r);
        head + ReplaceChar(a[1..] + b, c, r);
        head + (ReplaceChar(a[1..], c, r) + ReplaceChar(b, c, r));
        (head + ReplaceChar(a[1..], c, r)) + ReplaceChar(b, c, r);
      }
    } else {
      assert a + b == b;
    }
  }

  /** Replacing a character that does not occur changes nothing. */
  lemma {:induction false} ReplaceCharAbsent(s: string, c: char, r: string)
    requires c !in s
    ensures ReplaceChar(s, c, r) == s
  {
    if s != [] {
      ReplaceCharAbsent(s[1..], c, r);
    }
  }

  lemma ReplaceCharSingle(c: char, x: char, e: string)
    ensures ReplaceChar([c], x, e) == if c == x then e else [c]
  {
    assert [c][1..] == [];
  }

  /** One step of a replacement chain on text that is either a single
      character or an entity: the step's character is replaced if it is that
      character, and an entity, which does not contain it, is unchanged. */
  lemma ChainStep(t: string, c: char, x: char, e: string)
    requires t == [c] || x !in t
    ensures ReplaceChar(t, x, e) == if t == [c] && c == x then e else t
  {
    if t == [c] {
      ReplaceCharSingle(c, x, e);
    } else {
      ReplaceCharAbsent(t, x, e);
    }
  }

  /** A character after the three replacements both controllers start
      with. */
  function AfterThree(c: char): string {
    if c == '&' then "&amp;" else if c == '<' then "&lt;" else if c == '>' then "&gt;" else [c]
  }

  lemma FirstThreeSteps(c: char)
    ensures ReplaceChar(ReplaceChar(ReplaceChar([c], '&', "&amp;"), '<', "&lt;"), '>', "&gt;") == AfterThree(c)
  {
    var t1 := ReplaceChar([c], '&', "&amp;");
    ChainStep([c], c, '&', "&amp;");
    assert t1 == [c] || '<' !in t1;
    var t2 := ReplaceChar(t1, '<', "&lt;");
    ChainStep(t1, c, '<', "&lt;");
    assert t2 == if c == '&' then "&amp;" else if c == '<' then "&lt;" else [c];
    assert t2 == [c] || '>' !in t2;
    ChainStep(t2, c, '>', "&gt;");
  }

  /** The card controller's last two replacements finish the entity. */
  lemma CardLastSteps(c: char)
    ensures ReplaceChar(ReplaceChar(AfterThree(c), '"', "&quot;"), '\'', "&#39;") == EscapeChar(c)
  {
    if c == '&' || c == '<' || c == '>' {
      EntityUntouched(c, '"', "&quot;");
      EntityUntouched(c, '\'', "&#39;");
    } else if c == '"' {
      ReplaceCharSingle(c, '"', "&quot;");
      ReplaceCharAbsent("&quot;", '\'', "&#39;");
    } else {
      ReplaceCharSingle(c, '"', "&quot;");
      ReplaceCharSingle(c, '\'', "&#39;");
    }
  }

  /** The checkout controller's last two replacements, in the other order,
      finish the entity too. */
  lemma GatewayLastSteps(c: char)
    ensures ReplaceChar(ReplaceChar(AfterThree(c), '\'', "&#39;"), '"', "&quot;") == EscapeChar(c)
  {
    if c == '&' || c == '<' || c == '>' {
      EntityUntouched(c, '\'', "&#39;");
      EntityUntouched(c, '"', "&quot;");
    } else if c == '\'' {
      ReplaceCharSingle(c, '\'', "&#39;");
      ReplaceCharAbsent("&#39;", '"', "&quot;");
    } else {
      ReplaceCharSingle(c, '\'', "&#39;");
      ReplaceCharSingle(c, '"', "&quot;");
    }
  }

  /** The entities of the first three steps hold no quote, so the quote
      steps leave them alone. */
  lemma EntityUntouched(c: char, q: char, e: string)
    requires c == '&' || c == '<' || c == '>'
    requires q == '"' || q == '\''
    ensures ReplaceChar(AfterThree(c), q, e) == AfterThree(c) == EscapeChar(c)
  {
    ReplaceCharAbsent(AfterThree(c), q, e);
  }

  /** On one character the card controller's chain gives that character's
      entity. */
  lemma CardEscapeChar(c: char)
    ensures CardEscape(Some([c])) == EscapeChar(c)
  {
    FirstThreeSteps(c);
    CardLastSteps(c);
  }

  /** The same for the checkout controller's chain. */
  lemma GatewayEscapeChar(c: char)
    ensures GatewayEscape([c]) == EscapeChar(c)
  {
    FirstThreeSteps(c);
    GatewayLastSteps(c);
  }

  /** The chained replacements split over a concatenation. */
  lemma CardEscapeAppend(a: string, b: string)
    ensures CardEscape(Some(a + b)) == CardEscape(Some(a)) + CardEscape(Some(b))
  {
    var a1, b1 := ReplaceChar(a, '&', "&amp;"), ReplaceChar(b, '&', "&amp;");
    ReplaceCharAppend(a, b, '&', "&amp;");
    var a2, b2 := ReplaceChar(a1, '<', "&lt;"), ReplaceChar(b1, '<', "&lt;");
    ReplaceCharAppend(a1, b1, '<', "&lt;");
    var a3, b3 := ReplaceChar(a2, '>', "&gt;"), ReplaceChar(b2, '>', "&gt;");
    ReplaceCharAppend(a2, b2, '>', "&gt;");
    var a4, b4 := ReplaceChar(a3, '"', "&quot;"), ReplaceChar(b3, '"', "&quot;");
    ReplaceCharAppend(a3, b3, '"', "&quot;");
    ReplaceCharAppend(a4, b4, '\'', "&#39;");
  }

  lemma GatewayEscapeAppend(a: string, b: string)
    ensures GatewayEscape(a + b) == GatewayEscape(a) + GatewayEscape(b)
  {
    var a1, b1 := ReplaceChar(a, '&', "&amp;"), ReplaceChar(b, '&', "&amp;");
    ReplaceCharAppend(a, b, '&', "&amp;");
    var a2, b2 := ReplaceChar(a1, '<', "&lt;"), ReplaceChar(b1, '<', "&lt;");
    ReplaceCharAppend(a1, b1, '<', "&lt;");
    var a3, b3 := ReplaceChar(a2, '>', "&gt;"), ReplaceChar(b2, '>', "&gt;");
    ReplaceCharAppend(a2, b2, '>', "&gt;");
    var a4, b4 := ReplaceChar(a3, '\'', "&#39;"), ReplaceChar(b3, '\'', "&#39;");
    ReplaceCharAppend(a3, b3, '\'', "&#39;");
    ReplaceCharAppend(a4, b4, '"', "&quot;");
  }

  /** Replacing `&` first means the `&` of an entity written by a later
      step is never escaped again. So the chain escapes each character
      exactly once: it equals the reference escaping. */
  lemma {:induction false} CardEscapeIsReference(s: string)
    ensures CardEscape(Some(s)) == EscapeText(s)
  {
    if s != [] {
      assert s == [s[0]] + s[1..];
      CardEscapeAppend([s[0]], s[1..]);
      CardEscapeChar(s[0]);
      CardEscapeIsReference(s[1..]);
    }
  }

  lemma {:induction false} GatewayEscapeIsReference(s: string)
    ensures GatewayEscape(s) == EscapeText(s)
  {
    if s != [] {
      assert s == [s[0]] + s[1..];
      GatewayEscapeAppend([s[0]], s[1..]);
      GatewayEscapeChar(s[0]);
      GatewayEscapeIsReference(s[1..]);
    }
  }

  /** The order of the last two replacements does not matter: both
      controllers escape text the same way. */
  lemma EscapesAgree(s: string)
    ensures GatewayEscape(s) == CardEscape(Some(s))
  {
    CardEscapeIsReference(s);
    GatewayEscapeIsReference(s);
  }

  // ---------------------------------------------------------------------
  // Card details from the pre-approval notification
  // ---------------------------------------------------------------------

  /** The last four digits of a masked card number, after every non-digit
      is removed. The result is "" when fewer than four digits remain. */
  function Last4(masked: string): (r: string)
    ensures AllDigits(r)
    ensures |r| == 4 <==> |DigitsOf(masked)| >= 4
    ensures r == "" <==> |DigitsOf(masked)| < 4
  {
    var digits := DigitsOf(masked);
    if |digits| >= 4 then digits[|digits| - 4..] else ""
  }

  lemma {:induction false} DigitsOfAppend(a: string, b: string)
    ensures DigitsOf(a + b) == DigitsOf(a) + DigitsOf(b)
  {
    if a != [] {
      var head := if IsAsciiDigit(a[0]) then [a[0]] else [];
      assert (a + b)[0] == a[0] && (a + b)[1..] == a[1..] + b;
      DigitsOfAppend(a[1..], b);
      calc {
        DigitsOf(a + b);
        head + DigitsOf(a[1..] + b);
        head + (DigitsOf(a[1..]) + DigitsOf(b));
        (head + DigitsOf(a[1..])) + DigitsOf(b);
      }
    } else {
      assert a + b == b;
    }
  }

  lemma {:induction false} DigitsOfDigits(d: string)
    requires AllDigits(d)
    ensures DigitsOf(d) == d
  {
    if d != [] {
      DigitsOfDigits(d[1..]);
    }
  }

  /** A masked number that ends in four digits, such as "**** **** **** 1234"
      or "XXXX-XXXX-1234", gives those four digits, whatever comes before. */
  lemma Last4OfMaskedNumber(prefix: string, tail: string)
    requires |tail| == 4 && AllDigits(tail)
    ensures Last4(prefix + tail) == tail
  {
    DigitsOfAppend(prefix, tail);
    DigitsOfDigits(tail);
  }

  /** The card's expiry month and year, each nullable. */
  datatype Expiry = Expiry(month: Option<int>, year: Option<int>)

  /** The whole string has the shape `\d{2}/\d{2,4}`. */
  predicate ExpiryShaped(e: string) {
    5 <= |e| <= 7 && IsAsciiDigit(e[0]) && IsAsciiDigit(e[1]) && e[2] == '/' && AllDigits(e[3..])
  }

  /** The expiry parser. A string of the expected shape gives its month
      and year. A year under 100 is taken as 2000 plus the year. Any other
      string gives neither. */
  function ParseExpiry(e: string): (r: Expiry)
    ensures r.month.Some? <==> ExpiryShaped(e)
    ensures r.year.Some? <==> ExpiryShaped(e)
    ensures r.month.Some? ==> 0 <= r.month.value <= 99
    ensures r.year.Some? ==> 2000 <= r.year.value <= 2099 || 100 <= r.year.value <= 9999
  {
    if ExpiryShaped(e) then
      var y := DecimalValue(e[3..]);
      assert y < 10000 by { DecimalValueBound(e[3..]); }
      var mm := DecimalValue(e[..2]);
      assert mm < 100 by { DecimalValueBound(e[..2]); }
      Expiry(Some(mm), Some(if y < 100 then 2000 + y else y))
    else Expiry(None, None)
  }

  /** `Power10(n)` is ten to the power `n`. */
  function Power10(n: nat): (p: nat)
    ensures p >= 1
  {
    if n == 0 then 1 else 10 * Power10(n - 1)
  }

  lemma {:induction false} DecimalValueBound(s: string)
    requires AllDigits(s)
    ensures DecimalValue(s) < Power10(|s|)
  {
    if s != [] {
      DecimalValueBound(s[..|s| - 1]);
    }
  }

  /** The two decimal digits of a number below 100. */
  function TwoDigits(n: nat): (s: string)
    requires n < 100
    ensures |s| == 2 && AllDigits(s) && DecimalValue(s) == n
  {
    var s := [('0' as int + n / 10) as char, ('0' as int + n % 10) as char];
    assert s[..1] == [s[0]];
    assert DecimalValue(s[..1]) == n / 10;
    s
  }

  /** Round trip for the short form: "MM/YY" with a year of this century
      gives the month and the four-digit year back. */
  lemma ShortExpiryRoundTrip(month: nat, year: nat)
    requires month < 100 && 2000 <= year <= 2099
    ensures ParseExpiry(TwoDigits(month) + "/" + TwoDigits(year - 2000)) == Expiry(Some(month), Some(year))
  {
    var e := TwoDigits(month) + "/" + TwoDigits(year - 2000);
    assert e[..2] == TwoDigits(month);
    assert e[3..] == TwoDigits(year - 2000);
  }

  /** Round trip for the long form: "MM/YYYY" gives the month and year
      back. */
  lemma LongExpiryRoundTrip(month: nat, year: nat)
    requires month < 100 && 1000 <= year <= 9999
    ensures ParseExpiry(TwoDigits(month) + "/" + TwoDigits(year / 100) + TwoDigits(year % 100))
            == Expiry(Some(month), Some(year))
  {
    var hi, lo := TwoDigits(year / 100), TwoDigits(year % 100);
    var e := TwoDigits(month) + "/" + hi + lo;
    assert e[..2] == TwoDigits(month);
    assert e[3..] == hi + lo;
    var y := hi + lo;
    assert y[..3] == hi + [lo[0]];
    assert y[..2] == hi;
    assert lo[..1] == [lo[0]];
    assert DecimalValue(lo[..1]) == DigitValue(lo[0]);
    assert DecimalValue(y) == DecimalValue(hi) * 100 + DecimalValue(lo);
  }

  // ---------------------------------------------------------------------
  // The pre-approval notification
  // ---------------------------------------------------------------------

  const STATUS_SUCCESS: string := "2"

  /** What the notification handler answers, and the two tables after it. */
  datatype CardNotifyOutcome = CardNotifyOutcome(
    reply: string,
    cards: map<Uuid, WalletCard>,
    sessions: map<string, CardAddSession>)

  /** The session marked consumed, if it exists. */
  function Consumed(sessions: map<string, CardAddSession>, id: string): (r: map<string, CardAddSession>)
    ensures r.Keys == sessions.Keys
    ensures id in sessions ==> r[id] == sessions[id].(consumed := true)
    ensures forall k :: k in sessions && k != id ==> r[k] == sessions[k]
  {
    if id in sessions then sessions[id := sessions[id].(consumed := true)] else sessions
  }

  /** The card saved from a successful pre-approval. The brand is the
      payment method, "CARD" by default. The token is the first of the
      three token fields that has text. The card becomes the default only
      when the user has no default card yet. */
  function SavedCard(cards: map<Uuid, WalletCard>, userId: Uuid, form: Form): (c: WalletCard)
    ensures c.userId == userId
    ensures c.isDefault <==> !HasDefault(cards, userId)
    ensures c.last4 == Last4(FirstNonEmpty([Field(form, "masked_card"), Field(form, "card_no")]))
    ensures c.expiryMonth == ParseExpiry(FieldOr(form, "card_expiry", "")).month
    ensures c.expiryYear == ParseExpiry(FieldOr(form, "card_expiry", "")).year
    ensures c.brand == FieldOr(form, "method", "CARD")
    ensures c.customerToken == FirstNonEmpty([Field(form, "customer_token"), Field(form, "recurring_token"), Field(form, "token")])
  {
    var token := FirstNonEmpty([Field(form, "customer_token"), Field(form, "recurring_token"), Field(form, "token")]);
    var masked := FirstNonEmpty([Field(form, "masked_card"), Field(form, "card_no")]);
    var expiry := ParseExpiry(FieldOr(form, "card_expiry", ""));
    WalletCard(userId, FieldOr(form, "method", "CARD"), Last4(masked), expiry.month, expiry.year, token,
               !HasDefault(cards, userId))
  }

  /** `notifyPreapprove` on the two tables. `signatureValid` is the outcome
      of the signature check and `cardId` the fresh id of the new card.
      The cases, in order:
      - bad signature: "invalid";
      - failure status: the session, if any, is consumed; "ignored";
      - unknown session: "unknown-session";
      - consumed session: "already";
      - otherwise one card is saved, the session is consumed, and "OK".
      Only the last case adds a card. The at-most-one-default invariant
      holds in every case. */
  function CardNotify(cards: map<Uuid, WalletCard>, sessions: map<string, CardAddSession>, form: Form,
                      signatureValid: bool, cardId: Uuid): (o: CardNotifyOutcome)
    ensures !signatureValid ==> o == CardNotifyOutcome("invalid", cards, sessions)
    ensures signatureValid && FieldOr(form, "status_code", "") != STATUS_SUCCESS ==>
      o == CardNotifyOutcome("ignored", cards, Consumed(sessions, FieldOr(form, "order_id", "")))
    ensures o.reply == "OK" <==>
      signatureValid && FieldOr(form, "status_code", "") == STATUS_SUCCESS
      && FieldOr(form, "order_id", "") in sessions && !sessions[FieldOr(form, "order_id", "")].consumed
    ensures o.reply != "OK" ==> o.cards == cards
    ensures o.reply == "OK" ==>
      var orderId := FieldOr(form, "order_id", "");
      o.cards == cards[cardId := SavedCard(cards, sessions[orderId].userId, form)]
      && o.sessions == Consumed(sessions, orderId)
  {
    var orderId := FieldOr(form, "order_id", "");
    if !signatureValid then CardNotifyOutcome("invalid", cards, sessions)
    else if FieldOr(form, "status_code", "") != STATUS_SUCCESS then
      CardNotifyOutcome("ignored", cards, Consumed(sessions, orderId))
    else if orderId !in sessions then CardNotifyOutcome("unknown-session", cards, sessions)
    else if sessions[orderId].consumed then CardNotifyOutcome("already", cards, sessions)
    else
      var card := SavedCard(cards, sessions[orderId].userId, form);
      CardNotifyOutcome("OK", cards[cardId := card], Consumed(sessions, orderId))
  }

  /** Saving a card that is the default only when its user has none keeps
      at most one default per user. */
  lemma AddingCardKeepsOneDefault(cards: map<Uuid, WalletCard>, cardId: Uuid, card: WalletCard)
    requires AtMostOneDefault(cards)
    requires card.isDefault ==> !HasDefault(cards, card.userId)
    ensures AtMostOneDefault(cards[cardId := card])
  {
    var r := cards[cardId := card];
    forall a, b | a in r && b in r && r[a].isDefault && r[b].isDefault && r[a].userId == r[b].userId
      ensures a == b
    {
      if a != cardId && b != cardId {
        assert r[a] == cards[a] && r[b] == cards[b];
      }
    }
  }

  /** Whatever the notification, each user keeps at most one default
      card. */
  lemma CardNotifyKeepsOneDefault(cards: map<Uuid, WalletCard>, sessions: map<string, CardAddSession>, form: Form,
                                  signatureValid: bool, cardId: Uuid)
    requires AtMostOneDefault(cards)
    ensures AtMostOneDefault(CardNotify(cards, sessions, form, signatureValid, cardId).cards)
  {
    var o := CardNotify(cards, sessions, form, signatureValid, cardId);
    if o.reply == "OK" {
      var orderId := FieldOr(form, "order_id", "");
      AddingCardKeepsOneDefault(cards, cardId, SavedCard(cards, sessions[orderId].userId, form));
    }
  }

  /** A session adds one card at most: once a success notification has
      been handled, the same notification answers "already" and changes
      nothing. */
  lemma SessionSingleUse(cards: map<Uuid, WalletCard>, sessions: map<string, CardAddSession>, form: Form,
                         cardId: Uuid, secondId: Uuid)
    requires CardNotify(cards, sessions, form, true, cardId).reply == "OK"
    ensures var o := CardNotify(cards, sessions, form, true, cardId);
      CardNotify(o.cards, o.sessions, form, true, secondId) == CardNotifyOutcome("already", o.cards, o.sessions)
  {
  }

  /** `notifyPreapprove`, step by step on the wallet's tables. */
  method NotifyPreapprove(w: Wallet, form: Form, signatureValid: bool, cardId: Uuid) returns (reply: string)
    requires w.Valid()
    modifies w
    ensures w.Valid()
    ensures w.intents == old(w.intents)
    ensures CardNotifyOutcome(reply, w.cards, w.sessions) == CardNotify(old(w.cards), old(w.sessions), form, signatureValid, cardId)
  {
    if !signatureValid {
      return "invalid";
    }
    var statusCode := FieldOr(form, "status_code", "");
    var orderId := FieldOr(form, "order_id", "");
    if statusCode != STATUS_SUCCESS {
      if orderId in w.sessions {
        w.sessions := w.sessions[orderId := w.sessions[orderId].(consumed := true)];
      }
      return "ignored";
    }
    if orderId !in w.sessions {
      return "unknown-session";
    }
    var s := w.sessions[orderId];
    if s.consumed {
      return "already";
    }
    var card := SavedCard(w.cards, s.userId, form);
    AddingCardKeepsOneDefault(w.cards, cardId, card);
    w.cards := w.cards[cardId := card];
    w.sessions := w.sessions[orderId := s.(consumed := true)];
    reply := "OK";
  }

  // ---------------------------------------------------------------------
  // The pre-approval page and the return page
  // ---------------------------------------------------------------------

  /** The gateway settings. */
  datatype PayHereConfig = PayHereConfig(
    sandbox: bool,
    merchantId: string,
    serverBaseUrl: string,
    appCardDeeplink: string)

  const SESSION_EXPIRED_PAGE: string := "<html><body><p>Session expired.</p></body></html>"
  const PAGE_HEAD: string := "<html><body onload='document.forms[0].submit()'>"

  /** The page is served only for a session that exists and is not
      consumed. */
  predicate SessionOpen(sessions: map<string, CardAddSession>, sessionId: string) {
    sessionId in sessions && !sessions[sessionId].consumed
  }

  function PreapproveAction(cfg: PayHereConfig): string {
    if cfg.sandbox then "https://sandbox.payhere.lk/pay/preapprove" else "https://www.payhere.lk/pay/preapprove"
  }

  /** The hidden fields posted to the gateway, in order. The order id is
      the session id; the amount is a fixed 10.00 LKR pre-authorisation.
      `requestHash` is the signature of the request and `urlEncode` the
      platform's URL encoder. */
  function PreapproveFields(cfg: PayHereConfig, sessionId: string, requestHash: string, urlEncode: string -> string)
    : (f: seq<(string, string)>)
    ensures |f| == 15
    ensures f[11] == ("order_id", sessionId) && f[12] == ("currency", "LKR") && f[13] == ("amount", "10.00")
  {
    [("merchant_id", cfg.merchantId),
     ("return_url", cfg.serverBaseUrl + "/api/v1/wallet/payhere/cards/return?sessionId=" + urlEncode(sessionId)),
     ("cancel_url", cfg.serverBaseUrl + "/api/v1/wallet/payhere/cards/cancel?sessionId=" + urlEncode(sessionId)),
     ("notify_url", cfg.serverBaseUrl + "/api/v1/wallet/payhere/notify/preapprove"),
     ("first_name", "Customer"),
     ("last_name", "App"),
     ("email", "na@example.com"),
     ("phone", "0770000000"),
     ("address", "N/A"),
     ("city", "Colombo"),
     ("country", "Sri Lanka"),
     ("order_id", sessionId),
     ("currency", "LKR"),
     ("amount", "10.00"),
     ("hash", requestHash)]
  }

  /** One hidden input. The value is escaped. */
  function HiddenInput(name: string, value: string): (h: string)
    ensures h == "<input type='hidden' name='" + name + "' value='" + EscapeText(value) + "'>"
  {
    CardEscapeIsReference(value);
    "<input type='hidden' name='" + name + "' value='" + CardEscape(Some(value)) + "'>"
  }

  /** The hidden inputs of all fields, in order. */
  function HiddenInputs(fields: seq<(string, string)>): string {
    if fields == [] then ""
    else HiddenInputs(fields[..|fields| - 1]) + HiddenInput(fields[|fields| - 1].0, fields[|fields| - 1].1)
  }

  /** The page that posts the session to the gateway. */
  function PreapprovePage(cfg: PayHereConfig, inputs: string): (page: string)
    ensures page != SESSION_EXPIRED_PAGE
  {
    var page := PAGE_HEAD + ("<form method='post' action='" + PreapproveAction(cfg) + "'>" + inputs + "</form>"
                             + "<p>Redirecting…</p></body></html>");
    assert page[11] == PAGE_HEAD[11] == ' ';
    assert SESSION_EXPIRED_PAGE[11] == '>';
    page
  }

  /** The loop that writes the hidden inputs. */
  method RenderInputs(fields: seq<(string, string)>) returns (html: string)
    ensures html == HiddenInputs(fields)
  {
    html := "";
    for i := 0 to |fields|
      invariant html == HiddenInputs(fields[..i])
    {
      assert fields[..i + 1][..i] == fields[..i];
      html := html + HiddenInput(fields[i].0, fields[i].1);
    }
    assert fields[..|fields|] == fields;
  }

  /** `preapprove`. A session that is missing or consumed gets the
      "Session expired." page and no form. Otherwise the page posts the
      session's fields to the gateway. */
  method Preapprove(w: Wallet, cfg: PayHereConfig, sessionId: string, requestHash: string, urlEncode: string -> string)
    returns (html: string)
    ensures !SessionOpen(w.sessions, sessionId) ==> html == SESSION_EXPIRED_PAGE
    ensures SessionOpen(w.sessions, sessionId) ==>
      html == PreapprovePage(cfg, HiddenInputs(PreapproveFields(cfg, sessionId, requestHash, urlEncode)))
    ensures html == SESSION_EXPIRED_PAGE <==> !SessionOpen(w.sessions, sessionId)
  {
    if sessionId !in w.sessions || w.sessions[sessionId].consumed {
      return SESSION_EXPIRED_PAGE;
    }
    var inputs := RenderInputs(PreapproveFields(cfg, sessionId, requestHash, urlEncode));
    html := PreapprovePage(cfg, inputs);
  }

  /** The status `cardReturn` passes back to the app: the gateway's
      `status`, else its `status_code`, else "2". It is never empty. */
  function CardReturnStatus(status: Option<string>, statusCode: Option<string>): (r: string)
    ensures HasText(r)
    ensures (status.None? || IsBlank(status.value)) && (statusCode.None? || IsBlank(statusCode.value)) ==> r == "2"
    ensures status.Some? && HasText(status.value) ==> r == status.value
    ensures (status.None? || IsBlank(status.value)) && statusCode.Some? && HasText(statusCode.value) ==> r == statusCode.value
  {
    var v := [status, statusCode, Some("2")];
    var r := FirstNonEmpty(v);
    assert v[2] == Some("2") && v[1..] == [statusCode, Some("2")];
    assert (status.None? || IsBlank(status.value)) && statusCode.Some? && HasText(statusCode.value) ==>
      FirstNonEmpty(v) == FirstNonEmpty(v[1..]) == statusCode.value;
    assert HasText("2") by { assert "2"[0] == '2'; }
    r
  }

  /** The app link `cardReturn` redirects to. */
  function CardReturnLink(cfg: PayHereConfig, sessionId: string, status: Option<string>, statusCode: Option<string>,
                          urlEncode: string -> string): string
  {
    cfg.appCardDeeplink + "?sessionId=" + urlEncode(sessionId) + "&status=" + urlEncode(CardReturnStatus(status, statusCode))
  }

  // ---------------------------------------------------------------------
  // The checkout notification
  // ---------------------------------------------------------------------

  /** The gateway's status codes: "2" success, "0" still processing, "-1"
      cancelled; "-2", "-3" and every other code are failures. */
  function GatewayStatus(code: string): (s: PaymentStatus)
    ensures s == SUCCESS <==> code == "2"
    ensures s == PROCESSING <==> code == "0"
    ensures s == CANCELED <==> code == "-1"
    ensures s == FAILED <==> code != "2" && code != "0" && code != "-1"
  {
    if code == "2" then SUCCESS
    else if code == "0" then PROCESSING
    else if code == "-1" then CANCELED
    else FAILED
  }

  /** The request fails (and its transaction is rolled back) when the order
      id is missing, since the repository refuses a null id, or when a known
      intent's notification has no status code, since a switch on null
      throws. */
  datatype NotifyError = MissingOrderId | MissingStatusCode

  /** `notify` on the intent table. The cases:
      - a bad signature answers "invalid";
      - an unknown order answers "ok" and changes nothing;
      - a known order gets the mapped status and the status message,
        "" by default, as its description. */
  function GatewayNotify(intents: map<string, PaymentIntent>, form: Form, signatureValid: bool)
    : (o: (Result<string, NotifyError>, map<string, PaymentIntent>))
    ensures o.0.Err? || !signatureValid || "order_id" !in form || form["order_id"] !in intents ==> o.1 == intents
    ensures !signatureValid ==> o.0 == Ok("invalid")
    ensures signatureValid && "order_id" in form && form["order_id"] !in intents ==> o.0 == Ok("ok")
    ensures o.1 != intents ==> o.0 == Ok("ok")
    ensures signatureValid && "order_id" in form && form["order_id"] in intents && "status_code" in form ==>
      var id := form["order_id"];
      o.0 == Ok("ok") && o.1.Keys == intents.Keys
      && o.1[id] == intents[id].(status := GatewayStatus(form["status_code"]),
                                 description := Some(FieldOr(form, "status_message", "")))
      && forall k :: k in intents && k != id ==> o.1[k] == intents[k]
  {
    if !signatureValid then (Ok("invalid"), intents)
    else if "order_id" !in form then (Err(MissingOrderId), intents)
    else if form["order_id"] !in intents then (Ok("ok"), intents)
    else if "status_code" !in form then (Err(MissingStatusCode), intents)
    else
      var id := form["order_id"];
      (Ok("ok"), intents[id := intents[id].(status := GatewayStatus(form["status_code"]),
                                           description := Some(FieldOr(form, "status_message", "")))])
  }

  /** A notification delivered twice leaves the intents as one delivery
      does. */
  lemma GatewayNotifyIdempotent(intents: map<string, PaymentIntent>, form: Form, signatureValid: bool)
    ensures var once := GatewayNotify(intents, form, signatureValid);
      GatewayNotify(once.1, form, signatureValid) == once
  {
    var once := GatewayNotify(intents, form, signatureValid);
    if once.1 != intents {
      var id := form["order_id"];
      assert once.1[id := once.1[id]] == once.1;
    }
  }

  /** `notify`, step by step on the wallet's intents. */
  method NotifyPayment(w: Wallet, form: Form, signatureValid: bool) returns (r: Result<string, NotifyError>)
    requires w.Valid()
    modifies w
    ensures w.Valid()
    ensures w.cards == old(w.cards) && w.sessions == old(w.sessions)
    ensures (r, w.intents) == GatewayNotify(old(w.intents), form, signatureValid)
  {
    if !signatureValid {
      return Ok("invalid");
    }
    var orderId := Field(form, "order_id");
    var message := FieldOr(form, "status_message", "");
    if orderId.None? {
      return Err(MissingOrderId);
    }
    if orderId.value !in w.intents {
      return Ok("ok");
    }
    var p := w.intents[orderId.value];
    var statusCode := Field(form, "status_code");
    if statusCode.None? {
      return Err(MissingStatusCode);
    }
    p := p.(status := GatewayStatus(statusCode.value), description := Some(message));
    w.intents := w.intents[orderId.value := p];
    r := Ok("ok");
  }
}

=== FILE: text.dfy ===
/** Character classes and string operations of the runtimes the system is
    written for (Java, Kotlin, Python, TypeScript), written out explicitly.
    Strings are sequences of Unicode scalar values; where a runtime counts
    UTF-16 code units instead, `Utf16Length` says so. */
module Text {
  import opened Wrappers

  // ---------------------------------------------------------------------
  // ASCII classes
  // ---------------------------------------------------------------------

  predicate IsAsciiDigit(c: char) { '0' <= c <= '9' }
  predicate IsAsciiUpper(c: char) { 'A' <= c <= 'Z' }
  predicate IsAsciiLower(c: char) { 'a' <= c <= 'z' }
  predicate IsAsciiLetter(c: char) { IsAsciiUpper(c) || IsAsciiLower(c) }
  predicate IsAscii(c: char) { c as int < 128 }

  predicate AllAscii(s: string) { forall i :: 0 <= i < |s| ==> IsAscii(s[i]) }

  function DigitValue(c: char): (d: nat)
    requires IsAsciiDigit(c)
    ensures d < 10
  {
    c as int - '0' as int
  }

  function LowerChar(c: char): (r: char)
    ensures IsAsciiUpper(c) ==> IsAsciiLower(r)
    ensures !IsAsciiUpper(c) ==> r == c
  {
    if IsAsciiUpper(c) then (c as int + 32) as char else c
  }

  function UpperChar(c: char): (r: char)
    ensures IsAsciiLower(c) ==> IsAsciiUpper(r)
    ensures !IsAsciiLower(c) ==> r == c
  {
    if IsAsciiLower(c) then (c as int - 32) as char else c
  }

  /** Case mapping of the ASCII range; other characters are kept. */
  function ToLower(s: string): (r: string)
    ensures |r| == |s|
    ensures forall i :: 0 <= i < |s| ==> r[i] == LowerChar(s[i])
  {
    if s == [] then [] else [LowerChar(s[0])] + ToLower(s[1..])
  }

  function ToUpper(s: string): (r: string)
    ensures |r| == |s|
    ensures forall i :: 0 <= i < |s| ==> r[i] == UpperChar(s[i])
  {
    if s == [] then [] else [UpperChar(s[0])] + ToUpper(s[1..])
  }

  /** Java's `String.equalsIgnoreCase` on the ASCII range: equal lengths and
      equal characters after upper-casing, position by position. */
  predicate EqualsIgnoreCase(a: string, b: string) {
    |a| == |b| && forall i :: 0 <= i < |a| ==> UpperChar(a[i]) == UpperChar(b[i])
  }

  // ---------------------------------------------------------------------
  // Whitespace, one class per runtime
  // ---------------------------------------------------------------------

  /** Java `Character.isWhitespace`: the Unicode space, line and paragraph
      separators except the no-break spaces, plus the ASCII controls
      U+0009..U+000D and U+001C..U+001F. Used by `String.isBlank`. */
  predicate IsJavaWhitespace(c: char) {
    ('\t' <= c <= '\r') || ('\U{001C}' <= c <= '\U{001F}') || c == ' '
    || c == '\U{1680}' || ('\U{2000}' <= c <= '\U{2006}') || ('\U{2008}' <= c <= '\U{200A}')
    || c == '\U{2028}' || c == '\U{2029}' || c == '\U{205F}' || c == '\U{3000}'
  }

  /** The `\s` class of a Java (and Kotlin) regular expression without the
      UNICODE_CHARACTER_CLASS flag. */
  predicate IsJavaRegexSpace(c: char) {
    c == ' ' || ('\t' <= c <= '\r')
  }

  /** The `\s` class of an ECMAScript regular expression. */
  predicate IsJsRegexSpace(c: char) {
    ('\t' <= c <= '\r') || c == ' ' || c == '\U{00A0}' || c == '\U{1680}'
    || ('\U{2000}' <= c <= '\U{200A}') || c == '\U{2028}' || c == '\U{2029}'
    || c == '\U{202F}' || c == '\U{205F}' || c == '\U{3000}' || c == '\U{FEFF}'
  }

  /** Python's `str.isspace`, which is also `\s` in a `re` pattern on str. */
  predicate IsPySpace(c: char) {
    ('\t' <= c <= '\r') || ('\U{001C}' <= c <= '\U{001F}') || c == ' ' || c == '\U{0085}'
    || c == '\U{00A0}' || c == '\U{1680}' || ('\U{2000}' <= c <= '\U{200A}')
    || c == '\U{2028}' || c == '\U{2029}' || c == '\U{202F}' || c == '\U{205F}' || c == '\U{3000}'
  }

  /** Java `String.isBlank`: empty or only whitespace. */
  predicate IsBlank(s: string) {
    forall i :: 0 <= i < |s| ==> IsJavaWhitespace(s[i])
  }

  /** A Java `String` argument that may be null, tested with
      `s != null && !s.isBlank()`. */
  predicate HasText(s: string) { !IsBlank(s) }

  // ---------------------------------------------------------------------
  // Lengths, searching, replacing, joining
  // ---------------------------------------------------------------------

  /** `length` in Java, Kotlin and TypeScript counts UTF-16 code units: a
      character outside the Basic Multilingual Plane counts twice. */
  function Utf16Length(s: string): (n: nat)
    ensures |s| <= n <= 2 * |s|
    ensures AllAscii(s) ==> n == |s|
  {
    if s == [] then 0
    else (if s[0] as int > 0xFFFF then 2 else 1) + Utf16Length(s[1..])
  }

  predicate Contains(s: string, c: char) { c in s }

  predicate StartsWith(s: string, p: string) { |p| <= |s| && s[..|p|] == p }
  predicate EndsWith(s: string, p: string) { |p| <= |s| && s[|s| - |p|..] == p }

  /** Every occurrence of `c` replaced by `r`, as Java's and Python's
      `replace` with a one-character pattern do. */
  function ReplaceChar(s: string, c: char, r: string): (t: string)
    ensures c !in r ==> c !in t
    ensures forall x :: x != c && x !in r ==> (x in t <==> x in s)
  {
    if s == [] then []
    else (if s[0] == c then r else [s[0]]) + ReplaceChar(s[1..], c, r)
  }

  /** `String.join(sep, parts)` / `sep.join(parts)`. */
  function Join(sep: string, parts: seq<string>): (r: string)
    ensures parts == [] ==> r == []
    ensures |parts| == 1 ==> r == parts[0]
  {
    if parts == [] then []
    else if |parts| == 1 then parts[0]
    else parts[0] + sep + Join(sep, parts[1..])
  }

  /** The characters of `s` that satisfy `IsAsciiDigit`, in order
      (Java `replaceAll("[^0-9]", "")`). */
  function DigitsOf(s: string): (r: string)
    ensures |r| <= |s|
    ensures forall i :: 0 <= i < |r| ==> IsAsciiDigit(r[i])
    ensures forall c :: IsAsciiDigit(c) ==> (c in r <==> c in s)
  {
    if s == [] then []
    else (if IsAsciiDigit(s[0]) then [s[0]] else []) + DigitsOf(s[1..])
  }

  /** Java `String.trim`: drops leading and trailing characters <= U+0020. */
  function JavaTrim(s: string): (r: string)
    ensures |r| <= |s|
    ensures r != [] ==> r[0] > ' ' && r[|r| - 1] > ' '
    decreases |s|
  {
    if s != [] && s[0] <= ' ' then JavaTrim(s[1..])
    else if s != [] && s[|s| - 1] <= ' ' then JavaTrim(s[..|s| - 1])
    else s
  }

  // Python regular expressions on ASCII text

  /** `\w`, on the ASCII range. */
  predicate IsWordChar(c: char) { IsAsciiLetter(c) || IsAsciiDigit(c) || c == '_' }

  /** `\b` at position `i` of `s`. */
  predicate WordBoundary(s: string, i: int)
    requires 0 <= i <= |s|
  {
    (i > 0 && IsWordChar(s[i - 1])) != (i < |s| && IsWordChar(s[i]))
  }

  /** The end of the run of whitespace starting at `j` (what a greedy `\s*`
      consumes). */
  function SkipSpace(s: string, j: int): (k: int)
    requires 0 <= j <= |s|
    ensures j <= k <= |s| && (k == |s| || !IsPySpace(s[k]))
    ensures forall m :: j <= m < k ==> IsPySpace(s[m])
    decreases |s| - j
  {
    if j < |s| && IsPySpace(s[j]) then SkipSpace(s, j + 1) else j
  }

  /** Python `str.strip()`. */
  function PyStrip(s: string): (r: string)
    ensures |r| <= |s|
    ensures r != [] ==> !IsPySpace(r[0]) && !IsPySpace(r[|r| - 1])
    decreases |s|
  {
    if s != [] && IsPySpace(s[0]) then PyStrip(s[1..])
    else if s != [] && IsPySpace(s[|s| - 1]) then PyStrip(s[..|s| - 1])
    else s
  }

  // ---------------------------------------------------------------------
  // Decimal numbers
  // ---------------------------------------------------------------------

  predicate AllDigits(s: string) { forall i :: 0 <= i < |s| ==> IsAsciiDigit(s[i]) }

  /** The value of a string of ASCII digits, most significant first. */
  function DecimalValue(s: string): (n: nat)
    requires AllDigits(s)
  {
    if s == [] then 0 else DecimalValue(s[..|s| - 1]) * 10 + DigitValue(s[|s| - 1])
  }

  /** Decimal rendering of a natural number, as `Integer.toString` prints it. */
  function NatToString(n: nat): (s: string)
    ensures s != [] && AllDigits(s)
    ensures DecimalValue(s) == n
    decreases n
  {
    if n < 10 then [('0' as int + n) as char]
    else
      var hi := NatToString(n / 10);
      var s := hi + [('0' as int + n % 10) as char];
      assert s[..|s| - 1] == hi;
      s
  }

  function IntToString(n: int): (s: string)
    ensures s != []
  {
    if n < 0 then "-" + NatToString(-n) else NatToString(n)
  }

  // ---------------------------------------------------------------------
  // UUID text
  // ---------------------------------------------------------------------

  predicate IsHexDigit(c: char) {
    IsAsciiDigit(c) || ('a' <= c <= 'f') || ('A' <= c <= 'F')
  }

  predicate IsHyphenPosition(i: int) { i == 8 || i == 13 || i == 18 || i == 23 }

  /** The 8-4-4-4-12 layout of a UUID's printed text, in either case. */
  predicate IsUuidText(s: string) {
    |s| == 36
    && forall i :: 0 <= i < 36 ==> (if IsHyphenPosition(i) then s[i] == '-' else IsHexDigit(s[i]))
  }

  /** The text `UUID.toString` prints: the 8-4-4-4-12 layout in lower case. */
  predicate IsCanonicalUuid(s: string) {
    IsUuidText(s) && forall i :: 0 <= i < |s| ==> !IsAsciiUpper(s[i])
  }

  predicate AllHex(s: string) { forall i :: 0 <= i < |s| ==> IsHexDigit(s[i]) }

  /** `Character.digit(c, 16)` on the ASCII hex digits. */
  function HexDigitValue(c: char): (v: nat)
    requires IsHexDigit(c)
    ensures v < 16
  {
    if IsAsciiDigit(c) then DigitValue(c)
    else if 'a' <= c <= 'f' then c as int - 'a' as int + 10
    else c as int - 'A' as int + 10
  }

  /** The lower-case digit printed for `v`. */
  function HexChar(v: nat): (c: char)
    requires v < 16
    ensures IsHexDigit(c) && !IsAsciiUpper(c) && HexDigitValue(c) == v
  {
    if v < 10 then ('0' as int + v) as char else ('a' as int + v - 10) as char
  }

  /** The value of a string of hex digits, most significant first. */
  function HexValue(s: string): (n: nat)
    requires AllHex(s)
  {
    if s == [] then 0 else HexValue(s[..|s| - 1]) * 16 + HexDigitValue(s[|s| - 1])
  }

  function Pow16(k: nat): (p: nat)
    ensures p >= 1
  {
    if k == 0 then 1 else 16 * Pow16(k - 1)
  }

  lemma Pow16Widths()
    ensures Pow16(4) == 0x1_0000 && Pow16(8) == 0x1_0000_0000 && Pow16(12) == 0x1_0000_0000_0000
  {
    assert Pow16(2) == 0x100 by { assert Pow16(1) == 16; }
    assert Pow16(4) == 0x1_0000 by { assert Pow16(3) == 0x1000; }
    assert Pow16(8) == 0x1_0000_0000 by { assert Pow16(6) == 0x100_0000 by { assert Pow16(5) == 0x10_0000; } }
    assert Pow16(12) == 0x1_0000_0000_0000 by { assert Pow16(10) == 0x100_0000_0000 by { assert Pow16(9) == 0x10_0000_0000; } }
  }

  /** A hex string is worth less than 16 to the power of its length. */
  lemma {:induction false} HexValueBound(s: string)
    requires AllHex(s)
    ensures HexValue(s) < Pow16(|s|)
  {
    if s != [] {
      HexValueBound(s[..|s| - 1]);
    }
  }

  /** `n` printed as exactly `width` lower-case hex digits, leading zeros
      kept: one group of `UUID.toString`. */
  function HexText(n: nat, width: nat): (s: string)
    requires n < Pow16(width)
    ensures |s| == width && AllHex(s) && forall i :: 0 <= i < |s| ==> !IsAsciiUpper(s[i])
  {
    if width == 0 then [] else HexText(n / 16, width - 1) + [HexChar(n % 16)]
  }

  lemma ToLowerAppend(a: string, b: string)
    ensures ToLower(a + b) == ToLower(a) + ToLower(b)
  {
    assert forall i :: 0 <= i < |a + b| ==> ToLower(a + b)[i] == (ToLower(a) + ToLower(b))[i];
  }

  /** Printing the value of a hex string at its own width gives the string
      back in lower case. */
  lemma {:induction false} HexTextOfValue(f: string)
    requires AllHex(f)
    ensures HexValue(f) < Pow16(|f|)
    ensures HexText(HexValue(f), |f|) == ToLower(f)
  {
    HexValueBound(f);
    if f != [] {
      var p, c := f[..|f| - 1], f[|f| - 1];
      HexTextOfValue(p);
      var q, v := HexValue(p), HexDigitValue(c);
      assert f == p + [c];
      calc {
        HexText(HexValue(f), |f|);
        HexText(q * 16 + v, |p| + 1);
        { HexTextShift(q, v, |p|); }
        HexText(q, |p|) + [HexChar(v)];
        { HexCharOfDigit(c); ToLowerOne(c); }
        ToLower(p) + ToLower([c]);
        { ToLowerAppend(p, [c]); }
        ToLower(f);
      }
    }
  }

  /** Lower-casing one character. */
  lemma ToLowerOne(c: char)
    ensures ToLower([c]) == [LowerChar(c)]
  {
  }

  /** Printing a value shifted one hex place and a digit added. */
  lemma HexTextShift(q: nat, v: nat, width: nat)
    requires v < 16 && q < Pow16(width)
    ensures q * 16 + v < Pow16(width + 1)
    ensures HexText(q * 16 + v, width + 1) == HexText(q, width) + [HexChar(v)]
  {
    var n := q * 16 + v;
    assert n / 16 == q && n % 16 == v;
  }

  /** A hex digit's value prints as the digit in lower case. */
  lemma HexCharOfDigit(c: char)
    requires IsHexDigit(c)
    ensures HexChar(HexDigitValue(c)) == LowerChar(c)
  {
  }

  /** No character of `g` is a hyphen. */
  predicate NoHyphen(g: string) {
    forall i :: 0 <= i < |g| ==> g[i] != '-'
  }

  /** `s.indexOf('-', from)`: the first hyphen at or after `from`, or -1. */
  function HyphenFrom(s: string, from: nat): (i: int)
    requires from <= |s|
    ensures -1 <= i < |s|
    ensures i >= 0 ==> from <= i && s[i] == '-'
    decreases |s| - from
  {
    if from == |s| then -1
    else if s[from] == '-' then from
    else HyphenFrom(s, from + 1)
  }

  /** What `indexOf` skips before the hyphen it finds holds no hyphen. */
  lemma {:induction false} HyphenFromSkips(s: string, from: nat, i: nat)
    requires from <= i < |s| && HyphenFrom(s, from) == i
    ensures s[i] == '-' && NoHyphen(s[from..i])
    decreases i - from
  {
    if from < i {
      HyphenFromSkips(s, from + 1, i);
      assert s[from..i][1..] == s[from + 1..i];
    }
  }

  /** When `indexOf` finds nothing, the rest holds no hyphen. */
  lemma {:induction false} HyphenFromMisses(s: string, from: nat)
    requires from <= |s| && HyphenFrom(s, from) == -1
    ensures NoHyphen(s[from..])
    decreases |s| - from
  {
    if from < |s| {
      HyphenFromMisses(s, from + 1);
      assert s[from..][1..] == s[from + 1..];
    }
  }

  /** A hyphen with none before it, back to `from`, is the one found. */
  lemma {:induction false} HyphenFromAt(s: string, from: nat, k: nat)
    requires from <= k < |s| && s[k] == '-' && NoHyphen(s[from..k])
    ensures HyphenFrom(s, from) == k
    decreases k - from
  {
    if from < k {
      assert s[from] == s[from..k][0];
      assert s[from + 1..k] == s[from..k][1..];
      HyphenFromAt(s, from + 1, k);
    }
  }

  /** With no hyphen from `from` on, none is found. */
  lemma {:induction false} HyphenFromNone(s: string, from: nat)
    requires from <= |s| && NoHyphen(s[from..])
    ensures HyphenFrom(s, from) == -1
    decreases |s| - from
  {
    if from < |s| {
      assert s[from] == s[from..][0];
      assert s[from + 1..] == s[from..][1..];
      HyphenFromNone(s, from + 1);
    }
  }

  /** Five groups, none holding a hyphen. */
  predicate HyphenFree5(g: seq<string>) {
    |g| == 5 && NoHyphen(g[0]) && NoHyphen(g[1]) && NoHyphen(g[2]) && NoHyphen(g[3]) && NoHyphen(g[4])
  }

  /** Five groups joined by hyphens. */
  function JoinHyphens(g: seq<string>): string
    requires |g| == 5
  {
    g[0] + ("-" + (g[1] + ("-" + (g[2] + ("-" + (g[3] + ("-" + g[4])))))))
  }

  /** Cutting a text at a hyphen. */
  lemma CutAtHyphen(s: string, from: nat, d: nat)
    requires from <= d < |s| && s[d] == '-'
    ensures s[from..] == s[from..d] + ("-" + s[d + 1..])
  {
  }

  /** The five groups between the hyphens, found as `UUID.fromString` finds
      them: four `indexOf` calls, each after the previous hyphen, and a fifth
      that must find nothing. `None` unless there are exactly four hyphens.
      The source makes one test, `dash4 < 0 || dash5 >= 0`, after all five
      calls; a missing earlier hyphen makes `dash4` negative or `dash5`
      non-negative there, so testing each call in turn refuses the same
      texts. */
  function HyphenGroups(s: string): (r: Option<seq<string>>)
    ensures r.Some? ==> |r.value| == 5
  {
    GroupsFrom(s, 0, 4)
  }

  /** The groups from `from` on when exactly `n` more hyphens follow: the
      next `indexOf` call ends the first group, and the last group runs to
      the end of the text. */
  function GroupsFrom(s: string, from: nat, n: nat): (r: Option<seq<string>>)
    requires from <= |s|
    ensures r.Some? ==> |r.value| == n + 1
    decreases n
  {
    var d := HyphenFrom(s, from);
    if d < 0 then (if n == 0 then Some([s[from..]]) else None)
    else if n == 0 then None
    else match GroupsFrom(s, d + 1, n - 1)
      case None => None
      case Some(rest) => Some([s[from..d]] + rest)
  }

  /** Groups joined by hyphens. */
  function Joined(g: seq<string>): string
    requires |g| > 0
  {
    if |g| == 1 then g[0] else g[0] + ("-" + Joined(g[1..]))
  }

  /** Joining five groups one by one is joining them in a row. */
  lemma JoinedFive(g: seq<string>)
    requires |g| == 5
    ensures Joined(g) == JoinHyphens(g)
  {
    var g1, g2, g3, g4 := g[1..], g[2..], g[3..], g[4..];
    assert g1[1..] == g2 && g2[1..] == g3 && g3[1..] == g4;
    assert Joined(g4) == g[4];
    assert Joined(g3) == g[3] + ("-" + g[4]);
    assert Joined(g2) == g[2] + ("-" + Joined(g3));
    assert Joined(g1) == g[1] + ("-" + Joined(g2));
  }

  /** The groups from `from` on hold no hyphen, and joined by hyphens they
      give back the rest of the text. */
  lemma {:induction false} GroupsFromSplit(s: string, from: nat, n: nat)
    requires from <= |s| && GroupsFrom(s, from, n).Some?
    ensures var g := GroupsFrom(s, from, n).value;
            (forall k :: 0 <= k < |g| ==> NoHyphen(g[k])) && s[from..] == Joined(g)
    decreases n
  {
    var d := HyphenFrom(s, from);
    if d < 0 {
      HyphenFromMisses(s, from);
    } else {
      var g := GroupsFrom(s, from, n).value;
      var rest := GroupsFrom(s, d + 1, n - 1).value;
      HyphenFromSkips(s, from, d);
      GroupsFromSplit(s, d + 1, n - 1);
      CutAtHyphen(s, from, d);
      assert g == [s[from..d]] + rest;
      assert g[1..] == rest;
    }
  }

  /** The groups hold no hyphen, and joined by hyphens they give the text
      back. */
  lemma HyphenGroupsJoin(s: string)
    requires HyphenGroups(s).Some?
    ensures HyphenFree5(HyphenGroups(s).value) && s == JoinHyphens(HyphenGroups(s).value)
  {
    GroupsFromSplit(s, 0, 4);
    JoinedFive(HyphenGroups(s).value);
    assert s[0..] == s;
  }

  /** Cutting a text at four hyphens and joining the pieces with hyphens
      gives the text back. */
  lemma JoinOfCuts(s: string, d1: nat, d2: nat, d3: nat, d4: nat)
    requires d1 < d2 < d3 < d4 < |s| && s[d1] == '-' && s[d2] == '-' && s[d3] == '-' && s[d4] == '-'
    ensures s == JoinHyphens([s[0..d1], s[d1 + 1..d2], s[d2 + 1..d3], s[d3 + 1..d4], s[d4 + 1..]])
  {
    var t4 := "-" + s[d4 + 1..];
    var t3 := "-" + (s[d3 + 1..d4] + t4);
    var t2 := "-" + (s[d2 + 1..d3] + t3);
    var t1 := "-" + (s[d1 + 1..d2] + t2);
    assert s[d3 + 1..] == s[d3 + 1..d4] + t4 by { CutAtHyphen(s, d3 + 1, d4); }
    assert s[d2 + 1..] == s[d2 + 1..d3] + t3 by { CutAtHyphen(s, d2 + 1, d3); }
    assert s[d1 + 1..] == s[d1 + 1..d2] + t2 by { CutAtHyphen(s, d1 + 1, d2); }
    assert s == s[0..d1] + t1 by { CutAtHyphen(s, 0, d1); assert s == s[0..]; }
  }

  /** A hyphen with none before it, back to `from`, ends the first group. */
  lemma GroupsFromStep(s: string, from: nat, d: nat, n: nat)
    requires from <= d < |s| && s[d] == '-' && NoHyphen(s[from..d]) && n > 0
    ensures GroupsFrom(s, from, n)
            == if GroupsFrom(s, d + 1, n - 1).Some? then Some([s[from..d]] + GroupsFrom(s, d + 1, n - 1).value) else None
  {
    HyphenFromAt(s, from, d);
  }

  /** With no hyphen left, the rest is the last group, and a group that
      still needs a hyphen after it is refused. */
  lemma GroupsFromRest(s: string, from: nat, n: nat)
    requires from <= |s| && NoHyphen(s[from..])
    ensures GroupsFrom(s, from, n) == if n == 0 then Some([s[from..]]) else None
  {
    HyphenFromNone(s, from);
  }

  /** The converse of `GroupsFromSplit`: groups without hyphens that join
      to the rest of the text are the groups found there. */
  lemma {:induction false} GroupsFromJoined(s: string, from: nat, g: seq<string>, n: nat)
    requires from <= |s| && |g| == n + 1 && s[from..] == Joined(g)
    requires forall k :: 0 <= k < |g| ==> NoHyphen(g[k])
    ensures GroupsFrom(s, from, n) == Some(g)
    decreases n
  {
    if n == 0 {
      GroupsFromRest(s, from, 0);
      assert [g[0]] == g;
    } else {
      FirstCut(s, from, g);
      GroupsFromJoined(s, from + |g[0]| + 1, g[1..], n - 1);
      JoinedStep(s, from, g[0], g[1..], n);
      assert [g[0]] + g[1..] == g;
    }
  }

  /** One step of `GroupsFromJoined`: a hyphen-free first group ended by a
      hyphen, then the groups after it. */
  lemma JoinedStep(s: string, from: nat, head: string, rest: seq<string>, n: nat)
    requires n > 0 && from + |head| < |s| && s[from..from + |head|] == head && s[from + |head|] == '-'
    requires NoHyphen(head) && GroupsFrom(s, from + |head| + 1, n - 1) == Some(rest)
    ensures GroupsFrom(s, from, n) == Some([head] + rest)
  {
    GroupsFromStep(s, from, from + |head|, n);
  }

  /** Where the first of several joined groups ends, a hyphen follows and
      the rest join to the remainder. */
  lemma FirstCut(s: string, from: nat, g: seq<string>)
    requires from <= |s| && |g| > 1 && s[from..] == Joined(g)
    ensures from + |g[0]| < |s| && s[from..from + |g[0]|] == g[0] && s[from + |g[0]|] == '-'
    ensures s[from + |g[0]| + 1..] == Joined(g[1..])
  {
    var t := s[from..];
    assert t == g[0] + ("-" + Joined(g[1..]));
    assert t[..|g[0]|] == g[0] && t[|g[0]|] == '-' && t[|g[0]| + 1..] == Joined(g[1..]);
  }

  /** The groups between hyphens at known positions, with none elsewhere. */
  lemma HyphenGroupsAt(s: string, e1: nat, e2: nat, e3: nat, e4: nat)
    requires e1 < e2 < e3 < e4 < |s| && s[e1] == '-' && s[e2] == '-' && s[e3] == '-' && s[e4] == '-'
    requires NoHyphen(s[0..e1]) && NoHyphen(s[e1 + 1..e2]) && NoHyphen(s[e2 + 1..e3])
    requires NoHyphen(s[e3 + 1..e4]) && NoHyphen(s[e4 + 1..])
    ensures HyphenGroups(s) == Some([s[0..e1], s[e1 + 1..e2], s[e2 + 1..e3], s[e3 + 1..e4], s[e4 + 1..]])
  {
    var g := [s[0..e1], s[e1 + 1..e2], s[e2 + 1..e3], s[e3 + 1..e4], s[e4 + 1..]];
    JoinOfCuts(s, e1, e2, e3, e4);
    JoinedFive(g);
    assert s[0..] == s;
    GroupsFromJoined(s, 0, g, 4);
  }

  /** A text with exactly four hyphens, at known positions, splits there. */
  lemma FourHyphens(s: string, e1: nat, e2: nat, e3: nat, e4: nat)
    requires e1 < e2 < e3 < e4 < |s|
    requires s[e1] == '-' && s[e2] == '-' && s[e3] == '-' && s[e4] == '-'
    requires forall i :: 0 <= i < |s| && i != e1 && i != e2 && i != e3 && i != e4 ==> s[i] != '-'
    ensures HyphenGroups(s) == Some([s[0..e1], s[e1 + 1..e2], s[e2 + 1..e3], s[e3 + 1..e4], s[e4 + 1..]])
  {
    NoHyphenBetween(s, 0, e1);
    NoHyphenBetween(s, e1 + 1, e2);
    NoHyphenBetween(s, e2 + 1, e3);
    NoHyphenBetween(s, e3 + 1, e4);
    NoHyphenBetween(s, e4 + 1, |s|);
    assert s[e4 + 1..] == s[e4 + 1..|s|];
    HyphenGroupsAt(s, e1, e2, e3, e4);
  }

  /** A stretch with no hyphen in it. */
  lemma NoHyphenBetween(s: string, lo: nat, hi: nat)
    requires lo <= hi <= |s| && forall i :: lo <= i < hi ==> s[i] != '-'
    ensures NoHyphen(s[lo..hi])
  {
    assert forall j :: 0 <= j < hi - lo ==> s[lo..hi][j] == s[lo + j];
  }

  /** `Long.MAX_VALUE`. */
  const LONG_MAX: nat := 0x7fff_ffff_ffff_ffff

  /** `Long.parseLong(g, 16)` on a group between hyphens: an optional '+',
      then at least one hex digit, worth at most `Long.MAX_VALUE`; `None`
      where the call throws `NumberFormatException`. A group holds no '-',
      so the negative branch of the parser never applies. */
  function ParseHexLong(g: string): (r: Option<nat>)
    ensures r.Some? ==> r.value <= LONG_MAX
    ensures r.Some? <==> var d := if g != [] && g[0] == '+' then g[1..] else g;
                         d != [] && AllHex(d) && HexValue(d) <= LONG_MAX
  {
    var digits := if g != [] && g[0] == '+' then g[1..] else g;
    if digits == [] || !AllHex(digits) then None
    else if HexValue(digits) > LONG_MAX then None
    else Some(HexValue(digits))
  }

  /** `UUID.toString` of the UUID whose five groups hold these values. */
  function UuidText(a: nat, b: nat, c: nat, d: nat, e: nat): (s: string)
    requires a < 0x1_0000_0000 && b < 0x1_0000 && c < 0x1_0000 && d < 0x1_0000 && e < 0x1_0000_0000_0000
    ensures IsCanonicalUuid(s)
  {
    Pow16Widths();
    HexGroupsFive(a, b, c, d, e);
    var s := HexGroups([a, b, c, d, e], [8, 4, 4, 4, 12]);
    assert forall i :: 0 <= i < 36 ==> (if IsHyphenPosition(i) then s[i] == '-' else IsHexDigit(s[i]));
    s
  }

  /** Values printed in hex at their widths and joined by hyphens. */
  function HexGroups(vals: seq<nat>, widths: seq<nat>): string
    requires |vals| == |widths| > 0
    requires forall i :: 0 <= i < |vals| ==> vals[i] < Pow16(widths[i])
    decreases |vals|
  {
    if |vals| == 1 then HexText(vals[0], widths[0])
    else HexText(vals[0], widths[0]) + ("-" + HexGroups(vals[1..], widths[1..]))
  }

  /** The five groups of a UUID, printed and joined. */
  lemma HexGroupsFive(a: nat, b: nat, c: nat, d: nat, e: nat)
    requires a < Pow16(8) && b < Pow16(4) && c < Pow16(4) && d < Pow16(4) && e < Pow16(12)
    ensures HexGroups([a, b, c, d, e], [8, 4, 4, 4, 12])
            == JoinHyphens([HexText(a, 8), HexText(b, 4), HexText(c, 4), HexText(d, 4), HexText(e, 12)])
  {
    var v, w := [a, b, c, d, e], [8, 4, 4, 4, 12];
    assert v[1..] == [b, c, d, e] && w[1..] == [4, 4, 4, 12];
    assert v[1..][1..] == [c, d, e] && w[1..][1..] == [4, 4, 12];
    assert v[1..][1..][1..] == [d, e] && w[1..][1..][1..] == [4, 12];
    assert v[1..][1..][1..][1..] == [e] && w[1..][1..][1..][1..] == [12];
    assert HexGroups([d, e], [4, 12]) == HexText(d, 4) + ("-" + HexText(e, 12));
    assert HexGroups([c, d, e], [4, 4, 12]) == HexText(c, 4) + ("-" + HexGroups([d, e], [4, 12]));
    assert HexGroups([b, c, d, e], [4, 4, 4, 12]) == HexText(b, 4) + ("-" + HexGroups([c, d, e], [4, 4, 12]));
  }

  /** Masking a value that fits leaves it alone. */
  lemma MaskKeeps(x: nat, m: nat)
    requires x < m
    ensures x % m == x
  {
  }

  /** Masking a value below twice the mask drops the mask once. */
  lemma MaskWrapsOnce(x: nat, m: nat)
    requires m <= x < 2 * m
    ensures x % m == x - m
  {
  }

  /** The groups of a printed UUID are its values at their widths. */
  lemma UuidTextOfValues(a: nat, b: nat, c: nat, d: nat, e: nat)
    requires a < 0x1_0000_0000 && b < 0x1_0000 && c < 0x1_0000 && d < 0x1_0000 && e < 0x1_0000_0000_0000
    ensures UuidText(a, b, c, d, e) == JoinHyphens([HexText(a, 8), HexText(b, 4), HexText(c, 4), HexText(d, 4), HexText(e, 12)])
  {
    Pow16Widths();
    HexGroupsFive(a, b, c, d, e);
  }

  /** `UUID.fromString`: the UUID a text names, kept as its canonical text,
      or `None` where the call throws. A text longer than 36 characters is
      refused; otherwise it needs exactly four hyphens, and each of the five
      groups must pass `Long.parseLong` in radix 16. The groups are then
      masked to 32, 16, 16, 16 and 48 bits, so short groups and groups with
      extra leading digits are accepted. */
  function ParseUuid(s: string): (r: Option<string>)
    ensures |s| > 36 ==> r.None?
    ensures r.Some? ==> IsCanonicalUuid(r.value)
  {
    if |s| > 36 then None
    else match HyphenGroups(s)
      case None => None
      case Some(g) => ParseGroups(g)
  }

  /** The second half of `UUID.fromString`: each of the five groups through
      `Long.parseLong` in radix 16, then masked to its width. */
  function ParseGroups(g: seq<string>): (r: Option<string>)
    requires |g| == 5
    ensures r.Some? <==> ParseHexLong(g[0]).Some? && ParseHexLong(g[1]).Some? && ParseHexLong(g[2]).Some?
                         && ParseHexLong(g[3]).Some? && ParseHexLong(g[4]).Some?
    ensures r.Some? ==> IsCanonicalUuid(r.value)
  {
    if ParseHexLong(g[0]).None? || ParseHexLong(g[1]).None? || ParseHexLong(g[2]).None?
       || ParseHexLong(g[3]).None? || ParseHexLong(g[4]).None? then None
    else
      Some(UuidText(ParseHexLong(g[0]).value % 0x1_0000_0000, ParseHexLong(g[1]).value % 0x1_0000,
                    ParseHexLong(g[2]).value % 0x1_0000, ParseHexLong(g[3]).value % 0x1_0000,
                    ParseHexLong(g[4]).value % 0x1_0000_0000_0000))
  }

  /** A group of plain hex digits narrower than its mask parses to its value
      and prints back as itself in lower case. */
  lemma PlainGroup(g: string, width: nat)
    requires AllHex(g) && |g| == width && (width == 4 || width == 8 || width == 12)
    ensures ParseHexLong(g) == Some(HexValue(g))
    ensures HexValue(g) < Pow16(width) && HexText(HexValue(g), width) == ToLower(g)
  {
    Pow16Widths();
    HexTextOfValue(g);
    assert g[0] != '+';
  }

  /** A text in the 8-4-4-4-12 layout splits at its four hyphens into
      groups of hex digits. */
  lemma UuidTextGroups(s: string)
    requires IsUuidText(s)
    ensures HyphenGroups(s) == Some([s[0..8], s[9..13], s[14..18], s[19..23], s[24..]])
    ensures AllHex(s[0..8]) && AllHex(s[9..13]) && AllHex(s[14..18]) && AllHex(s[19..23]) && AllHex(s[24..])
  {
    HexBetween(s, 0, 8);
    HexBetween(s, 9, 13);
    HexBetween(s, 14, 18);
    HexBetween(s, 19, 23);
    HexBetween(s, 24, 36);
    assert s[24..] == s[24..36];
    HyphenGroupsAt(s, 8, 13, 18, 23);
  }

  /** A stretch of a UUID text with no hyphen position in it is hex. */
  lemma HexBetween(s: string, lo: nat, hi: nat)
    requires IsUuidText(s) && lo <= hi <= 36
    requires forall i :: lo <= i < hi ==> !IsHyphenPosition(i)
    ensures AllHex(s[lo..hi]) && NoHyphen(s[lo..hi])
  {
    assert forall j :: 0 <= j < hi - lo ==> s[lo..hi][j] == s[lo + j];
  }

  /** Lower-casing a joined text lower-cases each group. */
  lemma ToLowerJoin(g: seq<string>)
    requires |g| == 5
    ensures ToLower(JoinHyphens(g)) == JoinHyphens([ToLower(g[0]), ToLower(g[1]), ToLower(g[2]), ToLower(g[3]), ToLower(g[4])])
  {
    var r3 := g[3] + ("-" + g[4]);
    var r2 := g[2] + ("-" + r3);
    var r1 := g[1] + ("-" + r2);
    assert ToLower("-") == "-";
    ToLowerAppend("-", g[4]);
    ToLowerAppend(g[3], "-" + g[4]);
    ToLowerAppend("-", r3);
    ToLowerAppend(g[2], "-" + r3);
    ToLowerAppend("-", r2);
    ToLowerAppend(g[1], "-" + r2);
    ToLowerAppend("-", r1);
    ToLowerAppend(g[0], "-" + r1);
  }

  /** Lower-casing keeps a text equal to itself ignoring case. */
  lemma ToLowerIgnoresCase(s: string)
    ensures EqualsIgnoreCase(ToLower(s), s)
  {
  }

  /** Every text in the 8-4-4-4-12 layout, in either case, names the UUID
      printed as its lower-case form: the lenient path agrees with the
      layout `UUID.toString` prints. */
  lemma StrictTextParses(s: string)
    requires IsUuidText(s)
    ensures ParseUuid(s) == Some(ToLower(s))
    ensures EqualsIgnoreCase(ToLower(s), s)
  {
    var g := [s[0..8], s[9..13], s[14..18], s[19..23], s[24..]];
    UuidTextGroups(s);
    ParsePlainGroups(s, g);
    JoinOfCuts(s, 8, 13, 18, 23);
    ToLowerJoin(g);
    ToLowerIgnoresCase(s);
  }

  /** A text that splits into groups of exactly 8, 4, 4, 4 and 12 hex
      digits names the UUID printed as those groups in lower case. */
  lemma ParsePlainGroups(s: string, g: seq<string>)
    requires |s| <= 36 && HyphenGroups(s) == Some(g) && |g| == 5
    requires AllHex(g[0]) && AllHex(g[1]) && AllHex(g[2]) && AllHex(g[3]) && AllHex(g[4])
    requires |g[0]| == 8 && |g[1]| == 4 && |g[2]| == 4 && |g[3]| == 4 && |g[4]| == 12
    ensures ParseUuid(s) == Some(JoinHyphens([ToLower(g[0]), ToLower(g[1]), ToLower(g[2]), ToLower(g[3]), ToLower(g[4])]))
  {
    var a, b, c, d, e := HexValue(g[0]), HexValue(g[1]), HexValue(g[2]), HexValue(g[3]), HexValue(g[4]);
    assert ParseHexLong(g[0]) == Some(a) && a < 0x1_0000_0000 && HexText(a, 8) == ToLower(g[0]) by {
      PlainGroup(g[0], 8);
      Pow16Widths();
    }
    assert ParseHexLong(g[1]) == Some(b) && b < 0x1_0000 && HexText(b, 4) == ToLower(g[1]) by {
      PlainGroup(g[1], 4);
      Pow16Widths();
    }
    assert ParseHexLong(g[2]) == Some(c) && c < 0x1_0000 && HexText(c, 4) == ToLower(g[2]) by {
      PlainGroup(g[2], 4);
      Pow16Widths();
    }
    assert ParseHexLong(g[3]) == Some(d) && d < 0x1_0000 && HexText(d, 4) == ToLower(g[3]) by {
      PlainGroup(g[3], 4);
      Pow16Widths();
    }
    assert ParseHexLong(g[4]) == Some(e) && e < 0x1_0000_0000_0000 && HexText(e, 12) == ToLower(g[4]) by {
      PlainGroup(g[4], 12);
      Pow16Widths();
    }
    ParseUuidValues(s, g, a, b, c, d, e);
    MaskKeeps(a, 0x1_0000_0000);
    MaskKeeps(b, 0x1_0000);
    MaskKeeps(c, 0x1_0000);
    MaskKeeps(d, 0x1_0000);
    MaskKeeps(e, 0x1_0000_0000_0000);
    UuidTextOfValues(a, b, c, d, e);
  }

  /** A text of at most 36 characters whose five groups parse to these
      values names the UUID printed from the values masked to their
      widths. */
  lemma ParseUuidValues(s: string, g: seq<string>, a: nat, b: nat, c: nat, d: nat, e: nat)
    requires |s| <= 36 && HyphenGroups(s) == Some(g) && |g| == 5
    requires ParseHexLong(g[0]) == Some(a) && ParseHexLong(g[1]) == Some(b) && ParseHexLong(g[2]) == Some(c)
    requires ParseHexLong(g[3]) == Some(d) && ParseHexLong(g[4]) == Some(e)
    ensures ParseUuid(s) == Some(UuidText(a % 0x1_0000_0000, b % 0x1_0000, c % 0x1_0000, d % 0x1_0000, e % 0x1_0000_0000_0000))
  {
    GroupValues(g, a, b, c, d, e);
  }

  /** Five groups that parse to these values give the UUID printed from the
      values masked to their widths. */
  lemma GroupValues(g: seq<string>, a: nat, b: nat, c: nat, d: nat, e: nat)
    requires |g| == 5
    requires ParseHexLong(g[0]) == Some(a) && ParseHexLong(g[1]) == Some(b) && ParseHexLong(g[2]) == Some(c)
    requires ParseHexLong(g[3]) == Some(d) && ParseHexLong(g[4]) == Some(e)
    ensures ParseGroups(g) == Some(UuidText(a % 0x1_0000_0000, b % 0x1_0000, c % 0x1_0000, d % 0x1_0000, e % 0x1_0000_0000_0000))
  {
  }

  /** The canonical text of a UUID parses back to itself. */
  lemma ParseUuidCanonical(s: string)
    requires IsCanonicalUuid(s)
    ensures ParseUuid(s) == Some(s)
  {
    StrictTextParses(s);
    assert ToLower(s) == s;
  }

  /** Parsing is a projection: a parsed UUID's text parses to itself, so
      two spellings name the same UUID exactly when they parse equal. */
  lemma ParseUuidIdempotent(s: string)
    requires ParseUuid(s).Some?
    ensures ParseUuid(ParseUuid(s).value) == ParseUuid(s)
  {
    ParseUuidCanonical(ParseUuid(s).value);
  }

  /** A group of one hex digit parses to that digit's value. */
  lemma SingleDigitGroup(c: char)
    requires IsHexDigit(c)
    ensures ParseHexLong([c]) == Some(HexDigitValue(c))
  {
    assert [c][1..] == [];
    assert HexValue([c]) == HexValue([]) * 16 + HexDigitValue(c);
  }

  /** Appending a digit shifts the value one hex place. */
  lemma HexAppend(p: string, c: char)
    requires AllHex(p) && IsHexDigit(c)
    ensures AllHex(p + [c]) && HexValue(p + [c]) == HexValue(p) * 16 + HexDigitValue(c)
  {
    assert (p + [c])[..|p|] == p;
  }

  /** A digit printed at a width: zeros, then the digit. */
  lemma PrintedDigit(n: nat, width: nat, g: string)
    requires n < 16 && 1 <= width && |g| == width && g[width - 1] == HexChar(n)
    requires forall i :: 0 <= i < width - 1 ==> g[i] == '0'
    ensures HexText(n, width) == g
  {
    ZeroText(width - 1);
    assert g == g[..width - 1] + [g[width - 1]];
  }

  /** Zero printed at a width is all zeros. */
  lemma {:induction false} ZeroText(width: nat)
    ensures HexText(0, width) == seq(width, _ => '0')
  {
    if width > 0 {
      ZeroText(width - 1);
      assert HexChar(0) == '0';
    }
  }

  /** The UUID with groups 1, 2, 3, 4 and 5, printed. */
  lemma OneToFiveText(a: nat, b: nat, c: nat, d: nat, e: nat, t: string)
    requires a == 1 && b == 2 && c == 3 && d == 4 && e == 5
    requires t == "00000001-0002-0003-0004-000000000005"
    ensures UuidText(a, b, c, d, e) == t
  {
    UuidTextOfValues(a, b, c, d, e);
    LeadingGroupsText(a, b, c);
    TrailingGroupsText(d, e);
    OneToFiveJoin(t);
  }

  /** The first three groups of that UUID, printed. */
  lemma LeadingGroupsText(a: nat, b: nat, c: nat)
    requires a == 1 && b == 2 && c == 3
    ensures HexText(a, 8) == "00000001" && HexText(b, 4) == "0002" && HexText(c, 4) == "0003"
  {
    PrintedDigit(a, 8, "00000001");
    PrintedDigit(b, 4, "0002");
    PrintedDigit(c, 4, "0003");
  }

  /** The last two groups of that UUID, printed. */
  lemma TrailingGroupsText(d: nat, e: nat)
    requires d == 4 && e == 5
    ensures HexText(d, 4) == "0004" && HexText(e, 12) == "000000000005"
  {
    PrintedDigit(d, 4, "0004");
    PrintedDigit(e, 12, "000000000005");
  }

  /** The printed groups of that UUID, joined. */
  lemma OneToFiveJoin(t: string)
    requires t == "00000001-0002-0003-0004-000000000005"
    ensures t == JoinHyphens(["00000001", "0002", "0003", "0004", "000000000005"])
  {
  }

  /** A text of at most 36 characters whose groups parse to values that
      mask to 1, 2, 3, 4 and 5 names 00000001-0002-0003-0004-000000000005. */
  lemma NamesOneToFive(s: string, g: seq<string>, a: nat, b: nat, c: nat, d: nat, e: nat, t: string)
    requires |s| <= 36 && HyphenGroups(s) == Some(g) && |g| == 5
    requires ParseHexLong(g[0]) == Some(a) && ParseHexLong(g[1]) == Some(b) && ParseHexLong(g[2]) == Some(c)
    requires ParseHexLong(g[3]) == Some(d) && ParseHexLong(g[4]) == Some(e)
    requires a % 0x1_0000_0000 == 1 && b % 0x1_0000 == 2 && c % 0x1_0000 == 3 && d % 0x1_0000 == 4
    requires e % 0x1_0000_0000_0000 == 5
    requires t == "00000001-0002-0003-0004-000000000005"
    ensures ParseUuid(s) == Some(t)
  {
    ParseUuidValues(s, g, a, b, c, d, e);
    OneToFiveText(a % 0x1_0000_0000, b % 0x1_0000, c % 0x1_0000, d % 0x1_0000, e % 0x1_0000_0000_0000, t);
  }

  /** Groups "2" to "5" parse to their digits, which their masks keep. */
  lemma SmallGroups()
    ensures ParseHexLong("2") == Some(2) && ParseHexLong("3") == Some(3)
    ensures ParseHexLong("4") == Some(4) && ParseHexLong("5") == Some(5)
    ensures 2 % 0x1_0000 == 2 && 3 % 0x1_0000 == 3 && 4 % 0x1_0000 == 4 && 5 % 0x1_0000_0000_0000 == 5
  {
    SingleDigitGroup('2');
    SingleDigitGroup('3');
    SingleDigitGroup('4');
    SingleDigitGroup('5');
    MaskKeeps(2, 0x1_0000);
    MaskKeeps(3, 0x1_0000);
    MaskKeeps(4, 0x1_0000);
    MaskKeeps(5, 0x1_0000_0000_0000);
  }

  /** "1-2-3-4-5": every group shorter than its width. */
  lemma ShortGroupsParse(s: string, t: string)
    requires s == "1-2-3-4-5" && t == "00000001-0002-0003-0004-000000000005"
    ensures ParseUuid(s) == Some(t)
  {
    ShortGroupsSplit(s);
    SingleDigitGroup('1');
    MaskKeeps(1, 0x1_0000_0000);
    SmallGroups();
    NamesOneToFive(s, ["1", "2", "3", "4", "5"], 1, 2, 3, 4, 5, t);
  }

  /** "+1-2-3-4-5": a group may carry a '+' sign. */
  lemma SignedGroupParses(s: string, t: string)
    requires s == "+1-2-3-4-5" && t == "00000001-0002-0003-0004-000000000005"
    ensures ParseUuid(s) == Some(t)
  {
    SignedGroupSplit(s);
    assert "+1"[1..] == "1";
    SingleDigitGroup('1');
    MaskKeeps(1, 0x1_0000_0000);
    SmallGroups();
    NamesOneToFive(s, ["+1", "2", "3", "4", "5"], 1, 2, 3, 4, 5, t);
  }

  /** "1-10002-3-4-5": the bits above 16 of the second group are dropped. */
  lemma WideGroupParses(s: string, t: string)
    requires s == "1-10002-3-4-5" && t == "00000001-0002-0003-0004-000000000005"
    ensures ParseUuid(s) == Some(t)
  {
    WideGroupSplit(s);
    SingleDigitGroup('1');
    MaskKeeps(1, 0x1_0000_0000);
    WideGroupValue("10002");
    MaskWrapsOnce(0x1_0002, 0x1_0000);
    SmallGroups();
    NamesOneToFive(s, ["1", "10002", "3", "4", "5"], 1, 0x1_0002, 3, 4, 5, t);
  }

  /** The groups of "1-2-3-4-5". */
  lemma ShortGroupsSplit(s: string)
    requires s == "1-2-3-4-5"
    ensures HyphenGroups(s) == Some(["1", "2", "3", "4", "5"])
  {
    assert s[0..1] == "1";
    assert s[2..3] == "2";
    assert s[4..5] == "3";
    assert s[6..7] == "4";
    assert s[8..] == "5";
    FourHyphens(s, 1, 3, 5, 7);
  }

  /** The groups of "+1-2-3-4-5". */
  lemma SignedGroupSplit(s: string)
    requires s == "+1-2-3-4-5"
    ensures HyphenGroups(s) == Some(["+1", "2", "3", "4", "5"])
  {
    assert s[0..2] == "+1";
    assert s[3..4] == "2";
    assert s[5..6] == "3";
    assert s[7..8] == "4";
    assert s[9..] == "5";
    FourHyphens(s, 2, 4, 6, 8);
  }

  /** The groups of "1-10002-3-4-5". */
  lemma WideGroupSplit(s: string)
    requires s == "1-10002-3-4-5"
    ensures HyphenGroups(s) == Some(["1", "10002", "3", "4", "5"])
  {
    assert s[0..1] == "1";
    assert s[2..7] == "10002";
    assert s[8..9] == "3";
    assert s[10..11] == "4";
    assert s[12..] == "5";
    FourHyphens(s, 1, 7, 9, 11);
  }

  /** The group "10002" parses to its value. */
  lemma WideGroupValue(g: string)
    requires g == "10002"
    ensures ParseHexLong(g) == Some(0x1_0002)
  {
    WideHexValue(g);
    assert g[0] != '+';
  }

  /** The value of the digits "10002", one hex place at a time. */
  lemma WideHexValue(g: string)
    requires g == "10002"
    ensures AllHex(g) && HexValue(g) == 0x1_0002
  {
    SingleDigitGroup('1');
    HexAppend("1", '0');
    HexAppend("10", '0');
    HexAppend("100", '0');
    HexAppend("1000", '2');
    assert g == "1000" + "2" && "1000" == "100" + "0" && "100" == "10" + "0" && "10" == "1" + "0";
  }

  /** "1-2-3-4" has three hyphens and "1--3-4-5" an empty group. */
  lemma MalformedRefused(s: string, t: string)
    requires s == "1-2-3-4" && t == "1--3-4-5"
    ensures ParseUuid(s).None? && ParseUuid(t).None?
  {
    assert HyphenGroups("1-2-3-4").None?;
    FourHyphens(t, 1, 2, 4, 6);
    assert t[2..2] == [];
  }

  /** Texts the lenient path accepts: short groups, a '+' sign and a group
      with bits above its mask all name 00000001-0002-0003-0004-000000000005;
      three hyphens, an empty group and 37 characters are refused. */
  lemma LenientSpellings()
    ensures ParseUuid("1-2-3-4-5") == Some("00000001-0002-0003-0004-000000000005")
    ensures ParseUuid("+1-2-3-4-5") == ParseUuid("1-2-3-4-5")
    ensures ParseUuid("1-10002-3-4-5") == ParseUuid("1-2-3-4-5")
    ensures ParseUuid("1-2-3-4").None? && ParseUuid("1--3-4-5").None?
    ensures ParseUuid("00000001-0002-0003-0004-0000000000005").None?
  {
    var t := "00000001-0002-0003-0004-000000000005";
    ShortGroupsParse("1-2-3-4-5", t);
    SignedGroupParses("+1-2-3-4-5", t);
    WideGroupParses("1-10002-3-4-5", t);
    MalformedRefused("1-2-3-4", "1--3-4-5");
  }
}

=== FILE: user_profile.dfy ===
/** The signed-in user's profile: editing the profile columns and the user
    name, requesting an e-mail change (the new address waits, with a
    token, until it is confirmed), confirming it, and the list of customers.
    The signed-in user is the one whose name the login carries. */
module UserProfileService {
  import opened Wrappers
  import opened Text
  import opened CredentialRules
  import opened UserDomain

  datatype ProfileError =
    | UserNotFound
    | UsernameTaken
    | InvalidEmailFormat
    | EmailInUse
    | InvalidOrExpiredToken
    | TokenExpired
    | AlreadyConfirmed
      /** A save rejected by a unique column (`email` or `new_email`). */
    | DuplicateKey

  /** An e-mail change token is honoured for 24 hours. */
  const EMAIL_CHANGE_LIFETIME: int := 24 * SECONDS_PER_HOUR

  const CUSTOMER_ROLE: string := "CUSTOMER"

  // ---------------------------------------------------------------------
  // Profile edits
  // ---------------------------------------------------------------------

  /** A request value counts when it is present and not blank. */
  predicate Supplied(o: Option<string>) { o.Some? && HasText(o.value) }

  /** One profile column after an edit: the request's value when supplied,
      the stored one otherwise. */
  function Pick(current: Option<string>, given: Option<string>): (r: Option<string>)
    ensures Supplied(given) ==> r == given
    ensures !Supplied(given) ==> r == current
  {
    if Supplied(given) then given else current
  }

  /** The profile after an edit request `q`, column by column. */
  function MergeProfile(p: Profile, q: Profile): (r: Profile) {
    Profile(
      Pick(p.firstName, q.firstName), Pick(p.lastName, q.lastName),
      Pick(p.address, q.address), Pick(p.city, q.city), Pick(p.state, q.state),
      Pick(p.country, q.country), Pick(p.postalCode, q.postalCode),
      Pick(p.homeNumber, q.homeNumber), Pick(p.workNumber, q.workNumber),
      Pick(p.officeNumber, q.officeNumber), Pick(p.mobileNumber, q.mobileNumber))
  }

  /** A request in which no column is supplied. */
  predicate NothingSupplied(q: Profile) {
    !Supplied(q.firstName) && !Supplied(q.lastName) && !Supplied(q.address) && !Supplied(q.city)
    && !Supplied(q.state) && !Supplied(q.country) && !Supplied(q.postalCode) && !Supplied(q.homeNumber)
    && !Supplied(q.workNumber) && !Supplied(q.officeNumber) && !Supplied(q.mobileNumber)
  }

  /** Each column is overwritten exactly when the request supplies it. */
  lemma MergeColumns(p: Profile, q: Profile)
    ensures var r := MergeProfile(p, q);
      (r.firstName == if Supplied(q.firstName) then q.firstName else p.firstName)
      && (r.lastName == if Supplied(q.lastName) then q.lastName else p.lastName)
      && (r.address == if Supplied(q.address) then q.address else p.address)
      && (r.city == if Supplied(q.city) then q.city else p.city)
      && (r.state == if Supplied(q.state) then q.state else p.state)
      && (r.country == if Supplied(q.country) then q.country else p.country)
      && (r.postalCode == if Supplied(q.postalCode) then q.postalCode else p.postalCode)
      && (r.homeNumber == if Supplied(q.homeNumber) then q.homeNumber else p.homeNumber)
      && (r.workNumber == if Supplied(q.workNumber) then q.workNumber else p.workNumber)
      && (r.officeNumber == if Supplied(q.officeNumber) then q.officeNumber else p.officeNumber)
      && (r.mobileNumber == if Supplied(q.mobileNumber) then q.mobileNumber else p.mobileNumber)
  {
  }

  /** Sending the same edit twice is the same as sending it once. */
  lemma MergeIdempotent(p: Profile, q: Profile)
    ensures MergeProfile(MergeProfile(p, q), q) == MergeProfile(p, q)
  {
  }

  /** An edit that supplies nothing leaves the profile as it was. */
  lemma MergeNothing(p: Profile, q: Profile)
    requires NothingSupplied(q)
    ensures MergeProfile(p, q) == p
  {
  }

  datatype UpdateProfileRequest = UpdateProfileRequest(username: Option<string>, email: Option<string>, fields: Profile)

  /** The user with the requested name (when supplied) and the merged
      profile; every other column is kept. */
  function ProfileEdited(u: User, req: UpdateProfileRequest): (v: User)
    ensures v.username == if Supplied(req.username) then req.username.value else u.username
    ensures v.profile == MergeProfile(u.profile, req.fields)
    ensures v.(username := u.username, profile := u.profile) == u
  {
    u.(username := if Supplied(req.username) then req.username.value else u.username,
       profile := MergeProfile(u.profile, req.fields))
  }

  /** The requested name clashes when another user already has it. */
  predicate NameClash(users: map<Uuid, User>, current: User, req: UpdateProfileRequest) {
    Supplied(req.username) && UsernameExists(users, req.username.value) && req.username.value != current.username
  }

  // ---------------------------------------------------------------------
  // E-mail change
  // ---------------------------------------------------------------------

  /** Another user already waits for this address to be confirmed. */
  predicate PendingElsewhere(users: map<Uuid, User>, uid: Uuid, e: string) {
    exists v :: v in users && v != uid && users[v].newEmail == Some(e)
  }

  /** The checks of `requestEmailChange`: the address must have the accepted
      form and must not be anyone's address; the save is then rejected by the
      unique `new_email` column if another user has it pending. */
  function EmailChangeCheck(users: map<Uuid, User>, uid: Uuid, e: string): (r: Option<ProfileError>)
    ensures r.None? <==> BackendValidEmail(e) && !EmailExists(users, e) && !PendingElsewhere(users, uid, e)
    ensures !BackendValidEmail(e) ==> r == Some(InvalidEmailFormat)
    ensures BackendValidEmail(e) && EmailExists(users, e) ==> r == Some(EmailInUse)
    ensures r == Some(DuplicateKey) ==> BackendValidEmail(e) && !EmailExists(users, e)
  {
    if !BackendValidEmail(e) then Some(InvalidEmailFormat)
    else if EmailExists(users, e) then Some(EmailInUse)
    else if PendingElsewhere(users, uid, e) then Some(DuplicateKey)
    else None
  }

  /** A user waiting for `e` to be confirmed with `token`, issued now; the
      current address is kept. */
  function WithPendingEmail(u: User, e: string, token: string, now: Instant): (v: User)
    ensures v.newEmail == Some(e) && v.emailToken == Some(token) && v.emailTokenCreatedAt == Some(now)
    ensures v.(newEmail := u.newEmail, emailToken := u.emailToken, emailTokenCreatedAt := u.emailTokenCreatedAt) == u
  {
    u.(newEmail := Some(e), emailToken := Some(token), emailTokenCreatedAt := Some(now))
  }

  /** `updateProfile` of the loaded user `uid`: the name check, the column
      edits, and, when an address is supplied, the e-mail change request on
      the same user. `token` is the change token drawn for it. On success,
      the row that is saved. */
  function UpdateProfileResult(users: map<Uuid, User>, uid: Uuid, req: UpdateProfileRequest, token: string, now: Instant)
    : (r: Result<User, ProfileError>)
    requires uid in users
  {
    var u := users[uid];
    if NameClash(users, u, req) then Err(UsernameTaken)
    else
      var edited := ProfileEdited(u, req);
      if !Supplied(req.email) then Ok(edited)
      else match EmailChangeCheck(users, uid, req.email.value)
        case Some(e) => Err(e)
        case None => Ok(WithPendingEmail(edited, req.email.value, token, now))
  }

  /** What an update does: it fails on a clashing name or a refused address;
      otherwise it renames when asked, merges the profile, never touches the
      confirmed address, and leaves the supplied address pending. */
  lemma UpdateProfileOutcome(users: map<Uuid, User>, uid: Uuid, req: UpdateProfileRequest, token: string, now: Instant)
    requires uid in users
    ensures var r := UpdateProfileResult(users, uid, req, token, now);
      && (r == Err(UsernameTaken) <==> NameClash(users, users[uid], req))
      && (r.Err? ==> r.error == UsernameTaken || (Supplied(req.email) && Some(r.error) == EmailChangeCheck(users, uid, req.email.value)))
      && (r.Ok? ==>
            r.value.userId == users[uid].userId && r.value.email == users[uid].email
            && r.value.passwordHash == users[uid].passwordHash && r.value.roleName == users[uid].roleName
            && r.value.profile == MergeProfile(users[uid].profile, req.fields)
            && r.value.username == (if Supplied(req.username) then req.username.value else users[uid].username)
            && (Supplied(req.email) ==> r.value.newEmail == req.email && r.value.emailToken == Some(token))
            && (!Supplied(req.email) ==> r.value.newEmail == users[uid].newEmail && r.value.emailToken == users[uid].emailToken))
  {
  }

  /** Replacing a user by a row whose name is the old one or nobody's, whose
      address is unchanged, whose pending address is the old one or nobody
      else's, and whose change token is the old one or unused, keeps the
      user table's constraints. */
  lemma ReplaceUserKeepsTable(users: map<Uuid, User>, uid: Uuid, v: User, token: string)
    requires UserTable(users) && TokensStamped(users) && uid in users
    requires v.userId == uid && v.email == users[uid].email
    requires v.username == users[uid].username || !UsernameExists(users, v.username)
    requires v.newEmail == users[uid].newEmail || (v.newEmail.Some? && !PendingElsewhere(users, uid, v.newEmail.value))
    requires v.emailToken == users[uid].emailToken
      || (v.emailToken == Some(token) && forall w :: w in users ==> users[w].emailToken != Some(token))
    requires v.emailToken.Some? ==> v.emailTokenCreatedAt.Some?
    ensures UserTable(users[uid := v]) && TokensStamped(users[uid := v])
  {
  }

  /** An update that is accepted keeps the user table's constraints. */
  lemma UpdateKeepsTable(users: map<Uuid, User>, uid: Uuid, req: UpdateProfileRequest, token: string, now: Instant)
    requires UserTable(users) && TokensStamped(users) && uid in users
    requires forall v :: v in users ==> users[v].emailToken != Some(token)
    requires UpdateProfileResult(users, uid, req, token, now).Ok?
    ensures UserTable(users[uid := UpdateProfileResult(users, uid, req, token, now).value])
    ensures TokensStamped(users[uid := UpdateProfileResult(users, uid, req, token, now).value])
  {
    var v := UpdateProfileResult(users, uid, req, token, now).value;
    UpdateProfileOutcome(users, uid, req, token, now);
    ReplaceUserKeepsTable(users, uid, v, token);
  }

  /** `updateProfile` as written: when an address is supplied,
      `requestEmailChange` loads the signed-in user again by the login name.
      That query runs after the pending rename has been flushed, so it
      finds no user when the name was changed in the same request. */
  function UpdateProfileResultAsWritten(users: map<Uuid, User>, uid: Uuid, req: UpdateProfileRequest, token: string, now: Instant)
    : (r: Result<User, ProfileError>)
    requires uid in users
  {
    var u := users[uid];
    if NameClash(users, u, req) then Err(UsernameTaken)
    else
      var edited := ProfileEdited(u, req);
      if !Supplied(req.email) then Ok(edited)
      else if !UsernameExists(users[uid := edited], u.username) then Err(UserNotFound)
      else match EmailChangeCheck(users, uid, req.email.value)
        case Some(e) => Err(e)
        case None => Ok(WithPendingEmail(edited, req.email.value, token, now))
  }

  /** Renaming and changing the address in one request fails as written
      with "user not found" (rolling the whole edit back), although every
      check passes and the corrected update succeeds. */
  lemma RenameWithEmailChangeFailsAsWritten(users: map<Uuid, User>, uid: Uuid, req: UpdateProfileRequest, token: string, now: Instant)
    requires UserTable(users) && uid in users
    requires Supplied(req.username) && req.username.value != users[uid].username
    requires !UsernameExists(users, req.username.value)
    requires Supplied(req.email) && EmailChangeCheck(users, uid, req.email.value).None?
    ensures UpdateProfileResultAsWritten(users, uid, req, token, now) == Err(UserNotFound)
    ensures UpdateProfileResult(users, uid, req, token, now).Ok?
  {
  }

  /** Without that combination the written update and the corrected one agree. */
  lemma AsWrittenAgreesWithoutRename(users: map<Uuid, User>, uid: Uuid, req: UpdateProfileRequest, token: string, now: Instant)
    requires uid in users
    requires !(Supplied(req.username) && req.username.value != users[uid].username)
    ensures UpdateProfileResultAsWritten(users, uid, req, token, now) == UpdateProfileResult(users, uid, req, token, now)
  {
    var u := users[uid];
    var edited := ProfileEdited(u, req);
    assert edited.username == u.username;
    assert users[uid := edited][uid].username == u.username;
  }

  /** The outcome of `confirmEmailChange` for the user holding the token:
      the token must be at most 24 hours old and an address must be pending;
      the unique `email` column rejects an address another user has taken
      meanwhile. */
  function ConfirmCheck(users: map<Uuid, User>, uid: Uuid, now: Instant): (r: Option<ProfileError>)
    requires uid in users && users[uid].emailTokenCreatedAt.Some?
    ensures users[uid].emailTokenCreatedAt.value < now - EMAIL_CHANGE_LIFETIME ==> r == Some(TokenExpired)
    ensures r.None? <==>
      !(users[uid].emailTokenCreatedAt.value < now - EMAIL_CHANGE_LIFETIME) && users[uid].newEmail.Some?
      && !EmailExists(users - {uid}, users[uid].newEmail.value)
  {
    var u := users[uid];
    if u.emailTokenCreatedAt.value < now - EMAIL_CHANGE_LIFETIME then Some(TokenExpired)
    else if u.newEmail.None? then Some(AlreadyConfirmed)
    else if EmailExists(users - {uid}, u.newEmail.value) then Some(DuplicateKey)
    else None
  }

  /** A confirmed change: the pending address becomes the address, the
      pending columns are cleared and the address counts as verified. */
  function EmailConfirmed(u: User): (v: User)
    requires u.newEmail.Some?
    ensures v.email == u.newEmail.value && v.emailVerified
    ensures v.newEmail.None? && v.emailToken.None? && v.emailTokenCreatedAt.None?
    ensures v.(email := u.email, emailVerified := u.emailVerified, newEmail := u.newEmail,
               emailToken := u.emailToken, emailTokenCreatedAt := u.emailTokenCreatedAt) == u
  {
    u.(email := u.newEmail.value, newEmail := None, emailToken := None, emailTokenCreatedAt := None, emailVerified := true)
  }

  /** After a confirmation the token is held by nobody, so it cannot confirm
      again. */
  lemma ConfirmOnce(users: map<Uuid, User>, uid: Uuid, token: string)
    requires UniqueEmailTokens(users) && uid in users && users[uid].emailToken == Some(token)
    requires users[uid].newEmail.Some?
    ensures UniqueEmailTokens(users[uid := EmailConfirmed(users[uid])])
    ensures EmailTokenHolder(users[uid := EmailConfirmed(users[uid])], token).None?
  {
    var m := users[uid := EmailConfirmed(users[uid])];
    assert forall v :: v in m ==> m[v].emailToken != Some(token);
  }

  /** Recording an accepted e-mail change request keeps the directory's
      invariant. */
  lemma PendingKeepsTables(users: map<Uuid, User>, verifications: map<string, VerificationToken>,
                           resets: map<Uuid, ResetToken>, uid: Uuid, newEmail: string, token: string, now: Instant)
    requires UserTable(users) && TokensStamped(users) && UniqueResetTokens(resets)
    requires forall t :: t in verifications ==> verifications[t].userId in users
    requires forall u :: u in resets ==> u in users
    requires uid in users && EmailChangeCheck(users, uid, newEmail).None?
    requires forall v :: v in users ==> users[v].emailToken != Some(token)
    ensures var m := users[uid := WithPendingEmail(users[uid], newEmail, token, now)];
            UserTable(m) && TokensStamped(m) && UniqueResetTokens(resets)
            && (forall t :: t in verifications ==> verifications[t].userId in m)
            && (forall u :: u in resets ==> u in m)
  {
    var req := UpdateProfileRequest(None, Some(newEmail), EmptyProfile);
    assert ProfileEdited(users[uid], req) == users[uid];
    assert HasText(newEmail) by {
      assert newEmail[0] != ' ' && !IsJavaWhitespace(newEmail[0]);
    }
    UpdateKeepsTable(users, uid, req, token, now);
  }

  /** A confirmation allowed by `ConfirmCheck` keeps every table
      constraint: the new address is nobody else's. */
  lemma ConfirmKeepsTables(users: map<Uuid, User>, verifications: map<string, VerificationToken>,
                           resets: map<Uuid, ResetToken>, uid: Uuid, token: string)
    requires UserTable(users) && TokensStamped(users) && UniqueResetTokens(resets)
    requires forall t :: t in verifications ==> verifications[t].userId in users
    requires forall u :: u in resets ==> u in users
    requires uid in users && users[uid].emailToken == Some(token) && users[uid].newEmail.Some?
    requires !EmailExists(users - {uid}, users[uid].newEmail.value)
    ensures var m := users[uid := EmailConfirmed(users[uid])];
            UserTable(m) && TokensStamped(m) && UniqueResetTokens(resets)
            && (forall t :: t in verifications ==> verifications[t].userId in m)
            && (forall u :: u in resets ==> u in m)
  {
    ConfirmOnce(users, uid, token);
    forall x | x in users && x != uid ensures users[x].email != users[uid].newEmail.value {
      assert x in users - {uid};
    }
  }

  // ---------------------------------------------------------------------
  // The service methods
  // ---------------------------------------------------------------------

  /** `updateProfile` for the signed-in user named `authName`, with the
      corrected e-mail step. */
  method UpdateProfile(dir: Directory, authName: string, req: UpdateProfileRequest, token: string, now: Instant)
    returns (r: Result<(), ProfileError>)
    requires dir.Valid()
    requires forall v :: v in dir.users ==> dir.users[v].emailToken != Some(token)
    modifies dir
    ensures dir.Valid()
    ensures dir.roles == old(dir.roles) && dir.sessions == old(dir.sessions) && dir.verifications == old(dir.verifications)
    ensures dir.resets == old(dir.resets) && dir.employees == old(dir.employees)
    ensures match UserNamed(old(dir.users), authName)
      case None => r == Err(UserNotFound) && dir.users == old(dir.users)
      case Some(uid) =>
        match UpdateProfileResult(old(dir.users), uid, req, token, now)
        case Err(e) => r == Err(e) && dir.users == old(dir.users)
        case Ok(v) => r == Ok(()) && dir.users == old(dir.users)[uid := v]
  {
    if !UsernameExists(dir.users, authName) {
      return Err(UserNotFound);
    }
    var uid :| uid in dir.users && dir.users[uid].username == authName;
    assert UserNamed(dir.users, authName) == Some(uid);
    var result := UpdateProfileResult(dir.users, uid, req, token, now);
    if result.Err? {
      return Err(result.error);
    }
    UpdateKeepsTable(dir.users, uid, req, token, now);
    dir.users := dir.users[uid := result.value];
    r := Ok(());
  }

  /** `requestEmailChange` for the signed-in user named `authName`. */
  method RequestEmailChange(dir: Directory, authName: string, newEmail: string, token: string, now: Instant)
    returns (r: Result<(), ProfileError>)
    requires dir.Valid()
    requires forall v :: v in dir.users ==> dir.users[v].emailToken != Some(token)
    modifies dir
    ensures dir.Valid()
    ensures dir.roles == old(dir.roles) && dir.sessions == old(dir.sessions) && dir.verifications == old(dir.verifications)
    ensures dir.resets == old(dir.resets) && dir.employees == old(dir.employees)
    ensures match UserNamed(old(dir.users), authName)
      case None => r == Err(UserNotFound) && dir.users == old(dir.users)
      case Some(uid) =>
        match EmailChangeCheck(old(dir.users), uid, newEmail)
        case Some(e) => r == Err(e) && dir.users == old(dir.users)
        case None =>
          r == Ok(()) && dir.users == old(dir.users)[uid := WithPendingEmail(old(dir.users)[uid], newEmail, token, now)]
  {
    if !UsernameExists(dir.users, authName) {
      return Err(UserNotFound);
    }
    var uid :| uid in dir.users && dir.users[uid].username == authName;
    assert UserNamed(dir.users, authName) == Some(uid);
    var check := EmailChangeCheck(dir.users, uid, newEmail);
    if check.Some? {
      return Err(check.value);
    }
    PendingKeepsTables(dir.users, dir.verifications, dir.resets, uid, newEmail, token, now);
    dir.users := dir.users[uid := WithPendingEmail(dir.users[uid], newEmail, token, now)];
    r := Ok(());
  }

  /** `confirmEmailChange`. */
  method ConfirmEmailChange(dir: Directory, token: string, now: Instant) returns (r: Result<(), ProfileError>)
    requires dir.Valid()
    modifies dir
    ensures dir.Valid()
    ensures dir.roles == old(dir.roles) && dir.sessions == old(dir.sessions) && dir.verifications == old(dir.verifications)
    ensures dir.resets == old(dir.resets) && dir.employees == old(dir.employees)
    ensures match EmailTokenHolder(old(dir.users), token)
      case None => r == Err(InvalidOrExpiredToken) && dir.users == old(dir.users)
      case Some(uid) =>
        old(dir.users)[uid].emailTokenCreatedAt.Some? &&
        match ConfirmCheck(old(dir.users), uid, now)
        case Some(e) => r == Err(e) && dir.users == old(dir.users)
        case None => r == Ok(()) && dir.users == old(dir.users)[uid := EmailConfirmed(old(dir.users)[uid])]
  {
    if !exists v :: v in dir.users && dir.users[v].emailToken == Some(token) {
      return Err(InvalidOrExpiredToken);
    }
    var uid :| uid in dir.users && dir.users[uid].emailToken == Some(token);
    assert EmailTokenHolder(dir.users, token) == Some(uid);
    var check := ConfirmCheck(dir.users, uid, now);
    if check.Some? {
      return Err(check.value);
    }
    var m := dir.users[uid := EmailConfirmed(dir.users[uid])];
    ConfirmKeepsTables(dir.users, dir.verifications, dir.resets, uid, token);
    dir.users := m;
    r := Ok(());
  }

  // ---------------------------------------------------------------------
  // The customer list
  // ---------------------------------------------------------------------

  /** `getAllUsers`: the users, in stored order, whose role name is exactly
      "CUSTOMER" (the comparison is case-sensitive). */
  function Customers(all: seq<User>): (r: seq<User>)
    ensures |r| <= |all|
    ensures forall i :: 0 <= i < |r| ==> r[i].roleName == CUSTOMER_ROLE && r[i] in all
    ensures forall u :: u in all && u.roleName == CUSTOMER_ROLE ==> u in r
  {
    if all == [] then []
    else (if all[0].roleName == CUSTOMER_ROLE then [all[0]] else []) + Customers(all[1..])
  }

  /** Listing the customers of a list that only holds customers gives the
      list back, and listing twice changes nothing. */
  lemma {:induction false} CustomersIdempotent(all: seq<User>)
    ensures Customers(Customers(all)) == Customers(all)
  {
    if all != [] {
      CustomersIdempotent(all[1..]);
      CustomersAppend(if all[0].roleName == CUSTOMER_ROLE then [all[0]] else [], Customers(all[1..]));
    }
  }

  lemma {:induction false} CustomersAppend(a: seq<User>, b: seq<User>)
    ensures Customers(a + b) == Customers(a) + Customers(b)
  {
    if a == [] {
      assert a + b == b;
    } else {
      assert (a + b)[1..] == a[1..] + b;
      CustomersAppend(a[1..], b);
    }
  }
}

=== FILE: users.dfy ===
/** The account records shared by the authentication, password-reset,
    profile and employee services: users with their role and pending e-mail
    change, login sessions, e-mail verification tokens, password-reset
    tokens and employees, held together as one mutable directory. */
module UserDomain {
  import opened Wrappers
  import opened Text

  /** A point in time, in whole seconds since the epoch. */
  type Instant = int

  /** A UUID in its text form. */
  type Uuid = string

  const SECONDS_PER_HOUR: int := 3600

  /** The optional profile columns of a user. */
  datatype Profile = Profile(
    firstName: Option<string>,
    lastName: Option<string>,
    address: Option<string>,
    city: Option<string>,
    state: Option<string>,
    country: Option<string>,
    postalCode: Option<string>,
    homeNumber: Option<string>,
    workNumber: Option<string>,
    officeNumber: Option<string>,
    mobileNumber: Option<string>)

  const EmptyProfile := Profile(None, None, None, None, None, None, None, None, None, None, None)

  /** A user row. The role is kept by its stored name; `hasEmployee` says
      whether an employee record is linked to the user. The pending e-mail
      change is `newEmail` with its verification token and the time the
      token was issued. */
  datatype User = User(
    userId: Uuid,
    username: string,
    email: string,
    passwordHash: string,
    roleName: string,
    isActive: bool,
    emailVerified: bool,
    profile: Profile,
    newEmail: Option<string>,
    emailToken: Option<string>,
    emailTokenCreatedAt: Option<Instant>,
    hasEmployee: bool,
    createdAt: Instant)

  /** A login session, filed under its token. */
  datatype Session = Session(
    userId: Uuid,
    loginTime: Instant,
    expiryTime: Instant,
    isActive: bool,
    ipAddress: string,
    logoutTime: Option<Instant>)

  /** A registration e-mail verification token, filed under its text. */
  datatype VerificationToken = VerificationToken(userId: Uuid, expiry: Instant)

  /** The password-reset record of a user (one per user). */
  datatype ResetToken = ResetToken(token: string, expiry: Instant, used: bool)

  datatype EmployeeStatus = ACTIVE | INACTIVE

  /** An employee record, filed under the id of its user. */
  datatype Employee = Employee(roleName: string, status: EmployeeStatus, resignationDate: Option<Instant>)

  // ---------------------------------------------------------------------
  // Table constraints and the repository queries
  // ---------------------------------------------------------------------

  predicate UsersKeyed(users: map<Uuid, User>) {
    forall u :: u in users ==> users[u].userId == u
  }

  /** The unique `username` column. */
  predicate UniqueUsernames(users: map<Uuid, User>) {
    forall a, b :: a in users && b in users && users[a].username == users[b].username ==> a == b
  }

  /** The unique `email` column. */
  predicate UniqueEmails(users: map<Uuid, User>) {
    forall a, b :: a in users && b in users && users[a].email == users[b].email ==> a == b
  }

  /** The unique `new_email` column (nulls never clash). */
  predicate UniquePendingEmails(users: map<Uuid, User>) {
    forall a, b :: a in users && b in users && users[a].newEmail.Some? && users[a].newEmail == users[b].newEmail ==> a == b
  }

  /** E-mail change tokens are fresh UUIDs, so no two users hold the same one. */
  predicate UniqueEmailTokens(users: map<Uuid, User>) {
    forall a, b :: a in users && b in users && users[a].emailToken.Some? && users[a].emailToken == users[b].emailToken ==> a == b
  }

  /** Password-reset tokens are fresh UUIDs, so no two records hold the same one. */
  predicate UniqueResetTokens(resets: map<Uuid, ResetToken>) {
    forall a, b :: a in resets && b in resets && resets[a].token == resets[b].token ==> a == b
  }

  /** The constraints of the user table. */
  predicate UserTable(users: map<Uuid, User>) {
    UsersKeyed(users) && UniqueUsernames(users) && UniqueEmails(users)
    && UniquePendingEmails(users) && UniqueEmailTokens(users)
  }

  /** An e-mail change token is always stored with the time it was issued. */
  predicate TokensStamped(users: map<Uuid, User>) {
    forall u :: u in users && users[u].emailToken.Some? ==> users[u].emailTokenCreatedAt.Some?
  }

  /** Rewriting a user's non-key columns keeps the table constraints. */
  lemma ReplaceKeepsTable(users: map<Uuid, User>, u: Uuid, x: User)
    requires UserTable(users) && u in users
    requires x.userId == u && x.username == users[u].username && x.email == users[u].email
    requires x.newEmail == users[u].newEmail && x.emailToken == users[u].emailToken
    ensures UserTable(users[u := x])
  {
  }

  /** Setting a user's password hash and marking that user's reset record
      used keeps every table constraint. */
  lemma PasswordResetKeepsTables(users: map<Uuid, User>, verifications: map<string, VerificationToken>,
                                 resets: map<Uuid, ResetToken>, uid: Uuid, hash: string)
    requires UserTable(users) && TokensStamped(users) && UniqueResetTokens(resets)
    requires forall t :: t in verifications ==> verifications[t].userId in users
    requires forall u :: u in resets ==> u in users
    requires uid in resets
    ensures var users' := users[uid := users[uid].(passwordHash := hash)];
            var resets' := resets[uid := resets[uid].(used := true)];
            UserTable(users') && TokensStamped(users') && UniqueResetTokens(resets')
            && (forall t :: t in verifications ==> verifications[t].userId in users')
            && (forall u :: u in resets' ==> u in users')
  {
    ReplaceKeepsTable(users, uid, users[uid].(passwordHash := hash));
  }

  /** `existsByUsername`. */
  predicate UsernameExists(users: map<Uuid, User>, name: string) {
    exists u :: u in users && users[u].username == name
  }

  /** `existsByUsernameIgnoreCase`. */
  predicate UsernameExistsIgnoreCase(users: map<Uuid, User>, name: string) {
    exists u :: u in users && EqualsIgnoreCase(users[u].username, name)
  }

  /** `existsByEmail`. */
  predicate EmailExists(users: map<Uuid, User>, email: string) {
    exists u :: u in users && users[u].email == email
  }

  /** Every name equals itself ignoring case, so a name taken exactly is
      taken ignoring case. */
  lemma TakenIgnoringCase(users: map<Uuid, User>, name: string)
    requires UsernameExists(users, name)
    ensures UsernameExistsIgnoreCase(users, name)
  {
    var u :| u in users && users[u].username == name;
    assert EqualsIgnoreCase(users[u].username, name);
  }

  /** `findByUsername`: the user with exactly this name, if any. */
  ghost function UserNamed(users: map<Uuid, User>, name: string): (r: Option<Uuid>)
    requires UniqueUsernames(users)
    ensures r.Some? <==> UsernameExists(users, name)
    ensures r.Some? ==> r.value in users && users[r.value].username == name
  {
    if UsernameExists(users, name) then
      var u :| u in users && users[u].username == name; Some(u)
    else None
  }

  /** `findByEmail`: the user with this e-mail address, if any. */
  ghost function UserWithEmail(users: map<Uuid, User>, email: string): (r: Option<Uuid>)
    requires UniqueEmails(users)
    ensures r.Some? <==> EmailExists(users, email)
    ensures r.Some? ==> r.value in users && users[r.value].email == email
  {
    if EmailExists(users, email) then
      var u :| u in users && users[u].email == email; Some(u)
    else None
  }

  /** `findByEmailVerificationToken`: the user holding this change token. */
  ghost function EmailTokenHolder(users: map<Uuid, User>, token: string): (r: Option<Uuid>)
    requires UniqueEmailTokens(users)
    ensures r.Some? <==> exists u :: u in users && users[u].emailToken == Some(token)
    ensures r.Some? ==> r.value in users && users[r.value].emailToken == Some(token)
  {
    if exists u :: u in users && users[u].emailToken == Some(token) then
      var u :| u in users && users[u].emailToken == Some(token); Some(u)
    else None
  }

  /** `findByToken` on the reset table: the user whose record holds this token. */
  ghost function ResetHolder(resets: map<Uuid, ResetToken>, token: string): (r: Option<Uuid>)
    requires UniqueResetTokens(resets)
    ensures r.Some? <==> exists u :: u in resets && resets[u].token == token
    ensures r.Some? ==> r.value in resets && resets[r.value].token == token
  {
    if exists u :: u in resets && resets[u].token == token then
      var u :| u in resets && resets[u].token == token; Some(u)
    else None
  }

  /** `findByRoleNameIgnoreCase`: the first stored role whose name equals
      `name` ignoring case. */
  function FindRole(roles: seq<string>, name: string): (r: Option<string>)
    ensures r.Some? ==> r.value in roles && EqualsIgnoreCase(r.value, name)
    ensures r.None? ==> forall i :: 0 <= i < |roles| ==> !EqualsIgnoreCase(roles[i], name)
  {
    if roles == [] then None
    else if EqualsIgnoreCase(roles[0], name) then Some(roles[0])
    else FindRole(roles[1..], name)
  }

  /** The users, roles, sessions and token tables. */
  class Directory {
    var users: map<Uuid, User>
    var roles: seq<string>
    var sessions: map<string, Session>
    var verifications: map<string, VerificationToken>
    var resets: map<Uuid, ResetToken>
    var employees: map<Uuid, Employee>

    ghost predicate Valid()
      reads this
    {
      UserTable(users) && TokensStamped(users) && UniqueResetTokens(resets)
      && (forall t :: t in verifications ==> verifications[t].userId in users)
      && (forall u :: u in resets ==> u in users)
    }

    constructor(roles: seq<string>)
      ensures Valid()
      ensures this.roles == roles
      ensures users == map[] && sessions == map[] && verifications == map[] && resets == map[] && employees == map[]
    {
      this.roles := roles;
      users := map[];
      sessions := map[];
      verifications := map[];
      resets := map[];
      employees := map[];
    }

    /** The writes of a successful password reset: the user's new hash and
        the reset record marked used. */
    method ApplyReset(uid: Uuid, hash: string)
      requires Valid() && uid in resets
      modifies this
      ensures Valid()
      ensures roles == old(roles) && sessions == old(sessions)
      ensures verifications == old(verifications) && employees == old(employees)
      ensures uid in old(users)
      ensures users == old(users)[uid := old(users)[uid].(passwordHash := hash)]
      ensures resets == old(resets)[uid := old(resets)[uid].(used := true)]
    {
      PasswordResetKeepsTables(users, verifications, resets, uid, hash);
      users := users[uid := users[uid].(passwordHash := hash)];
      resets := resets[uid := resets[uid].(used := true)];
    }
  }
}

=== FILE: wallet.dfy ===
/** The wallet: saved payment cards, each with a flag for the user's default
    card; the sessions that add a card through the payment gateway; and
    payment intents (QR payments, mobile reloads and bill payments), which
    can be replayed by idempotency key. */
module WalletService {
  import opened Wrappers
  import opened Text
  import opened Idempotency

  type Instant = int

  /** A UUID in its canonical text form. */
  type Uuid = string

  datatype PaymentType = QR | RELOAD | BILL

  datatype PaymentStatus = PROCESSING | SUCCESS | CANCELED | FAILED

  /** A saved card, filed under its id. Month and year are nullable. */
  datatype WalletCard = WalletCard(
    userId: Uuid,
    brand: string,
    last4: string,
    expiryMonth: Option<int>,
    expiryYear: Option<int>,
    customerToken: string,
    isDefault: bool)

  /** A pending add-card session, filed under its id. */
  datatype CardAddSession = CardAddSession(userId: Uuid, createdAt: Instant, consumed: bool)

  /** A payment intent, filed under its id. */
  datatype PaymentIntent = PaymentIntent(
    id: string,
    userId: Uuid,
    kind: PaymentType,
    status: PaymentStatus,
    amountValue: real,
    amountCurrency: string,
    description: Option<string>,
    returnUrl: string)

  /** The amount of a payment request. */
  datatype Amount = Amount(value: real, currency: string)

  datatype WalletError = InvalidCardId

  const PREAPPROVE_PATH: string := "/api/v1/wallet/payhere/preapprove/"
  const CHECKOUT_PATH: string := "/api/v1/wallet/payhere/checkout/"

  /** Each user has at most one default card. */
  predicate AtMostOneDefault(cards: map<Uuid, WalletCard>) {
    forall a, b ::
      a in cards && b in cards && cards[a].isDefault && cards[b].isDefault && cards[a].userId == cards[b].userId
      ==> a == b
  }

  /** `existsByUserIdAndIsDefaultTrue`. */
  predicate HasDefault(cards: map<Uuid, WalletCard>, userId: Uuid) {
    exists c :: c in cards && cards[c].userId == userId && cards[c].isDefault
  }

  /** The cards after `makeDefault(userId, id)`: each of the user's cards is
      the default exactly when its id is `id`. Other users' cards are not
      changed, and no card is added or removed. */
  function WithDefault(cards: map<Uuid, WalletCard>, userId: Uuid, id: Uuid): (r: map<Uuid, WalletCard>)
    ensures r.Keys == cards.Keys
    ensures forall c :: c in cards && cards[c].userId == userId ==>
      r[c] == cards[c].(isDefault := c == id)
    ensures forall c :: c in cards && cards[c].userId != userId ==> r[c] == cards[c]
  {
    map c | c in cards :: if cards[c].userId == userId then cards[c].(isDefault := c == id) else cards[c]
  }

  /** Partway through `makeDefault`: the user's cards outside `todo` have
      had their flag set, and every other card is as it was. */
  ghost predicate PartlyDefaulted(cards: map<Uuid, WalletCard>, now: map<Uuid, WalletCard>, todo: set<Uuid>,
                                  userId: Uuid, id: Uuid)
  {
    now.Keys == cards.Keys
    && (forall c :: c in todo ==> c in cards && cards[c].userId == userId)
    && forall c :: c in now ==>
      now[c] == if cards[c].userId == userId && c !in todo then cards[c].(isDefault := c == id) else cards[c]
  }

  /** Setting the flag of one pending card moves it out of `todo`. */
  lemma DefaultStep(cards: map<Uuid, WalletCard>, now: map<Uuid, WalletCard>, todo: set<Uuid>, c: Uuid,
                    userId: Uuid, id: Uuid)
    requires PartlyDefaulted(cards, now, todo, userId, id) && c in todo
    ensures PartlyDefaulted(cards, now[c := now[c].(isDefault := c == id)], todo - {c}, userId, id)
  {
  }

  /** A table that agrees with `WithDefault` on every card is that table. */
  lemma WithDefaultAgrees(cards: map<Uuid, WalletCard>, after: map<Uuid, WalletCard>, userId: Uuid, id: Uuid)
    requires after.Keys == cards.Keys
    requires forall c :: c in after ==>
      after[c] == if cards[c].userId == userId then cards[c].(isDefault := c == id) else cards[c]
    ensures after == WithDefault(cards, userId, id)
  {
  }

  /** After `makeDefault`, the target is the user's only default card. If
      the target is not one of the user's cards, none of them is the
      default. The invariant holds afterwards. */
  lemma DefaultIsExclusive(cards: map<Uuid, WalletCard>, userId: Uuid, id: Uuid)
    requires AtMostOneDefault(cards)
    ensures var r := WithDefault(cards, userId, id);
      AtMostOneDefault(r)
      && (HasDefault(r, userId) <==> id in cards && cards[id].userId == userId)
      && (forall c :: c in r && r[c].userId == userId ==> (r[c].isDefault <==> c == id))
  {
    var r := WithDefault(cards, userId, id);
    forall a, b | a in r && b in r && r[a].isDefault && r[b].isDefault && r[a].userId == r[b].userId
      ensures a == b
    {
      if r[a].userId != userId {
        assert r[a] == cards[a] && r[b] == cards[b];
      }
    }
    if id in cards && cards[id].userId == userId {
      assert r[id].isDefault;
    }
  }

  /** The wallet's tables. `serverBaseUrl` is the configured public address
      of the server. */
  class Wallet {
    const serverBaseUrl: string
    var cards: map<Uuid, WalletCard>
    var sessions: map<string, CardAddSession>
    var intents: map<string, PaymentIntent>

    ghost predicate Valid()
      reads this
    {
      AtMostOneDefault(cards) && (forall k :: k in intents ==> intents[k].id == k)
    }

    constructor(serverBaseUrl: string)
      ensures Valid()
      ensures this.serverBaseUrl == serverBaseUrl
      ensures cards == map[] && sessions == map[] && intents == map[]
    {
      this.serverBaseUrl := serverBaseUrl;
      cards := map[];
      sessions := map[];
      intents := map[];
    }

    /** `startAddCardSession`. `sessionId` is the fresh random id. The new
        session belongs to the caller and is not consumed. The returned
        address opens the gateway's pre-approval page for that session. */
    method StartAddCardSession(userId: Uuid, sessionId: string, now: Instant) returns (sid: string, url: string)
      modifies this
      ensures sid == sessionId && url == serverBaseUrl + PREAPPROVE_PATH + sessionId
      ensures sessions == old(sessions)[sessionId := CardAddSession(userId, now, false)]
      ensures cards == old(cards) && intents == old(intents)
    {
      sessions := sessions[sessionId := CardAddSession(userId, now, false)];
      sid := sessionId;
      url := serverBaseUrl + PREAPPROVE_PATH + sessionId;
    }

    /** `makeDefault`. A card id that is not a UUID is an error and changes
        nothing. Otherwise the loop visits each of the user's cards and sets
        its flag to whether it is the target. */
    method MakeDefault(userId: Uuid, cardId: string) returns (r: Result<(), WalletError>)
      requires Valid()
      modifies this
      ensures Valid()
      ensures sessions == old(sessions) && intents == old(intents)
      ensures match ParseUuid(cardId)
        case None => r == Err(InvalidCardId) && cards == old(cards)
        case Some(id) => r == Ok(()) && cards == WithDefault(old(cards), userId, id)
    {
      var parsed := ParseUuid(cardId);
      if parsed.None? {
        return Err(InvalidCardId);
      }
      var id := parsed.value;
      var todo := set c | c in cards && cards[c].userId == userId;
      while todo != {}
        invariant sessions == old(sessions) && intents == old(intents)
        invariant PartlyDefaulted(old(cards), cards, todo, userId, id)
        decreases todo
      {
        var c :| c in todo;
        DefaultStep(old(cards), cards, todo, c, userId, id);
        cards := cards[c := cards[c].(isDefault := c == id)];
        todo := todo - {c};
      }
      WithDefaultAgrees(old(cards), cards, userId, id);
      DefaultIsExclusive(old(cards), userId, id);
      r := Ok(());
    }

    /** `deleteCard`. A card id that is not a UUID is an error. The card is
        removed only if it belongs to the user. Otherwise nothing happens. */
    method DeleteCard(userId: Uuid, cardId: string) returns (r: Result<(), WalletError>)
      requires Valid()
      modifies this
      ensures Valid()
      ensures sessions == old(sessions) && intents == old(intents)
      ensures match ParseUuid(cardId)
        case None => r == Err(InvalidCardId) && cards == old(cards)
        case Some(id) =>
          r == Ok(())
          && cards == if id in old(cards) && old(cards)[id].userId == userId then old(cards) - {id} else old(cards)
    {
      var parsed := ParseUuid(cardId);
      if parsed.None? {
        return Err(InvalidCardId);
      }
      var id := parsed.value;
      if id in cards && cards[id].userId == userId {
        cards := cards - {id};
      }
      r := Ok(());
    }

    /** `createIntent`. `id` is the fresh random id. The new intent is
        stored and returned. */
    method CreateIntent(userId: Uuid, kind: PaymentType, amount: Amount, description: string, id: string)
      returns (p: PaymentIntent)
      requires Valid()
      modifies this
      ensures Valid()
      ensures p == NewIntent(serverBaseUrl, userId, kind, amount, description, id)
      ensures intents == old(intents)[id := p]
      ensures cards == old(cards) && sessions == old(sessions)
    {
      p := NewIntent(serverBaseUrl, userId, kind, amount, description, id);
      intents := intents[id := p];
    }
  }

  /** The intent `createIntent` builds. It is PROCESSING, belongs to the
      caller, has the requested amount and currency, and its return address
      is the gateway checkout page for its id. */
  function NewIntent(serverBaseUrl: string, userId: Uuid, kind: PaymentType, amount: Amount, description: string, id: string)
    : (p: PaymentIntent)
    ensures p.id == id && p.userId == userId && p.kind == kind && p.status == PROCESSING
    ensures p.amountValue == amount.value && p.amountCurrency == amount.currency
    ensures p.description == Some(description)
    ensures p.returnUrl == serverBaseUrl + CHECKOUT_PATH + id
  {
    PaymentIntent(id, userId, kind, PROCESSING, amount.value, amount.currency, Some(description),
                  serverBaseUrl + CHECKOUT_PATH + id)
  }

  /** The description each payment endpoint gives its intent. */
  function PaymentDescription(kind: PaymentType): (d: string)
    ensures d != []
    ensures kind == QR <==> d == "QR Payment"
    ensures kind == RELOAD <==> d == "Mobile Reload"
    ensures kind == BILL <==> d == "Bill Payment"
  {
    match kind
    case QR => "QR Payment"
    case RELOAD => "Mobile Reload"
    case BILL => "Bill Payment"
  }

  /** `createQrPayment`, `createReloadPayment` and `createBillPayment`, each
      run through the replay cache. `requestHash` is the digest of the
      request body and `id` the fresh intent id. At most one intent is
      created:
      - With no usable key, an intent is created and nothing is stored.
      - On a replay, nothing changes and the stored intent is returned.
      - On a miss, an intent is created and stored under the key. */
  method CreatePayment(w: Wallet, idem: IdempotencyStore<PaymentIntent>, userId: Uuid, kind: PaymentType,
                       amount: Amount, key: Option<string>, requestHash: string, id: string, now: Instant)
    returns (p: PaymentIntent)
    requires w.Valid()
    modifies w, idem
    ensures w.Valid()
    ensures w.cards == old(w.cards) && w.sessions == old(w.sessions)
    ensures var created := NewIntent(w.serverBaseUrl, userId, kind, amount, PaymentDescription(kind), id);
      match Decide(old(idem.records), key, requestHash)
      case Bypass => p == created && w.intents == old(w.intents)[id := created] && idem.records == old(idem.records)
      case Replay(stored) => p == stored && w.intents == old(w.intents) && idem.records == old(idem.records)
      case Miss(k) =>
        p == created && w.intents == old(w.intents)[id := created]
        && idem.records == AfterComplete(old(idem.records), k, requestHash, created, now)
  {
    var d := Decide(idem.records, key, requestHash);
    match d
    case Bypass =>
      p := w.CreateIntent(userId, kind, amount, PaymentDescription(kind), id);
    case Replay(stored) =>
      p := stored;
    case Miss(k) =>
      p := w.CreateIntent(userId, kind, amount, PaymentDescription(kind), id);
      idem.Complete(k, requestHash, p, now);
  }

  /** The cache does not look at the caller. A second user who sends the
      same key and the same request body gets the first user's intent back,
      and no intent is created for the second user. */
  lemma ReplayIgnoresCaller(records: map<string, IdemRecord<PaymentIntent>>, serverBaseUrl: string,
                            first: Uuid, key: string, requestHash: string, amount: Amount, id: string, now: Instant)
    requires HasText(key)
    ensures var p := NewIntent(serverBaseUrl, first, QR, amount, PaymentDescription(QR), id);
      Decide(AfterComplete(records, key, requestHash, p, now), Some(key), requestHash) == Replay(p)
      && p.userId == first
  {
    CompletedKeyReplays(records, key, requestHash, NewIntent(serverBaseUrl, first, QR, amount, PaymentDescription(QR), id), now);
  }
}

=== FILE: wrappers.dfy ===
/** Failure-compatible wrappers shared by every module: a value that may be
    absent (Java's null, Python's None, TypeScript's undefined) and the result
    of an operation that may throw. */
module Wrappers {

  datatype Option<+T> = None | Some(value: T) {
    function GetOr(default: T): T {
      match this
      case Some(v) => v
      case None => default
    }
  }

  /** `Err` carries the exception (or HTTP status) the source raises. */
  datatype Result<+T, +E> = Ok(value: T) | Err(error: E) {
    predicate IsFailure() { Err? }
  }
}
